=== FILE: README.md ===
# whiskyDatabase scrapers, modelled in Dafny

whiskyDatabase collects whisky offers from online shops. One scraper class per
retailer walks the shop's listing pages, turns every product item into a
product dict (name, price, link and whatever else the page shows), optionally
fetches each product's detail page and merges what it finds there. It then appends
the products as rows to a gzip-compressed CSV file under `data/raw/<year>/<month>/<day>/`.
JSON-API retailers (a generic "network" endpoint and Shopify stores) are
paged through their request payload instead. A separate analysis step normalises
the scraped text, volume and price fields.

The model is split into one module per concern of that code:

- `Text`, `Records`: Python string operations (strip, split, replace, lower, find),
  the decimal literals `float()` accepts, Python values, product dicts and the
  parsed HTML tree that CSS selectors are evaluated against.
- `Pagination` (with `Retry`, `Enrichment`, `Persistence`, `Extraction`,
  `DetailTable`): the generic machinery of the HTML scrapers. It covers the page loop with its stop
  conditions and development-mode page cap, the retry schedule with
  exponential backoff, the detail step, the CSV data file (a class whose rows
  grow in place), the configuration-driven field loops, and the detail-table loop.
- `Network`, `Shopify`, `Requests`: the JSON-API scrapers. Each is a class whose
  request payload is updated in place, page after page.
- `Gall`, `WhiskyExchange`, `WhiskyExchangeScrape`, `Heinemann`, `ClubWhisky`,
  `DrankDozijn`, `WhiskyNl`, `Sites`: the site-specific parsers (prices,
  product ids, detail tables, stock flags) and the regular-expression searches they use.
- `Analysis`: `clean_text`, `parse_volume` and `parse_price` of the analysis step.

Step-by-step code is modelled imperatively: loops over pages, rows, attempts and
products, and objects updated in place. Each method is proved against a
specification function, and the properties of those functions are proved as lemmas.
Value-only code (price normalisers, id extraction, the dict built for a product) is
modelled as functions with lemmas.

Browsers, HTTP, sleeping, clocks, UUIDs, `apply_parser`, JMESPath, configured regular
expressions and currency conversion are parameters of the model. For example, a
listing page is what a parameter sequence says page `n` turns out to be, and the
retry loop reads the outcome of each attempt from a sequence.

## Model

| member | source | states |
|---|---|---|
| Text.StripIsStripped | whiskydatabase/scrapers/whisky_exchange_scraper.py:100-104 | `strip()` gives exactly the piece of the text that has only whitespace before and after it and neither starts nor ends with whitespace; no other piece is such a result |
| Text.RemoveAll | whiskydatabase/scrapers/drankdozijn_scraper.py:47 | `replace(c, '')` removes exactly the occurrences of `c` and keeps every other character in order |
| Text.StripLacks | whiskydatabase/scrapers/whisky_exchange_scraper.py:104 | `strip()` only removes characters: a character absent before is absent after |
| Text.RFind | whiskydatabase/scrapers/clubwhisky_nl_scraper.py:142-143 | `rfind(c)` is the last index holding `c`, or -1 when there is none |
| Text.IndexOfSpec | whiskydatabase/scrapers/heinemann_shop_scraper.py:85-103 | `find` reports the first occurrence, and -1 exactly when there is none |
| Text.JoinSplit | whiskydatabase/scrapers/whisky_exchange_scraper.py:99 | joining the parts of `split(sep)` with `sep` gives back the string |
| Text.SplitJoin | whiskydatabase/scrapers/shopify_scraper.py:87-88 | splitting parts joined by a one-character separator they lack gives the parts back |
| Text.WordsAtSpace | whiskydatabase/scrapers/whisky_nl_scraper.py:77 | `split()` cuts at every whitespace character: the words of `a`, a whitespace character and `b` are the words of `a` followed by those of `b` |
| Text.WordsOfRun | whiskydatabase/scrapers/whisky_nl_scraper.py:77 | a non-empty text without whitespace is one word, and a text of whitespace alone has none |
| Text.WordsOfJoin | whiskydatabase/scrapers/whisky_nl_scraper.py:82-83 | splitting words joined by single spaces gives the words back |
| Text.CollapseSpacesIdempotent | whiskydatabase/scrapers/gall_scraper.py:50 | `' '.join(s.split())` applied twice is applied once |
| Text.DecimalHasOneDot | whiskydatabase/scrapers/whisky_nl_scraper.py:97 | a literal `float()` accepts holds at most one dot |
| Text.NatToStringRoundTrip | whiskydatabase/scrapers/clubwhisky_nl_scraper.py:107 | reading back `str(n)` gives `n` |
| Text.Pad2 | whiskydatabase/scrapers/base_scraper.py:134 | `f"{n:02d}"` has at least two digits and reads back as `n` |
| Records.Get | whiskydatabase/scrapers/base_scraper.py:129 | `d.get(k)` is the stored value for a present key and None for an absent one |
| Records.SelectOne | whiskydatabase/scrapers/base_scraper.py:110-112 | `select_one` finds nothing exactly when `select` finds nothing, and otherwise returns the first match |
| Records.Attr | whiskydatabase/scrapers/drankdozijn_scraper.py:25 | `element[name]` succeeds exactly when the attribute exists (otherwise a KeyError) |
| Records.AttrOr | whiskydatabase/scrapers/beverage_scraper.py:154 | `element.get(name, '')` is the attribute when present and the empty string otherwise |
| Sites.PythonFloat | whiskydatabase/scrapers/whisky_nl_scraper.py:96-97 | `float(s)` succeeds only on a decimal literal with at most one dot, surrounding whitespace ignored |
| Sites.FloatOrZero | whiskydatabase/scrapers/whisky_nl_scraper.py:95-100 | the price is always a float: the value `float(s)` reads, or 0.0 exactly when `float(s)` raises ValueError |
| Sites.FloatOfLiteral | whiskydatabase/scrapers/whisky_nl_scraper.py:95-97 | a decimal literal without surrounding whitespace is read as itself |
| Sites.TwoDotsNoFloat | whiskydatabase/scrapers/clubwhisky_nl_scraper.py:163-171 | a cleaned price of the form `a.b.c` is not a float literal, so it falls back to 0.0 |
| Sites.HtmlPageId | whiskydatabase/scrapers/clubwhisky_nl_scraper.py:57-61 | `/([^/]+)\.html$` yields a non-empty name without `/`, and nothing for a link that does not end in `.html` (or `.html` and a newline) |
| Sites.HtmlPageIdOf | whiskydatabase/scrapers/whisky_nl_scraper.py:36-40 | a link `<prefix>/<id>.html` yields exactly `<id>` |
| Sites.FirstRunMaximal | whiskydatabase/scrapers/heinemann_shop_scraper.py:95 | a `[...]+` search finds the leftmost non-empty run of the class and extends it as far as it goes |
| Sites.FirstRunFound | whiskydatabase/scrapers/heinemann_shop_scraper.py:95-96 | a `[...]+` search fails exactly when no character of the text is in the class |
| Sites.FirstMatch | whiskydatabase/scrapers/gall_scraper.py:36 | `re.search` reports the leftmost position at which the pattern matches, and -1 only when it matches nowhere |
| Sites.SearchAt | whiskydatabase/scrapers/gall_scraper.py:39 | a search finds position `k` when the pattern matches there and at no earlier position |
| DetailTable.FillTable | whiskydatabase/scrapers/clubwhisky_nl_scraper.py:81-98 | the row loop updates the details dict in place to exactly the row-by-row table specification |
| DetailTable.TableField | whiskydatabase/scrapers/clubwhisky_nl_scraper.py:81-98 | after the loop a field holds the value of the last row that sets it; a field no row sets keeps its earlier state, present or absent |
| DetailTable.TableKeys | whiskydatabase/scrapers/whisky_nl_scraper.py:53-69 | the loop adds no key other than the fields some row sets |
| DetailTable.FieldFor | whiskydatabase/scrapers/clubwhisky_nl_scraper.py:87-98 | an `if key_text == ...: elif ...` chain selects the field of the matching label and none when no label matches |
| DetailTable.AbvText | whiskydatabase/scrapers/drankdozijn_scraper.py:47 | the stored alcohol percentage is the value text with every `%` removed and then stripped, so it holds no `%` |
| DetailTable.KeyLabel | whiskydatabase/scrapers/clubwhisky_nl_scraper.py:85 | where the site removes colons the label is the cell text with every `:` removed; otherwise it is the cell text |
| DetailTable.LabelSetting | whiskydatabase/scrapers/drankdozijn_scraper.py:38-47 | a row sets a field exactly when both cells exist and the key is a known label; abv stores the value text with `%` removed and stripped, every other field the raw value text |
| DetailTable.WithDescription | whiskydatabase/scrapers/clubwhisky_nl_scraper.py:100-102 | `description` is added, holding the description element's text, exactly when that element exists; every other key and value is kept |
| DetailTable.AddDescription | whiskydatabase/scrapers/heinemann_shop_scraper.py:63-66 | the in-place step (shared by the Heinemann, Club Whisky and whisky.nl scrapers, whisky_nl_scraper.py:71-73 the same) leaves the dict exactly as `WithDescription` describes |
| Extraction.RawValue | whiskydatabase/scrapers/web_scraper.py:93-97 | with an `attribute` configured the raw value is that attribute with its surrounding whitespace stripped, empty when the element lacks it; otherwise it is the element's text |
| Extraction.FillFields | whiskydatabase/scrapers/web_scraper.py:84-106 | the field loop, run one field at a time with an early return, produces the field-loop specification |
| Extraction.FillFieldValue | whiskydatabase/scrapers/web_scraper.py:91-106 | after a completed loop each field holds its parsed value when its selector matched and None when it did not; a required field the loop skips keeps its earlier state; keys no field names are unchanged |
| Extraction.FillUntouched | whiskydatabase/scrapers/beverage_scraper.py:143-164 | a key no remaining field names keeps its value through the loop |
| Extraction.FillAborts | whiskydatabase/scrapers/web_scraper.py:101-104 | a missing required field makes the loop return early, whatever the other fields are |
| Extraction.FillNeverAborts | whiskydatabase/scrapers/beverage_scraper.py:151-164 | a loop without required fields never returns early |
| Extraction.WebParseProduct | whiskydatabase/scrapers/web_scraper.py:82-108 | an accepted product has a truthy name and a truthy price |
| Extraction.WebRequiredMissing | whiskydatabase/scrapers/web_scraper.py:101-104 | a required field whose selector finds nothing means no product |
| Extraction.WebProductFields | whiskydatabase/scrapers/web_scraper.py:91-108 | an accepted product holds, for every field, its parsed value when the selector matched and None otherwise |
| Extraction.DetailsFields | whiskydatabase/scrapers/web_scraper.py:129-149 | in the web detail dict a missing required field is absent, a missing optional one is None, and a found one is its parsed value; the beverage detail dict (beverage_scraper.py:256-275) maps every missing field to None |
| Extraction.ExtractProductId | whiskydatabase/scrapers/beverage_scraper.py:177-195 | no `detail_fields` raises; a parser other than `regex` or `str` returns the URL; `str` on a URL without `/` returns the URL |
| Extraction.ExtractIdSegment | whiskydatabase/scrapers/beverage_scraper.py:191-192 | with parser `str`, the id of `.../<id>/<last>` is `<id>` |
| Extraction.ExtractIdRegex | whiskydatabase/scrapers/beverage_scraper.py:183-190 | with parser `regex`, the id is the first group of a match, and None without one |
| Extraction.BeverageParseProduct | whiskydatabase/scrapers/beverage_scraper.py:139-175 | an accepted product has a truthy name and price and always a `product_id` key |
| Extraction.BeverageProductFields | whiskydatabase/scrapers/beverage_scraper.py:143-164 | an accepted product holds, for every field other than `product_id`, its parsed value when the selector matched and None otherwise, required or not |
| Extraction.Kept | whiskydatabase/scrapers/base_scraper.py:114-126 | `_parse_products` returns no more products than items, and none of them empty |
| Extraction.KeptAppend | whiskydatabase/scrapers/base_scraper.py:119-125 | the products of two runs of items are each run's products, in order |
| Extraction.KeptOne | whiskydatabase/scrapers/base_scraper.py:121-123 | one item contributes its dict exactly when it parsed to a non-empty dict |
| Extraction.KeptSkips | whiskydatabase/scrapers/base_scraper.py:124-125 | an item that raises or yields nothing leaves the other items' products as they are |
| Extraction.KeptKeeps | whiskydatabase/scrapers/base_scraper.py:122-123 | an item that yields a dict contributes it between the products before and after it |
| Extraction.KeptFrom | whiskydatabase/scrapers/base_scraper.py:119-125 | every product returned is the dict of some item |
| Extraction.ParseProducts | whiskydatabase/scrapers/web_scraper.py:68-80 | the item loop returns exactly the kept results of `parse_product` on each item, in item order |
| Persistence.DataDirectoryShape | whiskydatabase/scrapers/base_scraper.py:132-134 | the data directory lies under `data/raw/` and has exactly five components |
| Persistence.DataDirectoryDay | whiskydatabase/scrapers/base_scraper.py:134 | the directory's last component is the day, zero-padded to at least two digits |
| Persistence.FileStem | whiskydatabase/scrapers/base_scraper.py:137 | each character of the file stem is the retailer's character lower-cased, with a space turned into `_`; so the stem has the retailer's length, no spaces and no upper-case letters |
| Persistence.DataFilenameShape | whiskydatabase/scrapers/base_scraper.py:136-137 | the file lies in the data directory, starts with the retailer's stem and ends with `.csv.gz` |
| Persistence.Row | whiskydatabase/scrapers/base_scraper.py:150-155 | a written row has one cell per field name |
| Persistence.SaveOne | whiskydatabase/scrapers/base_scraper.py:152-156 | one product writes at most one row, its stamped form; it writes exactly one unless it raises |
| Persistence.RaisedStops | whiskydatabase/scrapers/base_scraper.py:150-156 | after a product raises, the later products change nothing |
| Persistence.DataFile.Init | whiskydatabase/scrapers/base_scraper.py:139-145 | a missing file is created holding only the header; an existing file is left as it is |
| Persistence.DataFile.SaveProducts | whiskydatabase/scrapers/base_scraper.py:147-157 | the batch's rows are appended after the existing ones; header and earlier rows are unchanged |
| Persistence.SaveLength | whiskydatabase/scrapers/base_scraper.py:152-155 | at most one row per product, and exactly one per product unless the call raised |
| Persistence.SaveInOrder | whiskydatabase/scrapers/base_scraper.py:152-155 | the i-th row is the stamped i-th product: products are written once each, in input order |
| Persistence.SaveRaises | whiskydatabase/scrapers/base_scraper.py:152-156 | the call raises exactly when some product has a key outside the field names or, in the base class, has no name |
| Persistence.StampedColumns | whiskydatabase/scrapers/beverage_scraper.py:227-233 | every row holds the scraper's retailer and country; the beverage class also overwrites `currency` and `scraped_at` (its clock), while the base class writes the product's own; name, price and link are the product's |
| Enrichment.FetchProductDetails | whiskydatabase/scrapers/base_scraper.py:201-204 | running the detail step one product at a time gives the gathered result |
| Enrichment.EnrichInOrder | whiskydatabase/scrapers/base_scraper.py:201-204 | the detail step keeps the batch's length and order, and fails exactly when one product's step raises |
| Enrichment.EnrichOneMerge | whiskydatabase/scrapers/base_scraper.py:206-213 | `fetch_details` false leaves the product alone; a non-empty detail dict overrides and adds keys; the base class always sets `scraped_at` |
| Enrichment.NoFetchUnchanged | whiskydatabase/scrapers/web_scraper.py:115-121 | with `fetch_details` false and no time stamp the batch comes back unchanged |
| Enrichment.MissingLinkRaises | whiskydatabase/scrapers/base_scraper.py:209 | a product without `link` makes the detail step raise when details are fetched |
| Retry.MakeRequest | whiskydatabase/scrapers/base_scraper.py:159-192 | the attempt loop produces exactly the retry schedule: result, attempts made and waits |
| Retry.AttemptsBounded | whiskydatabase/scrapers/base_scraper.py:160-187 | no more than `retries` attempts, and one wait after every attempt but the last |
| Retry.FirstSuccess | whiskydatabase/scrapers/base_scraper.py:160-187 | the result is the content of the first successful attempt and the attempts stop there; with no success it is None after `retries` attempts |
| Retry.WaitsDouble | whiskydatabase/scrapers/base_scraper.py:188-191 | the wait after failed attempt `k` is `delay * 2**k` |
| Retry.TotalBackoff | whiskydatabase/scrapers/base_scraper.py:188-191 | the waits add up to `delay * (2**(a + n) - 2**a)` for `n` waits from attempt `a` |
| Retry.FailedAttempt | whiskydatabase/scrapers/base_scraper.py:182-189 | a failed attempt before the last is one attempt and one backoff wait ahead of the rest of the call |
| Retry.FirstAttemptFetched | whiskydatabase/scrapers/base_scraper.py:160-176 | a first attempt that fetches the page ends the call with its content, after one attempt and no wait |
| Retry.UnsetTimeoutOutcomes | whiskydatabase/scrapers/web_scraper.py:162-181 | as written, every attempt of the web scraper fails: reading `max_timeout` raises inside the `try` |
| Retry.UnsetTimeoutNoContent | whiskydatabase/scrapers/web_scraper.py:162-190 | when every attempt fails that way the call gives no content, after all `retries` attempts |
| Pagination.HasNextPage | whiskydatabase/scrapers/base_scraper.py:128-130 | without a selector the base class continues while the beverage and web classes stop; with one there is a next page exactly when it matches (Heinemann has its own rule); the Whisky Exchange loop never asks |
| Pagination.AfterSave | whiskydatabase/scrapers/base_scraper.py:76-85 | after a saved page the loop goes on exactly when there is a next page and the development cap allows the next page number |
| Pagination.BatchCounts | whiskydatabase/scrapers/base_scraper.py:70-72 | a saved page adds to the total at most the rows written, and exactly that many unless saving raised |
| Pagination.CrawlFromPage | whiskydatabase/scrapers/base_scraper.py:45-68 | a page with no content, no list or no products ends the loop on that page with nothing written |
| Pagination.ScrapePage | whiskydatabase/scrapers/base_scraper.py:45-87 | one loop pass appends its page's rows to the file, leaving its header and presence unchanged, and either ends the run or continues from the next page, as the run specification says |
| Pagination.Scrape | whiskydatabase/scrapers/base_scraper.py:39-94 | `scrape()` requests pages 1, 2, ... in turn, appending each page's rows and leaving the file's header and presence unchanged, and ends as the run specification says |
| Pagination.CrawlShape | whiskydatabase/scrapers/base_scraper.py:45-91 | every page before the last requested was a listing with products; rows are only appended; the total counts the rows of every page saved in full |
| Pagination.PageCapRespected | whiskydatabase/scrapers/base_scraper.py:80-85 | in development mode with page limit `L`, the base and beverage loops request no page beyond `L` |
| Pagination.NoSelectorOnePage | whiskydatabase/scrapers/beverage_scraper.py:197-202 | without `next_page_selector` the beverage and web loops stop after their first page |
| Pagination.NoSelectorBaseContinues | whiskydatabase/scrapers/base_scraper.py:128-130 | without `next_page_selector` the base loop never stops for want of a next page |
| Pagination.UncappedLoops | whiskydatabase/scrapers/whisky_exchange_scraper.py:18-50 | the web loop has no page cap; the Whisky Exchange loop has neither a cap nor a next-page check |
| Pagination.PageOfFetch | whiskydatabase/scrapers/web_scraper.py:33-36 | a request that gives no content is a page without content |
| Pagination.WebUnsetTimeoutWritesNothing | whiskydatabase/scrapers/web_scraper.py:30-36 | as written, the web loop gets no content for page 1 and stops there with nothing written or counted |
| Pagination.WebTimeoutSetSavesFirstPage | whiskydatabase/scrapers/web_scraper.py:30-50 | with `max_timeout` set, a first page served on the first attempt with listed products is saved as a batch |
| WhiskyExchangeScrape.ScrapeAsWritten | whiskydatabase/scrapers/whisky_exchange_scraper.py:14-21 | as written, `scrape` raises on page 1 before anything is requested, saved or counted |
| WhiskyExchangeScrape.FirstPageLost | whiskydatabase/scrapers/whisky_exchange_scraper.py:14-53 | a first page of products that fit the field names is saved in full once the base class's request and save are used; as written nothing is saved |
| Gall.PageOffset | whiskydatabase/scrapers/gall_scraper.py:45 | the offset of a page from 1 on is a non-negative multiple of twelve |
| Gall.PageOffsetSteps | whiskydatabase/scrapers/gall_scraper.py:44-46 | page 1 starts at offset 0, each next page twelve items further, and the page is recovered from its offset |
| Text.IntText | whiskydatabase/scrapers/gall_scraper.py:46 | `str(i)` starts with `-` exactly for a negative number, its digits read back as the magnitude, and it is a decimal literal `float()` accepts |
| Text.IntTextInjective | whiskydatabase/scrapers/gall_scraper.py:46 | different integers print differently |
| Gall.PageUrl | whiskydatabase/scrapers/gall_scraper.py:44-46 | the page URL keeps the template's text before and after the placeholder |
| Gall.PageUrlsDistinct | whiskydatabase/scrapers/gall_scraper.py:44-46 | different pages are requested at different URLs |
| Gall.WholePrice | whiskydatabase/scrapers/gall_scraper.py:55-56 | a whole number gets two zero decimals |
| Gall.DanglingPrice | whiskydatabase/scrapers/gall_scraper.py:51-52 | a price cut off after its dot gets 99 cents |
| Gall.TwoDecimalPrice | whiskydatabase/scrapers/gall_scraper.py:53-54 | a price with exactly two decimals is returned unchanged |
| Gall.PriceIdempotent | whiskydatabase/scrapers/gall_scraper.py:49-57 | normalising a normalised price changes nothing |
| Gall.PadCollapsed | whiskydatabase/scrapers/gall_scraper.py:50-57 | the normalised price has its whitespace runs collapsed to single spaces |
| Gall.PadCentsIdempotent | whiskydatabase/scrapers/gall_scraper.py:51-57 | padding the cents twice is padding them once |
| Gall.ParseProductAsWritten | whiskydatabase/scrapers/gall_scraper.py:14-28 | as written, `parse_product` returns None for every item |
| Gall.ParseProduct | whiskydatabase/scrapers/gall_scraper.py:14-28 | with `_parse_price` called, a product exists exactly when the name, price and link elements and the `href` exist; it holds exactly the name element's text as `name`, the normalised price string and the base URL followed by the `href` |
| Gall.CompleteItemLost | whiskydatabase/scrapers/gall_scraper.py:23 | every complete item is lost as written and kept by the corrected version |
| Gall.ProductPriceNormal | whiskydatabase/scrapers/gall_scraper.py:23 | the price of a corrected product is already normalised |
| Gall.VolumeAt | whiskydatabase/scrapers/gall_scraper.py:36 | a `(\d+)CL` match at a position is a non-empty digit run written there directly before `CL` |
| Gall.AbvAt | whiskydatabase/scrapers/gall_scraper.py:39 | a `(\d+(?:\.\d+)?)%` match at a position is a decimal literal written there directly before `%` |
| Gall.VolumeAtEarlier | whiskydatabase/scrapers/gall_scraper.py:36 | a volume match inside a digit run also matches one position earlier, so the leftmost match starts the run |
| Gall.AbvAtEarlier | whiskydatabase/scrapers/gall_scraper.py:39 | an abv match inside a digit run also matches one position earlier |
| Gall.VolumeShape | whiskydatabase/scrapers/gall_scraper.py:36-38 | the volume is a whole digit run directly before `CL`, and nothing is found exactly when no position matches |
| Gall.AbvShape | whiskydatabase/scrapers/gall_scraper.py:39-41 | the abv is a decimal literal directly before `%` that does not continue an earlier digit run, and nothing is found exactly when no position matches |
| Gall.VolumeOf | whiskydatabase/scrapers/gall_scraper.py:36-38 | after digit-free text, `<digits>CL` is read as the volume `<digits>` |
| Gall.AbvOf | whiskydatabase/scrapers/gall_scraper.py:39-41 | after digit-free text, `<a>.<b>%` is read as the abv `a.b` |
| Gall.Details | whiskydatabase/scrapers/gall_scraper.py:30-42 | the details hold only `volume` and `abv`, each exactly when its expression matches the info text; nothing without the info element |
| Gall.DetailsNumeric | whiskydatabase/scrapers/gall_scraper.py:36-41 | the abv is a literal `float` accepts and the volume a whole number |
| WhiskyExchange.ParseMeta | whiskydatabase/scrapers/whisky_exchange_scraper.py:97-107 | an empty line gives neither part; otherwise the volume exists exactly when the first `/`-part is not blank, and is that part stripped, with every `cl` removed and stripped again; the strength exists exactly when a second part exists and is not blank, and is it with `%` removed and stripped |
| WhiskyExchange.MetaMissing | whiskydatabase/scrapers/whisky_exchange_scraper.py:98-107 | an empty meta line gives neither volume nor strength; a line without `/` gives no strength |
| WhiskyExchange.MetaOf | whiskydatabase/scrapers/whisky_exchange_scraper.py:97-106 | the usual meta line `<v>cl / <a>%` gives back `v` and `a` |
| WhiskyExchange.DigitsThenCl | whiskydatabase/scrapers/whisky_exchange_scraper.py:103 | removing `cl` from `<digits>cl` leaves the digits |
| WhiskyExchange.ParsePrice | whiskydatabase/scrapers/whisky_exchange_scraper.py:94-95 | a price is read exactly when the text with every `Â£` and every comma removed is, once stripped, a decimal literal, and then it is that literal |
| WhiskyExchange.PoundPrice | whiskydatabase/scrapers/whisky_exchange_scraper.py:94-95 | `Â£a,b.c` reads as `ab.c`: symbol and thousands comma dropped |
| WhiskyExchange.BarePoundRaises | whiskydatabase/scrapers/whisky_exchange_scraper.py:94-95 | a price with a bare `£` makes `float` raise |
| WhiskyExchange.OptionalText | whiskydatabase/scrapers/whisky_exchange_scraper.py:82-83 | a missing part is stored as None and text as a string |
| WhiskyExchange.ItemRecord | whiskydatabase/scrapers/whisky_exchange_scraper.py:78-85 | the product dict has exactly the six keys `name`, `price`, `link`, `volume`, `abv` and `scraped_at`, holding the given name, price, link, volume, strength and clock text |
| WhiskyExchange.ParseItem | whiskydatabase/scrapers/whisky_exchange_scraper.py:61-87 | a parsed item has a name |
| WhiskyExchange.ItemOutcome | whiskydatabase/scrapers/whisky_exchange_scraper.py:61-90 | no product exactly when an element is missing; an exception only when `float` raises or the link has no `href`; otherwise the dict of name, euro price, base URL plus `href`, and the meta line's volume and strength |
| WhiskyExchange.Results | whiskydatabase/scrapers/whisky_exchange_scraper.py:60-90 | one outcome per item, in item order |
| WhiskyExchange.ParseProducts | whiskydatabase/scrapers/whisky_exchange_scraper.py:55-92 | the loop returns exactly the products of the items that yield one, in item order |
| WhiskyExchange.ProductShape | whiskydatabase/scrapers/whisky_exchange_scraper.py:68-87 | every product is the dict of some item and holds the six fields |
| WhiskyExchange.ResultsSplit | whiskydatabase/scrapers/whisky_exchange_scraper.py:60-90 | the items' outcomes are independent of one another |
| WhiskyExchange.SkippedItem | whiskydatabase/scrapers/whisky_exchange_scraper.py:88-90 | an item that raises or lacks an element is skipped, and the other items' products are unchanged |
| WhiskyExchange.KeptItem | whiskydatabase/scrapers/whisky_exchange_scraper.py:87 | an item with all its parts yields its dict in its place, whatever the other items do |
| Heinemann.ParsePrice | whiskydatabase/scrapers/heinemann_shop_scraper.py:128-144 | the price is always a float: the cleaned string as `float()` reads it, or 0.0 exactly when `float()` refuses it |
| Heinemann.CleanPriceShape | whiskydatabase/scrapers/heinemann_shop_scraper.py:130-137 | the string handed to `float()` holds only digits and dots |
| Heinemann.StripUnchangedClean | whiskydatabase/scrapers/heinemann_shop_scraper.py:130-141 | the cleaned string has no whitespace for `float()` to strip |
| Heinemann.CleanPriceIdempotent | whiskydatabase/scrapers/heinemann_shop_scraper.py:130-137 | cleaning a cleaned price changes nothing |
| Heinemann.PrefixIgnored | whiskydatabase/scrapers/heinemann_shop_scraper.py:130 | currency signs, spaces and other characters in front of a price are ignored |
| Heinemann.DecimalCommaPrice | whiskydatabase/scrapers/heinemann_shop_scraper.py:133-134 | a decimal comma `a,b` without a dot is read as `a.b` |
| Heinemann.DecimalFloat | whiskydatabase/scrapers/heinemann_shop_scraper.py:140-141 | digits, a dot and digits are read by `float()` as written |
| Heinemann.ThousandsCommaPrice | whiskydatabase/scrapers/heinemann_shop_scraper.py:137 | a thousands comma before a decimal dot, `a,b.c`, is dropped: `ab.c` |
| Heinemann.DottedThousandsPrice | whiskydatabase/scrapers/heinemann_shop_scraper.py:133-137 | a dotted thousands separator with a decimal comma, `a.b,c`, keeps the dot and drops the comma, so `1.234,56` is read as `1.23456` |
| Heinemann.ProductIdAt | whiskydatabase/scrapers/heinemann_shop_scraper.py:38 | a `/p/(\d+)/` match at a position is a non-empty digit run written there between `/p/` and `/` |
| Heinemann.ProductIdShape | whiskydatabase/scrapers/heinemann_shop_scraper.py:38-40 | the id is the digit run of the leftmost occurrence of the pattern, and there is none exactly when the pattern occurs nowhere |
| Heinemann.ProductIdOf | whiskydatabase/scrapers/heinemann_shop_scraper.py:38-40 | a link `<host>/p/<digits>/<rest>` yields those digits |
| Heinemann.ParseProduct | whiskydatabase/scrapers/heinemann_shop_scraper.py:15-45 | a returned product's link starts with the base URL |
| Heinemann.ProductDict | whiskydatabase/scrapers/heinemann_shop_scraper.py:25-40 | the dict has the name, price, link, image URL and time stamp; `original_price` exactly when one was found; `product_id` exactly when the link has a `/p/<digits>/` id; no other keys |
| Heinemann.ProductPresent | whiskydatabase/scrapers/heinemann_shop_scraper.py:24-45 | a product is returned exactly when name, price and link elements exist, the link has an `href`, and an image element, if any, has a `src` |
| Heinemann.ProductFields | whiskydatabase/scrapers/heinemann_shop_scraper.py:25-40 | the name is the name element's text, the link the base URL followed by the `href`, the price the parsed price text, the image URL the image's `src` or Null without an image, `original_price` present exactly when its element is and then its parsed text, `product_id` the link's id when it has one |
| Heinemann.FieldContaining | whiskydatabase/scrapers/heinemann_shop_scraper.py:85-107 | the substring chain picks the field of the first label occurring in the key, and none exactly when no label occurs |
| Heinemann.AbvValue | whiskydatabase/scrapers/heinemann_shop_scraper.py:95-102 | an abv is stored exactly when there is a run of digits, commas and dots whose commas turned into dots give a literal `float()` accepts; it is that run with each comma turned into a dot |
| Heinemann.BrandValue | whiskydatabase/scrapers/heinemann_shop_scraper.py:105-107 | a brand is found exactly when the text is non-empty and does not start with a comma, and it is the text before the first comma, stripped |
| Heinemann.BeforeFirstComma | whiskydatabase/scrapers/heinemann_shop_scraper.py:105 | the leading run of non-comma characters is the first part of `split(',')` |
| Heinemann.AbvCommaDecimal | whiskydatabase/scrapers/heinemann_shop_scraper.py:95-99 | an abv cell `a,b %` reads as `a.b` |
| Heinemann.BrandBeforeComma | whiskydatabase/scrapers/heinemann_shop_scraper.py:105-107 | a manufacturer cell `brand, rest` gives the brand before the comma |
| Heinemann.RowSetting | whiskydatabase/scrapers/heinemann_shop_scraper.py:75-107 | a row sets a field only when both cells exist, the field is the first label occurring in the lower-cased key, abv as the float of `AbvValue` of the value text, brand as `BrandValue` of it (so without a comma), every other field the raw value text; conversely a row sets its field whenever both cells exist, a label occurs in the key, and for abv and brand the value parses |
| Heinemann.ParseProductDetails | whiskydatabase/scrapers/heinemann_shop_scraper.py:47-123 | the details built step by step are the preview image, description, table fields and stock flag of the details specification, with the stock flag following the corrected rule `InStock` ("available" but not "unavailable"; see Findings) |
| Heinemann.AddImage | whiskydatabase/scrapers/heinemann_shop_scraper.py:53-60 | `image_url` is set to the stripped `src` exactly when the preview has an image |
| Heinemann.AddStock | whiskydatabase/scrapers/heinemann_shop_scraper.py:113-117 | `in_stock` is set exactly when the stock element exists, to `Yes` or `No` by the corrected rule `InStock` ("available" but not "unavailable"; see Findings), not the written substring test |
| Heinemann.KeyTableFields | whiskydatabase/scrapers/heinemann_shop_scraper.py:85-107 | the six labels name category, product id, region, country, abv and brand |
| Heinemann.TableKeysOnly | whiskydatabase/scrapers/heinemann_shop_scraper.py:74-107 | the table adds no field other than those six |
| Heinemann.DetailKeys | whiskydatabase/scrapers/heinemann_shop_scraper.py:47-123 | the details hold only the image, description, the six table fields and the stock flag |
| Heinemann.TableFieldValue | whiskydatabase/scrapers/heinemann_shop_scraper.py:74-107 | a table field holds the value of the last row that sets it, and is absent when no row does |
| Heinemann.StockField | whiskydatabase/scrapers/heinemann_shop_scraper.py:113-117 | `in_stock` is present exactly when the stock element is, and `Yes` exactly when its lower-cased text says "available" but not "unavailable" |
| Heinemann.UnavailableContainsAvailable | whiskydatabase/scrapers/heinemann_shop_scraper.py:117 | a text containing "unavailable" contains "available" |
| Heinemann.UnavailableInStock | whiskydatabase/scrapers/heinemann_shop_scraper.py:116-117 | as written, a stock line saying "unavailable" counts as in stock; the intended test says it is not |
| Heinemann.InStockAgrees | whiskydatabase/scrapers/heinemann_shop_scraper.py:116-117 | wherever "unavailable" does not occur, the intended test and the written one agree |
| Heinemann.HasNextPage | whiskydatabase/scrapers/heinemann_shop_scraper.py:146-149 | no next-page element means no next page; with the element, its `use` child and that child's `xlink:href`, there is a next page exactly when the reference contains `chevron-right-light`; the call raises (None) exactly without a `next_page_selector` or, with the element present, without a `use` child or without `xlink:href` |
| ClubWhisky.ParsePrice | whiskydatabase/scrapers/clubwhisky_nl_scraper.py:127-171 | the price is always a float: what `float()` reads from the cleaned, normalised string, or 0.0 when `float()` refuses it |
| ClubWhisky.CommaDecimalShape | whiskydatabase/scrapers/clubwhisky_nl_scraper.py:145-148 | when the comma comes last, dots are dropped and each comma becomes a dot; no comma is left and the other characters keep their order |
| ClubWhisky.DotDecimalShape | whiskydatabase/scrapers/clubwhisky_nl_scraper.py:149-152 | when the dot comes last, commas are dropped and the dots stay |
| ClubWhisky.NormalizeShape | whiskydatabase/scrapers/clubwhisky_nl_scraper.py:141-161 | after normalisation no comma is left: one dot per comma when the comma came last, one per dot when the dot came last, the string unchanged without separators; digits and minus signs keep their order |
| ClubWhisky.EuropeanPrice | whiskydatabase/scrapers/clubwhisky_nl_scraper.py:145-148 | a European price `a.b,c` normalises to `ab.c` |
| ClubWhisky.EnglishPrice | whiskydatabase/scrapers/clubwhisky_nl_scraper.py:149-152 | an English price `a,b.c` normalises to `ab.c` |
| ClubWhisky.ThousandsOnlyPrice | whiskydatabase/scrapers/clubwhisky_nl_scraper.py:141-171 | thousands commas without decimals, `a,b,c`, become `a.b.c`, which `float()` refuses, so the price is 0.0 |
| ClubWhisky.ParseProduct | whiskydatabase/scrapers/clubwhisky_nl_scraper.py:12-72 | a returned product has a float price, a float original price and a non-empty link |
| ClubWhisky.ProductDict | whiskydatabase/scrapers/clubwhisky_nl_scraper.py:49-61 | the dict has name, price, original price, link and image URL, and `product_id` exactly when the link ends in `/<id>.html` |
| ClubWhisky.ProductPresent | whiskydatabase/scrapers/clubwhisky_nl_scraper.py:20-72 | a product is returned exactly when name, price container and link exist, the `href` is non-empty and joins to a non-empty URL, and an image element, if any, has a `src` |
| ClubWhisky.ProductFields | whiskydatabase/scrapers/clubwhisky_nl_scraper.py:20-55 | the name is the name element's text; the price is parsed from the current-price element or else from the container's text; the original price from its element or else the price; the link is the base URL joined with the `href`; the image URL is the image's `src`, or None without an image |
| ClubWhisky.ProductIdFromLink | whiskydatabase/scrapers/clubwhisky_nl_scraper.py:57-61 | `product_id` is present exactly when the joined link ends in `/<id>.html`, and a link `<prefix>/<id>.html` yields `<id>` |
| ClubWhisky.ParseProductDetails | whiskydatabase/scrapers/clubwhisky_nl_scraper.py:74-122 | the details built step by step are the spec-table fields followed by the page fields of the details specification |
| ClubWhisky.AddRating | whiskydatabase/scrapers/clubwhisky_nl_scraper.py:104-107 | `rating` is set exactly when the rating element exists |
| ClubWhisky.AddReviews | whiskydatabase/scrapers/clubwhisky_nl_scraper.py:109-114 | `num_reviews` is set exactly when the review text holds a digit run |
| ClubWhisky.AddStock | whiskydatabase/scrapers/clubwhisky_nl_scraper.py:116-120 | `in_stock` is always set |
| ClubWhisky.InStockAlwaysSet | whiskydatabase/scrapers/clubwhisky_nl_scraper.py:116-120 | `in_stock` is always present, and `Yes` exactly when the stock element's text says "vandaag verzonden" in any case |
| ClubWhisky.PageFieldsKeep | whiskydatabase/scrapers/clubwhisky_nl_scraper.py:100-120 | the page fields leave every other key of the spec-table dict unchanged |
| ClubWhisky.SpecField | whiskydatabase/scrapers/clubwhisky_nl_scraper.py:81-98 | a spec field holds the value of the last line whose label sets it (abv without `%`), and is absent when no line does |
| ClubWhisky.SpecKeys | whiskydatabase/scrapers/clubwhisky_nl_scraper.py:87-98 | the spec table sets only brand, country, region, abv, volume and category |
| ClubWhisky.SpecTableFields | whiskydatabase/scrapers/clubwhisky_nl_scraper.py:87-98 | the six labels name exactly those fields |
| ClubWhisky.DetailKeys | whiskydatabase/scrapers/clubwhisky_nl_scraper.py:74-122 | the details hold only the six spec fields and description, rating, reviews and stock |
| ClubWhisky.RatingCountsStars | whiskydatabase/scrapers/clubwhisky_nl_scraper.py:104-107 | `rating` is present exactly with a rating element, and is the decimal numeral of the number of filled stars |
| ClubWhisky.ReviewsAreDigits | whiskydatabase/scrapers/clubwhisky_nl_scraper.py:109-114 | `num_reviews` is present exactly when the review text holds a digit, and it is a non-empty digit run |
| DrankDozijn.PriceShape | whiskydatabase/scrapers/drankdozijn_scraper.py:54-55 | the price holds only digits and dots, one dot per comma of the input, and the input's digits in order |
| DrankDozijn.EuropeanPrice | whiskydatabase/scrapers/drankdozijn_scraper.py:54-55 | a European price `a.b,c` becomes `ab.c` |
| DrankDozijn.DotDropped | whiskydatabase/scrapers/drankdozijn_scraper.py:55 | a dot is never kept: `a.b` becomes `ab`, so "12.50" becomes "1250" |
| DrankDozijn.ParseProduct | whiskydatabase/scrapers/drankdozijn_scraper.py:14-29 | a product holds exactly name, price and link, and the link starts with the base URL |
| DrankDozijn.ProductPresent | whiskydatabase/scrapers/drankdozijn_scraper.py:20-29 | a product is returned exactly when the three elements exist and the link has an `href`; the link ends with that `href` |
| DrankDozijn.ProductFields | whiskydatabase/scrapers/drankdozijn_scraper.py:21-26 | the name is the name element's text, the price the price text through `_parse_price` (a string), and the link the base URL followed by the `href` |
| DrankDozijn.ParseProductDetails | whiskydatabase/scrapers/drankdozijn_scraper.py:31-48 | the row loop from an empty dict builds the details specification |
| DrankDozijn.InfoTableFields | whiskydatabase/scrapers/drankdozijn_scraper.py:44-47 | the two labels name volume and abv |
| DrankDozijn.DetailKeys | whiskydatabase/scrapers/drankdozijn_scraper.py:31-48 | the details hold at most volume and abv, and nothing without a specs table |
| DrankDozijn.DetailField | whiskydatabase/scrapers/drankdozijn_scraper.py:38-47 | volume and abv hold the value of the last row whose label sets them (abv without `%`), and are absent when no row does |
| WhiskyNl.ParsePrice | whiskydatabase/scrapers/whisky_nl_scraper.py:95-100 | the price is always a float: the value `float()` reads, or 0.0 when it refuses the text |
| WhiskyNl.ParseProduct | whiskydatabase/scrapers/whisky_nl_scraper.py:14-45 | a returned product has a float price and a string link |
| WhiskyNl.ProductDict | whiskydatabase/scrapers/whisky_nl_scraper.py:24-40 | the dict has name, price, link, image URL and time stamp; `original_price` exactly when one was found; `product_id` exactly when the link ends in `/<id>.html` |
| WhiskyNl.ProductPresent | whiskydatabase/scrapers/whisky_nl_scraper.py:23-45 | a product is returned exactly when name, price and link exist, the price has `data-price-amount`, the link `href`, and an image or original-price element, if any, its attribute |
| WhiskyNl.ProductFields | whiskydatabase/scrapers/whisky_nl_scraper.py:24-35 | the name is the name element's text; the link is the `href` as written, not joined to the base URL; the price is `_parse_price` of `data-price-amount`, so a decimal amount is the price; the image URL is the image's `src`, or Null without an image; `original_price` is present exactly when its element is, and is `_parse_price` of its `data-price-amount` |
| WhiskyNl.ProductIdFromLink | whiskydatabase/scrapers/whisky_nl_scraper.py:36-40 | `product_id` is present exactly for a link ending in `/<id>.html`, and `<prefix>/<id>.html` yields `<id>` |
| WhiskyNl.ParseProductDetails | whiskydatabase/scrapers/whisky_nl_scraper.py:47-90 | the details built step by step are the table fields followed by the page fields of the details specification, or the IndexError it raises |
| WhiskyNl.AddRating | whiskydatabase/scrapers/whisky_nl_scraper.py:75-77 | `rating` is set to the second word of the title, or the step raises |
| WhiskyNl.AddReviews | whiskydatabase/scrapers/whisky_nl_scraper.py:79-83 | `num_reviews` is set to the first word of the review text, or the step raises |
| WhiskyNl.AddStock | whiskydatabase/scrapers/whisky_nl_scraper.py:85-88 | `in_stock` is set exactly when the stock element exists |
| WhiskyNl.DetailsRaise | whiskydatabase/scrapers/whisky_nl_scraper.py:75-83 | the details raise IndexError exactly when a rating title has fewer than two words or a review text has none |
| WhiskyNl.LaterFieldsKeep | whiskydatabase/scrapers/whisky_nl_scraper.py:79-88 | the review and stock steps leave every other key unchanged |
| WhiskyNl.PageFieldsKeep | whiskydatabase/scrapers/whisky_nl_scraper.py:71-88 | the page fields leave every other key of the table dict unchanged |
| WhiskyNl.SpecField | whiskydatabase/scrapers/whisky_nl_scraper.py:53-69 | a table field holds the value of the last row whose label sets it (abv without `%`), and is absent when no row does |
| WhiskyNl.InfoTableFields | whiskydatabase/scrapers/whisky_nl_scraper.py:60-69 | the five labels name volume, abv, category, brand and country |
| WhiskyNl.SpecKeys | whiskydatabase/scrapers/whisky_nl_scraper.py:53-69 | the table sets only those five fields |
| WhiskyNl.InStock | whiskydatabase/scrapers/whisky_nl_scraper.py:85-88 | `in_stock` is present exactly with a stock element, and `Yes` exactly when `available` is one of its classes |
| WhiskyNl.RatingIsSecondWord | whiskydatabase/scrapers/whisky_nl_scraper.py:77 | a title `<w0> <w1> ...` stores `w1`; a title with fewer than two words raises |
| WhiskyNl.RatingKept | whiskydatabase/scrapers/whisky_nl_scraper.py:75-77 | `rating` is present exactly with a rating element, and is the second word of its title |
| WhiskyNl.ReviewsIsWord | whiskydatabase/scrapers/whisky_nl_scraper.py:79-83 | `num_reviews`, when present, is one non-empty word without whitespace |
| Requests.Lookup | whiskydatabase/scrapers/shopify_scraper.py:93-98 | a payload lookup finds nothing exactly when no entry has the key |
| Requests.SetKeyLookup | whiskydatabase/scrapers/network_scraper.py:37 | assigning `payload[k] = v` changes the value under `k` and no other |
| Requests.SetKeyKeys | whiskydatabase/scrapers/network_scraper.py:37 | an assigned key keeps its place in insertion order; a new key goes last |
| Requests.SetKeyDistinct | whiskydatabase/scrapers/network_scraper.py:37 | assignment never duplicates a key |
| Requests.SetKeyTwice | whiskydatabase/scrapers/network_scraper.py:37 | assigning a key twice is assigning it once to the second value |
| Requests.Pairs | whiskydatabase/scrapers/shopify_scraper.py:87-88 | one `k=v` text per payload entry, in order |
| Requests.QueryParts | whiskydatabase/scrapers/shopify_scraper.py:87-89 | the query string is empty exactly when the payload is; otherwise splitting it on `&` gives back one `k=v` per entry, in payload order |
| Requests.ResponseAt | whiskydatabase/scrapers/network_scraper.py:43 | a response exists only for a request within the sequence of responses |
| Network.ParseResponse | whiskydatabase/scrapers/network_scraper.py:84-100 | the nested loop over items and mapped fields returns exactly the response's products specification |
| Network.FieldsRaiseSticks | whiskydatabase/scrapers/network_scraper.py:94-96 | once a field's JMESPath raises, the item's product raises |
| Network.ItemsRaiseSticks | whiskydatabase/scrapers/network_scraper.py:92-97 | once an item's product raises, the whole response raises |
| Network.ItemProductFound | whiskydatabase/scrapers/network_scraper.py:93-96 | an item's product exists exactly when none of the mapped JMESPaths raises on it |
| Network.ItemProductFields | whiskydatabase/scrapers/network_scraper.py:93-96 | the product holds exactly the mapped field names, each set to what its JMESPath finds in the item |
| Network.ItemsInOrder | whiskydatabase/scrapers/network_scraper.py:92-97 | one product per item, in item order, unless some item raises |
| Network.RootNotAList | whiskydatabase/scrapers/network_scraper.py:86-90 | a falsy root result or one that is not a list gives no products rather than an error |
| Network.AnswerOf | whiskydatabase/scrapers/network_scraper.py:43-71 | a response hands over a batch only when it holds products |
| Network.CrawlFromPage | whiskydatabase/scrapers/network_scraper.py:36-71 | a request within the limit either stops the loop on its response or saves its batch and goes on as the run specification says |
| Network.ReadResponse | whiskydatabase/scrapers/network_scraper.py:43-54 | the response handling yields exactly the response's answer |
| Network.PageUrls | whiskydatabase/scrapers/network_scraper.py:37-39 | one URL per page requested |
| Network.PageUrlsCount | whiskydatabase/scrapers/network_scraper.py:37-39 | the `k`-th request carries page `k + 1` and the configured payload otherwise |
| Network.NextRequest | whiskydatabase/scrapers/network_scraper.py:37-39 | setting the next page in the payload continues both the payload and the URL list |
| Network.NetworkScraper.Request | whiskydatabase/scrapers/network_scraper.py:37-39 | the request for the next page sets `payload['page']` in place to that page, and its URL is the next one of the run's URL list |
| Network.NetworkScraper.constructor | whiskydatabase/scrapers/network_scraper.py:12-19 | `request_payload` defaults to an empty dict, `dev_mode` to False and `page_limit` to unbounded; rows are stamped with the retailer and its country |
| Network.NetworkScraper.ScrapePage | whiskydatabase/scrapers/network_scraper.py:43-67 | one loop pass appends its batch's rows, leaving the file's header and presence unchanged, and either ends the run or continues with the next page, as the run specification says |
| Network.NetworkScraper.Scrape | whiskydatabase/scrapers/network_scraper.py:21-82 | `scrape()` requests pages 1, 2, ... within the limit, each URL carrying its page in the payload, leaves the file's header and presence unchanged, and ends as the run specification says |
| Network.CrawlPages | whiskydatabase/scrapers/network_scraper.py:36-64 | no page beyond `page_limit` is requested, and in dev mode the loop stops at `page_limit` once that page is saved |
| Network.CrawlAppends | whiskydatabase/scrapers/network_scraper.py:56 | rows are only appended; the rows held before the run stay in front, unchanged |
| Network.CrawlTotalBound | whiskydatabase/scrapers/network_scraper.py:56-57 | the total never shrinks and grows by no more than the rows written |
| Network.CrawlCounts | whiskydatabase/scrapers/network_scraper.py:56-57 | the total counts the rows of every batch saved in full |
| Network.DefaultsNeverCap | whiskydatabase/scrapers/network_scraper.py:18-19 | with the defaults (no limit, no dev mode) only the responses end the loop |
| Shopify.PayloadUpdateEffect | whiskydatabase/scrapers/shopify_scraper.py:92-99 | page pagination sets its parameter (default `page`) to the page and changes no other key; a cursor without a token and any other type change nothing |
| Shopify.PayloadUpdateTwice | whiskydatabase/scrapers/shopify_scraper.py:92-99 | updating the payload twice for the same page is updating it once, so a repeated request goes to the same URL |
| Shopify.BuildUrl | whiskydatabase/scrapers/shopify_scraper.py:85-90 | a GET request (in any case) with a non-empty query gets `?` and the query; any other gets the URL alone |
| Shopify.BuildUrlPairs | whiskydatabase/scrapers/shopify_scraper.py:86-89 | the part after `?` splits on `&` into one `k=v` per payload entry, in payload order |
| Shopify.HandleDefault | whiskydatabase/scrapers/shopify_scraper.py:128-133 | for every mapping, the default is the text between the first `||` and the next `||` (or the end), unquoted, and None when there is no `||` or that text reads `null` in any case |
| Shopify.HandleDefaultOf | whiskydatabase/scrapers/shopify_scraper.py:129-132 | `path || text` gives the unquoted text, or None when it reads `null` |
| Shopify.FieldValue | whiskydatabase/scrapers/shopify_scraper.py:113-121 | a search error gives None, a value found is kept, and a None result falls back to the default only when the path holds `||` |
| Shopify.ParseResponse | whiskydatabase/scrapers/shopify_scraper.py:101-126 | the nested loop over items and mapped fields returns exactly the response's products specification |
| Shopify.ProductsInOrder | whiskydatabase/scrapers/shopify_scraper.py:110-123 | one product per item, in item order; no item is dropped |
| Shopify.ProductKeys | whiskydatabase/scrapers/shopify_scraper.py:111-121 | a product holds exactly the mapped field names |
| Shopify.ProductValues | whiskydatabase/scrapers/shopify_scraper.py:112-121 | every field holds what its own path gives for the item |
| Shopify.RootNotAList | whiskydatabase/scrapers/shopify_scraper.py:103-108 | a falsy root result (default root `products`) or one that is not a list gives no products |
| Shopify.ParseIntRoundTrip | whiskydatabase/scrapers/shopify_scraper.py:63-64 | `int()` reads back what `str()` writes |
| Shopify.RetryAfter | whiskydatabase/scrapers/shopify_scraper.py:63-64 | without a `Retry-After` header the wait is 60 seconds |
| Shopify.AnswerOf | whiskydatabase/scrapers/shopify_scraper.py:36-72 | a batch holds products; a wait answers a 429 response; anything but a halt has a response |
| Shopify.ReadResponse | whiskydatabase/scrapers/shopify_scraper.py:38-48 | the response handling yields exactly the response's answer |
| Shopify.StepOf | whiskydatabase/scrapers/shopify_scraper.py:30-72 | a pass that goes on has sent exactly one more request |
| Shopify.SaveBatch | whiskydatabase/scrapers/shopify_scraper.py:50-61 | after a saved batch the loop goes on with the next page and no new request |
| Shopify.ShopifyScraper.constructor | whiskydatabase/scrapers/shopify_scraper.py:13-18 | `request_payload` and `pagination` default to empty dicts and `request_method` to `GET`; `page_limit`, `dev_mode` and `max_timeout` exist only when something sets them |
| Shopify.ShopifyScraper.UpdatePayload | whiskydatabase/scrapers/shopify_scraper.py:92-99 | the payload is updated in place as the payload-update specification says, with no cursor |
| Shopify.ShopifyScraper.SendRequest | whiskydatabase/scrapers/shopify_scraper.py:31-32 | the payload is updated for the page and the URL is built from the updated payload |
| Shopify.ShopifyScraper.SaveStep | whiskydatabase/scrapers/shopify_scraper.py:50-61 | the batch's rows are appended, the file's header and presence are unchanged, and the run ends or continues with the next page as one step of the run specification says |
| Shopify.ShopifyScraper.HandleResponse | whiskydatabase/scrapers/shopify_scraper.py:36-72 | a 429 sleeps without writing anything; otherwise the pass stops or saves exactly as one step of the run specification says; the file's header and presence are unchanged |
| Shopify.ShopifyScraper.Scrape | whiskydatabase/scrapers/shopify_scraper.py:12-83 | `scrape()` requests pages from 1 on, asking again after a 429, and its URLs, waits, rows and total are those of the run specification; the file's header and presence are unchanged |
| Shopify.StepPages | whiskydatabase/scrapers/shopify_scraper.py:30-60 | a pass goes on only within the limit and moves on by at most one page; it stops on the limit exactly beyond it, and on the dev cap only in dev mode at the last page |
| Shopify.StepRequests | whiskydatabase/scrapers/shopify_scraper.py:30-67 | a pass sends at most one request and sleeps at most once, after a request |
| Shopify.StepCounts | whiskydatabase/scrapers/shopify_scraper.py:50-51 | a pass only appends rows and adds to the total the rows it appended, unless a save raised |
| Shopify.SaveBatchCounts | whiskydatabase/scrapers/shopify_scraper.py:50-60 | saving a batch appends its rows; a raising save adds nothing to the total and ends the run, otherwise the total grows by the rows written |
| Shopify.RunPages | whiskydatabase/scrapers/shopify_scraper.py:30-60 | every request asks for a page within the limit, the run stops on the limit exactly when its last page is beyond it, and the page grows by at most one per request |
| Shopify.RunRequests | whiskydatabase/scrapers/shopify_scraper.py:30-67 | earlier URLs and waits stay; at most one wait per request |
| Shopify.RunCounts | whiskydatabase/scrapers/shopify_scraper.py:50-51 | rows are only appended, and the total is the rows added unless a save raised |
| Shopify.NoPageLimitNoRequest | whiskydatabase/scrapers/shopify_scraper.py:30 | as written, the loop condition raises before the first request and nothing is saved |
| Shopify.NoTimeoutNoRequest | whiskydatabase/scrapers/shopify_scraper.py:30-36 | as written, even with a page limit the run updates the payload for page 1 and then raises on `max_timeout` before any request, saving nothing |
| Shopify.WithLimitRequestsFirstPage | whiskydatabase/scrapers/shopify_scraper.py:30-36 | with a page limit and `max_timeout` set, page 1 is requested at the URL built from the payload updated for page 1 |
| Shopify.RateLimitedRetry | whiskydatabase/scrapers/shopify_scraper.py:62-67 | after a 429 with a readable `Retry-After` the run sleeps that long and asks for the same page at the same URL |
| Analysis.SquashSpaces | whiskydatabase/analysis/utils.py:14 | after squashing, every whitespace character left is a plain space |
| Analysis.SquashAtChar | whiskydatabase/analysis/utils.py:14 | a non-whitespace character is kept in place, and the text on each side of it is squashed on its own |
| Analysis.SquashOfSpaces | whiskydatabase/analysis/utils.py:14 | a non-empty run of whitespace becomes one space |
| Analysis.CleanText | whiskydatabase/analysis/utils.py:10-11 | a value that is not a string cleans to the empty string |
| Analysis.CleanTextStrips | whiskydatabase/analysis/utils.py:10-16 | a string is cleaned by stripping it and cleaning what is left, whatever whitespace surrounded it |
| Analysis.CleanAtChar | whiskydatabase/analysis/utils.py:13-16 | after stripping, a non-whitespace character becomes its lower-case form when it is a word character and vanishes otherwise, and the text on each side is cleaned on its own |
| Analysis.CleanOfSpaces | whiskydatabase/analysis/utils.py:13-16 | after stripping, a run of whitespace becomes one space |
| Analysis.CleanTextShape | whiskydatabase/analysis/utils.py:12-16 | cleaned text holds only lower-case word characters and plain spaces |
| Analysis.CleanTextFixed | whiskydatabase/analysis/utils.py:12-16 | text that is already clean (lower-case words separated by single spaces) comes back unchanged |
| Analysis.PunctuationLeavesTwoSpaces | whiskydatabase/analysis/utils.py:14-15 | spaces are squashed before punctuation is dropped, so `a - b` cleans to `a  b` with two spaces |
| Analysis.NumberAsFloat | whiskydatabase/analysis/utils.py:30-33 | ints, floats and bools (and nothing else) become floats; a float passes through unchanged, an int becomes the float of its `str()` text, `True` and `False` the floats 1 and 0 |
| Analysis.FloatOrNone | whiskydatabase/analysis/utils.py:25-29 | the result is a float exactly when `float()` accepts the text, and then it is the literal read |
| Analysis.ParseVolume | whiskydatabase/analysis/utils.py:19-33 | the result is None or a float; a string gives a float exactly when the text left after lower-casing, dropping `cl` and `ml` and stripping is a decimal literal, and then it is that literal; any other value gives what `float()` of a number gives (`NumberAsFloat`) |
| Analysis.VolumeCentilitres | whiskydatabase/analysis/utils.py:24 | `<digits>cl` and `<digits>CL` read as the digits |
| Analysis.VolumeMillilitres | whiskydatabase/analysis/utils.py:24-27 | `<digits>ml` reads as the same number as `<digits>cl`: millilitres are not converted to centilitres |
| Analysis.ParsePrice | whiskydatabase/analysis/utils.py:36-52 | the result is None or a float; a string gives a float exactly when its rewritten text, stripped, is a decimal literal, and then it is that literal, which holds no comma; any other value gives what `float()` of a number gives (`NumberAsFloat`) |
| Analysis.CurrencyCommaPrice | whiskydatabase/analysis/utils.py:41-46 | a currency symbol before a decimal comma, `€a,b`, reads as `a.b` |
| Analysis.ThousandsCommaRejected | whiskydatabase/analysis/utils.py:43-48 | a thousands comma becomes a second decimal point, so `a,b.c` parses to None |
| Analysis.ThousandsCommaText | whiskydatabase/analysis/utils.py:43 | the rewrite turns `a,b.c` into `a.b.c` |

## Left out

- Browser and network I/O: Playwright launch and navigation, `_wait_for_content`, `response.json()`. A listing page, a detail page, a JSON response and each retry attempt are parameters: sequences of outcomes indexed by request.
- Concurrency: the `asyncio.Semaphore(5)` and `asyncio.gather` of the detail step. The model enriches the products one after the other; gather returns them in the same order.
- Sleeping: the random jitter (`random.uniform`) is not modelled. Backoff waits and 429 waits are recorded as lists of seconds.
- Files and clocks: gzip and CSV encoding, `os.path.exists`, directory creation, `uuid4`, `datetime.now` and `time.strftime`. The data file is a `DataFile` object with a header and a sequence of rows. Times, dates and UUIDs are parameters.
- WhiskyExchange.ParseProducts: all items of one call share one `now` text, where the source reads the clock once per item.
- BeautifulSoup and JMESPath: selectors are looked up in a per-element map, and JMESPath is a `search` parameter. `apply_parser`, `convert_to_eur`, `urljoin` and the regular expression configured for `_extract_product_id` are parameters too; they are not part of this model (helpers.py does not define the first two).
- Float values: `float()` is modelled as acceptance of a decimal literal, with optional sign and at most one dot. The float is kept as that literal. Exponents, `inf`, `nan` and underscores in numerals are not modelled.
- Analysis.NumberAsFloat: `float(int)` is represented by the integer's decimal literal, and `float(True)` by `1`.
- Character classes: `\d`, `\w`, `\s`, `str.lower()` and `str.upper()` are modelled on ASCII. Unicode digits, letters and case mappings are not modelled, so `clean_text` drops non-ASCII letters where Python keeps them.
- Configuration errors: a missing mandatory `site_config` key (KeyError) is not modelled; the configuration is taken as complete. The exceptions the code handles are modelled: `int(None)` for a missing `page_limit`, a missing attribute, a failed `float()`.
- `_get_page_url` of the beverage, web, Club Whisky, Whisky.nl, DrankDozijn and Heinemann scrapers (`pagination_url.format(page_num)`) is not modelled. The page loop takes page `n` from its parameter sequence. Only Gall's offset arithmetic is modelled, with a template holding one `{}`.
- Pagination.Scrape: the pages the Whisky Exchange loop receives come from the page parameter, not from `WhiskyExchange.ParseProducts`; the two are proved separately.
- Pagination.Scrape: the pages of the web loop are those it would get with `max_timeout` set; as written it gets none (see Findings). The link from a request's outcome to its page is `Pagination.PageOfFetch`, used for the first page only.
- Pagination.Scrape: every variant ends with `RaisedStop` when saving or parsing raises. The base and beverage loops catch the exception and return. The web and Whisky Exchange loops have no handler, so there the exception escapes `scrape()` to its caller (and the web loop's browser is not closed); the model does not tell the two apart.
- Heinemann.ParseProductDetails: `in_stock` follows the corrected rule `InStock`, so an "unavailable" text gives `No`; the written `'available' in stock_text` is modelled separately as `InStockAsWritten` (see Findings).
- Abstract methods: `BaseScraper` is an `ABC` whose `parse_product`, `parse_product_details` and `_get_page_url` are abstract (base_scraper.py:97-107). `WebScraper` defines only `_get_page_url`, and `NetworkScraper`, `ShopifyScraper` and `WhiskyExchangeScraper` define none of the three. As written, constructing any of these four classes raises TypeError, so their `scrape()` and `_make_request` are never reached. The model describes them as if a subclass supplied the missing methods. This includes `Network.NetworkScraper.constructor` and `Shopify.ShopifyScraper.constructor`, and the Findings rows for whisky_exchange_scraper.py:21, shopify_scraper.py:30 and :36 and web_scraper.py:167 are about such a subclass.
- Logging, `__setup_logger`, `HeaderGenerator` and the user agent are not modelled.
- `_get_product_list` is folded into the page outcome (a page without the list container is `NoList`).
- helpers.py, data_processing.py, anomaly_detection.py, main.py and scraper_factory.py are not part of this model: they are configuration loading, pandas and scikit-learn analysis, and wiring.

## Findings

| source | as written | input that shows it | evidently intended | confidence | as-written member | corrected member |
|---|---|---|---|---|---|---|
| whiskydatabase/scrapers/gall_scraper.py:23 | `parse_product` calls `self.parse_price`, which the class does not have (it defines `_parse_price`); the AttributeError is caught and the item dropped | any item with name, price and link elements and an `href` | call `self._parse_price` and return the product | high; not executed | Gall.CompleteItemLost | Gall.ParseProduct |
| whiskydatabase/scrapers/whisky_exchange_scraper.py:21 | `scrape` calls `self.make_request` and later `self.save_products`, which neither the class nor `BaseScraper` defines; the AttributeError is not caught, so nothing is ever requested or saved | any configuration whose first page lists products (of a subclass that supplies the abstract methods, see Left out) | call `_make_request` and `_save_products` of the base class | high; not executed | WhiskyExchangeScrape.FirstPageLost | Pagination.Scrape |
| whiskydatabase/scrapers/shopify_scraper.py:30 | the loop condition reads `self.page_limit` (and line 55 `self.dev_mode`), which nothing assigns; the AttributeError is caught at line 74 and the run ends before the first request | any Shopify configuration (of a subclass that supplies the abstract methods, see Left out) | read `page_limit` and `dev_mode` from the configuration, as `NetworkScraper` does (unbounded and False by default) | high; not executed | Shopify.NoPageLimitNoRequest | Shopify.WithLimitRequestsFirstPage |
| whiskydatabase/scrapers/web_scraper.py:167 | `_make_request` reads `self.max_timeout`, which only `BeverageScraper` assigns (beverage_scraper.py:53); for a `WebScraper` every attempt raises an AttributeError that the handler logs, so page 1 yields no content and nothing is ever saved | any web configuration (of a subclass that supplies the abstract methods, see Left out) | assign `max_timeout` from the configuration (60000 by default), as the beverage class does | high; not executed | Pagination.WebUnsetTimeoutWritesNothing | Pagination.WebTimeoutSetSavesFirstPage |
| whiskydatabase/scrapers/shopify_scraper.py:36 | the request reads `self.max_timeout`, which nothing assigns for a `ShopifyScraper`; even with `page_limit` set, the AttributeError is caught at line 74 before any request | any Shopify configuration with `page_limit` set (of a subclass that supplies the abstract methods, see Left out) | assign `max_timeout` from the configuration, as the beverage class does | high; not executed | Shopify.NoTimeoutNoRequest | Shopify.WithLimitRequestsFirstPage |
| whiskydatabase/scrapers/heinemann_shop_scraper.py:117 | `'available' in stock_text` also holds for "unavailable", so an unavailable product is recorded as in stock | a stock line reading "Currently unavailable" | `Yes` only when the text says "available" and not "unavailable" | medium; not executed | Heinemann.UnavailableInStock | Heinemann.StockField |

=== FILE: analysis.dfy ===
/**
 * analysis/utils.py: the normalisers the analysis stage applies to scraped
 * fields. Each takes any Python value: `clean_text` turns text into
 * lower-case words and spaces, `parse_volume` and `parse_price` read a
 * number out of a string or pass a number through as a float, and give
 * None for anything else.
 */
module Analysis {
  import opened Text
  import opened Records
  import opened Sites

  // ---------------------------------------------------------------------------
  // `clean_text`
  // ---------------------------------------------------------------------------

  /** `re.sub(r'\s+', ' ', s)`: every maximal run of whitespace becomes one space. */
  function SquashSpaces(s: string): (r: string)
    ensures forall j :: 0 <= j < |r| && IsSpace(r[j]) ==> r[j] == ' '
    decreases |s|
  {
    if s == [] then []
    else if IsSpace(s[0]) then
      var rest := TrimStart(s, IsSpace);
      assert |rest| < |s| by {
        assert rest == [] || !IsSpace(rest[0]);
      }
      " " + SquashSpaces(rest)
    else [s[0]] + SquashSpaces(s[1..])
  }

  /**
   * A character that is not whitespace separates the runs on its two sides:
   * `re.sub(r'\s+', ' ', a + c + b)` squashes `a` and `b` each on its own.
   */
  lemma {:induction false} SquashAtChar(a: string, c: char, b: string)
    requires !IsSpace(c)
    ensures SquashSpaces(a + [c] + b) == SquashSpaces(a) + [c] + SquashSpaces(b)
    decreases |a|
  {
    if a == [] {
      Regroup(a, 0, c, b);
      ConsView(a + [c] + b, c, b);
    } else if !IsSpace(a[0]) {
      SquashAtChar(a[1..], c, b);
      SquashWordStep(a, c, b);
    } else {
      var rest := TrimStart(a, IsSpace);
      assert |rest| < |a| by {
        assert rest == [] || !IsSpace(rest[0]);
      }
      SquashAtChar(rest, c, b);
      SquashSpaceStep(a, c, b);
    }
  }

  /** `s` is `x` followed by `rest`. */
  lemma ConsView<T>(s: seq<T>, x: T, rest: seq<T>)
    requires s == [x] + rest
    ensures s != [] && s[0] == x && s[1..] == rest
  {
  }

  /** The step of `SquashAtChar` past a first character that is not whitespace. */
  lemma SquashWordStep(a: string, c: char, b: string)
    requires a != [] && !IsSpace(a[0])
    requires SquashSpaces(a[1..] + [c] + b) == SquashSpaces(a[1..]) + [c] + SquashSpaces(b)
    ensures SquashSpaces(a + [c] + b) == SquashSpaces(a) + [c] + SquashSpaces(b)
  {
    var x := a[1..] + [c] + b;
    Regroup(a, 1, c, b);
    ConsView(a + [c] + b, a[0], x);
    ConsView(a, a[0], a[1..]);
    calc {
      SquashSpaces(a + [c] + b);
      [a[0]] + SquashSpaces(x);
      [a[0]] + (SquashSpaces(a[1..]) + [c] + SquashSpaces(b));
      { ConcatAssoc([a[0]], SquashSpaces(a[1..]) + [c], SquashSpaces(b));
        ConcatAssoc([a[0]], SquashSpaces(a[1..]), [c]); }
      [a[0]] + SquashSpaces(a[1..]) + [c] + SquashSpaces(b);
      SquashSpaces(a) + [c] + SquashSpaces(b);
    }
  }

  /** The step of `SquashAtChar` past a first run of whitespace. */
  lemma SquashSpaceStep(a: string, c: char, b: string)
    requires a != [] && IsSpace(a[0]) && !IsSpace(c)
    requires var rest := TrimStart(a, IsSpace);
      SquashSpaces(rest + [c] + b) == SquashSpaces(rest) + [c] + SquashSpaces(b)
    ensures SquashSpaces(a + [c] + b) == SquashSpaces(a) + [c] + SquashSpaces(b)
  {
    var rest := TrimStart(a, IsSpace);
    var s := a + [c] + b;
    assert s[0] == a[0] && ([c] + b)[0] == c;
    calc {
      SquashSpaces(s);
      " " + SquashSpaces(TrimStart(s, IsSpace));
      { ConcatAssoc(a, [c], b); TrimStartConcat(a, [c] + b); ConcatAssoc(rest, [c], b); }
      " " + SquashSpaces(rest + [c] + b);
      " " + (SquashSpaces(rest) + [c] + SquashSpaces(b));
      { ConcatAssoc(" ", SquashSpaces(rest) + [c], SquashSpaces(b));
        ConcatAssoc(" ", SquashSpaces(rest), [c]); }
      " " + SquashSpaces(rest) + [c] + SquashSpaces(b);
      SquashSpaces(a) + [c] + SquashSpaces(b);
    }
  }

  /** A run of whitespace alone squashes to one space. */
  lemma SquashOfSpaces(w: string)
    requires w != [] && AllSpace(w)
    ensures SquashSpaces(w) == " "
  {
    assert w[..|w|] == w;
    TrimStartAt(w, |w|);
  }

  /** What `re.sub(r'[^\w\s]', '', s)` keeps. */
  predicate WordOrSpace(c: char) { IsWordChar(c) || IsSpace(c) }

  /** `clean_text(text)`: '' for a non-string; otherwise stripped, spaces squashed, punctuation dropped, lower-cased. */
  function CleanText(text: Value): (r: string)
    ensures !text.Str? ==> r == []
  {
    match text
    case Str(s) => CleanStripped(Strip(s))
    case _ => []
  }

  /** The rest of `clean_text` once the text is stripped: whitespace squashed, punctuation dropped, lower-cased. */
  function CleanStripped(t: string): string
  {
    Lower(Filter(SquashSpaces(t), WordOrSpace))
  }

  /** `clean_text` of a string works on the string without its surrounding whitespace. */
  lemma CleanTextStrips(s: string, t: string)
    requires StrippedFrom(s, t)
    ensures CleanText(Str(s)) == CleanStripped(t)
  {
    StripIsStripped(s, t);
  }

  /**
   * Character by character: a character that is not whitespace is kept
   * lower-cased when it is a word character and dropped otherwise, and the
   * text on either side of it is cleaned on its own.
   */
  lemma CleanAtChar(a: string, c: char, b: string)
    requires !IsSpace(c)
    ensures CleanStripped(a + [c] + b) == CleanStripped(a) + (if IsWordChar(c) then [LowerChar(c)] else []) + CleanStripped(b)
  {
    var x, y := SquashSpaces(a), SquashSpaces(b);
    var mid := Filter([c], WordOrSpace);
    assert mid == if IsWordChar(c) then [c] else [];
    assert Lower(mid) == if IsWordChar(c) then [LowerChar(c)] else [];
    calc {
      CleanStripped(a + [c] + b);
      { SquashAtChar(a, c, b); }
      Lower(Filter(x + [c] + y, WordOrSpace));
      { FilterSplit(x + [c], y, WordOrSpace); FilterSplit(x, [c], WordOrSpace); }
      Lower(Filter(x, WordOrSpace) + mid + Filter(y, WordOrSpace));
      { LowerConcat(Filter(x, WordOrSpace) + mid, Filter(y, WordOrSpace));
        LowerConcat(Filter(x, WordOrSpace), mid); }
      CleanStripped(a) + Lower(mid) + CleanStripped(b);
    }
  }

  /** A run of whitespace cleans to a single space. */
  lemma CleanOfSpaces(w: string)
    requires w != [] && AllSpace(w)
    ensures CleanStripped(w) == " "
  {
    SquashOfSpaces(w);
    assert Filter(" ", WordOrSpace) == " ";
  }

  /** `lower()` works character by character. */
  lemma LowerConcat(x: string, y: string)
    ensures Lower(x + y) == Lower(x) + Lower(y)
  {
    var l, r := Lower(x + y), Lower(x) + Lower(y);
    forall j | 0 <= j < |l| ensures l[j] == r[j] {
      if j < |x| { assert (x + y)[j] == x[j]; } else { assert (x + y)[j] == y[j - |x|]; }
    }
  }

  /** A lower-case word character or a plain space: what cleaned text is made of. */
  predicate CleanChar(c: char) { (IsWordChar(c) && !IsUpper(c)) || c == ' ' }

  /** Cleaned text holds only lower-case word characters and plain spaces. */
  lemma CleanTextShape(text: Value)
    ensures var r := CleanText(text);
      forall j :: 0 <= j < |r| ==> CleanChar(r[j])
  {
    if text.Str? {
      var squashed := SquashSpaces(Strip(text.s));
      var kept := Filter(squashed, WordOrSpace);
      FilterFrom(squashed, WordOrSpace, c => IsSpace(c) ==> c == ' ');
      forall j | 0 <= j < |kept| ensures CleanChar(LowerChar(kept[j])) {
        LowerWordChar(kept[j]);
      }
    }
  }

  /** Lower-casing a word character or a plain space gives a clean character. */
  lemma LowerWordChar(c: char)
    requires IsWordChar(c) || c == ' '
    ensures CleanChar(LowerChar(c))
  {
  }

  /** Text with only plain spaces, none of them adjacent, is left as it is by squashing. */
  lemma {:induction false} SquashSingleSpaces(s: string)
    requires forall j :: 0 <= j < |s| && IsSpace(s[j]) ==> s[j] == ' '
    requires forall j :: 0 <= j < |s| - 1 ==> !(s[j] == ' ' && s[j + 1] == ' ')
    ensures SquashSpaces(s) == s
    decreases |s|
  {
    if s != [] {
      var tail := s[1..];
      assert forall j :: 0 <= j < |tail| ==> tail[j] == s[j + 1];
      SquashSingleSpaces(tail);
      if IsSpace(s[0]) {
        assert tail == [] || !IsSpace(tail[0]) by {
          if tail != [] {
            assert s[0] == ' ' && tail[0] == s[1];
          }
        }
        assert TrimStart(s, IsSpace) == tail by {
          assert TrimStart(s, IsSpace) == TrimStart(tail, IsSpace);
        }
        assert SquashSpaces(s) == " " + SquashSpaces(tail);
      } else {
        assert SquashSpaces(s) == [s[0]] + SquashSpaces(tail);
      }
      HeadTail(s);
    }
  }

  /** Lower-casing text without upper-case letters changes nothing. */
  lemma LowerUnchanged(s: string)
    requires forall j :: 0 <= j < |s| ==> !IsUpper(s[j])
    ensures Lower(s) == s
  {
  }

  /**
   * Text that is already clean (lower-case words separated by single
   * spaces) comes back unchanged.
   */
  lemma CleanTextFixed(s: string)
    requires s != [] && s[0] != ' ' && s[|s| - 1] != ' '
    requires forall j :: 0 <= j < |s| ==> CleanChar(s[j])
    requires forall j :: 0 <= j < |s| - 1 ==> !(s[j] == ' ' && s[j + 1] == ' ')
    ensures CleanText(Str(s)) == s
  {
    StripUnchanged(s);
    SquashSingleSpaces(s);
    FilterKeepsAll(s, WordOrSpace);
    LowerUnchanged(s);
  }

  /**
   * Whitespace is squashed before punctuation is dropped, so punctuation
   * standing between two spaces leaves two spaces behind: `a - b` cleans to
   * `a  b`.
   */
  lemma PunctuationLeavesTwoSpaces(a: string, b: string)
    requires a != [] && b != []
    requires forall j :: 0 <= j < |a| ==> IsWordChar(a[j]) && !IsUpper(a[j])
    requires forall j :: 0 <= j < |b| ==> IsWordChar(b[j]) && !IsUpper(b[j])
    ensures CleanText(Str(a + " - " + b)) == a + "  " + b
  {
    DashSpacing(a, b);
    DashDropped(a, b);
  }

  /** `a - b` between words is stripped and squashed to itself. */
  lemma DashSpacing(a: string, b: string)
    requires a != [] && b != []
    requires forall j :: 0 <= j < |a| ==> IsWordChar(a[j])
    requires forall j :: 0 <= j < |b| ==> IsWordChar(b[j])
    ensures var s := a + " - " + b;
      SquashSpaces(Strip(s)) == s
  {
    var s := a + " - " + b;
    assert s[0] == a[0] && s[|s| - 1] == b[|b| - 1];
    StripUnchanged(s);
    DashSingleSpaces(a, b);
    SquashSingleSpaces(s);
  }

  /** The only whitespace in `a - b` between words is the two single spaces. */
  lemma DashSingleSpaces(a: string, b: string)
    requires forall j :: 0 <= j < |a| ==> IsWordChar(a[j])
    requires forall j :: 0 <= j < |b| ==> IsWordChar(b[j])
    ensures var s := a + " - " + b;
      && (forall j :: 0 <= j < |s| && IsSpace(s[j]) ==> s[j] == ' ')
      && (forall j :: 0 <= j < |s| - 1 ==> !(s[j] == ' ' && s[j + 1] == ' '))
  {
    var s := a + " - " + b;
    assert forall j :: 0 <= j < |s| ==> (j < |a| && s[j] == a[j]) || (|a| + 3 <= j && s[j] == b[j - |a| - 3]) || s[j] == [' ', '-', ' '][j - |a|];
  }

  /** Dropping punctuation from `a - b` between lower-case words and lower-casing leaves `a  b`. */
  lemma DashDropped(a: string, b: string)
    requires forall j :: 0 <= j < |a| ==> IsWordChar(a[j]) && !IsUpper(a[j])
    requires forall j :: 0 <= j < |b| ==> IsWordChar(b[j]) && !IsUpper(b[j])
    ensures Lower(Filter(a + " - " + b, WordOrSpace)) == a + "  " + b
  {
    DashFiltered(a, b);
    DashLower(a, b);
    LowerUnchanged(a + "  " + b);
  }

  lemma DashFiltered(a: string, b: string)
    requires forall j :: 0 <= j < |a| ==> IsWordChar(a[j])
    requires forall j :: 0 <= j < |b| ==> IsWordChar(b[j])
    ensures Filter(a + " - " + b, WordOrSpace) == a + "  " + b
  {
    var mid := " - ";
    FilterKeepsAll(a, WordOrSpace);
    FilterKeepsAll(b, WordOrSpace);
    FilterSplit(a, mid, WordOrSpace);
    FilterSplit(a + mid, b, WordOrSpace);
    assert Filter(mid, WordOrSpace) == "  ";
  }

  lemma DashLower(a: string, b: string)
    requires forall j :: 0 <= j < |a| ==> !IsUpper(a[j])
    requires forall j :: 0 <= j < |b| ==> !IsUpper(b[j])
    ensures forall j :: 0 <= j < |a + "  " + b| ==> !IsUpper((a + "  " + b)[j])
  {
    var m := a + [' ', ' '];
    var t := m + b;
    forall j | 0 <= j < |t| ensures !IsUpper(t[j]) {
      if j < |m| {
        assert t[j] == m[j];
      } else {
        assert t[j] == b[j - |m|];
      }
    }
  }

  // ---------------------------------------------------------------------------
  // `parse_volume` and `parse_price`
  // ---------------------------------------------------------------------------

  /**
   * `float(x)` for an int or float (`bool` counts as `int`), as the float
   * of its literal; Null for any other value.
   */
  function NumberAsFloat(v: Value): (r: Value)
    ensures v.Int? || v.Float? || v.Bool? <==> r.Float?
    ensures v.Float? ==> r == v
    ensures r.Float? && !v.Float? ==> IsDecimalLiteral(r.lit)
    ensures v.Int? ==> r == Float(IntText(v.i))
    ensures v.Bool? ==> r == Float(if v.b then "1" else "0")
  {
    match v
    case Int(i) => Float(IntText(i))
    case Float(_) => v
    case Bool(b) =>
      WholeDecimal(if b then "1" else "0");
      Float(if b then "1" else "0")
    case _ => Null
  }

  /** `float(s)` inside `try`: the float, or None where `float()` raises ValueError. */
  function FloatOrNone(s: string): (r: Value)
    ensures r.Null? || (r.Float? && IsDecimalLiteral(r.lit))
    ensures r.Float? <==> PythonFloat(s).Some?
    ensures r.Float? ==> r.lit == PythonFloat(s).value
  {
    match PythonFloat(s)
    case Some(lit) => Float(lit)
    case None => Null
  }

  /** `volume_str.lower().replace('cl', '').replace('ml', '').strip()`. */
  function VolumeText(s: string): string
  {
    Strip(ReplaceAll(ReplaceAll(Lower(s), "cl", ""), "ml", ""))
  }

  /** `parse_volume(v)`: a string's number after dropping `cl` and `ml`, a number as a float, else None. */
  function ParseVolume(v: Value): (r: Value)
    ensures r.Null? || r.Float?
    ensures v.Str? && r.Float? ==> IsDecimalLiteral(r.lit) && r.lit == Strip(VolumeText(v.s))
    ensures v.Str? ==> (r.Float? <==> IsDecimalLiteral(Strip(VolumeText(v.s))))
    ensures !v.Str? ==> (r.Float? <==> v.Int? || v.Float? || v.Bool?)
    ensures !v.Str? ==> r == NumberAsFloat(v)
  {
    if v.Str? then FloatOrNone(VolumeText(v.s)) else NumberAsFloat(v)
  }

  /** Replacing a pattern that ends the string, in a prefix lacking its first character, replaces just that one. */
  lemma {:induction false} ReplaceAllSuffix(s: string, pat: string, rep: string)
    requires pat != [] && Lacks(s, pat[0])
    ensures ReplaceAll(s + pat, pat, rep) == s + rep
    decreases |s|
  {
    var t := s + pat;
    if s == [] {
      assert t == pat && t[..|pat|] == pat && t[|pat|..] == [];
      assert ReplaceAll(t, pat, rep) == rep + ReplaceAll([], pat, rep);
    } else {
      assert t[..|pat|] != pat by { assert t[..|pat|][0] == s[0]; }
      assert t[1..] == s[1..] + pat;
      assert ReplaceAll(t, pat, rep) == [t[0]] + ReplaceAll(t[1..], pat, rep);
      ReplaceAllSuffix(s[1..], pat, rep);
    }
  }

  /** Lower-casing digits followed by `unit` changes only the unit. */
  lemma LowerDigitsThen(d: string, unit: string)
    requires AllDigits(d)
    ensures Lower(d + unit) == d + Lower(unit)
  {
    var l, r := Lower(d + unit), d + Lower(unit);
    assert forall j :: 0 <= j < |l| ==> l[j] == r[j] by {
      forall j | 0 <= j < |l| ensures l[j] == r[j] {
        if j < |d| { assert (d + unit)[j] == d[j]; } else { assert (d + unit)[j] == unit[j - |d|]; }
      }
    }
  }

  /** Digits followed by `cl` read as the digits: the unit is dropped. */
  lemma VolumeCentilitres(d: string)
    requires d != [] && AllDigits(d)
    ensures VolumeText(d + "cl") == d && VolumeText(d + "CL") == d
  {
    assert Lower("cl") == "cl" && Lower("CL") == "cl";
    LowerDigitsThen(d, "cl");
    LowerDigitsThen(d, "CL");
    assert ReplaceAll(d + "cl", "cl", "") == d by {
      ReplaceAllSuffix(d, "cl", "");
    }
    assert ReplaceAll(d, "ml", "") == d by {
      ReplaceAllAbsent(d, "ml", "");
    }
    StripUnchanged(d);
  }

  /**
   * Digits followed by `ml` read as the same number as digits followed by
   * `cl`: millilitres are not rescaled to centilitres.
   */
  lemma VolumeMillilitres(d: string)
    requires d != [] && AllDigits(d)
    ensures VolumeText(d + "ml") == d
    ensures ParseVolume(Str(d + "ml")) == ParseVolume(Str(d + "cl")) == Float(d)
  {
    VolumeTextMillilitres(d);
    VolumeCentilitres(d);
    StripUnchanged(d);
    WholeDecimal(d);
  }

  /** The text `parse_volume` reads from digits followed by `ml` is the digits. */
  lemma VolumeTextMillilitres(d: string)
    requires d != [] && AllDigits(d)
    ensures VolumeText(d + "ml") == d
  {
    assert Lower("ml") == "ml";
    LowerDigitsThen(d, "ml");
    assert ReplaceAll(d + "ml", "cl", "") == d + "ml" by {
      assert Lacks(d + "ml", 'c');
      ReplaceAllAbsent(d + "ml", "cl", "");
    }
    assert ReplaceAll(d + "ml", "ml", "") == d by {
      ReplaceAllSuffix(d, "ml", "");
    }
    StripUnchanged(d);
  }

  /** The currency symbols `parse_price` removes. */
  predicate NotCurrency(c: char) { c != '€' && c != '$' && c != '£' }

  /** `price_str.replace('€', '').replace('$', '').replace('£', '').replace(',', '.').strip()`. */
  function PriceText(s: string): string
  {
    Strip(ReplaceChar(Filter(s, NotCurrency), ',', '.'))
  }

  /** `parse_price(v)`: a string's number after dropping currency symbols with commas as dots, a number as a float, else None. */
  function ParsePrice(v: Value): (r: Value)
    ensures r.Null? || r.Float?
    ensures v.Str? ==> (r.Float? <==> IsDecimalLiteral(Strip(PriceText(v.s))))
    ensures v.Str? && r.Float? ==> r.lit == Strip(PriceText(v.s))
    ensures v.Str? && r.Float? ==> IsDecimalLiteral(r.lit) && Lacks(r.lit, ',')
    ensures !v.Str? ==> (r.Float? <==> v.Int? || v.Float? || v.Bool?)
    ensures !v.Str? ==> r == NumberAsFloat(v)
  {
    if v.Str? then
      PriceTextLacksComma(v.s);
      FloatOrNone(PriceText(v.s))
    else NumberAsFloat(v)
  }

  /** No comma survives the rewrite, nor the strip `float()` applies. */
  lemma PriceTextLacksComma(s: string)
    ensures Lacks(Strip(PriceText(s)), ',')
  {
    var t := ReplaceChar(Filter(s, NotCurrency), ',', '.');
    StripLacks(t, ',');
    StripLacks(Strip(t), ',');
  }

  /** A currency symbol in front of a decimal comma, `€a,b`, reads as `a.b`. */
  lemma CurrencyCommaPrice(sym: char, a: string, b: string)
    requires !NotCurrency(sym) && a != [] && AllDigits(a) && AllDigits(b)
    ensures ParsePrice(Str([sym] + a + "," + b)) == Float(a + "." + b)
  {
    var body := a + [','] + b;
    assert [sym] + a + "," + b == [sym] + body;
    assert Filter([sym] + body, NotCurrency) == body by {
      FilterSplit([sym], body, NotCurrency);
      assert Filter([sym], NotCurrency) == [];
      FilterAroundOne(a, ',', b, NotCurrency);
    }
    assert ReplaceChar(body, ',', '.') == a + "." + b by {
      AllDigitsNoChar(a, ',');
      AllDigitsNoChar(b, ',');
      CommaToDot(a, b);
    }
    DecimalOf(a, b);
    StripUnchanged(a + "." + b);
  }

  /**
   * A thousands comma is read as a second decimal point: `a,b.c` holds two
   * dots after the rewrite and parses to None.
   */
  lemma ThousandsCommaRejected(a: string, b: string, c: string)
    requires a != [] && c != [] && AllDigits(a) && AllDigits(b) && AllDigits(c)
    ensures ParsePrice(Str(a + "," + b + "." + c)) == Null
  {
    ThousandsCommaText(a, b, c);
    TwoDotsNoFloat(a, b, c);
  }

  /** The rewrite turns `a,b.c` into `a.b.c`. */
  lemma ThousandsCommaText(a: string, b: string, c: string)
    requires AllDigits(a) && AllDigits(b) && AllDigits(c)
    ensures PriceText(a + "," + b + "." + c) == Strip(a + "." + b + "." + c)
  {
    var s := a + [','] + b + ['.'] + c;
    assert a + "," + b + "." + c == s;
    assert Filter(s, NotCurrency) == s by {
      FilterAroundSeparators(a, ',', b, '.', c, NotCurrency);
    }
    var t := a + "." + b + "." + c;
    assert ReplaceChar(s, ',', '.') == t by {
      assert forall j :: 0 <= j < |s| ==> ReplaceChar(s, ',', '.')[j] == t[j];
    }
  }
}

=== FILE: clubwhisky.dfy ===
/**
 * clubwhisky_nl_scraper.py: the Club Whisky shop. Prices are cleaned to
 * digits, separators and minus signs, and whichever of `,` and `.` comes
 * last is read as the decimal separator; product ids are the `<id>.html`
 * page names; the detail page has a `.spec-line` table, a star rating, a
 * review count and a stock line.
 */
module ClubWhisky {
  import opened Text
  import opened Records
  import opened Sites
  import opened DetailTable

  /** What `re.sub(r'[^\d,.-]', '', s)` keeps. */
  predicate PriceChar(c: char) { IsDigit(c) || c == ',' || c == '.' || c == '-' }

  predicate NotDot(c: char) { c != '.' }

  predicate NotComma(c: char) { c != ',' }

  predicate NotSeparator(c: char) { c != '.' && c != ',' }

  /**
   * The separator rules of `_parse_price` on the cleaned string: the later
   * of the last `,` and the last `.` is the decimal separator and the other
   * one is dropped. The inner branches for a string holding one kind of
   * separator only are kept as written, although `rfind` has already put
   * such a string in one of the first two branches.
   */
  function NormalizeSeparators(clean: string): string
  {
    var lastComma := RFind(clean, ',');
    var lastDot := RFind(clean, '.');
    if lastComma > lastDot then ReplaceChar(Filter(clean, NotDot), ',', '.')
    else if lastDot > lastComma then Filter(clean, NotComma)
    else if Contains(clean, ",") then ReplaceChar(clean, ',', '.')
    else if Contains(clean, ".") then Filter(clean, NotComma)
    else clean
  }

  /** `_parse_price(s)`: the float read from the normalised string, or 0.0 when `float()` refuses it. */
  function ParsePrice(s: string): (v: Value)
    ensures v.Float?
    ensures var norm := NormalizeSeparators(Filter(s, PriceChar));
      && (PythonFloat(norm).Some? ==> v == Float(PythonFloat(norm).value))
      && (PythonFloat(norm).None? ==> v == Float("0.0"))
  {
    FloatOrZero(NormalizeSeparators(Filter(s, PriceChar)))
  }

  /** Dropping dots and turning commas into dots distributes over concatenation. */
  lemma CommaDecimalSplit(a: string, b: string)
    ensures ReplaceChar(Filter(a + b, NotDot), ',', '.') == ReplaceChar(Filter(a, NotDot), ',', '.') + ReplaceChar(Filter(b, NotDot), ',', '.')
  {
    FilterSplit(a, b, NotDot);
    ReplaceCharSplit(Filter(a, NotDot), Filter(b, NotDot), ',', '.');
  }

  /** The comma-last rewrite of a single character. */
  lemma CommaDecimalHead(c: char)
    ensures var head := ReplaceChar(Filter([c], NotDot), ',', '.');
      && Count(head, ',') == 0
      && Count(head, '.') == (if c == ',' then 1 else 0)
      && Filter(head, NotDot) == (if NotSeparator(c) then [c] else [])
  {
    assert [c][1..] == [];
  }

  /** The comma-last rewrite: no comma is left, one dot per comma, and the other characters keep their order. */
  lemma {:induction false} CommaDecimalShape(s: string)
    ensures var r := ReplaceChar(Filter(s, NotDot), ',', '.');
      && Count(r, ',') == 0
      && Count(r, '.') == Count(s, ',')
      && Filter(r, NotDot) == Filter(s, NotSeparator)
    decreases |s|
  {
    if s != [] {
      var head := ReplaceChar(Filter([s[0]], NotDot), ',', '.');
      var tail := ReplaceChar(Filter(s[1..], NotDot), ',', '.');
      var r := ReplaceChar(Filter(s, NotDot), ',', '.');
      assert r == head + tail by {
        assert s == [s[0]] + s[1..];
        CommaDecimalSplit([s[0]], s[1..]);
      }
      CommaDecimalShape(s[1..]);
      CommaDecimalHead(s[0]);
      CountSplit(head, tail, ',');
      CountSplit(head, tail, '.');
      FilterSplit(head, tail, NotDot);
    }
  }

  /** The dot-last rewrite: no comma is left, the dots stay, and the other characters keep their order. */
  lemma {:induction false} DotDecimalShape(s: string)
    ensures var r := Filter(s, NotComma);
      && Count(r, ',') == 0
      && Count(r, '.') == Count(s, '.')
      && Filter(r, NotDot) == Filter(s, NotSeparator)
    decreases |s|
  {
    if s != [] {
      DotDecimalShape(s[1..]);
      var head := if s[0] != ',' then [s[0]] else [];
      var tail := Filter(s[1..], NotComma);
      CountSplit(head, tail, ',');
      CountSplit(head, tail, '.');
      FilterSplit(head, tail, NotDot);
    }
  }

  /**
   * After normalisation no comma is left; there is one dot per comma when
   * the comma came last, one per dot when the dot came last, and none when
   * there was no separator, in which case the string is unchanged. Only
   * separators change: digits and minus signs keep their order.
   */
  lemma NormalizeShape(clean: string)
    ensures var r := NormalizeSeparators(clean);
      var lastComma, lastDot := RFind(clean, ','), RFind(clean, '.');
      && Count(r, ',') == 0
      && (lastComma > lastDot ==> Count(r, '.') == Count(clean, ','))
      && (lastDot > lastComma ==> Count(r, '.') == Count(clean, '.'))
      && (lastComma == lastDot ==> r == clean && Count(r, '.') == 0)
      && Filter(r, NotDot) == Filter(clean, NotSeparator)
  {
    var lastComma, lastDot := RFind(clean, ','), RFind(clean, '.');
    CommaDecimalShape(clean);
    DotDecimalShape(clean);
    if lastComma == lastDot {
      assert lastComma == -1;
      NoCharCount(clean, ',');
      NoCharCount(clean, '.');
      ContainsChar(clean, ',');
      ContainsChar(clean, '.');
    }
  }

  /** A string without `c` counts no `c`, and filtering out `c` leaves it unchanged. */
  lemma {:induction false} NoCharCount(s: string, c: char)
    requires forall j :: 0 <= j < |s| ==> s[j] != c
    ensures Count(s, c) == 0
    ensures c == ',' ==> Filter(s, NotComma) == s
    ensures c == '.' ==> Filter(s, NotDot) == s
    decreases |s|
  {
    if s != [] {
      NoCharCount(s[1..], c);
    }
  }

  /**
   * A European price `a.b,c` (digits around a thousands dot and a decimal
   * comma) normalises to `ab.c`.
   */
  lemma EuropeanPrice(a: string, b: string, c: string)
    requires AllDigits(a) && AllDigits(b) && AllDigits(c)
    ensures NormalizeSeparators(a + "." + b + "," + c) == a + b + "." + c
  {
    var s := a + ['.'] + b + [','] + c;
    assert RFind(s, ',') > RFind(s, '.') by {
      assert s[|a| + 1 + |b|] == ',';
      RFindAt(s, ',', |a| + 1 + |b|);
      assert RFind(s, '.') < |a| + 1 + |b|;
    }
    assert Filter(s, NotDot) == (a + b) + [','] + c by {
      FilterAroundSeparators(a, '.', b, ',', c, NotDot);
    }
    CommaToDot(a + b, c);
  }

  /**
   * An English price `a,b.c` (digits around a thousands comma and a decimal
   * dot) normalises to `ab.c`.
   */
  lemma EnglishPrice(a: string, b: string, c: string)
    requires AllDigits(a) && AllDigits(b) && AllDigits(c)
    ensures NormalizeSeparators(a + "," + b + "." + c) == a + b + "." + c
  {
    var s := a + [','] + b + ['.'] + c;
    assert s[|a|] == ',' && s[|a| + 1 + |b|] == '.';
    RFindAt(s, '.', |a| + 1 + |b|);
    assert RFind(s, ',') < |a| + 1 + |b|;
    FilterAroundSeparators(a, ',', b, '.', c, NotComma);
  }

  /** Replacing every comma of `a,b,c` gives `a.b.c` when `a`, `b` and `c` hold no comma. */
  lemma CommasToDots(a: string, b: string, c: string)
    requires Lacks(a, ',') && Lacks(b, ',') && Lacks(c, ',')
    ensures ReplaceChar(a + [','] + b + [','] + c, ',', '.') == a + ['.'] + b + ['.'] + c
  {
    var s, t := a + [','] + b + [','] + c, a + ['.'] + b + ['.'] + c;
    assert forall i :: 0 <= i < |s| ==> ReplaceChar(s, ',', '.')[i] == t[i];
  }

  /**
   * Thousands commas without a decimal part (`a,b,c`) are all read as
   * decimal points, which `float()` refuses: the price is 0.0.
   */
  lemma ThousandsOnlyPrice(a: string, b: string, c: string)
    requires AllDigits(a) && AllDigits(b) && AllDigits(c) && a != [] && c != []
    ensures NormalizeSeparators(a + "," + b + "," + c) == a + "." + b + "." + c
    ensures ParsePrice(a + "," + b + "," + c) == Float("0.0")
  {
    var s := a + [','] + b + [','] + c;
    assert s[|a| + 1 + |b|] == ',';
    RFindAt(s, ',', |a| + 1 + |b|);
    assert RFind(s, '.') == -1 by {
      assert forall j :: 0 <= j < |s| ==> s[j] != '.';
    }
    FilterAroundSeparators(a, '.', b, '.', c, NotDot);
    NoCharCount(s, '.');
    CommasToDots(a, b, c);
    FilterAroundSeparators(a, ',', b, ',', c, PriceChar);
    TwoDotsNoFloat(a, b, c);
  }

  /** The `site_config` selectors `parse_product` reads. */
  datatype ProductSelectors = ProductSelectors(
    name: string,
    priceContainer: string,
    link: string,
    image: string,
    currentPrice: string,
    originalPrice: string)

  /** `urllib.parse.urljoin(base, href)`, which is not part of this model. */
  type UrlJoin = (string, string) -> string

  /**
   * `parse_product`: a product dict, or None when a required element is
   * missing, the link is empty, or building the dict raises (an image
   * element without `src`).
   */
  function ParseProduct(sel: ProductSelectors, item: Element, baseUrl: string, join: UrlJoin): (r: Option<Record>)
    ensures r.Some? ==> "price" in r.value && r.value["price"].Float?
    ensures r.Some? ==> "original_price" in r.value && r.value["original_price"].Float?
    ensures r.Some? ==> "link" in r.value && r.value["link"].Str? && r.value["link"].s != []
  {
    var name := SelectOne(item, sel.name);
    var container := SelectOne(item, sel.priceContainer);
    var link := SelectOne(item, sel.link);
    var image := SelectOne(item, sel.image);
    if name.None? || container.None? || link.None? then None
    else
      var current := SelectOne(container.value, sel.currentPrice);
      var price := if current.Some? then ParsePrice(current.value.text) else ParsePrice(container.value.text);
      var original := SelectOne(container.value, sel.originalPrice);
      var originalPrice := if original.Some? then ParsePrice(original.value.text) else price;
      var href := AttrOr(link.value, "href");
      var productLink := if href != [] then join(baseUrl, href) else [];
      if productLink == [] then None
      else if image.Some? && Attr(image.value, "src").None? then None
      else
        var imageUrl := if image.Some? then Str(Attr(image.value, "src").value) else Null;
        Some(ProductDict(name.value.text, price, originalPrice, productLink, imageUrl))
  }

  /** The dict `parse_product` returns, with `product_id` only when the link ends in `/<id>.html`. */
  function ProductDict(name: string, price: Value, originalPrice: Value, link: string, imageUrl: Value): (r: Record)
    ensures "name" in r && r["name"] == Str(name)
    ensures "price" in r && r["price"] == price
    ensures "original_price" in r && r["original_price"] == originalPrice
    ensures "link" in r && r["link"] == Str(link)
    ensures "image_url" in r && r["image_url"] == imageUrl
    ensures "product_id" in r <==> HtmlPageId(link).Some?
    ensures "product_id" in r ==> r["product_id"] == Str(HtmlPageId(link).value)
  {
    var product := map[
      "name" := Str(name),
      "price" := price,
      "original_price" := originalPrice,
      "link" := Str(link),
      "image_url" := imageUrl];
    match HtmlPageId(link)
    case Some(id) => product["product_id" := Str(id)]
    case None => product
  }

  /**
   * A product is returned exactly when the name, price-container and link
   * elements exist, the link has a non-empty `href` that joins to a
   * non-empty URL, and an image element, if any, has a `src`.
   */
  lemma ProductPresent(sel: ProductSelectors, item: Element, baseUrl: string, join: UrlJoin)
    ensures ParseProduct(sel, item, baseUrl, join).Some? <==>
      && SelectOne(item, sel.name).Some?
      && SelectOne(item, sel.priceContainer).Some?
      && SelectOne(item, sel.link).Some?
      && AttrOr(SelectOne(item, sel.link).value, "href") != []
      && join(baseUrl, AttrOr(SelectOne(item, sel.link).value, "href")) != []
      && (SelectOne(item, sel.image).Some? ==> "src" in SelectOne(item, sel.image).value.attrs)
  {
  }

  /**
   * The fields of a returned product, read off the item: the name's text;
   * the price parsed from the current-price element, or from the whole
   * container's text when there is none; the original price parsed from
   * its element, or else the price; the joined link; the image's `src`,
   * or None without an image element.
   */
  lemma ProductFields(sel: ProductSelectors, item: Element, baseUrl: string, join: UrlJoin)
    requires ParseProduct(sel, item, baseUrl, join).Some?
    ensures var p := ParseProduct(sel, item, baseUrl, join).value;
      var container := SelectOne(item, sel.priceContainer).value;
      var current := SelectOne(container, sel.currentPrice);
      var original := SelectOne(container, sel.originalPrice);
      var image := SelectOne(item, sel.image);
      && p["name"] == Str(SelectOne(item, sel.name).value.text)
      && p["price"] == ParsePrice(if current.Some? then current.value.text else container.text)
      && p["original_price"] == (if original.Some? then ParsePrice(original.value.text) else p["price"])
      && p["link"] == Str(join(baseUrl, AttrOr(SelectOne(item, sel.link).value, "href")))
      && p["image_url"] == (if image.Some? then Str(image.value.attrs["src"]) else Null)
  {
  }

  /**
   * The dict holds `product_id` exactly when the joined link ends in
   * `/<id>.html`, and then it is that `<id>`; a link `<prefix>/<id>.html`
   * always yields it.
   */
  lemma ProductIdFromLink(sel: ProductSelectors, item: Element, baseUrl: string, join: UrlJoin, prefix: string, id: string)
    requires ParseProduct(sel, item, baseUrl, join).Some?
    ensures var p := ParseProduct(sel, item, baseUrl, join).value;
      var link := p["link"].s;
      && ("product_id" in p <==> HtmlPageId(link).Some?)
      && ("product_id" in p ==> p["product_id"] == Str(HtmlPageId(link).value))
    ensures var p := ParseProduct(sel, item, baseUrl, join).value;
      id != [] && Lacks(id, '/') && p["link"].s == prefix + "/" + id + ".html" ==>
      "product_id" in p && p["product_id"] == Str(id)
  {
    var p := ParseProduct(sel, item, baseUrl, join).value;
    if id != [] && Lacks(id, '/') && p["link"].s == prefix + "/" + id + ".html" {
      HtmlPageIdOf(prefix, id);
    }
  }

  /** The `site_config` selectors `parse_product_details` reads. */
  datatype DetailSelectors = DetailSelectors(
    info: string,
    description: string,
    rating: string,
    reviewCount: string,
    inStock: string)

  /** The `.spec-line` labels, with `:` removed, and the fields they set. */
  const SpecTable: seq<(string, string)> :=
    [("Merk", "brand"), ("Land", "country"), ("Regio", "region"),
     ("Alcohol", "abv"), ("Inhoud", "volume"), ("Type", "category")]

  /** The rule for one `.spec-line`: first and last `.spec-title` cells, the key without `:`. */
  function SpecRule(): RowRule
  {
    LabelRule(".spec-title:first-child", ".spec-title:last-child", true, SpecTable)
  }

  /** The `.spec-line` rows of the specs table; none when there is no table. */
  function SpecLines(sel: DetailSelectors, soup: Element): seq<Element>
  {
    match SelectOne(soup, sel.info)
    case None => []
    case Some(table) => Select(table, ".spec-line")
  }

  /** `'vandaag verzonden'` ("shipped today") in the lower-cased stock text. */
  predicate ShipsToday(e: Option<Element>)
  {
    e.Some? && Contains(Lower(e.value.text), "vandaag verzonden")
  }

  /** The spec fields, from an empty dict. */
  function SpecDetails(sel: DetailSelectors, soup: Element): Record
  {
    TableUpTo(SpecLines(sel, soup), SpecRule(), map[])
  }

  /** `rating` is the count of filled stars, as a numeral, when there is a rating element. */
  function WithRating(rating: Option<Element>, d: Record): Record
  {
    match rating
    case None => d
    case Some(e) => d["rating" := Str(NatToString(|Select(e, "i.fa-star:not(.o)")|))]
  }

  /** `num_reviews` is the first digit run of the review element's text, when there is one. */
  function WithReviews(reviews: Option<Element>, d: Record): Record
  {
    match reviews
    case None => d
    case Some(e) =>
      match FirstRun(e.text, IsDigit)
      case None => d
      case Some(count) => d["num_reviews" := Str(count)]
  }

  /** `in_stock` is always set. */
  function WithStock(inStock: Option<Element>, d: Record): Record
  {
    d["in_stock" := Str(if ShipsToday(inStock) then "Yes" else "No")]
  }

  /** The details dict `parse_product_details` builds from a parsed page. */
  function Details(sel: DetailSelectors, soup: Element): Record
  {
    var described := WithDescription(SelectOne(soup, sel.description), SpecDetails(sel, soup));
    var rated := WithRating(SelectOne(soup, sel.rating), described);
    var reviewed := WithReviews(SelectOne(soup, sel.reviewCount), rated);
    WithStock(SelectOne(soup, sel.inStock), reviewed)
  }

  /** `parse_product_details`: the spec-table loop, then the page fields. */
  method ParseProductDetails(sel: DetailSelectors, soup: Element) returns (details: Record)
    ensures details == Details(sel, soup)
  {
    details := map[];
    var specsTable := SelectOne(soup, sel.info);
    if specsTable.Some? {
      details := FillTable(Select(specsTable.value, ".spec-line"), SpecRule(), details);
    }
    details := AddDescription(SelectOne(soup, sel.description), details);
    details := AddRating(SelectOne(soup, sel.rating), details);
    details := AddReviews(SelectOne(soup, sel.reviewCount), details);
    details := AddStock(SelectOne(soup, sel.inStock), details);
  }

  /** Sets `rating` to the number of filled stars, if there is a rating element. */
  method AddRating(ratingScore: Option<Element>, d: Record) returns (details: Record)
    ensures details == WithRating(ratingScore, d)
  {
    details := d;
    if ratingScore.Some? {
      var filledStars := Select(ratingScore.value, "i.fa-star:not(.o)");
      details := details["rating" := Str(NatToString(|filledStars|))];
    }
  }

  /** Sets `num_reviews` to the first digit run of the review text, if there is one. */
  method AddReviews(reviewCount: Option<Element>, d: Record) returns (details: Record)
    ensures details == WithReviews(reviewCount, d)
  {
    details := d;
    if reviewCount.Some? {
      var count := FirstRun(reviewCount.value.text, IsDigit);
      if count.Some? {
        details := details["num_reviews" := Str(count.value)];
      }
    }
  }

  /** Sets `in_stock` to `Yes` or `No`. */
  method AddStock(inStock: Option<Element>, d: Record) returns (details: Record)
    ensures details == WithStock(inStock, d)
  {
    details := d;
    if ShipsToday(inStock) {
      details := details["in_stock" := Str("Yes")];
    } else {
      details := details["in_stock" := Str("No")];
    }
  }

  /** `in_stock` is always set; it is `Yes` exactly when the stock element says "vandaag verzonden", in any case. */
  lemma InStockAlwaysSet(sel: DetailSelectors, soup: Element)
    ensures var d := Details(sel, soup);
      && "in_stock" in d
      && (d["in_stock"] == Str("Yes") || d["in_stock"] == Str("No"))
      && (d["in_stock"] == Str("Yes") <==>
          SelectOne(soup, sel.inStock).Some? && Contains(Lower(SelectOne(soup, sel.inStock).value.text), "vandaag verzonden"))
  {
  }

  /** The page fields leave every other key of the spec dict as it was. */
  lemma PageFieldsKeep(sel: DetailSelectors, soup: Element, k: string)
    requires k !in {"description", "rating", "num_reviews", "in_stock"}
    ensures var d, specs := Details(sel, soup), SpecDetails(sel, soup);
      (k in d <==> k in specs) && (k in d ==> d[k] == specs[k])
  {
    var specs := SpecDetails(sel, soup);
    var described := WithDescription(SelectOne(soup, sel.description), specs);
    assert (k in described <==> k in specs) && (k in described ==> described[k] == specs[k]);
    var rated := WithRating(SelectOne(soup, sel.rating), described);
    assert (k in rated <==> k in described) && (k in rated ==> rated[k] == described[k]);
    var reviewed := WithReviews(SelectOne(soup, sel.reviewCount), rated);
    assert (k in reviewed <==> k in rated) && (k in reviewed ==> reviewed[k] == rated[k]);
  }

  /**
   * A spec field holds the value of the last `.spec-line` whose label sets
   * it (the `abv` one without `%`), and is absent when no line does.
   */
  lemma SpecField(sel: DetailSelectors, soup: Element, k: string)
    requires k in {"brand", "country", "region", "abv", "volume", "category"}
    ensures var d := Details(sel, soup);
      var lines := SpecLines(sel, soup);
      var j := LastSetting(lines, SpecRule(), k);
      && (j >= 0 ==> k in d && d[k] == SpecRule()(lines[j]).value.1)
      && (j < 0 ==> k !in d)
  {
    TableField(SpecLines(sel, soup), SpecRule(), map[], k);
    PageFieldsKeep(sel, soup, k);
  }

  /** The spec table only sets the six fields its labels name. */
  lemma SpecKeys(sel: DetailSelectors, soup: Element, k: string)
    requires k in SpecDetails(sel, soup)
    ensures k in {"brand", "country", "region", "abv", "volume", "category"}
  {
    var lines := SpecLines(sel, soup);
    TableKeys(lines, SpecRule(), map[], k);
    var j :| 0 <= j < |lines| && Sets(SpecRule(), lines[j], k);
    var row := lines[j];
    var setting := LabelSetting(".spec-title:first-child", ".spec-title:last-child", true, SpecTable, row);
    assert SpecRule()(row) == setting;
    var key := KeyLabel(SelectOne(row, ".spec-title:first-child").value, true);
    SpecTableFields(key, k);
  }

  /** The fields the spec labels name. */
  lemma SpecTableFields(key: string, k: string)
    requires (key, k) in SpecTable
    ensures k in {"brand", "country", "region", "abv", "volume", "category"}
  {
  }

  /** Only the six spec fields and the four page fields can appear in the details. */
  lemma DetailKeys(sel: DetailSelectors, soup: Element, k: string)
    requires k in Details(sel, soup)
    ensures k in {"brand", "country", "region", "abv", "volume", "category",
                  "description", "rating", "num_reviews", "in_stock"}
  {
    if k !in {"description", "rating", "num_reviews", "in_stock"} {
      SpecKeys(sel, soup, k);
    }
  }

  /**
   * `rating` is present exactly when the rating element is, and it is the
   * decimal numeral of the number of filled stars: reading it back gives
   * that count.
   */
  lemma RatingCountsStars(sel: DetailSelectors, soup: Element)
    ensures var d := Details(sel, soup);
      var rating := SelectOne(soup, sel.rating);
      && ("rating" in d <==> rating.Some?)
      && (rating.Some? ==>
            d["rating"].Str? && AllDigits(d["rating"].s) && d["rating"].s != [] &&
            DigitsValue(d["rating"].s) == |Select(rating.value, "i.fa-star:not(.o)")|)
  {
    var rating := SelectOne(soup, sel.rating);
    if rating.Some? {
      NatToStringRoundTrip(|Select(rating.value, "i.fa-star:not(.o)")|);
    }
    if "rating" in SpecDetails(sel, soup) {
      SpecKeys(sel, soup, "rating");
    }
  }

  /**
   * `num_reviews` is present exactly when the review element's text holds a
   * digit, and it is a non-empty run of digits.
   */
  lemma ReviewsAreDigits(sel: DetailSelectors, soup: Element)
    ensures var d := Details(sel, soup);
      var reviews := SelectOne(soup, sel.reviewCount);
      && ("num_reviews" in d <==> reviews.Some? && exists j :: 0 <= j < |reviews.value.text| && IsDigit(reviews.value.text[j]))
      && ("num_reviews" in d ==> d["num_reviews"].Str? && d["num_reviews"].s != [] && AllDigits(d["num_reviews"].s))
  {
    if "num_reviews" in SpecDetails(sel, soup) {
      SpecKeys(sel, soup, "num_reviews");
    }
    var reviews := SelectOne(soup, sel.reviewCount);
    if reviews.Some? {
      FirstRunFound(reviews.value.text, IsDigit);
      if FirstRun(reviews.value.text, IsDigit).Some? {
        FirstRunMaximal(reviews.value.text, IsDigit);
      }
    }
  }
}

=== FILE: details.dfy ===
/**
 * The detail-table loop shared by the site scrapers' `parse_product_details`
 * (clubwhisky_nl_scraper.py, whisky_nl_scraper.py, drankdozijn_scraper.py,
 * heinemann_shop_scraper.py): for each row of the table, in document order,
 * a site-specific rule picks the field the row sets, if any, and the value
 * it stores there; a later row setting the same field overwrites it.
 */
module DetailTable {
  import opened Text
  import opened Records

  /** What one table row sets: a field and its value, or nothing. */
  type RowRule = Element -> Option<(string, Value)>

  /** The details after the first `|rows|` rows, starting from `acc`. */
  function TableUpTo(rows: seq<Element>, rule: RowRule, acc: Record): Record
  {
    if rows == [] then acc
    else
      var before := TableUpTo(rows[..|rows| - 1], rule, acc);
      match rule(rows[|rows| - 1])
      case None => before
      case Some(kv) => before[kv.0 := kv.1]
  }

  /** `description` is the description element's text, when there is one. */
  function WithDescription(description: Option<Element>, d: Record): (r: Record)
    ensures r.Keys == d.Keys + (if description.Some? then {"description"} else {})
    ensures description.Some? ==> r["description"] == Str(description.value.text)
    ensures forall k :: k in d && k != "description" ==> r[k] == d[k]
  {
    match description
    case None => d
    case Some(e) => d["description" := Str(e.text)]
  }

  /**
   * Sets `description` from the description element, if any: the step every
   * site scraper with a description element runs on its details dict.
   */
  method AddDescription(description: Option<Element>, d: Record) returns (details: Record)
    ensures details == WithDescription(description, d)
  {
    details := d;
    if description.Some? {
      details := details["description" := Str(description.value.text)];
    }
  }

  /** The `for row in rows:` loop, updating `details` in place. */
  method FillTable(rows: seq<Element>, rule: RowRule, acc: Record) returns (details: Record)
    ensures details == TableUpTo(rows, rule, acc)
  {
    details := acc;
    var i := 0;
    while i < |rows|
      invariant 0 <= i <= |rows|
      invariant details == TableUpTo(rows[..i], rule, acc)
    {
      assert rows[..i + 1][..i] == rows[..i];
      var setting := rule(rows[i]);
      if setting.Some? {
        details := details[setting.value.0 := setting.value.1];
      }
      i := i + 1;
    }
    assert rows[..i] == rows;
  }

  /** Row `j` sets field `k`. */
  predicate Sets(rule: RowRule, row: Element, k: string)
  {
    rule(row).Some? && rule(row).value.0 == k
  }

  /** The index of the last row that sets `k`, or -1 when none does. */
  function LastSetting(rows: seq<Element>, rule: RowRule, k: string): (j: int)
    ensures -1 <= j < |rows|
    ensures j >= 0 ==> Sets(rule, rows[j], k)
    ensures forall i :: j < i < |rows| ==> !Sets(rule, rows[i], k)
  {
    if rows == [] then -1
    else if Sets(rule, rows[|rows| - 1], k) then |rows| - 1
    else LastSetting(rows[..|rows| - 1], rule, k)
  }

  /**
   * A field holds the value of the last row that sets it; a field no row
   * sets keeps what it had before the table, present or absent.
   */
  lemma {:induction false} TableField(rows: seq<Element>, rule: RowRule, acc: Record, k: string)
    ensures var d := TableUpTo(rows, rule, acc);
      var j := LastSetting(rows, rule, k);
      && (j >= 0 ==> k in d && d[k] == rule(rows[j]).value.1)
      && (j < 0 ==> (k in d <==> k in acc) && (k in acc ==> d[k] == acc[k]))
  {
    if rows != [] {
      var init := rows[..|rows| - 1];
      TableField(init, rule, acc, k);
      if !Sets(rule, rows[|rows| - 1], k) {
        assert LastSetting(rows, rule, k) == LastSetting(init, rule, k);
        var j := LastSetting(init, rule, k);
        assert j >= 0 ==> init[j] == rows[j];
      }
    }
  }

  /** Only the fields some row sets are added: the keys are those of `acc` and the rows' fields. */
  lemma {:induction false} TableKeys(rows: seq<Element>, rule: RowRule, acc: Record, k: string)
    requires k in TableUpTo(rows, rule, acc)
    ensures k in acc || exists j :: 0 <= j < |rows| && Sets(rule, rows[j], k)
  {
    if rows != [] {
      var init := rows[..|rows| - 1];
      if !Sets(rule, rows[|rows| - 1], k) {
        TableKeys(init, rule, acc, k);
        if !(k in acc) {
          var j :| 0 <= j < |init| && Sets(rule, init[j], k);
          assert init[j] == rows[j];
        }
      }
    }
  }

  /**
   * An `if key_text == ...: elif ...` chain as a table of (label, field)
   * pairs: the field of the first entry whose label is `key`.
   */
  function FieldFor(table: seq<(string, string)>, key: string): (f: Option<string>)
    ensures f.None? <==> forall i :: 0 <= i < |table| ==> table[i].0 != key
    ensures f.Some? ==> (key, f.value) in table
  {
    if table == [] then None
    else if table[0].0 == key then Some(table[0].1)
    else FieldFor(table[1..], key)
  }

  predicate NotPercent(c: char) { c != '%' }

  /** `value_text.replace('%', '').strip()`, what the `abv` branches store. */
  function AbvText(text: string): (r: string)
    ensures StrippedFrom(ReplaceAll(text, "%", ""), r)
    ensures Lacks(r, '%')
  {
    RemoveAll(text, '%', NotPercent);
    StripStripped(Filter(text, NotPercent));
    StripLacks(Filter(text, NotPercent), '%');
    Strip(Filter(text, NotPercent))
  }

  /** The value a labelled row stores under `field`: the `abv` cell without `%`, any other cell as it is. */
  function CellValue(field: string, text: string): Value
  {
    if field == "abv" then Str(AbvText(text)) else Str(text)
  }

  predicate NotColon(c: char) { c != ':' }

  /** The key cell's text, with `:` removed where the site does `.replace(':', '')`. */
  function KeyLabel(key: Element, dropColon: bool): (text: string)
    ensures dropColon ==> text == ReplaceAll(key.text, ":", "") && Lacks(text, ':')
    ensures !dropColon ==> text == key.text
  {
    if dropColon then
      RemoveAll(key.text, ':', NotColon);
      Filter(key.text, NotColon)
    else key.text
  }

  /**
   * One row of an exact-match key table: the key and value cells are found
   * with `select_one`; when both exist and the key's label is in `table`,
   * the row sets that field.
   */
  function LabelSetting(keySel: string, valueSel: string, dropColon: bool, table: seq<(string, string)>, row: Element): (r: Option<(string, Value)>)
    ensures r.Some? <==>
      SelectOne(row, keySel).Some? && SelectOne(row, valueSel).Some? &&
      FieldFor(table, KeyLabel(SelectOne(row, keySel).value, dropColon)).Some?
    ensures r.Some? ==> (KeyLabel(SelectOne(row, keySel).value, dropColon), r.value.0) in table
    ensures r.Some? && r.value.0 == "abv" ==> r.value.1 == Str(AbvText(SelectOne(row, valueSel).value.text))
    ensures r.Some? && r.value.0 == "abv" ==> r.value.1.Str? && Lacks(r.value.1.s, '%')
    ensures r.Some? && r.value.0 != "abv" ==> r.value.1 == Str(SelectOne(row, valueSel).value.text)
  {
    match SelectOne(row, keySel)
    case None => None
    case Some(key) =>
      match SelectOne(row, valueSel)
      case None => None
      case Some(value) =>
        match FieldFor(table, KeyLabel(key, dropColon))
        case None => None
        case Some(field) => Some((field, CellValue(field, value.text)))
  }

  /** The labelled-row loop as a rule for `TableUpTo`. */
  function LabelRule(keySel: string, valueSel: string, dropColon: bool, table: seq<(string, string)>): RowRule
  {
    row => LabelSetting(keySel, valueSel, dropColon, table, row)
  }
}

=== FILE: drankdozijn.dfy ===
/**
 * drankdozijn_scraper.py: the DrankDozijn shop. The price is kept as a
 * string of digits in which every comma has become a dot; the link is the
 * base URL followed by the `href`; the detail table sets only the volume
 * and the alcohol percentage.
 */
module DrankDozijn {
  import opened Text
  import opened Records
  import opened DetailTable

  /** What `re.sub(r'[^\d,]', '', s)` keeps. */
  predicate DigitOrComma(c: char) { IsDigit(c) || c == ',' }

  /** `_parse_price`: digits and commas kept, every comma turned into a dot; a string, not a number. */
  function ParsePrice(s: string): string
  {
    ReplaceChar(Filter(s, DigitOrComma), ',', '.')
  }

  /**
   * The price holds only digits and dots, one dot per comma of the input,
   * and the input's digits in their order.
   */
  lemma {:induction false} PriceShape(s: string)
    ensures var r := ParsePrice(s);
      && (forall i :: 0 <= i < |r| ==> IsDigit(r[i]) || r[i] == '.')
      && Count(r, '.') == Count(s, ',')
      && Filter(r, IsDigit) == Filter(s, IsDigit)
    decreases |s|
  {
    if s != [] {
      PriceShape(s[1..]);
      assert s == [s[0]] + s[1..];
      var kept := if DigitOrComma(s[0]) then [s[0]] else [];
      assert Filter(s, DigitOrComma) == kept + Filter(s[1..], DigitOrComma);
      ReplaceCharSplit(kept, Filter(s[1..], DigitOrComma), ',', '.');
      var head := ReplaceChar(kept, ',', '.');
      var tail := ParsePrice(s[1..]);
      CountSplit(head, tail, '.');
      FilterSplit(head, tail, IsDigit);
    }
  }

  /** A European price `a.b,c` becomes `ab.c`: the thousands dot is dropped and the decimal comma becomes a dot. */
  lemma EuropeanPrice(a: string, b: string, c: string)
    requires AllDigits(a) && AllDigits(b) && AllDigits(c)
    ensures ParsePrice(a + "." + b + "," + c) == a + b + "." + c
  {
    assert Filter(a + ['.'] + b + [','] + c, DigitOrComma) == (a + b) + [','] + c by {
      FilterAroundSeparators(a, '.', b, ',', c, DigitOrComma);
    }
    CommaToDot(a + b, c);
  }

  /** A dot is never a decimal point: `a.b` becomes `ab`, so "12.50" reads as "1250". */
  lemma DotDropped(a: string, b: string)
    requires AllDigits(a) && AllDigits(b)
    ensures ParsePrice(a + "." + b) == a + b
  {
    var t := a + b;
    assert Filter(a + ['.'] + b, DigitOrComma) == t by {
      FilterSplit(a + ['.'], b, DigitOrComma);
      FilterSplit(a, ['.'], DigitOrComma);
      FilterKeepsAll(a, DigitOrComma);
      FilterKeepsAll(b, DigitOrComma);
      assert Filter(['.'], DigitOrComma) == [];
    }
    assert ReplaceChar(t, ',', '.') == t by {
      assert forall i :: 0 <= i < |t| ==> ReplaceChar(t, ',', '.')[i] == t[i];
    }
  }

  /** The `site_config` selectors `parse_product` reads. */
  datatype ProductSelectors = ProductSelectors(name: string, price: string, link: string)

  /**
   * `parse_product`: `name`, `price` and `link` (the base URL and the
   * `href` concatenated), or None when an element is missing or the link
   * has no `href` (KeyError).
   */
  function ParseProduct(sel: ProductSelectors, item: Element, baseUrl: string): (r: Option<Record>)
    ensures r.Some? ==> r.value.Keys == {"name", "price", "link"}
    ensures r.Some? ==> r.value["link"].Str? && StartsWith(r.value["link"].s, baseUrl)
  {
    var name := SelectOne(item, sel.name);
    var price := SelectOne(item, sel.price);
    var link := SelectOne(item, sel.link);
    if name.None? || price.None? || link.None? || Attr(link.value, "href").None? then None
    else
      var url := baseUrl + Attr(link.value, "href").value;
      assert url[..|baseUrl|] == baseUrl;
      Some(map[
        "name" := Str(name.value.text),
        "price" := Str(ParsePrice(price.value.text)),
        "link" := Str(url)])
  }

  /** A product is returned exactly when the three elements exist and the link has an `href`; its link ends with that `href`. */
  lemma ProductPresent(sel: ProductSelectors, item: Element, baseUrl: string)
    ensures var r := ParseProduct(sel, item, baseUrl);
      && (r.Some? <==>
            SelectOne(item, sel.name).Some? && SelectOne(item, sel.price).Some? &&
            SelectOne(item, sel.link).Some? && "href" in SelectOne(item, sel.link).value.attrs)
      && (r.Some? ==> r.value["link"].s[|baseUrl|..] == SelectOne(item, sel.link).value.attrs["href"])
  {
    var r := ParseProduct(sel, item, baseUrl);
    if r.Some? {
      var href := SelectOne(item, sel.link).value.attrs["href"];
      assert (baseUrl + href)[|baseUrl|..] == href;
    }
  }

  /**
   * The fields of a returned product: the name's text, the price element's
   * text through `_parse_price` (kept as a string), and the base URL
   * followed by the link's `href`.
   */
  lemma ProductFields(sel: ProductSelectors, item: Element, baseUrl: string)
    requires ParseProduct(sel, item, baseUrl).Some?
    ensures var p := ParseProduct(sel, item, baseUrl).value;
      && p["name"] == Str(SelectOne(item, sel.name).value.text)
      && p["price"] == Str(ParsePrice(SelectOne(item, sel.price).value.text))
      && p["link"] == Str(baseUrl + SelectOne(item, sel.link).value.attrs["href"])
  {
  }

  /** The `.key` texts and the fields they set. */
  const InfoTable: seq<(string, string)> := [("Inhoud", "volume"), ("Alcoholpercentage", "abv")]

  /** The rule for one `tr`: `.key` and `.value` cells. */
  function InfoRule(): RowRule
  {
    LabelRule(".key", ".value", false, InfoTable)
  }

  /** The `tr` rows of the specs table; none when there is no table. */
  function InfoRows(infoSelector: string, soup: Element): seq<Element>
  {
    match SelectOne(soup, infoSelector)
    case None => []
    case Some(table) => Select(table, "tr")
  }

  /** The details dict `parse_product_details` builds. */
  function Details(infoSelector: string, soup: Element): Record
  {
    TableUpTo(InfoRows(infoSelector, soup), InfoRule(), map[])
  }

  /** `parse_product_details`: the row loop, from an empty dict. */
  method ParseProductDetails(infoSelector: string, soup: Element) returns (details: Record)
    ensures details == Details(infoSelector, soup)
  {
    details := map[];
    var specsTable := SelectOne(soup, infoSelector);
    if specsTable.Some? {
      details := FillTable(Select(specsTable.value, "tr"), InfoRule(), details);
    }
  }

  /** The fields the table labels name. */
  lemma InfoTableFields(key: string, k: string)
    requires (key, k) in InfoTable
    ensures k == "volume" || k == "abv"
  {
  }

  /** The details hold at most `volume` and `abv`, and nothing at all without a specs table. */
  lemma DetailKeys(infoSelector: string, soup: Element, k: string)
    requires k in Details(infoSelector, soup)
    ensures k == "volume" || k == "abv"
    ensures SelectOne(soup, infoSelector).Some?
  {
    var rows := InfoRows(infoSelector, soup);
    TableKeys(rows, InfoRule(), map[], k);
    var j :| 0 <= j < |rows| && Sets(InfoRule(), rows[j], k);
    var row := rows[j];
    assert InfoRule()(row) == LabelSetting(".key", ".value", false, InfoTable, row);
    InfoTableFields(row.select[".key"][0].text, k);
  }

  /**
   * `volume` and `abv` hold the value of the last row whose label sets them
   * (`abv` without `%`), and are absent when no row does.
   */
  lemma DetailField(infoSelector: string, soup: Element, k: string)
    ensures var d := Details(infoSelector, soup);
      var rows := InfoRows(infoSelector, soup);
      var j := LastSetting(rows, InfoRule(), k);
      && (j >= 0 ==> k in d && d[k] == InfoRule()(rows[j]).value.1)
      && (j < 0 ==> k !in d)
  {
    TableField(InfoRows(infoSelector, soup), InfoRule(), map[], k);
  }
}

=== FILE: enrichment.dfy ===
/**
 * The detail step between parsing a listing page and saving it:
 * `__fetch_product_details` / `__fetch_and_parse_product` in base_scraper.py
 * and beverage_scraper.py, `_fetch_product_details` / `_fetch_and_parse_product`
 * in web_scraper.py. Each product's detail page is fetched through its
 * `link`; a non-empty detail dict is merged into the product with
 * `dict.update`, which is Dafny's right-biased map union `product + details`.
 * The base class also stamps `scraped_at`.
 *
 * The products are processed concurrently under a semaphore and gathered in
 * order; the model processes them one after the other, which gives the same
 * list. Fetching and parsing a detail page is a parameter of the model.
 */
module Enrichment {
  import opened Records

  /**
   * `__fetch_single_product_details(link)`: no content (None), the dict that
   * `parse_product_details` returned, or an exception from it.
   */
  datatype DetailOutcome = NoDetails | Details(details: Record) | DetailsRaised

  /** The base class stamps `scraped_at` with the clock (the i-th product of the batch reads `now(i)`). */
  datatype EnrichMode = Plain | StampTime(now: nat -> string)

  /** One product through `__fetch_and_parse_product`; None where it raises. */
  function EnrichOne(mode: EnrichMode, fetchDetails: bool, product: Record, fetch: Value -> DetailOutcome, i: nat): Option<Record>
  {
    var merged :=
      if !fetchDetails then Some(product)
      else if "link" !in product then None
      else match fetch(product["link"])
        case NoDetails => Some(product)
        case DetailsRaised => None
        case Details(d) => if d != map[] then Some(product + d) else Some(product);
    match merged
    case None => None
    case Some(p) =>
      match mode
      case Plain => Some(p)
      case StampTime(now) => Some(p["scraped_at" := Str(now(i))])
  }

  /** `asyncio.gather` over the batch from position `i` on: every result in order, or the exception. */
  function EnrichFrom(mode: EnrichMode, fetchDetails: bool, products: seq<Record>, fetch: Value -> DetailOutcome, i: nat): Option<seq<Record>>
    requires i <= |products|
    decreases |products| - i
  {
    if i == |products| then Some([])
    else
      match EnrichOne(mode, fetchDetails, products[i], fetch, i)
      case None => None
      case Some(p) => Glue([p], EnrichFrom(mode, fetchDetails, products, fetch, i + 1))
  }

  /** `done` followed by the rest of the batch, unless the rest raised. */
  function Glue(done: seq<Record>, rest: Option<seq<Record>>): Option<seq<Record>>
  {
    if rest.Some? then Some(done + rest.value) else None
  }

  lemma GlueStep(done: seq<Record>, p: Record, rest: Option<seq<Record>>)
    ensures Glue(done, Glue([p], rest)) == Glue(done + [p], rest)
  {
    if rest.Some? {
      assert done + ([p] + rest.value) == (done + [p]) + rest.value;
    }
  }

  function Enrich(mode: EnrichMode, fetchDetails: bool, products: seq<Record>, fetch: Value -> DetailOutcome): Option<seq<Record>>
  {
    EnrichFrom(mode, fetchDetails, products, fetch, 0)
  }

  /** The detail step run one product at a time. */
  method FetchProductDetails(mode: EnrichMode, fetchDetails: bool, products: seq<Record>, fetch: Value -> DetailOutcome)
    returns (detailed: Option<seq<Record>>)
    ensures detailed == Enrich(mode, fetchDetails, products, fetch)
  {
    var done: seq<Record> := [];
    var i := 0;
    var all := EnrichFrom(mode, fetchDetails, products, fetch, 0);
    if all.Some? {
      assert done + all.value == all.value;
    }
    while i < |products|
      invariant 0 <= i <= |products| && |done| == i
      invariant Enrich(mode, fetchDetails, products, fetch) == Glue(done, EnrichFrom(mode, fetchDetails, products, fetch, i))
    {
      var p := EnrichOne(mode, fetchDetails, products[i], fetch, i);
      if p.None? {
        return None;
      }
      GlueStep(done, p.value, EnrichFrom(mode, fetchDetails, products, fetch, i + 1));
      done := done + [p.value];
      i := i + 1;
    }
    assert done + [] == done;
    return Some(done);
  }

  /**
   * The detail step keeps the batch's length and order: the i-th result is
   * the i-th product enriched, and it fails exactly when one product's does.
   */
  lemma {:induction false} EnrichInOrder(mode: EnrichMode, fetchDetails: bool, products: seq<Record>, fetch: Value -> DetailOutcome, i: nat)
    requires i <= |products|
    ensures var out := EnrichFrom(mode, fetchDetails, products, fetch, i);
      && (out.Some? <==> forall j :: i <= j < |products| ==> EnrichOne(mode, fetchDetails, products[j], fetch, j).Some?)
      && (out.Some? ==>
            && |out.value| == |products| - i
            && forall j :: i <= j < |products| ==> Some(out.value[j - i]) == EnrichOne(mode, fetchDetails, products[j], fetch, j))
    decreases |products| - i
  {
    if i < |products| {
      EnrichInOrder(mode, fetchDetails, products, fetch, i + 1);
      var out := EnrichFrom(mode, fetchDetails, products, fetch, i);
      var first := EnrichOne(mode, fetchDetails, products[i], fetch, i);
      var rest := EnrichFrom(mode, fetchDetails, products, fetch, i + 1);
      assert out == if first.Some? && rest.Some? then Some([first.value] + rest.value) else None;
      if out.Some? {
        forall j | i < j < |products|
          ensures Some(out.value[j - i]) == EnrichOne(mode, fetchDetails, products[j], fetch, j)
        {
          assert out.value[j - i] == rest.value[j - (i + 1)];
        }
      }
    }
  }

  /**
   * What enrichment does to one product: with `fetch_details` false the
   * product is untouched; otherwise a non-empty detail dict overwrites the
   * same-named keys and adds the rest, and an empty one or no content leaves
   * the product as it was. The base class then sets `scraped_at` either way.
   */
  lemma EnrichOneMerge(mode: EnrichMode, fetchDetails: bool, product: Record, fetch: Value -> DetailOutcome, i: nat)
    requires EnrichOne(mode, fetchDetails, product, fetch, i).Some?
    ensures var r := EnrichOne(mode, fetchDetails, product, fetch, i).value;
      var base :=
        if fetchDetails && fetch(product["link"]).Details? && fetch(product["link"]).details != map[]
        then product + fetch(product["link"]).details else product;
      && (mode.Plain? ==> r == base)
      && (mode.StampTime? ==> r == base["scraped_at" := Str(mode.now(i))])
      && (!fetchDetails && mode.Plain? ==> r == product)
  {
  }

  /** With `fetch_details` false and no stamping the batch comes back unchanged. */
  lemma {:induction false} NoFetchUnchanged(products: seq<Record>, fetch: Value -> DetailOutcome, i: nat)
    requires i <= |products|
    ensures EnrichFrom(Plain, false, products, fetch, i) == Some(products[i..])
    decreases |products| - i
  {
    if i < |products| {
      NoFetchUnchanged(products, fetch, i + 1);
      assert EnrichOne(Plain, false, products[i], fetch, i) == Some(products[i]);
      assert products[i..] == [products[i]] + products[i + 1..];
    } else {
      assert products[i..] == [];
    }
  }

  /** A product without a `link` key makes the detail step raise when details are fetched. */
  lemma MissingLinkRaises(mode: EnrichMode, product: Record, fetch: Value -> DetailOutcome, i: nat)
    requires "link" !in product
    ensures EnrichOne(mode, true, product, fetch, i).None?
  {
  }
}

=== FILE: extraction.dfy ===
/**
 * Turning an HTML product item into a product dict, for the configuration-
 * driven scrapers: the field loops of `parse_product` (beverage_scraper.py),
 * `_parse_product` and `_parse_product_details` (web_scraper.py) and
 * `parse_product_details` (beverage_scraper.py), the name/price acceptance
 * rule, `_extract_product_id`, and `_parse_products`, which keeps the items
 * that parse.
 *
 * `apply_parser` is not part of this model: it is a parameter that maps a
 * field's configuration and raw text to a value, or to None where it raises.
 * A configured regular expression is likewise a parameter.
 */
module Extraction {
  import opened Text
  import opened Records

  /** One entry of the `fields` / `detail_fields` configuration mapping. */
  datatype FieldConfig = FieldConfig(
    field: string,
    selector: string,
    parser: string,
    pattern: Option<string>,
    attribute: Option<string>,
    required: bool)

  /** `apply_parser(raw_value, parser, field, pattern, base_url)`; None where it raises. */
  type ApplyParser = (FieldConfig, string) -> Option<Value>

  /** The field names of a configuration mapping are its keys, so they are distinct. */
  predicate DistinctFields(fields: seq<FieldConfig>)
  {
    forall i, j :: 0 <= i < j < |fields| ==> fields[i].field != fields[j].field
  }

  /** What a loop does with a required field whose selector matches nothing. */
  datatype MissingRule =
    | Abort    // `_parse_product` (web): return None at once
    | Omit     // `_parse_product_details` (web): leave the key out
    | SetNull  // the beverage loops have no `required`: the key maps to None

  /** The four field loops differ in whether they honour `attribute` and in the missing-required rule. */
  datatype FillMode = FillMode(useAttribute: bool, requiredMissing: MissingRule)

  const WebProduct := FillMode(true, Abort)
  const WebDetails := FillMode(false, Omit)
  const BeverageProduct := FillMode(true, SetNull)
  const BeverageDetails := FillMode(false, SetNull)

  /** The outcome of a field loop: the filled dict, an early `return None`, or an exception. */
  datatype Filled = Filled(record: Record) | Aborted | FillRaised

  /**
   * The raw value of a matched element: the configured attribute, stripped
   * (empty when absent), or else the element's stripped text.
   */
  function RawValue(mode: FillMode, f: FieldConfig, e: Element): (raw: string)
    ensures var byAttr := mode.useAttribute && f.attribute.Some? && f.attribute.value != [];
      && (!byAttr ==> raw == e.text)
      && (byAttr && f.attribute.value !in e.attrs ==> raw == [])
      && (byAttr ==> StrippedFrom(AttrOr(e, f.attribute.value), raw))
  {
    if mode.useAttribute && f.attribute.Some? && f.attribute.value != [] then
      StripStripped(AttrOr(e, f.attribute.value));
      Strip(AttrOr(e, f.attribute.value))
    else e.text
  }

  /** The field loop from field `i` on, with `acc` the dict built so far. */
  function FillFrom(mode: FillMode, fields: seq<FieldConfig>, e: Element, apply: ApplyParser, i: nat, acc: Record): Filled
    requires i <= |fields|
    decreases |fields| - i
  {
    if i == |fields| then Filled(acc)
    else
      var f := fields[i];
      match SelectOne(e, f.selector)
      case Some(el) =>
        (match apply(f, RawValue(mode, f, el))
         case None => FillRaised
         case Some(v) => FillFrom(mode, fields, e, apply, i + 1, acc[f.field := v]))
      case None =>
        if f.required && mode.requiredMissing == Abort then Aborted
        else if f.required && mode.requiredMissing == Omit then FillFrom(mode, fields, e, apply, i + 1, acc)
        else FillFrom(mode, fields, e, apply, i + 1, acc[f.field := Null])
  }

  function Fill(mode: FillMode, fields: seq<FieldConfig>, e: Element, apply: ApplyParser): Filled
  {
    FillFrom(mode, fields, e, apply, 0, map[])
  }

  /** The field loop as the scrapers run it: one field at a time, returning early on a missing required field. */
  method FillFields(mode: FillMode, fields: seq<FieldConfig>, e: Element, apply: ApplyParser) returns (out: Filled)
    ensures out == Fill(mode, fields, e, apply)
  {
    var product: Record := map[];
    var i := 0;
    while i < |fields|
      invariant 0 <= i <= |fields|
      invariant FillFrom(mode, fields, e, apply, i, product) == Fill(mode, fields, e, apply)
    {
      var f := fields[i];
      var element := SelectOne(e, f.selector);
      if element.Some? {
        var parsed := apply(f, RawValue(mode, f, element.value));
        if parsed.None? {
          return FillRaised;
        }
        product := product[f.field := parsed.value];
      } else if f.required && mode.requiredMissing == Abort {
        return Aborted;
      } else if !(f.required && mode.requiredMissing == Omit) {
        product := product[f.field := Null];
      }
      i := i + 1;
    }
    return Filled(product);
  }

  /**
   * What a completed loop holds for field `j`: the parsed value when its
   * selector matched; None when it did not, unless the field is required and
   * the loop omits such fields, in which case the key keeps its earlier state.
   * Keys no field names are as they were.
   */
  lemma {:induction false} FillFieldValue(mode: FillMode, fields: seq<FieldConfig>, e: Element, apply: ApplyParser, i: nat, acc: Record, j: nat)
    requires DistinctFields(fields)
    requires i <= j < |fields|
    ensures var out := FillFrom(mode, fields, e, apply, i, acc);
      var f := fields[j];
      out.Filled? ==>
        match SelectOne(e, f.selector)
        case Some(el) => apply(f, RawValue(mode, f, el)).Some? && f.field in out.record
          && out.record[f.field] == apply(f, RawValue(mode, f, el)).value
        case None =>
          if f.required && mode.requiredMissing == Omit then
            (f.field in out.record <==> f.field in acc) && (f.field in acc ==> out.record[f.field] == acc[f.field])
          else f.field in out.record && out.record[f.field] == Null
    decreases |fields| - i
  {
    var f := fields[i];
    var out := FillFrom(mode, fields, e, apply, i, acc);
    if out.Filled? {
      var next: Record :=
        match SelectOne(e, f.selector)
        case Some(el) => acc[f.field := apply(f, RawValue(mode, f, el)).value]
        case None => if f.required && mode.requiredMissing == Omit then acc else acc[f.field := Null];
      assert out == FillFrom(mode, fields, e, apply, i + 1, next);
      if j == i {
        if i + 1 < |fields| {
          FillUntouched(mode, fields, e, apply, i + 1, next, f.field);
        }
      } else {
        FillFieldValue(mode, fields, e, apply, i + 1, next, j);
      }
    }
  }

  /** A key that no field from `i` on names keeps its value through the loop. */
  lemma {:induction false} FillUntouched(mode: FillMode, fields: seq<FieldConfig>, e: Element, apply: ApplyParser, i: nat, acc: Record, k: string)
    requires i <= |fields|
    requires forall j :: i <= j < |fields| ==> fields[j].field != k
    ensures var out := FillFrom(mode, fields, e, apply, i, acc);
      out.Filled? ==> (k in out.record <==> k in acc) && (k in acc ==> out.record[k] == acc[k])
    decreases |fields| - i
  {
    if i < |fields| {
      var f := fields[i];
      match SelectOne(e, f.selector)
      case Some(el) =>
        if apply(f, RawValue(mode, f, el)).Some? {
          FillUntouched(mode, fields, e, apply, i + 1, acc[f.field := apply(f, RawValue(mode, f, el)).value], k);
        }
      case None =>
        if !(f.required && mode.requiredMissing == Abort) {
          if f.required && mode.requiredMissing == Omit {
            FillUntouched(mode, fields, e, apply, i + 1, acc, k);
          } else {
            FillUntouched(mode, fields, e, apply, i + 1, acc[f.field := Null], k);
          }
        }
    }
  }

  /** A loop that aborts on missing required fields never completes when one of them is missing. */
  lemma {:induction false} FillAborts(mode: FillMode, fields: seq<FieldConfig>, e: Element, apply: ApplyParser, i: nat, acc: Record, j: nat)
    requires mode.requiredMissing == Abort
    requires i <= j < |fields| && fields[j].required && SelectOne(e, fields[j].selector).None?
    ensures !FillFrom(mode, fields, e, apply, i, acc).Filled?
    decreases |fields| - i
  {
    if j != i {
      var f := fields[i];
      match SelectOne(e, f.selector)
      case Some(el) =>
        if apply(f, RawValue(mode, f, el)).Some? {
          FillAborts(mode, fields, e, apply, i + 1, acc[f.field := apply(f, RawValue(mode, f, el)).value], j);
        }
      case None =>
        if !f.required {
          FillAborts(mode, fields, e, apply, i + 1, acc[f.field := Null], j);
        }
    }
  }

  /** A loop that never aborts returns `Aborted` under no input. */
  lemma {:induction false} FillNeverAborts(mode: FillMode, fields: seq<FieldConfig>, e: Element, apply: ApplyParser, i: nat, acc: Record)
    requires mode.requiredMissing != Abort && i <= |fields|
    ensures !FillFrom(mode, fields, e, apply, i, acc).Aborted?
    decreases |fields| - i
  {
    if i < |fields| {
      var f := fields[i];
      match SelectOne(e, f.selector)
      case Some(el) =>
        if apply(f, RawValue(mode, f, el)).Some? {
          FillNeverAborts(mode, fields, e, apply, i + 1, acc[f.field := apply(f, RawValue(mode, f, el)).value]);
        }
      case None =>
        if f.required && mode.requiredMissing == Omit {
          FillNeverAborts(mode, fields, e, apply, i + 1, acc);
        } else {
          FillNeverAborts(mode, fields, e, apply, i + 1, acc[f.field := Null]);
        }
    }
  }

  /** `product if product.get('name') and product.get('price') else None`. */
  predicate Acceptable(r: Record)
  {
    Truthy(Get(r, "name")) && Truthy(Get(r, "price"))
  }

  /** What a `parse_product` call gives `_parse_products`: a dict, None, or an exception. */
  datatype Parse = Parsed(record: Record) | NoProduct | Raised

  /** `_parse_product` in web_scraper.py. An exception from `apply_parser` propagates. */
  function WebParseProduct(fields: seq<FieldConfig>, item: Element, apply: ApplyParser): (p: Parse)
    ensures p.Parsed? ==> Acceptable(p.record)
  {
    match Fill(WebProduct, fields, item, apply)
    case Filled(r) => if Acceptable(r) then Parsed(r) else NoProduct
    case Aborted => NoProduct
    case FillRaised => Raised
  }

  /** A required field whose selector matches nothing means no product, whatever the other fields hold. */
  lemma WebRequiredMissing(fields: seq<FieldConfig>, item: Element, apply: ApplyParser, j: nat)
    requires j < |fields| && fields[j].required && SelectOne(item, fields[j].selector).None?
    ensures !WebParseProduct(fields, item, apply).Parsed?
  {
    FillAborts(WebProduct, fields, item, apply, 0, map[], j);
  }

  /**
   * An accepted web product holds, for each field, the parsed value when its
   * selector matched and None when it did not.
   */
  lemma WebProductFields(fields: seq<FieldConfig>, item: Element, apply: ApplyParser, j: nat)
    requires DistinctFields(fields) && j < |fields|
    requires WebParseProduct(fields, item, apply).Parsed?
    ensures var r := WebParseProduct(fields, item, apply).record;
      var f := fields[j];
      f.field in r &&
      match SelectOne(item, f.selector)
      case Some(el) => apply(f, RawValue(WebProduct, f, el)) == Some(r[f.field])
      case None => r[f.field] == Null
  {
    FillFieldValue(WebProduct, fields, item, apply, 0, map[], j);
    var f := fields[j];
    if SelectOne(item, f.selector).None? && f.required {
      FillAborts(WebProduct, fields, item, apply, 0, map[], j);
    }
  }

  /** `_parse_product_details` (web) and `parse_product_details` (beverage): exceptions propagate. */
  function ParseDetails(mode: FillMode, fields: seq<FieldConfig>, soup: Element, apply: ApplyParser): (d: Option<Record>)
    requires mode == WebDetails || mode == BeverageDetails
  {
    match Fill(mode, fields, soup, apply)
    case Filled(r) => Some(r)
    case Aborted => None
    case FillRaised => None
  }

  /**
   * In the web detail dict a missing required field is absent, a missing
   * optional one maps to None, and a found one to its parsed value; the
   * beverage detail dict maps every missing field to None.
   */
  lemma DetailsFields(mode: FillMode, fields: seq<FieldConfig>, soup: Element, apply: ApplyParser, j: nat)
    requires mode == WebDetails || mode == BeverageDetails
    requires DistinctFields(fields) && j < |fields|
    requires ParseDetails(mode, fields, soup, apply).Some?
    ensures var d := ParseDetails(mode, fields, soup, apply).value;
      var f := fields[j];
      match SelectOne(soup, f.selector)
      case Some(el) => f.field in d && apply(f, el.text) == Some(d[f.field])
      case None =>
        if mode == WebDetails && f.required then f.field !in d
        else f.field in d && d[f.field] == Null
  {
    FillFieldValue(mode, fields, soup, apply, 0, map[], j);
  }

  /** The `product_id` entry of `detail_fields`, or the absence of `detail_fields` altogether. */
  datatype IdRule = NoDetailFields | IdRule(parser: string, pattern: Option<string>)

  /** `re.search(pattern, s)`: no match, or a match with its first group (None where there is no group 1). */
  datatype RegexResult = NoMatch | Match(group1: Option<string>)

  type RegexSearch = (string, string) -> RegexResult

  /** `_extract_product_id(url)`: an id value, or an exception. */
  datatype IdOutcome = Id(id: Value) | IdRaised

  function ExtractProductId(rule: IdRule, url: Value, search: RegexSearch): (r: IdOutcome)
    ensures rule.NoDetailFields? ==> r.IdRaised?
    ensures rule.IdRule? && rule.parser != "regex" && rule.parser != "str" ==> r == Id(url)
    ensures rule.IdRule? && rule.parser == "str" && url.Str? && !Contains(url.s, "/") ==> r == Id(url)
  {
    match rule
    case NoDetailFields => IdRaised
    case IdRule(parser, pattern) =>
      if parser == "regex" && pattern.Some? && pattern.value != [] then
        if !url.Str? then IdRaised
        else
          match search(pattern.value, url.s)
          case NoMatch => Id(Null)
          case Match(g) => if g.Some? then Id(Str(g.value)) else IdRaised
      else if parser == "str" then
        if !url.Str? then IdRaised
        else if Contains(url.s, "/") then
          var parts := Split(url.s, "/");
          Id(Str(parts[|parts| - 2]))
        else Id(url)
      else Id(url)
  }

  /** With parser `str`, the id is the second-to-last `/` segment: for `.../<id>/<last>` it is `<id>`. */
  lemma ExtractIdSegment(rule: IdRule, prefix: string, id: string, last: string, search: RegexSearch)
    requires rule.IdRule? && rule.parser == "str"
    requires forall j :: 0 <= j < |id| ==> id[j] != '/'
    requires forall j :: 0 <= j < |last| ==> last[j] != '/'
    ensures ExtractProductId(rule, Str(prefix + "/" + id + "/" + last), search) == Id(Str(id))
  {
    var url := prefix + "/" + id + "/" + last;
    SplitSnoc(prefix + "/" + id, '/', last);
    SplitSnoc(prefix, '/', id);
    assert url == (prefix + "/" + id) + ['/'] + last;
    assert prefix + "/" + id == prefix + ['/'] + id;
    OccursAtChar(url, '/', |prefix|);
    IndexOfSpec(url, "/");
  }

  /** With parser `regex`, the id is the first group of a match, and None without one. */
  lemma ExtractIdRegex(rule: IdRule, url: string, search: RegexSearch)
    requires rule.IdRule? && rule.parser == "regex" && rule.pattern.Some? && rule.pattern.value != []
    ensures var r := ExtractProductId(rule, Str(url), search);
      match search(rule.pattern.value, url)
      case NoMatch => r == Id(Null)
      case Match(g) => (g.Some? ==> r == Id(Str(g.value))) && (g.None? ==> r.IdRaised?)
  {
  }

  /**
   * `parse_product` in beverage_scraper.py: the field loop, then a missing or
   * empty `product_id` taken from the link, then the name/price rule. Any
   * exception makes it return None.
   */
  function BeverageParseProduct(fields: seq<FieldConfig>, item: Element, apply: ApplyParser,
                                rule: IdRule, search: RegexSearch): (p: Option<Record>)
    ensures p.Some? ==> Acceptable(p.value) && "product_id" in p.value
  {
    match Fill(BeverageProduct, fields, item, apply)
    case Filled(r) =>
      if "product_id" in r && Truthy(r["product_id"]) then
        if Acceptable(r) then Some(r) else None
      else
        var link := if "link" in r then r["link"] else Str("");
        (match ExtractProductId(rule, link, search)
         case IdRaised => None
         case Id(v) =>
           var r2 := r["product_id" := v];
           if Acceptable(r2) then Some(r2) else None)
    case Aborted => None
    case FillRaised => None
  }

  /**
   * An accepted beverage product holds, for each configured field other than
   * `product_id`, the parsed value when its selector matched and None when it
   * did not; required fields get no special treatment.
   */
  lemma BeverageProductFields(fields: seq<FieldConfig>, item: Element, apply: ApplyParser,
                              rule: IdRule, search: RegexSearch, j: nat)
    requires DistinctFields(fields) && j < |fields| && fields[j].field != "product_id"
    requires BeverageParseProduct(fields, item, apply, rule, search).Some?
    ensures var r := BeverageParseProduct(fields, item, apply, rule, search).value;
      var f := fields[j];
      f.field in r &&
      match SelectOne(item, f.selector)
      case Some(el) => apply(f, RawValue(BeverageProduct, f, el)) == Some(r[f.field])
      case None => r[f.field] == Null
  {
    FillFieldValue(BeverageProduct, fields, item, apply, 0, map[], j);
  }

  /** `_parse_products`: the truthy results, in item order; an exception skips only its item. */
  function Kept(results: seq<Parse>): (products: seq<Record>)
    ensures |products| <= |results|
    ensures forall i :: 0 <= i < |products| ==> products[i] != map[]
  {
    if results == [] then []
    else
      var head := if results[0].Parsed? && results[0].record != map[] then [results[0].record] else [];
      head + Kept(results[1..])
  }

  /** Keeping the results of two runs of items is keeping each run's, one after the other. */
  lemma {:induction false} KeptAppend(a: seq<Parse>, b: seq<Parse>)
    ensures Kept(a + b) == Kept(a) + Kept(b)
  {
    if a != [] {
      assert (a + b)[1..] == a[1..] + b;
      KeptAppend(a[1..], b);
    } else {
      assert a + b == b;
    }
  }

  /** A single item contributes its dict exactly when it parsed to a non-empty one. */
  lemma KeptOne(x: Parse)
    ensures Kept([x]) == (if x.Parsed? && x.record != map[] then [x.record] else [])
  {
    assert [x][1..] == [];
  }

  /** A result that yields no dict leaves the others' products as they are. */
  lemma KeptSkips(a: seq<Parse>, x: Parse, b: seq<Parse>)
    requires !(x.Parsed? && x.record != map[])
    ensures Kept(a + [x] + b) == Kept(a + b)
  {
    KeptAppend(a + [x], b);
    KeptAppend(a, [x]);
    KeptAppend(a, b);
    KeptOne(x);
  }

  /** A result that yields a dict contributes it between the products before and after it. */
  lemma KeptKeeps(a: seq<Parse>, x: Parse, b: seq<Parse>)
    requires x.Parsed? && x.record != map[]
    ensures Kept(a + [x] + b) == Kept(a) + [x.record] + Kept(b)
  {
    KeptAppend(a + [x], b);
    KeptAppend(a, [x]);
    KeptOne(x);
  }

  /** A kept dict is the record of some parsed result. */
  lemma {:induction false} KeptFrom(rs: seq<Parse>, p: Record)
    requires p in Kept(rs)
    ensures exists i :: 0 <= i < |rs| && rs[i] == Parsed(p)
  {
    if rs != [] {
      assert rs == [rs[0]] + rs[1..];
      KeptAppend([rs[0]], rs[1..]);
      KeptOne(rs[0]);
      if p !in Kept([rs[0]]) {
        KeptFrom(rs[1..], p);
        var i :| 0 <= i < |rs[1..]| && rs[1..][i] == Parsed(p);
        assert rs[i + 1] == Parsed(p);
      }
    }
  }

  /** The loop of `_parse_products` over the selected items, one `parse_product` call each. */
  method ParseProducts(items: seq<Element>, parse: Element -> Parse) returns (products: seq<Record>)
    ensures products == Kept(seq(|items|, i requires 0 <= i < |items| => parse(items[i])))
  {
    var results := seq(|items|, i requires 0 <= i < |items| => parse(items[i]));
    products := [];
    var i := 0;
    while i < |items|
      invariant 0 <= i <= |items|
      invariant products == Kept(results[..i])
    {
      var product := parse(items[i]);
      assert results[..i + 1] == results[..i] + [product];
      KeptAppend(results[..i], [product]);
      KeptOne(product);
      if product.Parsed? && product.record != map[] {
        products := products + [product.record];
      }
      i := i + 1;
    }
    assert results[..i] == results;
  }
}

=== FILE: gall.dfy ===
/**
 * gall_scraper.py: the Gall & Gall shop. Pages are addressed by an item
 * offset of twelve per page; the price normaliser pads whole and dangling
 * prices to two decimals; the details are read off the info block's text
 * with two regular expressions.
 */
module Gall {
  import opened Text
  import opened Records
  import opened Sites

  // ---------------------------------------------------------------------------
  // `_get_page_url`
  // ---------------------------------------------------------------------------

  /** `(page_num - 1) * 12`: the offset of the first product on a page. */
  function PageOffset(page: int): (offset: int)
    ensures page >= 1 ==> offset >= 0 && offset % 12 == 0
  {
    (page - 1) * 12
  }

  /** Page 1 starts at offset 0 and every next page twelve further on; the page is recovered from its offset. */
  lemma PageOffsetSteps(page: int)
    ensures PageOffset(1) == 0
    ensures PageOffset(page + 1) == PageOffset(page) + 12
    ensures PageOffset(page) / 12 + 1 == page
  {
  }

  /**
   * `pagination_url.format(offset)` for a template with one `{}`
   * placeholder, written as the text before and after it.
   */
  function PageUrl(before: string, after: string, page: int): (url: string)
    ensures StartsWith(url, before) && EndsWith(url, after)
  {
    var url := before + IntText(PageOffset(page)) + after;
    assert url[..|before|] == before;
    assert url[|url| - |after|..] == after;
    url
  }

  /** Different pages have different URLs. */
  lemma PageUrlsDistinct(before: string, after: string, p: int, q: int)
    requires p != q
    ensures PageUrl(before, after, p) != PageUrl(before, after, q)
  {
    var a, b := IntText(PageOffset(p)), IntText(PageOffset(q));
    PageOffsetSteps(p);
    PageOffsetSteps(q);
    assert a != b;
    var u, v := PageUrl(before, after, p), PageUrl(before, after, q);
    assert u[|before|..|u| - |after|] == a;
    assert v[|before|..|v| - |after|] == b;
  }

  // ---------------------------------------------------------------------------
  // `_parse_price`
  // ---------------------------------------------------------------------------

  /** `re.match(r'^\d+\.\d{2}$', s)`: digits, a dot and exactly two digits. */
  predicate TwoDecimals(s: string)
  {
    |s| >= 4 && s[|s| - 3] == '.' && AllDigits(s[..|s| - 3]) && AllDigits(s[|s| - 2..])
  }

  /**
   * `_parse_price`: whitespace collapsed; a trailing dot gets `99`; a
   * two-decimal price is kept; a whole number gets `.00`; anything else is
   * returned collapsed. The result is a string.
   */
  function ParsePrice(s: string): string
  {
    PadCents(CollapseSpaces(s))
  }

  /** The branches of `_parse_price` after whitespace is collapsed. */
  function PadCents(t: string): string
  {
    if EndsWith(t, ".") then t + "99"
    else if TwoDecimals(t) then t
    else if t != [] && AllDigits(t) then t + ".00"
    else t
  }

  /** Appending to the last word of a joined word list. */
  lemma JoinAppendLast(init: seq<string>, w: string, x: string)
    ensures Join(init + [w + x], " ") == Join(init + [w], " ") + x
  {
    if init == [] {
      assert init + [w + x] == [w + x];
      assert init + [w] == [w];
    } else {
      JoinSnoc(init, w, " ");
      JoinSnoc(init, w + x, " ");
    }
  }

  /** Appending space-free text to a non-empty collapsed string leaves it collapsed. */
  lemma AppendCollapsed(s: string, x: string)
    requires CollapseSpaces(s) != [] && x != [] && NoSpace(x)
    ensures CollapseSpaces(CollapseSpaces(s) + x) == CollapseSpaces(s) + x
  {
    var ws := Words(s);
    assert ws != [];
    var init, w := ws[..|ws| - 1], ws[|ws| - 1];
    assert ws == init + [w];
    var ws' := init + [w + x];
    assert NoSpace(w + x) by {
      assert forall j :: 0 <= j < |w + x| ==> (w + x)[j] == if j < |w| then w[j] else x[j - |w|];
    }
    assert forall i :: 0 <= i < |ws'| ==> ws'[i] != [] && NoSpace(ws'[i]) by {
      forall i | 0 <= i < |ws'| ensures ws'[i] != [] && NoSpace(ws'[i]) {
        if i < |init| { assert ws'[i] == ws[i]; }
      }
    }
    JoinAppendLast(init, w, x);
    WordsOfJoin(ws');
  }

  /** A non-empty string without whitespace is its own collapsed form. */
  lemma CollapseWord(w: string)
    requires w != [] && NoSpace(w)
    ensures CollapseSpaces(w) == w
  {
    WordsOfSingle(w);
    assert Words(w) == [w];
  }

  lemma TwoDecimalsNoSpace(t: string)
    requires TwoDecimals(t)
    ensures NoSpace(t)
  {
    assert forall j :: 0 <= j < |t| ==> (j < |t| - 3 ==> t[j] == t[..|t| - 3][j]) && (j > |t| - 3 ==> t[j] == t[|t| - 2..][j - |t| + 2]);
  }

  /** A whole number gets two zero decimals. */
  lemma WholePrice(d: string)
    requires d != [] && AllDigits(d)
    ensures ParsePrice(d) == d + ".00" && TwoDecimals(ParsePrice(d))
  {
    CollapseWord(d);
    PadWhole(d);
  }

  lemma PadWhole(d: string)
    requires d != [] && AllDigits(d)
    ensures PadCents(d) == d + ".00" && TwoDecimals(d + ".00")
  {
    assert !EndsWith(d, ".") by { assert IsDigit(d[|d| - 1]); }
    assert !TwoDecimals(d) by { if |d| >= 3 { assert IsDigit(d[|d| - 3]); } }
    var r := d + ".00";
    assert r[..|r| - 3] == d;
    assert r[|r| - 2..] == "00";
  }

  /** A price cut off after its dot gets 99 cents. */
  lemma DanglingPrice(d: string)
    requires d != [] && AllDigits(d)
    ensures ParsePrice(d + ".") == d + ".99" && TwoDecimals(ParsePrice(d + "."))
  {
    var t := d + ".";
    assert NoSpace(t) by {
      assert forall j :: 0 <= j < |t| ==> t[j] == if j < |d| then d[j] else '.';
    }
    CollapseWord(t);
    var r := t + "99";
    assert r == d + ".99";
    assert r[..|r| - 3] == d;
    assert r[|r| - 2..] == "99";
  }

  /** A price with two decimals is returned as it is. */
  lemma TwoDecimalPrice(t: string)
    requires TwoDecimals(t)
    ensures ParsePrice(t) == t
  {
    TwoDecimalsNoSpace(t);
    CollapseWord(t);
    TwoDecimalsKept(t);
  }

  lemma TwoDecimalsKept(t: string)
    requires TwoDecimals(t)
    ensures PadCents(t) == t
  {
    assert t[|t| - 1] == t[|t| - 2..][1];
    assert !EndsWith(t, ".");
  }

  /** Normalising a normalised price changes nothing. */
  lemma PriceIdempotent(s: string)
    ensures ParsePrice(ParsePrice(s)) == ParsePrice(s)
  {
    PadCollapsed(s);
    PadCentsIdempotent(CollapseSpaces(s));
  }

  /** The padded price of a collapsed string is still collapsed. */
  lemma PadCollapsed(s: string)
    ensures CollapseSpaces(ParsePrice(s)) == ParsePrice(s)
  {
    var t := CollapseSpaces(s);
    CollapseSpacesIdempotent(s);
    SuffixesNoSpace();
    if EndsWith(t, ".") {
      AppendCollapsed(s, "99");
    } else if TwoDecimals(t) {
    } else if t != [] && AllDigits(t) {
      AppendCollapsed(s, ".00");
    }
  }

  lemma SuffixesNoSpace()
    ensures NoSpace("99") && NoSpace(".00")
  {
  }

  /** Padding twice is padding once. */
  lemma PadCentsIdempotent(t: string)
    ensures PadCents(PadCents(t)) == PadCents(t)
  {
    var r := PadCents(t);
    if EndsWith(t, ".") {
      assert r[|r| - 1] == '9';
      assert !EndsWith(r, ".");
      assert r[|r| - 3] == '.';
      if !TwoDecimals(r) {
        assert !AllDigits(r);
      }
    } else if TwoDecimals(t) {
      TwoDecimalsKept(t);
    } else if t != [] && AllDigits(t) {
      PadWhole(t);
      TwoDecimalsKept(r);
    }
  }

  // ---------------------------------------------------------------------------
  // `parse_product`
  // ---------------------------------------------------------------------------

  /** The `site_config` selectors `parse_product` reads. */
  datatype ProductSelectors = ProductSelectors(name: string, price: string, link: string)

  /** The three elements exist and the link has an `href`. */
  predicate Complete(sel: ProductSelectors, item: Element)
  {
    SelectOne(item, sel.name).Some? && SelectOne(item, sel.price).Some? &&
    SelectOne(item, sel.link).Some? && "href" in SelectOne(item, sel.link).value.attrs
  }

  /**
   * `parse_product` as written: when the three elements exist it calls
   * `self.parse_price`, which the scraper does not have; the AttributeError
   * is caught and None returned. Without them it returns None too.
   */
  function ParseProductAsWritten(sel: ProductSelectors, item: Element, baseUrl: string): (r: Option<Record>)
    ensures r.None?
  {
    var name := SelectOne(item, sel.name);
    var price := SelectOne(item, sel.price);
    var link := SelectOne(item, sel.link);
    if name.None? || price.None? || link.None? then None
    else None
  }

  /**
   * `parse_product` calling the scraper's own `_parse_price`: `name`, the
   * normalised `price` string and `link` (base URL and `href`
   * concatenated), or None when an element or the `href` is missing.
   */
  function ParseProduct(sel: ProductSelectors, item: Element, baseUrl: string): (r: Option<Record>)
    ensures r.Some? <==> Complete(sel, item)
    ensures r.Some? ==> r.value.Keys == {"name", "price", "link"}
    ensures r.Some? ==> r.value["name"] == Str(SelectOne(item, sel.name).value.text)
    ensures r.Some? ==> r.value["price"] == Str(ParsePrice(SelectOne(item, sel.price).value.text))
    ensures r.Some? ==> r.value["link"] == Str(baseUrl + SelectOne(item, sel.link).value.attrs["href"])
  {
    var name := SelectOne(item, sel.name);
    var price := SelectOne(item, sel.price);
    var link := SelectOne(item, sel.link);
    if name.None? || price.None? || link.None? || Attr(link.value, "href").None? then None
    else
      Some(map[
        "name" := Str(name.value.text),
        "price" := Str(ParsePrice(price.value.text)),
        "link" := Str(baseUrl + Attr(link.value, "href").value)])
  }

  /** Every complete item is lost as written, while the corrected version returns it. */
  lemma CompleteItemLost(sel: ProductSelectors, item: Element, baseUrl: string)
    requires Complete(sel, item)
    ensures ParseProductAsWritten(sel, item, baseUrl).None?
    ensures ParseProduct(sel, item, baseUrl).Some?
  {
  }

  /** The corrected price is normalised: parsing its own output again changes nothing. */
  lemma ProductPriceNormal(sel: ProductSelectors, item: Element, baseUrl: string)
    requires ParseProduct(sel, item, baseUrl).Some?
    ensures var p := ParseProduct(sel, item, baseUrl).value["price"].s;
      ParsePrice(p) == p
  {
    PriceIdempotent(SelectOne(item, sel.price).value.text);
  }

  // ---------------------------------------------------------------------------
  // `parse_product_details`
  // ---------------------------------------------------------------------------

  /**
   * What `(\d+)CL` matches starting at `i`: the digit run there, when `CL`
   * follows it. A shorter run cannot be followed by `C`, so backtracking
   * adds nothing.
   */
  function VolumeAt(s: string, i: nat): (r: Option<string>)
    ensures r.Some? ==> i < |s| && r.value != [] && AllDigits(r.value)
    ensures r.Some? ==> OccursAt(s, r.value + "CL", i)
  {
    if i < |s| && IsDigit(s[i]) then
      var e := DigitRunEnd(s, i);
      if OccursAt(s, "CL", e) then
        assert s[i..e + 2] == s[i..e] + s[e..e + 2];
        Some(s[i..e])
      else None
    else None
  }

  /**
   * What `(\d+(?:\.\d+)?)%` matches starting at `i`: the digit run, with a
   * dot and a second digit run when those follow, and `%` after it. When
   * the optional part is taken but no `%` follows, dropping it leaves a dot
   * where `%` is needed, so that fails too.
   */
  function AbvAt(s: string, i: nat): (r: Option<string>)
    ensures r.Some? ==> i < |s| && IsDecimalLiteral(r.value)
    ensures r.Some? ==> OccursAt(s, r.value + "%", i)
  {
    if i < |s| && IsDigit(s[i]) then
      var e := DigitRunEnd(s, i);
      if e + 1 < |s| && s[e] == '.' && IsDigit(s[e + 1]) then
        var f := DigitRunEnd(s, e + 1);
        if f < |s| && s[f] == '%' then
          var m := s[i..f];
          assert m == s[i..e] + "." + s[e + 1..f];
          assert s[i..f + 1] == m + "%";
          DecimalOf(s[i..e], s[e + 1..f]);
          Some(m)
        else None
      else if e < |s| && s[e] == '%' then
        assert s[i..e + 1] == s[i..e] + "%";
        WholeDecimal(s[i..e]);
        Some(s[i..e])
      else None
    else None
  }

  /** `re.search(r'(\d+)CL', text).group(1)`, or None when nothing matches. */
  function Volume(text: string): Option<string>
  {
    Search(text, VolumeAt)
  }

  /** `re.search(r'(\d+(?:\.\d+)?)%', text).group(1)`, or None when nothing matches. */
  function Abv(text: string): Option<string>
  {
    Search(text, AbvAt)
  }

  /** A match inside a digit run is also a match one position earlier. */
  lemma VolumeAtEarlier(s: string, k: nat)
    requires 0 < k < |s| && IsDigit(s[k - 1]) && VolumeAt(s, k).Some?
    ensures VolumeAt(s, k - 1).Some?
  {
    assert DigitRunEnd(s, k - 1) == DigitRunEnd(s, k);
  }

  /** A match inside a digit run is also a match one position earlier. */
  lemma AbvAtEarlier(s: string, k: nat)
    requires 0 < k < |s| && IsDigit(s[k - 1]) && AbvAt(s, k).Some?
    ensures AbvAt(s, k - 1).Some?
  {
    assert DigitRunEnd(s, k - 1) == DigitRunEnd(s, k);
  }

  /**
   * The volume is a digit run written directly before `CL`, and the whole
   * run: the character before it is no digit. Nothing is found exactly
   * when no digit run is followed by `CL`.
   */
  lemma VolumeShape(text: string)
    ensures Volume(text).None? <==> forall i :: 0 <= i < |text| ==> VolumeAt(text, i).None?
    ensures Volume(text).Some? ==>
      var v := Volume(text).value;
      var k := FirstMatch(text, VolumeAt, 0);
      && v != [] && AllDigits(v) && OccursAt(text, v + "CL", k)
      && (k == 0 || !IsDigit(text[k - 1]))
  {
    var k := FirstMatch(text, VolumeAt, 0);
    if k > 0 && IsDigit(text[k - 1]) {
      VolumeAtEarlier(text, k);
      assert false;
    }
  }

  /** The percentage is a decimal literal written directly before `%`, and not the tail of a longer digit run. */
  lemma AbvShape(text: string)
    ensures Abv(text).None? <==> forall i :: 0 <= i < |text| ==> AbvAt(text, i).None?
    ensures Abv(text).Some? ==>
      var a := Abv(text).value;
      var k := FirstMatch(text, AbvAt, 0);
      && IsDecimalLiteral(a) && OccursAt(text, a + "%", k)
      && (k == 0 || !IsDigit(text[k - 1]))
  {
    var k := FirstMatch(text, AbvAt, 0);
    if k > 0 && IsDigit(text[k - 1]) {
      AbvAtEarlier(text, k);
      assert false;
    }
  }

  /** No attempt matches at a position inside a digit-free prefix. */
  lemma NoDigitNoMatch(pre: string, rest: string, j: nat)
    requires forall i :: 0 <= i < |pre| ==> !IsDigit(pre[i])
    requires j < |pre|
    ensures VolumeAt(pre + rest, j).None? && AbvAt(pre + rest, j).None?
  {
    assert (pre + rest)[j] == pre[j];
  }

  /** After a text without digits, `<digits>CL` is read as the volume. */
  lemma VolumeOf(pre: string, d: string, post: string)
    requires forall i :: 0 <= i < |pre| ==> !IsDigit(pre[i])
    requires d != [] && AllDigits(d)
    ensures Volume(pre + d + "CL" + post) == Some(d)
  {
    var s := pre + d + "CL" + post;
    var e := |pre| + |d|;
    assert forall j :: |pre| <= j < e ==> s[j] == d[j - |pre|];
    assert s[e] == 'C' && s[e + 1] == 'L';
    DigitRunEndAt(s, |pre|, e);
    assert s[e..e + 2] == "CL";
    assert s[|pre|..e] == d;
    forall j | 0 <= j < |pre| ensures VolumeAt(s, j).None? {
      NoDigitNoMatch(pre, d + "CL" + post, j);
      assert pre + (d + "CL" + post) == s;
    }
    SearchAt(s, VolumeAt, 0, |pre|);
  }

  /** Digits, a dot, digits and a percent sign at `i` match as the decimal before the sign. */
  lemma AbvAtDecimal(s: string, i: nat, e: nat, f: nat)
    requires i < e && e + 1 < f < |s|
    requires forall j :: i <= j < e ==> IsDigit(s[j])
    requires forall j :: e < j < f ==> IsDigit(s[j])
    requires s[e] == '.' && s[f] == '%'
    ensures AbvAt(s, i) == Some(s[i..f])
  {
    DigitRunEndAt(s, i, e);
    DigitRunEndAt(s, e + 1, f);
  }

  /** After a text without digits, `<a>.<b>%` is read as the percentage `a.b`. */
  lemma AbvOf(pre: string, a: string, b: string, post: string)
    requires forall i :: 0 <= i < |pre| ==> !IsDigit(pre[i])
    requires a != [] && AllDigits(a) && b != [] && AllDigits(b)
    ensures Abv(pre + a + "." + b + "%" + post) == Some(a + "." + b)
  {
    var s := pre + a + "." + b + "%" + post;
    var e := |pre| + |a|;
    var f := e + 1 + |b|;
    assert forall j :: |pre| <= j < e ==> s[j] == a[j - |pre|];
    assert forall j :: e < j < f ==> s[j] == b[j - e - 1];
    assert s[e] == '.' && s[f] == '%';
    AbvAtDecimal(s, |pre|, e, f);
    assert s[|pre|..f] == a + "." + b;
    forall j | 0 <= j < |pre| ensures AbvAt(s, j).None? {
      NoDigitNoMatch(pre, a + "." + b + "%" + post, j);
      assert pre + (a + "." + b + "%" + post) == s;
    }
    SearchAt(s, AbvAt, 0, |pre|);
  }

  /**
   * The details `parse_product_details` builds from the info element's
   * full text: `volume` and `abv` each present exactly when its
   * expression matches; nothing without the element.
   */
  function Details(infoSelector: string, soup: Element): (d: Record)
    ensures d.Keys <= {"volume", "abv"}
    ensures SelectOne(soup, infoSelector).None? ==> d == map[]
    ensures SelectOne(soup, infoSelector).Some? ==>
      var text := SelectOne(soup, infoSelector).value.fullText;
      && ("volume" in d <==> Volume(text).Some?)
      && ("abv" in d <==> Abv(text).Some?)
      && ("volume" in d ==> d["volume"] == Str(Volume(text).value))
      && ("abv" in d ==> d["abv"] == Str(Abv(text).value))
  {
    match SelectOne(soup, infoSelector)
    case None => map[]
    case Some(info) =>
      var withVolume: Record := match Volume(info.fullText)
        case None => map[]
        case Some(v) => map["volume" := Str(v)];
      match Abv(info.fullText)
      case None => withVolume
      case Some(a) => withVolume["abv" := Str(a)]
  }

  /** The abv is a number Python can read, and the volume a whole number. */
  lemma DetailsNumeric(infoSelector: string, soup: Element)
    ensures var d := Details(infoSelector, soup);
      && ("volume" in d ==> d["volume"].Str? && d["volume"].s != [] && AllDigits(d["volume"].s))
      && ("abv" in d ==> d["abv"].Str? && IsDecimalLiteral(d["abv"].s))
  {
    var d := Details(infoSelector, soup);
    if "volume" in d {
      VolumeShape(SelectOne(soup, infoSelector).value.fullText);
    }
    if "abv" in d {
      AbvShape(SelectOne(soup, infoSelector).value.fullText);
    }
  }
}

=== FILE: heinemann.dfy ===
/**
 * heinemann_shop_scraper.py: the Heinemann duty-free shop. Prices keep
 * digits, commas and dots; product ids come from `/p/<digits>/` links; the
 * detail table is matched by lower-cased substrings; the next page is the
 * pager link whose icon is `chevron-right-light`.
 */
module Heinemann {
  import opened Text
  import opened Records
  import opened Sites
  import opened DetailTable

  // ---------------------------------------------------------------------------
  // `_parse_price`
  // ---------------------------------------------------------------------------

  /** What `re.sub(r'[^\d,.]', '', s)` keeps. */
  predicate PriceChar(c: char) { IsDigit(c) || c == ',' || c == '.' }

  predicate NotComma(c: char) { c != ',' }

  /**
   * The string `_parse_price` hands to `float()`: the price characters, a
   * comma read as the decimal point when there is no dot, and every other
   * comma dropped as a thousands separator.
   */
  function CleanPrice(s: string): string
  {
    var kept := Filter(s, PriceChar);
    var decimal := if Contains(kept, ",") && !Contains(kept, ".") then ReplaceChar(kept, ',', '.') else kept;
    Filter(decimal, NotComma)
  }

  /** `_parse_price(s)`: the float read from the cleaned string, or 0.0 when `float()` refuses it. */
  function ParsePrice(s: string): (v: Value)
    ensures v.Float?
    ensures PythonFloat(CleanPrice(s)).Some? ==> v == Float(CleanPrice(s))
    ensures PythonFloat(CleanPrice(s)).None? ==> v == Float("0.0")
  {
    StripUnchangedClean(s);
    FloatOrZero(CleanPrice(s))
  }

  /** The cleaned string is made of digits and dots only. */
  lemma CleanPriceShape(s: string)
    ensures var r := CleanPrice(s);
      forall j :: 0 <= j < |r| ==> IsDigit(r[j]) || r[j] == '.'
  {
    var kept := Filter(s, PriceChar);
    var decimal := if Contains(kept, ",") && !Contains(kept, ".") then ReplaceChar(kept, ',', '.') else kept;
    assert forall j :: 0 <= j < |decimal| ==> PriceChar(decimal[j]);
    FilterFrom(decimal, NotComma, PriceChar);
  }

  /** The cleaned string has no whitespace, so `float()` reads it without stripping. */
  lemma StripUnchangedClean(s: string)
    ensures Strip(CleanPrice(s)) == CleanPrice(s)
  {
    CleanPriceShape(s);
    var r := CleanPrice(s);
    if r != [] { StripUnchanged(r); }
  }

  /** Cleaning is idempotent: a cleaned price cleans to itself. */
  lemma CleanPriceIdempotent(s: string)
    ensures CleanPrice(CleanPrice(s)) == CleanPrice(s)
  {
    var r := CleanPrice(s);
    CleanPriceShape(s);
    FilterKeepsAll(r, PriceChar);
    IndexOfNoChar(r, ',');
    FilterKeepsAll(r, NotComma);
  }

  /** Characters other than digits, commas and dots (currency, spaces) in front of a price are ignored. */
  lemma PrefixIgnored(prefix: string, s: string)
    requires forall j :: 0 <= j < |prefix| ==> !PriceChar(prefix[j])
    ensures CleanPrice(prefix + s) == CleanPrice(s)
  {
    FilterSplit(prefix, s, PriceChar);
    FilterNone(prefix, PriceChar);
    assert Filter(prefix + s, PriceChar) == Filter(s, PriceChar);
  }

  /** Filtering a string none of whose characters pass leaves nothing. */
  lemma {:induction false} FilterNone(s: string, p: char -> bool)
    requires forall j :: 0 <= j < |s| ==> !p(s[j])
    ensures Filter(s, p) == []
    decreases |s|
  {
    if s != [] { FilterNone(s[1..], p); }
  }

  /** A decimal comma `a,b` is read as `a.b`. */
  lemma DecimalCommaPrice(a: string, b: string)
    requires a != [] && AllDigits(a) && AllDigits(b)
    ensures CleanPrice(a + "," + b) == a + "." + b
    ensures ParsePrice(a + "," + b) == Float(a + "." + b)
  {
    DecimalCommaClean(a, b);
    DecimalFloat(a, b);
  }

  lemma DecimalCommaClean(a: string, b: string)
    requires AllDigits(a) && AllDigits(b)
    ensures CleanPrice(a + "," + b) == a + "." + b
  {
    var s := a + [','] + b;
    assert a + "," + b == s;
    assert Filter(s, PriceChar) == s by { FilterAroundOne(a, ',', b, PriceChar); }
    assert Contains(s, ",") by { IndexOfAfter(a, ',', b); }
    assert !Contains(s, ".") by { AllDigitsOr(s, ','); IndexOfNoChar(s, '.'); }
    assert ReplaceChar(s, ',', '.') == a + "." + b by { CommaToDot(a, b); }
    assert Filter(a + "." + b, NotComma) == a + "." + b by { FilterKeepsAll(a + "." + b, NotComma); }
  }

  /** Digits, a dot and digits are read by `float()` as they are. */
  lemma DecimalFloat(a: string, b: string)
    requires a != [] && AllDigits(a) && AllDigits(b)
    ensures PythonFloat(a + "." + b) == Some(a + "." + b)
  {
    DecimalOf(a, b);
    StripUnchanged(a + "." + b);
  }

  /** Every character of `s` is a digit or `c`, so none is the other separator. */
  lemma AllDigitsOr(s: string, c: char)
    requires forall j :: 0 <= j < |s| ==> IsDigit(s[j]) || s[j] == c
    ensures c != '.' ==> Lacks(s, '.')
    ensures c != ',' ==> Lacks(s, ',')
  {
  }

  /** A thousands comma before a decimal dot, `a,b.c`, is dropped: `ab.c`. */
  lemma ThousandsCommaPrice(a: string, b: string, c: string)
    requires a != [] && AllDigits(a) && AllDigits(b) && AllDigits(c)
    ensures CleanPrice(a + "," + b + "." + c) == a + b + "." + c
    ensures ParsePrice(a + "," + b + "." + c) == Float(a + b + "." + c)
  {
    ThousandsCommaClean(a, b, c);
    DecimalFloat(a + b, c);
  }

  lemma ThousandsCommaClean(a: string, b: string, c: string)
    requires AllDigits(a) && AllDigits(b) && AllDigits(c)
    ensures CleanPrice(a + "," + b + "." + c) == a + b + "." + c
  {
    var s := a + [','] + b + ['.'] + c;
    assert a + "," + b + "." + c == s;
    assert Filter(s, PriceChar) == s by { FilterAroundSeparators(a, ',', b, '.', c, PriceChar); }
    assert Contains(s, ".") by { DotAt(s, |a| + 1 + |b|); }
    assert Filter(s, NotComma) == a + b + "." + c by {
      FilterAroundSeparators(a, ',', b, '.', c, NotComma);
      assert a + b + ['.'] + c == a + b + "." + c;
    }
  }

  /** A string with a dot at `k` contains a dot. */
  lemma DotAt(s: string, k: nat)
    requires k < |s| && s[k] == '.'
    ensures Contains(s, ".")
  {
    IndexOfSpec(s, ".");
    OccursAtChar(s, '.', k);
  }

  /**
   * A dot used as a thousands separator with a decimal comma, `a.b,c`, is
   * misread: the dot stays the decimal point and the comma is dropped, so
   * `1.234,56` becomes `1.23456`.
   */
  lemma DottedThousandsPrice(a: string, b: string, c: string)
    requires a != [] && AllDigits(a) && AllDigits(b) && AllDigits(c)
    ensures CleanPrice(a + "." + b + "," + c) == a + "." + b + c
  {
    var s := a + ['.'] + b + [','] + c;
    assert a + "." + b + "," + c == s;
    FilterAroundSeparators(a, '.', b, ',', c, PriceChar);
    assert Contains(s, ".") by { DotAt(s, |a|); }
    FilterAroundSeparators(a, '.', b, ',', c, NotComma);
    assert a + ['.'] + b + c == a + "." + b + c;
  }

  // ---------------------------------------------------------------------------
  // `parse_product`
  // ---------------------------------------------------------------------------

  /**
   * What `/p/(\d+)/` matches starting at `i`: the digit run after `/p/`,
   * when `/` follows it. A shorter run cannot be followed by `/`, so
   * backtracking adds nothing.
   */
  function ProductIdAt(s: string, i: nat): (r: Option<string>)
    ensures r.Some? ==> r.value != [] && AllDigits(r.value) && OccursAt(s, "/p/" + r.value + "/", i)
  {
    if OccursAt(s, "/p/", i) then
      var e := DigitRunEnd(s, i + 3);
      if i + 3 < e < |s| && s[e] == '/' then
        assert s[i..e + 1] == s[i..i + 3] + s[i + 3..e] + "/";
        Some(s[i + 3..e])
      else None
    else None
  }

  /** `re.search(r'/p/(\d+)/', link).group(1)`, or None when nothing matches. */
  function ProductId(link: string): Option<string>
  {
    Search(link, ProductIdAt)
  }

  /**
   * The id is a non-empty digit run written between `/p/` and `/` at the
   * first position where that pattern occurs; there is none exactly when
   * the pattern occurs nowhere.
   */
  lemma ProductIdShape(link: string)
    ensures ProductId(link).None? <==> forall i :: 0 <= i < |link| ==> ProductIdAt(link, i).None?
    ensures ProductId(link).Some? ==>
      var v := ProductId(link).value;
      var k := FirstMatch(link, ProductIdAt, 0);
      && v != [] && AllDigits(v) && OccursAt(link, "/p/" + v + "/", k)
  {
  }

  /** A link `<prefix>/p/<digits>/<rest>` whose prefix has no `/` yields those digits. */
  lemma ProductIdOf(prefix: string, id: string, rest: string)
    requires Lacks(prefix, '/') && id != [] && AllDigits(id)
    ensures ProductId(prefix + "/p/" + id + "/" + rest) == Some(id)
  {
    var s := prefix + "/p/" + id + "/" + rest;
    var k := |prefix|;
    var e := k + 3 + |id|;
    assert s[k..k + 3] == "/p/";
    assert s[k + 3..e] == id;
    assert s[e] == '/';
    DigitRunEndAt(s, k + 3, e);
    assert ProductIdAt(s, k) == Some(id);
    forall j | 0 <= j < k ensures ProductIdAt(s, j).None? {
      assert s[j] == prefix[j];
    }
    SearchAt(s, ProductIdAt, 0, k);
  }

  /** The `site_config` selectors `parse_product` reads. */
  datatype ProductSelectors = ProductSelectors(name: string, price: string, originalPrice: string, link: string, image: string)

  /**
   * `parse_product`: a product dict, or None when the name, price or link
   * element is missing, or when building the dict raises (a link without
   * `href`, an image without `src`). `now` is `datetime.now().isoformat()`.
   */
  function ParseProduct(sel: ProductSelectors, item: Element, baseUrl: string, now: string): (r: Option<Record>)
    ensures r.Some? ==> "link" in r.value && r.value["link"].Str? && StartsWith(r.value["link"].s, baseUrl)
  {
    var name := SelectOne(item, sel.name);
    var price := SelectOne(item, sel.price);
    var original := SelectOne(item, sel.originalPrice);
    var link := SelectOne(item, sel.link);
    var image := SelectOne(item, sel.image);
    if name.None? || price.None? || link.None? then None
    else if Attr(link.value, "href").None? then None
    else if image.Some? && Attr(image.value, "src").None? then None
    else
      var imageUrl := if image.Some? then Str(Attr(image.value, "src").value) else Null;
      var originalPrice := if original.Some? then Some(ParsePrice(original.value.text)) else None;
      var href := Attr(link.value, "href").value;
      assert (baseUrl + href)[..|baseUrl|] == baseUrl;
      Some(ProductDict(name.value.text, ParsePrice(price.value.text), baseUrl + href, imageUrl, now, originalPrice))
  }

  /** The dict `parse_product` returns: `original_price` and `product_id` only when found. */
  function ProductDict(name: string, price: Value, link: string, imageUrl: Value, now: string, originalPrice: Option<Value>): (r: Record)
    ensures "name" in r && r["name"] == Str(name)
    ensures "price" in r && r["price"] == price
    ensures "link" in r && r["link"] == Str(link)
    ensures "image_url" in r && r["image_url"] == imageUrl
    ensures "scraped_at" in r && r["scraped_at"] == Str(now)
    ensures "original_price" in r <==> originalPrice.Some?
    ensures originalPrice.Some? ==> r["original_price"] == originalPrice.value
    ensures "product_id" in r <==> ProductId(link).Some?
    ensures ProductId(link).Some? ==> r["product_id"] == Str(ProductId(link).value)
    ensures forall k :: k in r ==> k in {"name", "price", "link", "image_url", "scraped_at", "original_price", "product_id"}
  {
    var product := map[
      "name" := Str(name),
      "price" := price,
      "link" := Str(link),
      "image_url" := imageUrl,
      "scraped_at" := Str(now)];
    var priced := if originalPrice.Some? then product["original_price" := originalPrice.value] else product;
    match ProductId(link)
    case Some(id) => priced["product_id" := Str(id)]
    case None => priced
  }

  /**
   * A product is returned exactly when the name, price and link elements
   * exist, the link has an `href`, and an image element, if any, has a
   * `src`.
   */
  lemma ProductPresent(sel: ProductSelectors, item: Element, baseUrl: string, now: string)
    ensures ParseProduct(sel, item, baseUrl, now).Some? <==>
      && SelectOne(item, sel.name).Some?
      && SelectOne(item, sel.price).Some?
      && SelectOne(item, sel.link).Some?
      && "href" in SelectOne(item, sel.link).value.attrs
      && (SelectOne(item, sel.image).Some? ==> "src" in SelectOne(item, sel.image).value.attrs)
  {
  }

  /**
   * The name is the name element's text; the link is the base URL followed
   * by the `href` as written; the price is the cleaned price text; the
   * image URL is the image's `src`, or Null without an image; `original_price` is present exactly when its
   * element is; `product_id` is the `/p/<digits>/` id of the link, when it
   * has one.
   */
  lemma ProductFields(sel: ProductSelectors, item: Element, baseUrl: string, now: string)
    requires ParseProduct(sel, item, baseUrl, now).Some?
    ensures var p := ParseProduct(sel, item, baseUrl, now).value;
      var link := baseUrl + SelectOne(item, sel.link).value.attrs["href"];
      var original := SelectOne(item, sel.originalPrice);
      var image := SelectOne(item, sel.image);
      && p["name"] == Str(SelectOne(item, sel.name).value.text)
      && p["link"] == Str(link)
      && p["price"] == ParsePrice(SelectOne(item, sel.price).value.text)
      && p["image_url"] == (if image.Some? then Str(image.value.attrs["src"]) else Null)
      && ("original_price" in p <==> original.Some?)
      && (original.Some? ==> p["original_price"] == ParsePrice(original.value.text))
      && ("product_id" in p <==> ProductId(link).Some?)
      && (ProductId(link).Some? ==> p["product_id"] == Str(ProductId(link).value))
  {
  }

  // ---------------------------------------------------------------------------
  // `parse_product_details`
  // ---------------------------------------------------------------------------

  /** The `if 'trade name' in key_text: ... elif ...` chain: label substrings and the fields they set. */
  const KeyTable: seq<(string, string)> :=
    [("trade name", "category"), ("item no.", "product_id"), ("whisky region", "region"),
     ("country of origin", "country"), ("alcohol by volume", "abv"), ("manufacturer information", "brand")]

  /** The field of the first entry whose label occurs in `key`. */
  function FieldContaining(table: seq<(string, string)>, key: string): (f: Option<string>)
    ensures f.None? <==> forall i :: 0 <= i < |table| ==> !Contains(key, table[i].0)
    ensures f.Some? ==>
      exists i :: 0 <= i < |table| && table[i].1 == f.value && Contains(key, table[i].0) &&
                  (forall j :: 0 <= j < i ==> !Contains(key, table[j].0))
  {
    if table == [] then None
    else if Contains(key, table[0].0) then Some(table[0].1)
    else
      var f := FieldContaining(table[1..], key);
      if f.Some? then
        var i :| 0 <= i < |table[1..]| && table[1..][i].1 == f.value && Contains(key, table[1..][i].0) &&
          (forall j :: 0 <= j < i ==> !Contains(key, table[1..][j].0));
        assert table[i + 1] == table[1..][i];
        assert forall j :: 1 <= j < i + 1 ==> table[j] == table[1..][j - 1];
        f
      else f
  }

  /** What `[\d,.]` matches. */
  predicate AbvChar(c: char) { IsDigit(c) || c == ',' || c == '.' }

  /**
   * The `abv` value: the first run of digits, commas and dots, its commas
   * turned into dots, read by `float()`; None when there is no run or
   * `float()` refuses it.
   */
  function AbvValue(text: string): (r: Option<string>)
    ensures r.Some? ==> IsDecimalLiteral(r.value) && Lacks(r.value, ',')
    ensures var run := FirstRun(text, AbvChar);
      && (r.Some? <==> run.Some? && IsDecimalLiteral(ReplaceChar(run.value, ',', '.')))
      && (r.Some? ==> |r.value| == |run.value|)
      && (r.Some? ==> forall i :: 0 <= i < |run.value| ==> r.value[i] == (if run.value[i] == ',' then '.' else run.value[i]))
  {
    match FirstRun(text, AbvChar)
    case None => None
    case Some(run) =>
      var lit := ReplaceChar(run, ',', '.');
      if IsDecimalLiteral(lit) then Some(lit) else None
  }

  /**
   * The `brand` value: `re.search(r'^([^,]+)', text)`, the text before the
   * first comma, stripped; None when the text is empty or starts with a
   * comma.
   */
  function BrandValue(text: string): (r: Option<string>)
    ensures r.Some? ==> StrippedFrom(Split(text, ",")[0], r.value)
    ensures r.Some? ==> Lacks(r.value, ',')
    ensures r.None? <==> text == [] || text[0] == ','
  {
    var n := RunLength(text, NotComma);
    if n == 0 then None
    else
      BeforeFirstComma(text, n);
      StripStripped(text[..n]);
      StripLacks(text[..n], ',');
      Some(Strip(text[..n]))
  }

  /** The run of characters other than `,` at the start of `text` is what `split(',')` puts first. */
  lemma BeforeFirstComma(text: string, n: nat)
    requires n == RunLength(text, NotComma)
    ensures Split(text, ",")[0] == text[..n]
  {
    var before := text[..n];
    assert Lacks(before, ',') by {
      forall j | 0 <= j < |before| ensures before[j] != ',' { assert NotComma(text[j]); }
    }
    LacksIndex(before, ',');
    if n == |text| {
      assert before == text;
    } else {
      assert text == before + [','] + text[n + 1..];
      IndexOfSnoc(before, ',', text[n + 1..]);
    }
  }

  /** An `abv` cell `a,b` followed by text without digits, commas or dots reads as `a.b`. */
  lemma AbvCommaDecimal(a: string, b: string, rest: string)
    requires a != [] && AllDigits(a) && AllDigits(b)
    requires rest == [] || !AbvChar(rest[0])
    ensures AbvValue(a + "," + b + rest) == Some(a + "." + b)
  {
    var run := a + [','] + b;
    var s := run + rest;
    assert a + "," + b + rest == s;
    assert FirstIndex(s, AbvChar) == 0;
    assert s[..|run|] == run;
    RunLengthIs(s, AbvChar, |run|);
    assert s[0..0 + |run|] == run;
    CommaToDot(a, b);
    DecimalOf(a, b);
  }

  /** A manufacturer cell `brand, rest` gives the brand before the comma. */
  lemma BrandBeforeComma(brand: string, rest: string)
    requires brand != [] && Lacks(brand, ',') && !IsSpace(brand[0]) && !IsSpace(brand[|brand| - 1])
    ensures BrandValue(brand + "," + rest) == Some(brand)
  {
    var s := brand + [','] + rest;
    assert brand + "," + rest == s;
    RunLengthIs(s, NotComma, |brand|);
    assert s[..|brand|] == brand;
    StripUnchanged(brand);
  }

  /** The cells of a table row. */
  const KeyCell := ".c-product-details-table__key"
  const ValueCell := ".c-product-details-table__value"

  /**
   * One table row: with both cells present, the first label occurring in
   * the lower-cased key sets its field; `abv` and `brand` only when their
   * value parses.
   */
  function RowSetting(row: Element): (r: Option<(string, Value)>)
    ensures r.Some? <==>
      && SelectOne(row, KeyCell).Some? && SelectOne(row, ValueCell).Some?
      && var f := FieldContaining(KeyTable, Lower(SelectOne(row, KeyCell).value.text));
         var text := SelectOne(row, ValueCell).value.text;
         && f.Some?
         && (f.value == "abv" ==> AbvValue(text).Some?)
         && (f.value == "brand" ==> BrandValue(text).Some?)
    ensures r.Some? ==> SelectOne(row, KeyCell).Some? && SelectOne(row, ValueCell).Some?
    ensures r.Some? ==> FieldContaining(KeyTable, Lower(SelectOne(row, KeyCell).value.text)) == Some(r.value.0)
    ensures r.Some? && r.value.0 == "abv" ==> r.value.1.Float? && IsDecimalLiteral(r.value.1.lit)
    ensures r.Some? && r.value.0 == "brand" ==> r.value.1.Str? && Lacks(r.value.1.s, ',')
    ensures r.Some? && r.value.0 == "abv" ==>
      var a := AbvValue(SelectOne(row, ValueCell).value.text); a.Some? && r.value.1 == Float(a.value)
    ensures r.Some? && r.value.0 == "brand" ==>
      var b := BrandValue(SelectOne(row, ValueCell).value.text); b.Some? && r.value.1 == Str(b.value)
    ensures r.Some? && r.value.0 != "abv" && r.value.0 != "brand" ==> r.value.1 == Str(SelectOne(row, ValueCell).value.text)
  {
    match SelectOne(row, KeyCell)
    case None => None
    case Some(key) =>
      match SelectOne(row, ValueCell)
      case None => None
      case Some(value) =>
        match FieldContaining(KeyTable, Lower(key.text))
        case None => None
        case Some(field) =>
          if field == "abv" then
            match AbvValue(value.text)
            case None => None
            case Some(lit) => Some(("abv", Float(lit)))
          else if field == "brand" then
            match BrandValue(value.text)
            case None => None
            case Some(brand) => Some(("brand", Str(brand)))
          else Some((field, Str(value.text)))
  }

  function DetailRule(): RowRule
  {
    row => RowSetting(row)
  }

  /** The `site_config` selectors `parse_product_details` reads. */
  datatype DetailSelectors = DetailSelectors(info: string, image: string, description: string, table: string, inStock: string)

  /** The rows of the details table; none when there is no table. */
  function TableRows(sel: DetailSelectors, soup: Element): seq<Element>
  {
    match SelectOne(soup, sel.table)
    case None => []
    case Some(table) => Select(table, "tr.c-product-details-table__row")
  }

  /** The image inside the product preview, when both exist. */
  function PreviewImage(sel: DetailSelectors, soup: Element): Option<Element>
  {
    match SelectOne(soup, sel.info)
    case None => None
    case Some(preview) => SelectOne(preview, sel.image)
  }

  /** `image_url` is the image's stripped `src` (empty without one), when there is an image. */
  function WithImage(image: Option<Element>, d: Record): Record
  {
    match image
    case None => d
    case Some(e) => d["image_url" := Str(Strip(AttrOr(e, "src")))]
  }

  /** `'available' in stock_text`, as written: also true of "unavailable". */
  predicate InStockAsWritten(stockText: string)
  {
    Contains(Lower(stockText), "available")
  }

  /** The evident intent: the stock text says "available" and not "unavailable". */
  predicate InStock(stockText: string)
  {
    Contains(Lower(stockText), "available") && !Contains(Lower(stockText), "unavailable")
  }

  /** `in_stock` is `Yes` or `No` when there is a stock element. */
  function WithStock(inStock: Option<Element>, d: Record): Record
  {
    match inStock
    case None => d
    case Some(e) => d["in_stock" := Str(if InStock(e.text) then "Yes" else "No")]
  }

  /** The details dict `parse_product_details` builds from a parsed page. */
  function Details(sel: DetailSelectors, soup: Element): Record
  {
    var pictured := WithImage(PreviewImage(sel, soup), map[]);
    var described := WithDescription(SelectOne(soup, sel.description), pictured);
    var tabled := TableUpTo(TableRows(sel, soup), DetailRule(), described);
    WithStock(SelectOne(soup, sel.inStock), tabled)
  }

  /** `parse_product_details`: the preview image, the description, the table loop, then the stock line. */
  method ParseProductDetails(sel: DetailSelectors, soup: Element) returns (details: Record)
    ensures details == Details(sel, soup)
  {
    var preview := SelectOne(soup, sel.info);
    var image := if preview.Some? then SelectOne(preview.value, sel.image) else None;
    details := AddImage(image, map[]);
    details := AddDescription(SelectOne(soup, sel.description), details);
    var table := SelectOne(soup, sel.table);
    if table.Some? {
      details := FillTable(Select(table.value, "tr.c-product-details-table__row"), DetailRule(), details);
    }
    details := AddStock(SelectOne(soup, sel.inStock), details);
  }

  /** Sets `image_url` from the preview image, if any. */
  method AddImage(image: Option<Element>, d: Record) returns (details: Record)
    ensures details == WithImage(image, d)
  {
    match image
    case None => details := d;
    case Some(e) => details := d["image_url" := Str(Strip(AttrOr(e, "src")))];
  }

  /** Sets `in_stock` from the stock element, if any, by the corrected rule `InStock`. */
  method AddStock(inStock: Option<Element>, d: Record) returns (details: Record)
    ensures details == WithStock(inStock, d)
  {
    match inStock
    case None => details := d;
    case Some(e) =>
      var yes := InStock(e.text);
      details := d["in_stock" := Str(if yes then "Yes" else "No")];
  }

  /** The fields the key labels name. */
  lemma KeyTableFields(i: nat)
    requires i < |KeyTable|
    ensures KeyTable[i].1 in {"category", "product_id", "region", "country", "abv", "brand"}
  {
  }

  /** The table only sets the six fields its labels name. */
  lemma TableKeysOnly(sel: DetailSelectors, soup: Element, k: string, acc: Record)
    requires k in TableUpTo(TableRows(sel, soup), DetailRule(), acc) && k !in acc
    ensures k in {"category", "product_id", "region", "country", "abv", "brand"}
  {
    var rows := TableRows(sel, soup);
    TableKeys(rows, DetailRule(), acc, k);
    var j :| 0 <= j < |rows| && Sets(DetailRule(), rows[j], k);
    assert DetailRule()(rows[j]) == RowSetting(rows[j]);
    RowSettingField(rows[j]);
  }

  /** A row that sets something sets one of the six fields the key labels name. */
  lemma RowSettingField(row: Element)
    requires RowSetting(row).Some?
    ensures RowSetting(row).value.0 in {"category", "product_id", "region", "country", "abv", "brand"}
  {
    var key := Lower(SelectOne(row, KeyCell).value.text);
    var i :| 0 <= i < |KeyTable| && KeyTable[i].1 == RowSetting(row).value.0 && Contains(key, KeyTable[i].0);
    KeyTableFields(i);
  }

  /** Only the page fields and the six table fields can appear in the details. */
  lemma DetailKeys(sel: DetailSelectors, soup: Element, k: string)
    requires k in Details(sel, soup)
    ensures k in {"image_url", "description", "category", "product_id", "region", "country", "abv", "brand", "in_stock"}
  {
    var described := WithDescription(SelectOne(soup, sel.description), WithImage(PreviewImage(sel, soup), map[]));
    if k in TableUpTo(TableRows(sel, soup), DetailRule(), described) && k !in described {
      TableKeysOnly(sel, soup, k, described);
    }
  }

  /**
   * A table field holds the value of the last row whose key sets it (`abv`
   * as a decimal literal, `brand` without a comma); with no such row it is
   * absent.
   */
  lemma TableFieldValue(sel: DetailSelectors, soup: Element, k: string)
    requires k in {"category", "product_id", "region", "country", "abv", "brand"}
    ensures var d := Details(sel, soup);
      var rows := TableRows(sel, soup);
      var j := LastSetting(rows, DetailRule(), k);
      && (j >= 0 ==> k in d && d[k] == RowSetting(rows[j]).value.1)
      && (j < 0 ==> k !in d)
  {
    var rows := TableRows(sel, soup);
    var described := WithDescription(SelectOne(soup, sel.description), WithImage(PreviewImage(sel, soup), map[]));
    DetailTable.TableField(rows, DetailRule(), described, k);
  }

  /**
   * `in_stock` is present exactly when the stock element is, and is `Yes`
   * exactly when its lower-cased text contains "available" but not
   * "unavailable".
   */
  lemma StockField(sel: DetailSelectors, soup: Element)
    ensures var d := Details(sel, soup);
      var e := SelectOne(soup, sel.inStock);
      && ("in_stock" in d <==> e.Some?)
      && (e.Some? ==> (d["in_stock"] == Str("Yes") <==> InStock(e.value.text)))
      && (e.Some? ==> (d["in_stock"] == Str("No") <==> !InStock(e.value.text)))
  {
    var described := WithDescription(SelectOne(soup, sel.description), WithImage(PreviewImage(sel, soup), map[]));
    var tabled := TableUpTo(TableRows(sel, soup), DetailRule(), described);
    assert "in_stock" !in tabled by {
      assert described.Keys <= {"image_url", "description"};
      if "in_stock" in tabled {
        TableKeysOnly(sel, soup, "in_stock", described);
      }
    }
    StockOver(SelectOne(soup, sel.inStock), tabled);
    assert Details(sel, soup) == WithStock(SelectOne(soup, sel.inStock), tabled);
  }

  /** The stock line over a dict without `in_stock`: the field is there exactly with the element, `Yes` exactly when in stock. */
  lemma StockOver(e: Option<Element>, t: Record)
    requires "in_stock" !in t
    ensures var d := WithStock(e, t);
      && ("in_stock" in d <==> e.Some?)
      && (e.Some? ==> (d["in_stock"] == Str("Yes") <==> InStock(e.value.text)))
      && (e.Some? ==> (d["in_stock"] == Str("No") <==> !InStock(e.value.text)))
  {
  }

  /** "unavailable" contains "available". */
  lemma UnavailableContainsAvailable(s: string)
    requires Contains(s, "unavailable")
    ensures Contains(s, "available")
  {
    var k := IndexOf(s, "unavailable");
    IndexOfSpec(s, "unavailable");
    assert OccursAt(s, "available", k + 2) by {
      assert s[k + 2..k + 11] == s[k..k + 11][2..];
    }
    IndexOfSpec(s, "available");
  }

  /**
   * As written, a stock line saying "unavailable" counts as in stock; with
   * the intended test it does not. The two tests agree on every text that
   * does not say "unavailable".
   */
  lemma UnavailableInStock(stockText: string)
    requires Contains(Lower(stockText), "unavailable")
    ensures InStockAsWritten(stockText)
    ensures !InStock(stockText)
  {
    UnavailableContainsAvailable(Lower(stockText));
  }

  /** Where "unavailable" does not occur, the intended test is the written one. */
  lemma InStockAgrees(stockText: string)
    requires !Contains(Lower(stockText), "unavailable")
    ensures InStock(stockText) <==> InStockAsWritten(stockText)
  {
  }

  // ---------------------------------------------------------------------------
  // `_has_next_page`
  // ---------------------------------------------------------------------------

  /**
   * `_has_next_page`: the next-page element exists and its `use` child's
   * `xlink:href` contains `chevron-right-light`. None where it raises: no
   * `next_page_selector` key, no `use` child, or no `xlink:href`.
   */
  function HasNextPage(selector: Option<string>, soup: Element): (r: Option<bool>)
    ensures selector.Some? && SelectOne(soup, selector.value).None? ==> r == Some(false)
    ensures r == Some(true) ==>
      selector.Some? && SelectOne(soup, selector.value).Some? &&
      var link := SelectOne(soup, selector.value).value;
      SelectOne(link, "use").Some? && Attr(SelectOne(link, "use").value, "xlink:href").Some? &&
      Contains(Attr(SelectOne(link, "use").value, "xlink:href").value, "chevron-right-light")
    ensures r.None? <==>
      selector.None? ||
      (SelectOne(soup, selector.value).Some? &&
       var icon := SelectOne(SelectOne(soup, selector.value).value, "use");
       icon.None? || Attr(icon.value, "xlink:href").None?)
    ensures selector.Some? && SelectOne(soup, selector.value).Some? ==>
      var icon := SelectOne(SelectOne(soup, selector.value).value, "use");
      icon.Some? && Attr(icon.value, "xlink:href").Some? ==>
        r == Some(Contains(Attr(icon.value, "xlink:href").value, "chevron-right-light"))
  {
    if selector.None? then None
    else
      match SelectOne(soup, selector.value)
      case None => Some(false)
      case Some(link) =>
        match SelectOne(link, "use")
        case None => None
        case Some(icon) =>
          match Attr(icon, "xlink:href")
          case None => None
          case Some(href) => Some(Contains(href, "chevron-right-light"))
  }
}

=== FILE: network.dfy ===
/**
 * network_scraper.py: a scraper that calls a retailer's JSON endpoint page
 * by page. Each request sets `request_payload['page']`, builds
 * `request_url?k=v&...` from the payload, navigates to it, turns the JSON
 * items into product dicts through the `response_mapping` JMESPaths, and
 * appends them to the data file with the base class's `_save_products`.
 *
 * The browser is replaced by the sequence of responses the run receives,
 * and JMESPath by a `Search` parameter.
 */
module Network {
  import opened Text
  import opened Records
  import opened Persistence
  import opened Requests

  /** `page_limit`: a number from the configuration, or `float('inf')` by default. */
  datatype Limit = Unbounded | AtMost(n: int)

  /** `page <= self.page_limit`. */
  predicate Within(page: int, limit: Limit)
  {
    limit.Unbounded? || page <= limit.n
  }

  /** `page >= self.page_limit`. */
  predicate Reached(page: int, limit: Limit)
  {
    limit.AtMost? && page >= limit.n
  }

  /**
   * The product for one item: the fields of the mapping, the first `i` of
   * them in dict order, each set to what its JMESPath finds in the item.
   * None where a search raises.
   */
  function FieldsUpTo(fields: seq<(string, string)>, item: Value, search: Search, i: nat): Option<Record>
    requires i <= |fields|
  {
    if i == 0 then Some(map[])
    else
      match FieldsUpTo(fields, item, search, i - 1)
      case None => None
      case Some(product) =>
        match search(fields[i - 1].1, item)
        case SearchError => None
        case Found(v) => Some(product[fields[i - 1].0 := v])
  }

  function ItemProduct(fields: seq<(string, string)>, item: Value, search: Search): Option<Record>
  {
    FieldsUpTo(fields, item, search, |fields|)
  }

  /** The products of the first `j` items, in item order; None where one of them raises. */
  function ItemsUpTo(fields: seq<(string, string)>, items: seq<Value>, search: Search, j: nat): Option<seq<Record>>
    requires j <= |items|
  {
    if j == 0 then Some([])
    else
      match ItemsUpTo(fields, items, search, j - 1)
      case None => None
      case Some(products) =>
        match ItemProduct(fields, items[j - 1], search)
        case None => None
        case Some(p) => Some(products + [p])
  }

  /**
   * `parse_response(json_response)`: `search(root, json) or []`; anything
   * but a list gives no products; otherwise one product per item. None
   * where it raises: no `root` or `fields` key, or a search error.
   */
  function ResponseProducts(mapping: Mapping, json: Value, search: Search): Option<seq<Record>>
  {
    if mapping.root.None? then None
    else
      match search(mapping.root.value, json)
      case SearchError => None
      case Found(v) =>
        var items := if Truthy(v) then v else List([]);
        if !items.List? || items.items == [] then Some([])
        else if mapping.fields.None? then None
        else ItemsUpTo(mapping.fields.value, items.items, search, |items.items|)
  }

  lemma {:induction false} FieldsRaiseSticks(fields: seq<(string, string)>, item: Value, search: Search, i: nat, k: nat)
    requires i <= k <= |fields|
    requires FieldsUpTo(fields, item, search, i).None?
    ensures FieldsUpTo(fields, item, search, k).None?
    decreases k
  {
    if i < k {
      FieldsRaiseSticks(fields, item, search, i, k - 1);
    }
  }

  lemma {:induction false} ItemsRaiseSticks(fields: seq<(string, string)>, items: seq<Value>, search: Search, j: nat, k: nat)
    requires j <= k <= |items|
    requires ItemsUpTo(fields, items, search, j).None?
    ensures ItemsUpTo(fields, items, search, k).None?
    decreases k
  {
    if j < k {
      ItemsRaiseSticks(fields, items, search, j, k - 1);
    }
  }

  /** `parse_response`, with its loop over the items and, inside it, over the mapped fields. */
  method ParseResponse(mapping: Mapping, json: Value, search: Search) returns (products: Option<seq<Record>>)
    ensures products == ResponseProducts(mapping, json, search)
  {
    if mapping.root.None? {
      return None;
    }
    var found := search(mapping.root.value, json);
    if found.SearchError? {
      return None;
    }
    var items := if Truthy(found.value) then found.value else List([]);
    if !items.List? || items.items == [] {
      return Some([]);
    }
    if mapping.fields.None? {
      return None;
    }
    var fields := mapping.fields.value;
    var done: seq<Record> := [];
    var j := 0;
    while j < |items.items|
      invariant 0 <= j <= |items.items|
      invariant ItemsUpTo(fields, items.items, search, j) == Some(done)
    {
      var item := items.items[j];
      var product: Record := map[];
      var i := 0;
      while i < |fields|
        invariant 0 <= i <= |fields|
        invariant FieldsUpTo(fields, item, search, i) == Some(product)
      {
        var value := search(fields[i].1, item);
        if value.SearchError? {
          FieldsRaiseSticks(fields, item, search, i + 1, |fields|);
          ItemsRaiseSticks(fields, items.items, search, j + 1, |items.items|);
          return None;
        }
        product := product[fields[i].0 := value.value];
        i := i + 1;
      }
      done := done + [product];
      j := j + 1;
    }
    return Some(done);
  }

  /** An item's product exists exactly when none of the mapped JMESPaths raises on it. */
  lemma {:induction false} ItemProductFound(fields: seq<(string, string)>, item: Value, search: Search, i: nat)
    requires i <= |fields|
    ensures FieldsUpTo(fields, item, search, i).Some? <==> forall k :: 0 <= k < i ==> search(fields[k].1, item).Found?
    decreases i
  {
    if i > 0 {
      ItemProductFound(fields, item, search, i - 1);
    }
  }

  /** The product's keys are the field names mapped so far. */
  lemma {:induction false} FieldsKeys(fields: seq<(string, string)>, item: Value, search: Search, i: nat)
    requires i <= |fields| && FieldsUpTo(fields, item, search, i).Some?
    ensures FieldsUpTo(fields, item, search, i).value.Keys == (set k | 0 <= k < i :: fields[k].0)
    decreases i
  {
    if i > 0 {
      var before := FieldsUpTo(fields, item, search, i - 1);
      assert before.Some?;
      FieldsKeys(fields, item, search, i - 1);
      assert FieldsUpTo(fields, item, search, i).value == before.value[fields[i - 1].0 := search(fields[i - 1].1, item).value];
      assert (set k | 0 <= k < i :: fields[k].0) == (set k | 0 <= k < i - 1 :: fields[k].0) + {fields[i - 1].0};
    }
  }

  /** Each field mapped so far holds what its JMESPath finds in the item. */
  lemma {:induction false} FieldsValues(fields: seq<(string, string)>, item: Value, search: Search, i: nat)
    requires i <= |fields| && DistinctNames(fields) && FieldsUpTo(fields, item, search, i).Some?
    ensures var p := FieldsUpTo(fields, item, search, i).value;
      forall k :: 0 <= k < i ==> search(fields[k].1, item).Found? && fields[k].0 in p && p[fields[k].0] == search(fields[k].1, item).value
    decreases i
  {
    if i > 0 {
      var before := FieldsUpTo(fields, item, search, i - 1);
      assert before.Some?;
      FieldsValues(fields, item, search, i - 1);
      var p := before.value[fields[i - 1].0 := search(fields[i - 1].1, item).value];
      assert FieldsUpTo(fields, item, search, i).value == p;
      forall k | 0 <= k < i
        ensures search(fields[k].1, item).Found? && fields[k].0 in p && p[fields[k].0] == search(fields[k].1, item).value
      {
        if k < i - 1 {
          assert fields[k].0 != fields[i - 1].0;
        }
      }
    }
  }

  /** The product holds exactly the mapped field names, each set to what its JMESPath finds in the item. */
  lemma ItemProductFields(fields: seq<(string, string)>, item: Value, search: Search, i: nat)
    requires i <= |fields| && DistinctNames(fields)
    requires FieldsUpTo(fields, item, search, i).Some?
    ensures var p := FieldsUpTo(fields, item, search, i).value;
      && p.Keys == (set k | 0 <= k < i :: fields[k].0)
      && forall k :: 0 <= k < i ==> search(fields[k].1, item).Found? && p[fields[k].0] == search(fields[k].1, item).value
  {
    FieldsKeys(fields, item, search, i);
    FieldsValues(fields, item, search, i);
  }

  /** One product per item, in item order, unless some item's product raises. */
  lemma {:induction false} ItemsInOrder(fields: seq<(string, string)>, items: seq<Value>, search: Search, j: nat)
    requires j <= |items|
    ensures ItemsUpTo(fields, items, search, j).Some? <==> forall k :: 0 <= k < j ==> ItemProduct(fields, items[k], search).Some?
    ensures ItemsUpTo(fields, items, search, j).Some? ==>
      var ps := ItemsUpTo(fields, items, search, j).value;
      && |ps| == j
      && forall k :: 0 <= k < j ==> Some(ps[k]) == ItemProduct(fields, items[k], search)
    decreases j
  {
    if j > 0 {
      ItemsInOrder(fields, items, search, j - 1);
    }
  }

  /** A falsy root result, or one that is not a list, gives no products rather than an error. */
  lemma RootNotAList(mapping: Mapping, json: Value, search: Search)
    requires mapping.root.Some? && search(mapping.root.value, json).Found?
    requires var v := search(mapping.root.value, json).value; !Truthy(v) || !v.List?
    ensures ResponseProducts(mapping, json, search) == Some([])
  {
  }

  /** Why the `scrape()` loop ended. */
  datatype Stop =
    | LimitStop     // `page <= page_limit` failed
    | NotOkStop     // a response that is not OK
    | NoProductsStop
    | DevCapStop    // dev mode and `page >= page_limit`
    | RaisedStop    // an exception, caught around the loop

  /** The whole run: rows appended, the running total, the last page requested (0 for none), and why it stopped. */
  datatype Crawl = Crawl(rows: seq<seq<Value>>, total: nat, pages: nat, stop: Stop)

  /** The settings `scrape()` reads: where to send requests, how to read them, the limits, and how rows are stamped. */
  datatype Settings = Settings(requestUrl: string, mapping: Mapping, devMode: bool, pageLimit: Limit, stamping: Stamping)

  /** The loop from the check for page `page` on, with `rows` written and `total` counted so far. */
  function CrawlFrom(cfg: Settings, responses: seq<Option<Response>>, search: Search, columns: seq<string>,
                     page: nat, rows: seq<seq<Value>>, total: nat): Crawl
    requires page >= 1
    decreases |responses| + 1 - page, 2
  {
    if !Within(page, cfg.pageLimit) then Crawl(rows, total, page - 1, LimitStop)
    else Respond(cfg, responses, search, columns, page, ResponseAt(responses, page - 1), rows, total)
  }

  /** What a response tells the loop: stop for `stop`, or go on with a non-empty batch. */
  datatype Answer = Halt(stop: Stop) | Batch(products: seq<Record>)

  /**
   * The response to a request within the limit: no response (`response.ok`
   * raises), not OK, a body that is not JSON, a `parse_response` that
   * raises, no products, or a batch to save.
   */
  function AnswerOf(mapping: Mapping, response: Option<Response>, search: Search): (a: Answer)
    ensures a.Batch? ==> a.products != []
  {
    match response
    case None => Halt(RaisedStop)
    case Some(r) =>
      if !r.ok then Halt(NotOkStop)
      else if r.json.None? then Halt(RaisedStop)
      else
        match ResponseProducts(mapping, r.json.value, search)
        case None => Halt(RaisedStop)
        case Some(products) => if products == [] then Halt(NoProductsStop) else Batch(products)
  }

  /** What the loop does with `response`, the answer to the request for page `page`. */
  function Respond(cfg: Settings, responses: seq<Option<Response>>, search: Search, columns: seq<string>,
                   page: nat, response: Option<Response>, rows: seq<seq<Value>>, total: nat): Crawl
    requires page >= 1 && response == ResponseAt(responses, page - 1)
    decreases |responses| + 1 - page, 1
  {
    match AnswerOf(cfg.mapping, response, search)
    case Halt(stop) => Crawl(rows, total, page, stop)
    case Batch(products) => SaveBatch(cfg, responses, search, columns, page, products, rows, total)
  }

  /** Page `page` produced `products`: save them, count them, then the dev-mode check, then the next page. */
  function SaveBatch(cfg: Settings, responses: seq<Option<Response>>, search: Search, columns: seq<string>,
                     page: nat, products: seq<Record>, rows: seq<seq<Value>>, total: nat): Crawl
    requires 1 <= page <= |responses|
    decreases |responses| + 1 - page, 0
  {
    var saved := Save(cfg.stamping, columns, products);
    if saved.raised then Crawl(rows + saved.rows, total, page, RaisedStop)
    else if cfg.devMode && Reached(page, cfg.pageLimit) then Crawl(rows + saved.rows, total + |products|, page, DevCapStop)
    else CrawlFrom(cfg, responses, search, columns, page + 1, rows + saved.rows, total + |products|)
  }

  /** The request for page `page`, within the limit: its response either stops the loop there or hands over a batch. */
  lemma CrawlFromPage(cfg: Settings, responses: seq<Option<Response>>, search: Search, columns: seq<string>,
                      page: nat, rows: seq<seq<Value>>, total: nat)
    requires page >= 1 && Within(page, cfg.pageLimit)
    ensures var a := AnswerOf(cfg.mapping, ResponseAt(responses, page - 1), search);
      && (a.Halt? ==> CrawlFrom(cfg, responses, search, columns, page, rows, total) == Crawl(rows, total, page, a.stop))
      && (a.Batch? ==> page <= |responses|)
      && (a.Batch? ==> CrawlFrom(cfg, responses, search, columns, page, rows, total) == SaveBatch(cfg, responses, search, columns, page, a.products, rows, total))
  {
  }

  /** The response handling of `scrape()`, up to a batch to save. */
  method ReadResponse(mapping: Mapping, response: Option<Response>, search: Search) returns (a: Answer)
    ensures a == AnswerOf(mapping, response, search)
  {
    if response.None? {
      return Halt(RaisedStop);
    }
    if !response.value.ok {
      return Halt(NotOkStop);
    }
    if response.value.json.None? {
      return Halt(RaisedStop);
    }
    var products := ParseResponse(mapping, response.value.json.value, search);
    if products.None? {
      return Halt(RaisedStop);
    }
    if products.value == [] {
      return Halt(NoProductsStop);
    }
    return Batch(products.value);
  }

  /** The payload once page `page` has been requested (the configured payload before the first request). */
  function PayloadAt(payload: Payload, page: nat): Payload
  {
    if page == 0 then payload else SetKey(payload, "page", PInt(page))
  }

  /** `f"{self.request_url}?{query}"`, the query built from the payload. */
  function RequestUrl(requestUrl: string, payload: Payload): string
  {
    requestUrl + "?" + Query(payload)
  }

  /** The URL of the request for page `page`. */
  function PageUrl(requestUrl: string, payload: Payload, page: nat): string
  {
    RequestUrl(requestUrl, SetKey(payload, "page", PInt(page)))
  }

  /** The URLs of the requests for pages 1 to `n`, in order. */
  function PageUrls(requestUrl: string, payload: Payload, n: nat): (urls: seq<string>)
    ensures |urls| == n
  {
    if n == 0 then [] else PageUrls(requestUrl, payload, n - 1) + [PageUrl(requestUrl, payload, n)]
  }

  /** The `k`-th request of a run carries page `k + 1` and leaves every other payload entry as configured. */
  lemma {:induction false} PageUrlsCount(requestUrl: string, payload: Payload, n: nat, k: nat)
    requires k < n
    ensures PageUrls(requestUrl, payload, n)[k] == PageUrl(requestUrl, payload, k + 1)
    decreases n
  {
    if k < n - 1 {
      PageUrlsCount(requestUrl, payload, n - 1, k);
    }
  }

  /** Setting the page in the payload for the next request continues both the payload and the URLs. */
  lemma NextRequest(requestUrl: string, payload: Payload, n: nat)
    ensures SetKey(PayloadAt(payload, n), "page", PInt(n + 1)) == PayloadAt(payload, n + 1)
    ensures PageUrls(requestUrl, payload, n) + [RequestUrl(requestUrl, PayloadAt(payload, n + 1))] == PageUrls(requestUrl, payload, n + 1)
  {
    if n > 0 {
      SetKeyTwice(payload, "page", PInt(n), PInt(n + 1));
    }
  }

  /** `NetworkScraper`: its configuration, the payload it updates in place, and its data file. */
  class NetworkScraper {
    const requestUrl: string
    const mapping: Mapping
    const devMode: bool
    const pageLimit: Limit
    const stamping: Stamping
    const file: DataFile
    var payload: Payload

    /**
     * `__post_init__`: `request_payload` defaults to `{}`, `dev_mode` to
     * False and `page_limit` to `float('inf')`; rows are stamped with the
     * retailer and its country as the base class does.
     */
    constructor (requestUrl: string, payload: Option<Payload>, mapping: Mapping, devMode: Option<bool>, pageLimit: Option<Limit>,
                 retailer: string, country: string, file: DataFile)
      ensures this.requestUrl == requestUrl && this.mapping == mapping && this.file == file
      ensures this.payload == (if payload.Some? then payload.value else [])
      ensures this.devMode == (devMode.Some? && devMode.value)
      ensures this.pageLimit == (if pageLimit.Some? then pageLimit.value else Unbounded)
      ensures this.stamping == BaseStamp(retailer, country)
    {
      this.requestUrl := requestUrl;
      this.mapping := mapping;
      this.file := file;
      this.payload := if payload.Some? then payload.value else [];
      this.devMode := devMode.Some? && devMode.value;
      this.pageLimit := if pageLimit.Some? then pageLimit.value else Unbounded;
      this.stamping := BaseStamp(retailer, country);
    }

    function Config(): Settings
    {
      Settings(requestUrl, mapping, devMode, pageLimit, stamping)
    }

    /**
     * The rest of one pass of the loop for page `page`, once the request is
     * sent: take the response, parse it, save the batch and count it, then
     * the dev-mode check. `stop` is None when the loop goes on.
     */
    method ScrapePage(responses: seq<Option<Response>>, search: Search, columns: seq<string>, page: nat, ghost total: nat)
      returns (added: nat, stop: Option<Stop>)
      requires page >= 1 && Within(page, pageLimit)
      modifies file
      ensures file.header == old(file.header) && file.present == old(file.present)
      ensures stop.Some? ==>
        CrawlFrom(Config(), responses, search, columns, page, old(file.rows), total) == Crawl(file.rows, total + added, page, stop.value)
      ensures stop.None? ==> page <= |responses|
      ensures stop.None? ==>
        CrawlFrom(Config(), responses, search, columns, page, old(file.rows), total) == CrawlFrom(Config(), responses, search, columns, page + 1, file.rows, total + added)
    {
      CrawlFromPage(Config(), responses, search, columns, page, file.rows, total);
      var answer := ReadResponse(mapping, ResponseAt(responses, page - 1), search);
      if answer.Halt? {
        return 0, Some(answer.stop);
      }
      var products := answer.products;
      var raised := file.SaveProducts(stamping, columns, products);
      if raised {
        return 0, Some(RaisedStop);
      }
      added := |products|;
      if devMode && Reached(page, pageLimit) {
        return added, Some(DevCapStop);
      }
      return added, None;
    }

    /**
     * The request for the page after the first `n`: `payload['page']` is
     * set to `n + 1` and the URL carries the updated payload, so the URLs
     * requested so far grow by the next one of `PageUrls`.
     */
    method Request(ghost start: Payload, n: nat) returns (url: string)
      requires payload == PayloadAt(start, n)
      modifies this
      ensures payload == PayloadAt(start, n + 1)
      ensures PageUrls(requestUrl, start, n) + [url] == PageUrls(requestUrl, start, n + 1)
    {
      NextRequest(requestUrl, start, n);
      payload := SetKey(payload, "page", PInt(n + 1));
      url := RequestUrl(requestUrl, payload);
    }

    /**
     * `scrape()`: requests pages 1, 2, ... in turn while they are within
     * the limit, and ends as `CrawlFrom` says. `urls` are the URLs
     * requested, in order: the `k`-th carries page `k + 1` in the payload.
     */
    method Scrape(responses: seq<Option<Response>>, search: Search, columns: seq<string>)
      returns (urls: seq<string>, total: nat, stop: Stop)
      modifies this, file
      ensures file.header == old(file.header) && file.present == old(file.present)
      ensures var c := CrawlFrom(Config(), responses, search, columns, 1, old(file.rows), 0);
        && file.rows == c.rows
        && total == c.total && stop == c.stop
        && |urls| == c.pages
        && payload == PayloadAt(old(payload), c.pages)
        && urls == PageUrls(requestUrl, old(payload), c.pages)
    {
      var page := 1;
      total := 0;
      urls := [];
      var halted: Option<Stop> := None;
      ghost var goal := CrawlFrom(Config(), responses, search, columns, 1, file.rows, 0);
      while halted.None?
        invariant halted.None? ==> 1 <= page <= |responses| + 1 && |urls| == page - 1
        invariant payload == PayloadAt(old(payload), |urls|)
        invariant file.header == old(file.header) && file.present == old(file.present)
        invariant urls == PageUrls(requestUrl, old(payload), |urls|)
        invariant halted.None? ==> goal == CrawlFrom(Config(), responses, search, columns, page, file.rows, total)
        invariant halted.Some? ==> goal == Crawl(file.rows, total, |urls|, halted.value)
        decreases |responses| + 1 - |urls|, if halted.None? then 1 else 0
      {
        if !Within(page, pageLimit) {
          halted := Some(LimitStop);
        } else {
          var url := Request(old(payload), |urls|);
          urls := urls + [url];
          var added;
          added, halted := ScrapePage(responses, search, columns, page, total);
          total := total + added;
          page := page + 1;
        }
      }
      stop := halted.value;
    }
  }

  /**
   * No page beyond `page_limit` is requested, and in dev mode the loop
   * stops at `page_limit` itself once that page is saved.
   */
  lemma {:induction false} CrawlPages(cfg: Settings, responses: seq<Option<Response>>, search: Search, columns: seq<string>,
                                      page: nat, rows: seq<seq<Value>>, total: nat)
    requires page >= 1
    ensures var c := CrawlFrom(cfg, responses, search, columns, page, rows, total);
      && page - 1 <= c.pages
      && (c.pages >= page ==> Within(c.pages, cfg.pageLimit))
      && (c.stop == LimitStop ==> !Within(c.pages + 1, cfg.pageLimit))
      && (c.stop != LimitStop ==> c.pages >= page)
      && (c.stop == DevCapStop ==> cfg.devMode && Reached(c.pages, cfg.pageLimit))
    decreases |responses| + 1 - page
  {
    if Within(page, cfg.pageLimit) {
      CrawlFromPage(cfg, responses, search, columns, page, rows, total);
      var a := AnswerOf(cfg.mapping, ResponseAt(responses, page - 1), search);
      if a.Batch? {
        var saved := Save(cfg.stamping, columns, a.products);
        if !saved.raised && !(cfg.devMode && Reached(page, cfg.pageLimit)) {
          CrawlPages(cfg, responses, search, columns, page + 1, rows + saved.rows, total + |a.products|);
        }
      }
    }
  }

  /** Rows are only appended to the file: the rows it held before the run stay as they were, in front. */
  lemma {:induction false} CrawlAppends(cfg: Settings, responses: seq<Option<Response>>, search: Search, columns: seq<string>,
                                        page: nat, rows: seq<seq<Value>>, total: nat)
    requires page >= 1
    ensures var c := CrawlFrom(cfg, responses, search, columns, page, rows, total);
      |rows| <= |c.rows| && c.rows[..|rows|] == rows
    decreases |responses| + 1 - page
  {
    if Within(page, cfg.pageLimit) {
      CrawlFromPage(cfg, responses, search, columns, page, rows, total);
      var a := AnswerOf(cfg.mapping, ResponseAt(responses, page - 1), search);
      if a.Batch? {
        var saved := Save(cfg.stamping, columns, a.products);
        var rows' := rows + saved.rows;
        assert rows'[..|rows|] == rows;
        if !saved.raised && !(cfg.devMode && Reached(page, cfg.pageLimit)) {
          CrawlAppends(cfg, responses, search, columns, page + 1, rows', total + |a.products|);
          var c := CrawlFrom(cfg, responses, search, columns, page + 1, rows', total + |a.products|);
          assert c.rows[..|rows|] == c.rows[..|rows'|][..|rows|];
        }
      }
    }
  }

  /** The total only grows, and by no more than the rows written. */
  lemma {:induction false} CrawlTotalBound(cfg: Settings, responses: seq<Option<Response>>, search: Search, columns: seq<string>,
                                           page: nat, rows: seq<seq<Value>>, total: nat)
    requires page >= 1
    ensures var c := CrawlFrom(cfg, responses, search, columns, page, rows, total);
      total <= c.total && c.total - total <= |c.rows| - |rows|
    decreases |responses| + 1 - page
  {
    if Within(page, cfg.pageLimit) {
      CrawlFromPage(cfg, responses, search, columns, page, rows, total);
      var a := AnswerOf(cfg.mapping, ResponseAt(responses, page - 1), search);
      if a.Batch? {
        SaveLength(cfg.stamping, columns, a.products, |a.products|);
        var saved := Save(cfg.stamping, columns, a.products);
        if !saved.raised && !(cfg.devMode && Reached(page, cfg.pageLimit)) {
          CrawlTotalBound(cfg, responses, search, columns, page + 1, rows + saved.rows, total + |a.products|);
        }
      }
    }
  }

  /**
   * The total counts the rows of every batch saved in full: every new row
   * but those of the partial batch of a save that raised.
   */
  lemma {:induction false} CrawlCounts(cfg: Settings, responses: seq<Option<Response>>, search: Search, columns: seq<string>,
                                       page: nat, rows: seq<seq<Value>>, total: nat)
    requires page >= 1
    ensures var c := CrawlFrom(cfg, responses, search, columns, page, rows, total);
      && total <= c.total
      && c.total - total <= |c.rows| - |rows|
      && (c.stop != RaisedStop ==> c.total - total == |c.rows| - |rows|)
    decreases |responses| + 1 - page
  {
    CrawlTotalBound(cfg, responses, search, columns, page, rows, total);
    if Within(page, cfg.pageLimit) {
      CrawlFromPage(cfg, responses, search, columns, page, rows, total);
      var a := AnswerOf(cfg.mapping, ResponseAt(responses, page - 1), search);
      if a.Batch? {
        SaveLength(cfg.stamping, columns, a.products, |a.products|);
        var saved := Save(cfg.stamping, columns, a.products);
        if !saved.raised && !(cfg.devMode && Reached(page, cfg.pageLimit)) {
          CrawlCounts(cfg, responses, search, columns, page + 1, rows + saved.rows, total + |a.products|);
        }
      }
    }
  }

  /** With the defaults (no limit, no dev mode) only the responses end the loop. */
  lemma {:induction false} DefaultsNeverCap(cfg: Settings, responses: seq<Option<Response>>, search: Search, columns: seq<string>,
                                            page: nat, rows: seq<seq<Value>>, total: nat)
    requires page >= 1 && cfg.pageLimit == Unbounded
    ensures var c := CrawlFrom(cfg, responses, search, columns, page, rows, total);
      c.stop != LimitStop && c.stop != DevCapStop
    decreases |responses| + 1 - page
  {
    CrawlFromPage(cfg, responses, search, columns, page, rows, total);
    var a := AnswerOf(cfg.mapping, ResponseAt(responses, page - 1), search);
    if a.Batch? {
      var saved := Save(cfg.stamping, columns, a.products);
      if !saved.raised {
        DefaultsNeverCap(cfg, responses, search, columns, page + 1, rows + saved.rows, total + |a.products|);
      }
    }
  }
}

=== FILE: pagination.dfy ===
/**
 * The listing-page loop (`scrape`) of base_scraper.py, beverage_scraper.py,
 * web_scraper.py, and whisky_exchange_scraper.py with its request and save
 * calls read as the base class's. Each walks page numbers from 1 and stops
 * at the first page with no content, no product-list container or no
 * parsed products, after the first page with no next page, at the
 * development-mode page cap, or on an exception.
 *
 * Fetching and parsing a listing page is a parameter: `pages[n - 1]` is
 * what page `n` turns out to be, after retries, and every page past the
 * sequence has no content. Fetching details is the parameter `fetch` of the
 * detail step; the clock reads `clock(page)(position)`.
 */
module Pagination {
  import opened Text
  import opened Records
  import opened Persistence
  import opened Enrichment
  import Heinemann
  import Retry

  /** Which class's loop runs. */
  datatype Variant = BaseLoop | BeverageLoop | WebLoop | ExchangeLoop

  /**
   * The configuration the loop reads: `next_page_selector`, `dev_mode`,
   * `page_limit`, `fetch_details` and the retailer's stamps. `chevronNext`
   * marks a base-class scraper whose `_has_next_page` is Heinemann's.
   */
  datatype LoopConfig = LoopConfig(
    variant: Variant,
    retailer: string,
    country: string,
    currency: string,
    nextSelector: Option<string>,
    chevronNext: bool,
    devMode: bool,
    pageLimit: Option<int>,
    fetchDetails: bool)

  /**
   * A listing page: no content from `_make_request`, content without the
   * product-list container, or the products `_parse_products` found on it
   * together with the page itself (for the next-page check).
   */
  datatype Page = NoContent | NoList | Listed(products: seq<Record>, soup: Element)

  function PageAt(pages: seq<Page>, n: nat): (p: Page)
    ensures p.Listed? ==> 1 <= n <= |pages|
  {
    if 1 <= n <= |pages| then pages[n - 1] else NoContent
  }

  /** A `next_page_selector` that is set and non-empty. */
  predicate Configured(selector: Option<string>)
  {
    selector.Some? && selector.value != []
  }

  /** `_has_next_page(soup, page_num)`; None where it raises. */
  function HasNextPage(cfg: LoopConfig, soup: Element): (r: Option<bool>)
    ensures cfg.variant == ExchangeLoop ==> r == Some(true)
    ensures (cfg.variant == BeverageLoop || cfg.variant == WebLoop) && !Configured(cfg.nextSelector) ==> r == Some(false)
    ensures cfg.variant == BaseLoop && !cfg.chevronNext && !Configured(cfg.nextSelector) ==> r == Some(true)
    ensures cfg.variant != ExchangeLoop && !(cfg.variant == BaseLoop && cfg.chevronNext) && Configured(cfg.nextSelector)
      ==> r == Some(SelectOne(soup, cfg.nextSelector.value).Some?)
  {
    match cfg.variant
    case BaseLoop =>
      if cfg.chevronNext then Heinemann.HasNextPage(cfg.nextSelector, soup)
      else if Configured(cfg.nextSelector) then Some(SelectOne(soup, cfg.nextSelector.value).Some?)
      else Some(true)
    case BeverageLoop =>
      if Configured(cfg.nextSelector) then Some(SelectOne(soup, cfg.nextSelector.value).Some?) else Some(false)
    case WebLoop =>
      if Configured(cfg.nextSelector) then Some(SelectOne(soup, cfg.nextSelector.value).Some?) else Some(false)
    case ExchangeLoop => Some(true)
  }

  /** The development-mode check made after moving to page `next`. */
  datatype CapCheck = Continue | CapStop | CapRaised

  /**
   * base_scraper.py: `dev_mode and next > int(page_limit)`, where a missing
   * limit makes `int(None)` raise. beverage_scraper.py: the limit defaults to
   * 1, but the log line then reads `site_config['page_limit']` and raises.
   * The other loops have no cap.
   */
  function DevCap(cfg: LoopConfig, next: int): CapCheck
  {
    match cfg.variant
    case BaseLoop =>
      if !cfg.devMode then Continue
      else if cfg.pageLimit.None? then CapRaised
      else if next > cfg.pageLimit.value then CapStop
      else Continue
    case BeverageLoop =>
      if !cfg.devMode then Continue
      else
        var limit := if cfg.pageLimit.Some? then cfg.pageLimit.value else 1;
        if next <= limit then Continue
        else if cfg.pageLimit.None? then CapRaised
        else CapStop
    case WebLoop => Continue
    case ExchangeLoop => Continue
  }

  /** How `_save_products` stamps the batch of page `n`. */
  function StampingOf(cfg: LoopConfig, n: nat, clock: nat -> nat -> string): Stamping
  {
    if cfg.variant == BeverageLoop then BeverageStamp(cfg.retailer, cfg.country, cfg.currency, clock(n))
    else BaseStamp(cfg.retailer, cfg.country)
  }

  /** How the detail step treats the batch of page `n`: only the base class stamps the time there. */
  function EnrichModeOf(cfg: LoopConfig, n: nat, clock: nat -> nat -> string): EnrichMode
  {
    if cfg.variant == BaseLoop then StampTime(clock(n)) else Plain
  }

  /** The batch after the detail step; the Whisky Exchange loop has none. */
  function Detailed(cfg: LoopConfig, products: seq<Record>, fetch: Value -> DetailOutcome, n: nat, clock: nat -> nat -> string): Option<seq<Record>>
  {
    if cfg.variant == ExchangeLoop then Some(products)
    else Enrich(EnrichModeOf(cfg, n, clock), cfg.fetchDetails, products, fetch)
  }

  /** Why the loop ended. */
  datatype Stop = NoContentStop | NoListStop | NoProductsStop | NoNextPageStop | PageCapStop | RaisedStop

  /** The products of page `n`, when it is a listing with at least one. */
  predicate HasProducts(pages: seq<Page>, n: nat)
  {
    PageAt(pages, n).Listed? && PageAt(pages, n).products != []
  }

  /**
   * What the loop body does with the products of page `n`: the rows it
   * appended, what it added to the running total, and why the loop stops
   * there (None when it moves on to page `n + 1`).
   */
  datatype BatchResult = BatchResult(rows: seq<seq<Value>>, added: nat, stop: Option<Stop>)

  /** After a batch is saved: the next-page check, then the page cap on page `n + 1`. */
  function AfterSave(cfg: LoopConfig, soup: Element, n: nat): (stop: Option<Stop>)
    ensures stop.None? <==> HasNextPage(cfg, soup) == Some(true) && DevCap(cfg, n + 1).Continue?
    ensures stop == Some(NoNextPageStop) <==> HasNextPage(cfg, soup) == Some(false)
    ensures stop == Some(PageCapStop) <==> HasNextPage(cfg, soup) == Some(true) && DevCap(cfg, n + 1).CapStop?
    ensures stop == Some(RaisedStop) || stop == Some(NoNextPageStop) || stop == Some(PageCapStop) || stop.None?
  {
    match HasNextPage(cfg, soup)
    case None => Some(RaisedStop)
    case Some(more) =>
      if !more then Some(NoNextPageStop)
      else
        match DevCap(cfg, n + 1)
        case CapRaised => Some(RaisedStop)
        case CapStop => Some(PageCapStop)
        case Continue => None
  }

  /** The detail step, the save, the count, the next-page check and the cap, on the products of page `n`. */
  function BatchStep(cfg: LoopConfig, pages: seq<Page>, fetch: Value -> DetailOutcome, clock: nat -> nat -> string,
                     columns: seq<string>, n: nat): BatchResult
    requires HasProducts(pages, n)
  {
    match Detailed(cfg, PageAt(pages, n).products, fetch, n, clock)
    case None => BatchResult([], 0, Some(RaisedStop))
    case Some(batch) =>
      var saved := Save(StampingOf(cfg, n, clock), columns, batch);
      if saved.raised then BatchResult(saved.rows, 0, Some(RaisedStop))
      else BatchResult(saved.rows, |batch|, AfterSave(cfg, PageAt(pages, n).soup, n))
  }

  /**
   * A batch adds to the running total at most the rows it wrote, and
   * exactly that many unless it raised; it never stops the loop for want of
   * content, a list or products.
   */
  lemma BatchCounts(cfg: LoopConfig, pages: seq<Page>, fetch: Value -> DetailOutcome, clock: nat -> nat -> string,
                    columns: seq<string>, n: nat)
    requires HasProducts(pages, n)
    ensures var s := BatchStep(cfg, pages, fetch, clock, columns, n);
      && s.added <= |s.rows|
      && (s.stop != Some(RaisedStop) ==> s.added == |s.rows|)
      && s.stop != Some(NoContentStop) && s.stop != Some(NoListStop) && s.stop != Some(NoProductsStop)
  {
    match Detailed(cfg, PageAt(pages, n).products, fetch, n, clock)
    case None =>
    case Some(batch) =>
      SaveLength(StampingOf(cfg, n, clock), columns, batch, |batch|);
  }

  /** The whole run: rows appended to the data file, the running total, the last page requested, and why it stopped. */
  datatype Crawl = Crawl(rows: seq<seq<Value>>, total: nat, pages: nat, stop: Stop)

  /** The loop from the request for page `n` on, with `rows` written and `total` counted so far. */
  function CrawlFrom(cfg: LoopConfig, pages: seq<Page>, fetch: Value -> DetailOutcome, clock: nat -> nat -> string,
                     columns: seq<string>, n: nat, rows: seq<seq<Value>>, total: nat): Crawl
    decreases |pages| + 1 - n, 2
  {
    Respond(cfg, pages, fetch, clock, columns, n, PageAt(pages, n), rows, total)
  }

  /** What the loop does with the response `page` to its request for page `n`. */
  function Respond(cfg: LoopConfig, pages: seq<Page>, fetch: Value -> DetailOutcome, clock: nat -> nat -> string,
                   columns: seq<string>, n: nat, page: Page, rows: seq<seq<Value>>, total: nat): Crawl
    requires page == PageAt(pages, n)
    decreases |pages| + 1 - n, 1
  {
    match page
    case NoContent => Crawl(rows, total, n, NoContentStop)
    case NoList => Crawl(rows, total, n, NoListStop)
    case Listed(products, _) =>
      if products == [] then Crawl(rows, total, n, NoProductsStop)
      else CrawlBatch(cfg, pages, fetch, clock, columns, n, rows, total)
  }

  /** The loop once page `n` has listed products: its batch, then page `n + 1` unless the batch stops it. */
  function CrawlBatch(cfg: LoopConfig, pages: seq<Page>, fetch: Value -> DetailOutcome, clock: nat -> nat -> string,
                      columns: seq<string>, n: nat, rows: seq<seq<Value>>, total: nat): Crawl
    requires HasProducts(pages, n)
    decreases |pages| + 1 - n, 0
  {
    var s := BatchStep(cfg, pages, fetch, clock, columns, n);
    if s.stop.Some? then Crawl(rows + s.rows, total + s.added, n, s.stop.value)
    else CrawlFrom(cfg, pages, fetch, clock, columns, n + 1, rows + s.rows, total + s.added)
  }

  /** The loop from page 1; `columns` is the class's `fieldnames` (`Fieldnames` for every scraper). */
  function Run(cfg: LoopConfig, pages: seq<Page>, fetch: Value -> DetailOutcome, clock: nat -> nat -> string, columns: seq<string>): Crawl
  {
    CrawlFrom(cfg, pages, fetch, clock, columns, 1, [], 0)
  }

  /** The request for page `n`: a page without listed products ends the loop there with nothing written. */
  lemma CrawlFromPage(cfg: LoopConfig, pages: seq<Page>, fetch: Value -> DetailOutcome, clock: nat -> nat -> string,
                      columns: seq<string>, n: nat, rows: seq<seq<Value>>, total: nat)
    ensures PageAt(pages, n).NoContent? ==> CrawlFrom(cfg, pages, fetch, clock, columns, n, rows, total) == Crawl(rows, total, n, NoContentStop)
    ensures PageAt(pages, n).NoList? ==> CrawlFrom(cfg, pages, fetch, clock, columns, n, rows, total) == Crawl(rows, total, n, NoListStop)
    ensures PageAt(pages, n).Listed? && PageAt(pages, n).products == [] ==>
      CrawlFrom(cfg, pages, fetch, clock, columns, n, rows, total) == Crawl(rows, total, n, NoProductsStop)
    ensures HasProducts(pages, n) ==> CrawlFrom(cfg, pages, fetch, clock, columns, n, rows, total) == CrawlBatch(cfg, pages, fetch, clock, columns, n, rows, total)
  {
  }

  /** The page a listing request yields: no content for None or an empty body, else what the content parses to. */
  function PageOfFetch(f: Retry.Fetch, parse: string -> Page): (p: Page)
    ensures f.result.None? ==> p == NoContent
  {
    if f.result.None? || f.result.value == [] then NoContent else parse(f.result.value)
  }

  /**
   * The web loop as written: its page requests read `max_timeout`, which no
   * `WebScraper` assigns, so page 1 yields no content whatever the site
   * serves, and the run stops there with nothing written or counted.
   */
  lemma WebUnsetTimeoutWritesNothing(cfg: LoopConfig, pages: seq<Page>, fetch: Value -> DetailOutcome, clock: nat -> nat -> string,
                                     columns: seq<string>, retries: nat, delay: nat, parse: string -> Page)
    requires cfg.variant == WebLoop
    requires PageAt(pages, 1) == PageOfFetch(Retry.Schedule(Retry.UnsetTimeoutOutcomes(retries), retries, delay), parse)
    ensures Run(cfg, pages, fetch, clock, columns) == Crawl([], 0, 1, NoContentStop)
  {
    Retry.UnsetTimeoutNoContent(retries, delay);
    CrawlFromPage(cfg, pages, fetch, clock, columns, 1, [], 0);
  }

  /**
   * The web loop with `max_timeout` set, as the beverage class sets it: a
   * first page whose first attempt serves a listing with products is saved
   * as a batch before the loop moves on or stops.
   */
  lemma WebTimeoutSetSavesFirstPage(cfg: LoopConfig, pages: seq<Page>, fetch: Value -> DetailOutcome, clock: nat -> nat -> string,
                                    columns: seq<string>, outcomes: seq<Retry.Attempt>, retries: nat, delay: nat,
                                    parse: string -> Page)
    requires cfg.variant == WebLoop
    requires retries >= 1 && |outcomes| >= retries && outcomes[0].Fetched? && outcomes[0].content != []
    requires parse(outcomes[0].content).Listed? && parse(outcomes[0].content).products != []
    requires PageAt(pages, 1) == PageOfFetch(Retry.Schedule(outcomes, retries, delay), parse)
    ensures HasProducts(pages, 1)
    ensures Run(cfg, pages, fetch, clock, columns) == CrawlBatch(cfg, pages, fetch, clock, columns, 1, [], 0)
  {
    Retry.FirstAttemptFetched(outcomes, retries, delay);
    CrawlFromPage(cfg, pages, fetch, clock, columns, 1, [], 0);
  }

  /**
   * The body of the `scrape()` loop on page `n`: take the page, run the
   * detail step, save the batch, count it, then check for a next page and
   * the cap. `rows` and `total` are what the loop has written and counted
   * before; `written` is what this page appends.
   */
  method ScrapePage(cfg: LoopConfig, pages: seq<Page>, fetch: Value -> DetailOutcome, clock: nat -> nat -> string,
                    columns: seq<string>, n: nat, file: DataFile, ghost rows: seq<seq<Value>>, ghost total: nat)
    returns (added: nat, stop: Option<Stop>, ghost written: seq<seq<Value>>)
    modifies file
    ensures file.header == old(file.header) && file.present == old(file.present)
    ensures file.rows == old(file.rows) + written
    ensures stop.Some? ==> CrawlFrom(cfg, pages, fetch, clock, columns, n, rows, total) == Crawl(rows + written, total + added, n, stop.value)
    ensures stop.None? ==> n <= |pages| && CrawlFrom(cfg, pages, fetch, clock, columns, n, rows, total) == CrawlFrom(cfg, pages, fetch, clock, columns, n + 1, rows + written, total + added)
  {
    CrawlFromPage(cfg, pages, fetch, clock, columns, n, rows, total);
    written := [];
    var page := PageAt(pages, n);
    if page.NoContent? {
      return 0, Some(NoContentStop), written;
    }
    if page.NoList? {
      return 0, Some(NoListStop), written;
    }
    if page.products == [] {
      return 0, Some(NoProductsStop), written;
    }
    var batch: Option<seq<Record>>;
    if cfg.variant == ExchangeLoop {
      batch := Some(page.products);
    } else {
      batch := FetchProductDetails(EnrichModeOf(cfg, n, clock), cfg.fetchDetails, page.products, fetch);
    }
    if batch.None? {
      return 0, Some(RaisedStop), written;
    }
    var raised := file.SaveProducts(StampingOf(cfg, n, clock), columns, batch.value);
    written := Save(StampingOf(cfg, n, clock), columns, batch.value).rows;
    if raised {
      return 0, Some(RaisedStop), written;
    }
    added := |batch.value|;
    var more := HasNextPage(cfg, page.soup);
    if more.None? {
      return added, Some(RaisedStop), written;
    }
    if !more.value {
      return added, Some(NoNextPageStop), written;
    }
    var cap := DevCap(cfg, n + 1);
    if cap.CapRaised? {
      return added, Some(RaisedStop), written;
    }
    if cap.CapStop? {
      return added, Some(PageCapStop), written;
    }
    return added, None, written;
  }

  /**
   * `scrape()`: requests pages 1, 2, ..., `last` in turn, appending each
   * page's stamped batch to the data file, and ends as `Run` says.
   */
  method Scrape(cfg: LoopConfig, pages: seq<Page>, fetch: Value -> DetailOutcome, clock: nat -> nat -> string,
               columns: seq<string>, file: DataFile)
    returns (last: nat, total: nat, stop: Stop)
    modifies file
    ensures file.header == old(file.header) && file.present == old(file.present)
    ensures var c := Run(cfg, pages, fetch, clock, columns);
      && file.rows == old(file.rows) + c.rows
      && total == c.total && stop == c.stop
      && last == c.pages
  {
    var n := 1;
    total := 0;
    ghost var start := file.rows;
    ghost var written: seq<seq<Value>> := [];
    ghost var goal := Run(cfg, pages, fetch, clock, columns);
    while true
      invariant n >= 1
      invariant file.header == old(file.header) && file.present == old(file.present)
      invariant file.rows == start + written
      invariant goal == CrawlFrom(cfg, pages, fetch, clock, columns, n, written, total)
      decreases |pages| + 1 - n
    {
      var added, pageStop;
      ghost var pageRows;
      added, pageStop, pageRows := ScrapePage(cfg, pages, fetch, clock, columns, n, file, written, total);
      written := written + pageRows;
      total := total + added;
      if pageStop.Some? {
        return n, total, pageStop.value;
      }
      n := n + 1;
    }
  }

  /**
   * Every page before the last one requested was a listing with products,
   * and the last one is the reason the loop stopped. Rows are only
   * appended, and the running total counts every row of the pages saved in
   * full; an exception can leave rows that the total does not count.
   */
  lemma {:induction false} CrawlShape(cfg: LoopConfig, pages: seq<Page>, fetch: Value -> DetailOutcome, clock: nat -> nat -> string,
                                      columns: seq<string>, n: nat, rows: seq<seq<Value>>, total: nat)
    ensures var c := CrawlFrom(cfg, pages, fetch, clock, columns, n, rows, total);
      && n <= c.pages
      && (forall k :: n <= k < c.pages ==> HasProducts(pages, k))
      && (c.stop == NoContentStop ==> PageAt(pages, c.pages).NoContent?)
      && (c.stop == NoListStop ==> PageAt(pages, c.pages).NoList?)
      && (c.stop == NoProductsStop ==> PageAt(pages, c.pages).Listed? && PageAt(pages, c.pages).products == [])
      && |rows| <= |c.rows| && c.rows[..|rows|] == rows
      && c.total - total <= |c.rows| - |rows|
      && (c.stop != RaisedStop ==> c.total - total == |c.rows| - |rows|)
    decreases |pages| + 1 - n
  {
    CrawlFromPage(cfg, pages, fetch, clock, columns, n, rows, total);
    if HasProducts(pages, n) {
      var s := BatchStep(cfg, pages, fetch, clock, columns, n);
      BatchCounts(cfg, pages, fetch, clock, columns, n);
      var rows' := rows + s.rows;
      assert rows'[..|rows|] == rows;
      if s.stop.None? {
        CrawlShape(cfg, pages, fetch, clock, columns, n + 1, rows', total + s.added);
        var c := CrawlFrom(cfg, pages, fetch, clock, columns, n, rows, total);
        assert c.rows[..|rows'|] == rows';
        assert c.rows[..|rows|] == rows'[..|rows|];
      }
    }
  }

  /**
   * In development mode with a page limit `L`, the base and beverage loops
   * request no page beyond `L` (page 1 is always requested).
   */
  lemma {:induction false} PageCapRespected(cfg: LoopConfig, pages: seq<Page>, fetch: Value -> DetailOutcome, clock: nat -> nat -> string,
                                            columns: seq<string>, n: nat, rows: seq<seq<Value>>, total: nat)
    requires cfg.variant == BaseLoop || cfg.variant == BeverageLoop
    requires cfg.devMode && cfg.pageLimit.Some?
    requires 1 <= n && (n == 1 || n <= cfg.pageLimit.value)
    ensures var c := CrawlFrom(cfg, pages, fetch, clock, columns, n, rows, total);
      c.pages == 1 || c.pages <= cfg.pageLimit.value
    decreases |pages| + 1 - n
  {
    CrawlFromPage(cfg, pages, fetch, clock, columns, n, rows, total);
    if HasProducts(pages, n) {
      var s := BatchStep(cfg, pages, fetch, clock, columns, n);
      if s.stop.None? {
        PageCapRespected(cfg, pages, fetch, clock, columns, n + 1, rows + s.rows, total + s.added);
      }
    }
  }

  /**
   * With no `next_page_selector` the beverage and web loops stop after the
   * page they start on: from page 1, only page 1 is requested.
   */
  lemma NoSelectorOnePage(cfg: LoopConfig, pages: seq<Page>, fetch: Value -> DetailOutcome, clock: nat -> nat -> string,
                          columns: seq<string>, n: nat, rows: seq<seq<Value>>, total: nat)
    requires cfg.variant == BeverageLoop || cfg.variant == WebLoop
    requires !Configured(cfg.nextSelector)
    ensures CrawlFrom(cfg, pages, fetch, clock, columns, n, rows, total).pages == n
  {
    CrawlFromPage(cfg, pages, fetch, clock, columns, n, rows, total);
  }

  /**
   * With no `next_page_selector` the base loop never stops for want of a
   * next page: only no content, no list, no products, the cap or an
   * exception end it.
   */
  lemma {:induction false} NoSelectorBaseContinues(cfg: LoopConfig, pages: seq<Page>, fetch: Value -> DetailOutcome, clock: nat -> nat -> string,
                                                   columns: seq<string>, n: nat, rows: seq<seq<Value>>, total: nat)
    requires cfg.variant == BaseLoop && !cfg.chevronNext && !Configured(cfg.nextSelector)
    ensures CrawlFrom(cfg, pages, fetch, clock, columns, n, rows, total).stop != NoNextPageStop
    decreases |pages| + 1 - n
  {
    CrawlFromPage(cfg, pages, fetch, clock, columns, n, rows, total);
    if HasProducts(pages, n) {
      var s := BatchStep(cfg, pages, fetch, clock, columns, n);
      if s.stop.None? {
        NoSelectorBaseContinues(cfg, pages, fetch, clock, columns, n + 1, rows + s.rows, total + s.added);
      }
    }
  }

  /**
   * The web loop has no page cap, and the Whisky Exchange loop has neither a
   * cap nor a next-page check.
   */
  lemma {:induction false} UncappedLoops(cfg: LoopConfig, pages: seq<Page>, fetch: Value -> DetailOutcome, clock: nat -> nat -> string,
                                         columns: seq<string>, n: nat, rows: seq<seq<Value>>, total: nat)
    requires cfg.variant == WebLoop || cfg.variant == ExchangeLoop
    ensures var c := CrawlFrom(cfg, pages, fetch, clock, columns, n, rows, total);
      c.stop != PageCapStop && (cfg.variant == ExchangeLoop ==> c.stop != NoNextPageStop)
    decreases |pages| + 1 - n
  {
    CrawlFromPage(cfg, pages, fetch, clock, columns, n, rows, total);
    if HasProducts(pages, n) {
      var s := BatchStep(cfg, pages, fetch, clock, columns, n);
      if s.stop.None? {
        UncappedLoops(cfg, pages, fetch, clock, columns, n + 1, rows + s.rows, total + s.added);
      }
    }
  }
}

=== FILE: persistence.dfy ===
/**
 * Where and how scraped products are stored: the dated data directory, the
 * per-run file name, the CSV header written once, and `_save_products`, which
 * stamps fixed fields on every product and appends one CSV row per product
 * through `csv.DictWriter` (base_scraper.py and beverage_scraper.py).
 *
 * The gzip-compressed CSV file is a `DataFile` object holding the header and
 * the rows written so far; a row is the list of cells in field-name order.
 */
module Persistence {
  import opened Text
  import opened Records

  /** The CSV columns, in order (the `fieldnames` class attribute). */
  const Fieldnames: seq<string> := [
    "retailer", "retailer_country", "name", "price", "original_price",
    "currency", "link", "volume", "abv", "category", "subcategory", "brand", "country",
    "region", "description", "rating", "num_reviews", "in_stock", "image_url", "product_id", "series",
    "scraped_at"
  ]

  /** `os.path.join('data', 'raw', str(year), f"{month:02d}", f"{day:02d}")`. */
  function DataDirectory(year: nat, month: nat, day: nat): string
  {
    "data/raw/" + NatToString(year) + "/" + Pad2(month) + "/" + Pad2(day)
  }

  /** The data directory lies under `data/raw/` and has exactly five `/`-separated components. */
  lemma DataDirectoryShape(year: nat, month: nat, day: nat)
    ensures var path := DataDirectory(year, month, day);
      StartsWith(path, "data/raw/") && Count(path, '/') == 4
  {
    var y, m, d := NatToString(year), Pad2(month), Pad2(day);
    AllDigitsNoChar(y, '/');
    AllDigitsNoChar(m, '/');
    AllDigitsNoChar(d, '/');
    var p1 := "data/raw/" + y;
    var p2 := p1 + "/";
    var p3 := p2 + m;
    var p4 := p3 + "/";
    assert Count("data/raw/", '/') == 2;
    CountSplit("data/raw/", y, '/');
    CountSplit(p1, "/", '/');
    CountSplit(p2, m, '/');
    CountSplit(p3, "/", '/');
    CountSplit(p4, d, '/');
    assert DataDirectory(year, month, day) == p4 + d;
  }

  /** The last component of the data directory is the day, with at least two digits. */
  lemma DataDirectoryDay(year: nat, month: nat, day: nat)
    ensures var path := DataDirectory(year, month, day);
      var r := RFind(path, '/');
      && r >= 0
      && path[r + 1..] == Pad2(day)
      && |path[r + 1..]| >= 2
      && DigitsValue(path[r + 1..]) == day
  {
    var prefix := "data/raw/" + NatToString(year) + "/" + Pad2(month) + "/";
    assert DataDirectory(year, month, day) == prefix + Pad2(day);
    RFindAfterDigits(prefix, Pad2(day));
  }

  /** The last `/` of `prefix + d` is the last character of `prefix` when `d` is all digits. */
  lemma RFindAfterDigits(prefix: string, d: string)
    requires prefix != [] && prefix[|prefix| - 1] == '/' && AllDigits(d)
    ensures RFind(prefix + d, '/') == |prefix| - 1
  {
    var s := prefix + d;
    var r := RFind(s, '/');
    assert s[|prefix| - 1] == '/';
  }

  /** `f"{retailer.lower().replace(' ', '_')}-{uuid}.csv.gz"`, inside `directory`. */
  function DataFilename(directory: string, retailer: string, uuid: string): string
  {
    directory + "/" + FileStem(retailer) + "-" + uuid + ".csv.gz"
  }

  /** `retailer.lower().replace(' ', '_')`. */
  function FileStem(retailer: string): (stem: string)
    ensures |stem| == |retailer|
    ensures forall i :: 0 <= i < |stem| ==> stem[i] != ' ' && !IsUpper(stem[i])
    ensures forall i :: 0 <= i < |retailer| ==> stem[i] == (if retailer[i] == ' ' then '_' else LowerChar(retailer[i]))
  {
    ReplaceChar(Lower(retailer), ' ', '_')
  }

  /**
   * The file name sits in the data directory, starts with the retailer's
   * stem (lower-case, spaces as underscores), and ends with `.csv.gz`.
   */
  lemma DataFilenameShape(directory: string, retailer: string, uuid: string)
    ensures var f := DataFilename(directory, retailer, uuid);
      && StartsWith(f, directory + "/" + FileStem(retailer) + "-")
      && EndsWith(f, ".csv.gz")
  {
    var f := DataFilename(directory, retailer, uuid);
    var head := directory + "/" + FileStem(retailer) + "-";
    assert f == head + (uuid + ".csv.gz");
    assert f[..|head|] == head;
    assert f == (head + uuid) + ".csv.gz";
    assert f[|f| - 7..] == ".csv.gz";
  }

  /** How `_save_products` stamps a product before writing it. */
  // The base class stamps retailer and retailer_country only; the beverage
  // class also stamps currency, and `scraped_at` from the clock at the i-th write.
  datatype Stamping =
    | BaseStamp(retailer: string, country: string)
    | BeverageStamp(retailer: string, country: string, currency: string, now: nat -> string)

  /** The product as it is handed to `writerow`, being the `i`-th of its batch. */
  function Stamp(mode: Stamping, p: Record, i: nat): Record
  {
    match mode
    case BaseStamp(retailer, country) =>
      p["retailer" := Str(retailer)]["retailer_country" := Str(country)]
    case BeverageStamp(retailer, country, currency, now) =>
      p["retailer" := Str(retailer)]["retailer_country" := Str(country)]
       ["currency" := Str(currency)]["scraped_at" := Str(now(i))]
  }

  /** `DictWriter(..., extrasaction='raise')` refuses a dict with a key outside the field names. */
  predicate Writable(columns: seq<string>, p: Record)
  {
    forall k :: k in p ==> k in columns
  }

  /** The cell `DictWriter` writes for column `k`: the value, or the empty `restval`. */
  function Cell(p: Record, k: string): Value
  {
    if k in p then p[k] else Str("")
  }

  /** The CSV row `writerow(p)` appends: one cell per field name, in field-name order. */
  function Row(columns: seq<string>, p: Record): (row: seq<Value>)
    ensures |row| == |columns|
  {
    seq(|columns|, j requires 0 <= j < |columns| => Cell(p, columns[j]))
  }

  /** What one `_save_products` call writes, and whether it ended in an exception. */
  datatype Saved = Saved(rows: seq<seq<Value>>, raised: bool)

  /**
   * The loop body of `_save_products` for the `i`-th product: a product with
   * a key outside the field names makes `writerow` raise before writing; the
   * base class then reads `product['name']` for its log line, which raises
   * after the row is written when the product has no name.
   */
  function SaveOne(mode: Stamping, columns: seq<string>, p: Record, i: nat): (out: Saved)
    ensures |out.rows| <= 1
    ensures out.rows != [] ==> out.rows == [Row(columns, Stamp(mode, p, i))]
    ensures !out.raised ==> |out.rows| == 1
  {
    var s := Stamp(mode, p, i);
    if !Writable(columns, s) then Saved([], true)
    else if mode.BaseStamp? && "name" !in s then Saved([Row(columns, s)], true)
    else Saved([Row(columns, s)], false)
  }

  /** `_save_products(products)` over the first `i` products of the batch: the loop stops at the first exception. */
  function SaveUpTo(mode: Stamping, columns: seq<string>, products: seq<Record>, i: nat): Saved
    requires i <= |products|
  {
    if i == 0 then Saved([], false)
    else
      var before := SaveUpTo(mode, columns, products, i - 1);
      if before.raised then before
      else
        var one := SaveOne(mode, columns, products[i - 1], i - 1);
        Saved(before.rows + one.rows, one.raised)
  }

  function Save(mode: Stamping, columns: seq<string>, products: seq<Record>): Saved
  {
    SaveUpTo(mode, columns, products, |products|)
  }

  /** Once a product has raised, the products after it change nothing. */
  lemma {:induction false} RaisedStops(mode: Stamping, columns: seq<string>, products: seq<Record>, i: nat, j: nat)
    requires i <= j <= |products|
    requires SaveUpTo(mode, columns, products, i).raised
    ensures SaveUpTo(mode, columns, products, j) == SaveUpTo(mode, columns, products, i)
    decreases j
  {
    if i < j {
      RaisedStops(mode, columns, products, i, j - 1);
    }
  }

  /** The gzip-compressed CSV data file of one scraper run. */
  class DataFile {
    var present: bool
    var header: seq<string>
    var rows: seq<seq<Value>>

    constructor (present: bool, header: seq<string>, rows: seq<seq<Value>>)
      ensures this.present == present && this.header == header && this.rows == rows
    {
      this.present := present;
      this.header := header;
      this.rows := rows;
    }

    /** `_init_data_file`: a missing file is created holding only the header. */
    method Init()
      modifies this
      ensures old(present) ==> header == old(header) && rows == old(rows)
      ensures !old(present) ==> header == Fieldnames && rows == []
      ensures present
    {
      if !present {
        present := true;
        header := Fieldnames;
        rows := [];
      }
    }

    /** `_save_products`: the rows are appended in product order; nothing before them changes. */
    method SaveProducts(mode: Stamping, columns: seq<string>, products: seq<Record>) returns (raised: bool)
      modifies this
      ensures rows == old(rows) + Save(mode, columns, products).rows
      ensures raised == Save(mode, columns, products).raised
      ensures header == old(header) && present == old(present)
    {
      var i := 0;
      ghost var written: seq<seq<Value>> := [];
      while i < |products|
        invariant 0 <= i <= |products|
        invariant header == old(header) && present == old(present)
        invariant rows == old(rows) + written
        invariant SaveUpTo(mode, columns, products, i) == Saved(written, false)
      {
        var one := SaveOne(mode, columns, products[i], i);
        rows := rows + one.rows;
        written := written + one.rows;
        i := i + 1;
        if one.raised {
          RaisedStops(mode, columns, products, i, |products|);
          return true;
        }
      }
      return false;
    }
  }

  /**
   * At most one row per product is written, and exactly one per product
   * unless the call raised.
   */
  lemma {:induction false} SaveLength(mode: Stamping, columns: seq<string>, products: seq<Record>, i: nat)
    requires i <= |products|
    ensures var out := SaveUpTo(mode, columns, products, i);
      && |out.rows| <= i
      && (!out.raised ==> |out.rows| == i)
  {
    if i > 0 {
      SaveLength(mode, columns, products, i - 1);
    }
  }

  /** Appending the next product's row, or nothing, keeps the rows in step with the products. */
  lemma RowsAppend(mode: Stamping, columns: seq<string>, products: seq<Record>, a: seq<seq<Value>>, b: seq<seq<Value>>)
    requires |a| < |products|
    requires forall j :: 0 <= j < |a| ==> a[j] == Row(columns, Stamp(mode, products[j], j))
    requires b == [] || b == [Row(columns, Stamp(mode, products[|a|], |a|))]
    ensures forall j :: 0 <= j < |a + b| ==> (a + b)[j] == Row(columns, Stamp(mode, products[j], j))
  {
  }

  /**
   * Every row is the stamped form of the product at the same position, so
   * products are written once each, in input order, and the written rows
   * belong to a prefix of the batch.
   */
  lemma {:induction false} SaveInOrder(mode: Stamping, columns: seq<string>, products: seq<Record>, i: nat)
    requires i <= |products|
    ensures var out := SaveUpTo(mode, columns, products, i);
      && |out.rows| <= i
      && forall j :: 0 <= j < |out.rows| ==> out.rows[j] == Row(columns, Stamp(mode, products[j], j))
  {
    SaveLength(mode, columns, products, i);
    if i > 0 {
      SaveInOrder(mode, columns, products, i - 1);
      var before := SaveUpTo(mode, columns, products, i - 1);
      if !before.raised {
        SaveLength(mode, columns, products, i - 1);
        var one := SaveOne(mode, columns, products[i - 1], i - 1);
        RowsAppend(mode, columns, products, before.rows, one.rows);
      }
    }
  }

  /**
   * The call completes without an exception exactly when every stamped
   * product fits the field names and, for the base class, every product has a name.
   */
  lemma {:induction false} SaveRaises(mode: Stamping, columns: seq<string>, products: seq<Record>, i: nat)
    requires i <= |products|
    ensures SaveUpTo(mode, columns, products, i).raised <==>
      exists j :: 0 <= j < i &&
        (!Writable(columns, Stamp(mode, products[j], j)) || (mode.BaseStamp? && "name" !in products[j]))
  {
    if i > 0 {
      SaveRaises(mode, columns, products, i - 1);
      var s := Stamp(mode, products[i - 1], i - 1);
      assert "name" in s <==> "name" in products[i - 1];
    }
  }

  /** The retailer columns of a row, and the currency and time columns. */
  lemma StampedOwnColumns(mode: Stamping, p: Record, i: nat)
    ensures var row := Row(Fieldnames, Stamp(mode, p, i));
      && row[0] == Str(mode.retailer)
      && row[1] == Str(mode.country)
      && (mode.BeverageStamp? ==> row[5] == Str(mode.currency) && row[21] == Str(mode.now(i)))
      && (mode.BaseStamp? ==> row[5] == Cell(p, "currency") && row[21] == Cell(p, "scraped_at"))
  {
    assert Fieldnames[0] == "retailer" && Fieldnames[1] == "retailer_country";
    assert Fieldnames[5] == "currency" && Fieldnames[21] == "scraped_at";
  }

  /** The product's own name, price and link columns pass through stamping. */
  lemma StampedProductColumns(mode: Stamping, p: Record, i: nat)
    ensures var row := Row(Fieldnames, Stamp(mode, p, i));
      row[2] == Cell(p, "name") && row[3] == Cell(p, "price") && row[6] == Cell(p, "link")
  {
    assert Fieldnames[2] == "name" && Fieldnames[3] == "price" && Fieldnames[6] == "link";
  }

  /** In every row the retailer columns hold the scraper's retailer and country. */
  lemma StampedColumns(mode: Stamping, p: Record, i: nat)
    ensures var row := Row(Fieldnames, Stamp(mode, p, i));
      && row[0] == Str(mode.retailer)
      && row[1] == Str(mode.country)
      && (mode.BeverageStamp? ==> row[5] == Str(mode.currency) && row[21] == Str(mode.now(i)))
      && (mode.BaseStamp? ==> row[5] == Cell(p, "currency") && row[21] == Cell(p, "scraped_at"))
      && row[2] == Cell(p, "name") && row[3] == Cell(p, "price") && row[6] == Cell(p, "link")
  {
    StampedOwnColumns(mode, p, i);
    StampedProductColumns(mode, p, i);
  }
}

=== FILE: records.dfy ===
/**
 * The values the scrapers pass around: Python objects as they appear in a
 * product dict or a JSON response, the product dict itself, and the parsed
 * HTML tree that selectors are evaluated against.
 */
module Records {

  datatype Option<T> = None | Some(value: T)

  /**
   * A Python value held in a product dict or a decoded JSON document.
   * `Float(lit)` is the float that `float(lit)` yields; the model keeps the
   * literal instead of an IEEE value.
   */
  datatype Value =
    | Null
    | Bool(b: bool)
    | Int(i: int)
    | Float(lit: string)
    | Str(s: string)
    | List(items: seq<Value>)
    | Obj(fields: map<string, Value>)

  /** Some character of the literal is a non-zero digit. */
  predicate HasNonZeroDigit(lit: string)
  {
    exists i :: 0 <= i < |lit| && '1' <= lit[i] <= '9'
  }

  /** Python's `bool(v)`. */
  predicate Truthy(v: Value)
  {
    match v
    case Null => false
    case Bool(b) => b
    case Int(i) => i != 0
    case Float(lit) => HasNonZeroDigit(lit)
    case Str(s) => s != []
    case List(items) => items != []
    case Obj(fields) => fields != map[]
  }

  /** A product dict: field name to value. CSV order comes from the field names, not the dict. */
  type Record = map<string, Value>

  /** `d.get(k)`: the value, or None when the key is absent. */
  function Get(d: Record, k: string): (v: Value)
    ensures k !in d ==> v == Null
    ensures k in d ==> v == d[k]
  {
    if k in d then d[k] else Null
  }

  /**
   * A parsed HTML element. `text` is `get_text(strip=True)`, `fullText` is
   * `get_text()`, `attrs` the attributes other than `class`, `classes` the
   * `class` attribute as BeautifulSoup splits it, and `select` the result of
   * `select(selector)` for each selector the scrapers evaluate under it. A
   * selector absent from `select` matches nothing.
   */
  datatype Element = Element(
    text: string,
    fullText: string,
    attrs: map<string, string>,
    classes: seq<string>,
    select: map<string, seq<Element>>)

  /** `element.select(selector)`. */
  function Select(e: Element, selector: string): (r: seq<Element>)
    ensures selector !in e.select ==> r == []
  {
    if selector in e.select then e.select[selector] else []
  }

  /** `element.select_one(selector)`: the first match, or None. */
  function SelectOne(e: Element, selector: string): (r: Option<Element>)
    ensures r.None? <==> Select(e, selector) == []
    ensures r.Some? ==> r.value == Select(e, selector)[0]
  {
    var all := Select(e, selector);
    if all == [] then None else Some(all[0])
  }

  /** `element[name]`: the attribute, or None where Python raises KeyError. */
  function Attr(e: Element, name: string): (r: Option<string>)
    ensures r.Some? <==> name in e.attrs
  {
    if name in e.attrs then Some(e.attrs[name]) else None
  }

  /** `element.get(name, '')`. */
  function AttrOr(e: Element, name: string): (r: string)
    ensures name in e.attrs ==> r == e.attrs[name]
    ensures name !in e.attrs ==> r == []
  {
    if name in e.attrs then e.attrs[name] else []
  }
}

=== FILE: requests.dfy ===
/**
 * What the JSON-API scrapers (network_scraper.py and shopify_scraper.py)
 * send and receive: the request payload, an insertion-ordered dict that the
 * page loop updates in place, the query string built from it, the response
 * a navigation resolves to, and the JMESPath evaluator, which the model
 * takes as a parameter.
 */
module Requests {
  import opened Text
  import opened Records

  /** A `request_payload` value as the YAML site configuration gives it. */
  datatype Param = PNone | PBool(b: bool) | PInt(i: int) | PStr(s: string)

  /** A Python dict keeps its keys in insertion order: key/value pairs, oldest first. */
  type Payload = seq<(string, Param)>

  /** A dict never holds a key twice. */
  predicate DistinctKeys(p: Payload)
  {
    forall i, j :: 0 <= i < j < |p| ==> p[i].0 != p[j].0
  }

  /** `payload.get(k)`. */
  function Lookup(p: Payload, k: string): (r: Option<Param>)
    ensures r.None? <==> forall i :: 0 <= i < |p| ==> p[i].0 != k
  {
    if p == [] then None
    else if p[0].0 == k then Some(p[0].1)
    else Lookup(p[1..], k)
  }

  /** `payload[k] = v`: an existing key keeps its place and takes the new value; a new key goes last. */
  function SetKey(p: Payload, k: string, v: Param): Payload
  {
    if p == [] then [(k, v)]
    else if p[0].0 == k then [(k, v)] + p[1..]
    else [p[0]] + SetKey(p[1..], k, v)
  }

  /** Assigning a key changes the value under that key and no other. */
  lemma {:induction false} SetKeyLookup(p: Payload, k: string, v: Param, k': string)
    ensures Lookup(SetKey(p, k, v), k') == (if k' == k then Some(v) else Lookup(p, k'))
    decreases |p|
  {
    if p != [] && p[0].0 != k {
      SetKeyLookup(p[1..], k, v, k');
    }
  }

  /** The keys keep their places; a key not yet present goes last, with its value. */
  lemma {:induction false} SetKeyKeys(p: Payload, k: string, v: Param)
    ensures var q := SetKey(p, k, v);
      && |q| == (if Lookup(p, k).Some? then |p| else |p| + 1)
      && (forall i :: 0 <= i < |p| ==> q[i].0 == p[i].0)
      && (Lookup(p, k).None? ==> q[|p|] == (k, v))
    decreases |p|
  {
    if p != [] && p[0].0 != k {
      SetKeyKeys(p[1..], k, v);
      var q := SetKey(p, k, v);
      assert forall i :: 1 <= i < |q| ==> q[i] == SetKey(p[1..], k, v)[i - 1];
    }
  }

  /** A dict stays a dict. */
  lemma {:induction false} SetKeyDistinct(p: Payload, k: string, v: Param)
    requires DistinctKeys(p)
    ensures DistinctKeys(SetKey(p, k, v))
    decreases |p|
  {
    if p != [] && p[0].0 != k {
      SetKeyDistinct(p[1..], k, v);
      var t := SetKey(p[1..], k, v);
      assert Lookup(p[1..], p[0].0).None?;
      SetKeyLookup(p[1..], k, v, p[0].0);
      assert Lookup(t, p[0].0).None?;
    }
  }

  /** Setting a key twice leaves what setting it once to the second value leaves. */
  lemma {:induction false} SetKeyTwice(p: Payload, k: string, v: Param, w: Param)
    ensures SetKey(SetKey(p, k, v), k, w) == SetKey(p, k, w)
    decreases |p|
  {
    if p != [] && p[0].0 != k {
      SetKeyTwice(p[1..], k, v, w);
    }
  }

  /** `str(v)` for a payload value, as an f-string formats it. */
  function Show(v: Param): string
  {
    match v
    case PNone => "None"
    case PBool(b) => if b then "True" else "False"
    case PInt(i) => IntText(i)
    case PStr(s) => s
  }

  /** `f'{k}={v}'`. */
  function Pair(kv: (string, Param)): string
  {
    kv.0 + "=" + Show(kv.1)
  }

  function Pairs(p: Payload): (r: seq<string>)
    ensures |r| == |p|
    ensures forall i :: 0 <= i < |p| ==> r[i] == Pair(p[i])
  {
    seq(|p|, i requires 0 <= i < |p| => Pair(p[i]))
  }

  /** `'&'.join([f'{k}={v}' for k, v in payload.items()])`. */
  function Query(p: Payload): string
  {
    Join(Pairs(p), "&")
  }

  /** No key and no formatted value holds `&`, so the query string can be taken apart again. */
  predicate Separable(p: Payload)
  {
    forall i :: 0 <= i < |p| ==> Lacks(p[i].0, '&') && Lacks(Show(p[i].1), '&')
  }

  /**
   * The query string is empty exactly when the payload is; otherwise
   * splitting it on `&` gives back one `k=v` pair per payload entry, in
   * payload order.
   */
  lemma QueryParts(p: Payload)
    ensures Query(p) == [] <==> p == []
    ensures p != [] && Separable(p) ==> Split(Query(p), "&") == Pairs(p)
  {
    var parts := Pairs(p);
    if p != [] {
      assert Pair(p[0])[|p[0].0|] == '=';
      if |p| > 1 {
        assert Query(p) == parts[0] + ("&" + Join(parts[1..], "&"));
      }
      if Separable(p) {
        forall i | 0 <= i < |parts| ensures Lacks(parts[i], '&') {
          var kv := p[i];
          assert parts[i] == kv.0 + "=" + Show(kv.1);
          forall j | 0 <= j < |parts[i]| ensures parts[i][j] != '&' {
            if j < |kv.0| {
              assert parts[i][j] == kv.0[j];
            } else if j > |kv.0| {
              assert parts[i][j] == Show(kv.1)[j - |kv.0| - 1];
            }
          }
        }
        SplitJoin(parts, '&');
      }
    }
  }

  /**
   * What `page_context.goto(url)` resolved to: the status, whether it is OK
   * (2xx), the decoded body (None when `response.json()` raises), and the
   * `Retry-After` header. A missing response is `None` where it is used.
   */
  datatype Response = Response(ok: bool, status: int, json: Option<Value>, retryAfter: Option<string>)

  /** The response to the `k`-th request of a run; beyond the sequence the navigation yields no response. */
  function ResponseAt(responses: seq<Option<Response>>, k: nat): (r: Option<Response>)
    ensures r.Some? ==> k < |responses|
  {
    if k < |responses| then responses[k] else None
  }

  /**
   * `response_mapping`: the JMESPath of the item list (`root`) and, per
   * output field in dict order, the JMESPath of its value (`fields`); None
   * where the key is absent from the configuration.
   */
  datatype Mapping = Mapping(root: Option<string>, fields: Option<seq<(string, string)>>)

  /** The field names of a mapping, which a dict holds once each. */
  predicate DistinctNames(fields: seq<(string, string)>)
  {
    forall i, j :: 0 <= i < j < |fields| ==> fields[i].0 != fields[j].0
  }

  /** `jmespath.search(expression, data)`: the value found (`Null` when nothing matches), or the error it raises. */
  datatype Found = Found(value: Value) | SearchError

  type Search = (string, Value) -> Found
}

=== FILE: retry.dfy ===
/**
 * `_make_request` in base_scraper.py, beverage_scraper.py and web_scraper.py:
 * up to `retries` attempts at a page, with a backoff of `delay * 2**attempt`
 * seconds after every failed attempt but the last. The browser is replaced by
 * the sequence of what each attempt would produce; sleeping is recorded as the
 * list of waits.
 */
module Retry {
  import opened Records

  /** What one attempt produces: the page content, a Playwright timeout, or any other error. */
  datatype Attempt = Fetched(content: string) | TimedOut | Errored

  /** The observable effect of one call: the result, how many attempts were made, and the backoff waits. */
  datatype Fetch = Fetch(result: Option<string>, attempts: nat, waits: seq<nat>)

  function Pow2(k: nat): (p: nat)
    ensures p >= 1
  {
    if k == 0 then 1 else 2 * Pow2(k - 1)
  }

  /**
   * The call from attempt number `attempt` on (attempts are numbered from 1),
   * with `outcomes[attempt - 1]` the outcome of that attempt.
   */
  function ScheduleFrom(outcomes: seq<Attempt>, retries: nat, delay: nat, attempt: nat): (f: Fetch)
    requires 1 <= attempt && |outcomes| >= retries
    decreases retries + 1 - attempt
  {
    if attempt > retries then Fetch(None, 0, [])
    else if outcomes[attempt - 1].Fetched? then Fetch(Some(outcomes[attempt - 1].content), 1, [])
    else if attempt == retries then Fetch(None, 1, [])
    else
      var rest := ScheduleFrom(outcomes, retries, delay, attempt + 1);
      Fetch(rest.result, 1 + rest.attempts, [delay * Pow2(attempt)] + rest.waits)
  }

  /** The whole call: `_make_request(url)` given the outcome of each attempt. */
  function Schedule(outcomes: seq<Attempt>, retries: nat, delay: nat): Fetch
    requires |outcomes| >= retries
  {
    ScheduleFrom(outcomes, retries, delay, 1)
  }

  /** The attempt loop, step by step; it performs exactly the schedule. */
  method MakeRequest(outcomes: seq<Attempt>, retries: nat, delay: nat)
    returns (result: Option<string>, attempts: nat, waits: seq<nat>)
    requires |outcomes| >= retries
    ensures Fetch(result, attempts, waits) == Schedule(outcomes, retries, delay)
  {
    attempts := 0;
    waits := [];
    var attempt := 1;
    while attempt <= retries
      invariant 1 <= attempt <= retries + 1
      invariant attempts == attempt - 1 && |waits| == attempts
      invariant var rest := ScheduleFrom(outcomes, retries, delay, attempt);
        Schedule(outcomes, retries, delay)
          == Fetch(rest.result, attempts + rest.attempts, waits + rest.waits)
      decreases retries + 1 - attempt
    {
      attempts := attempts + 1;
      if outcomes[attempt - 1].Fetched? {
        assert waits + [] == waits;
        return Some(outcomes[attempt - 1].content), attempts, waits;
      }
      if attempt == retries {
        assert waits + [] == waits;
        return None, attempts, waits;
      }
      ghost var next := ScheduleFrom(outcomes, retries, delay, attempt + 1);
      var wait := delay * Pow2(attempt);
      FailedAttempt(outcomes, retries, delay, attempt);
      assert waits + ([wait] + next.waits) == (waits + [wait]) + next.waits;
      waits := waits + [wait];
      attempt := attempt + 1;
    }
    assert waits + [] == waits;
    return None, attempts, waits;
  }

  /**
   * What every attempt of web_scraper.py's `_make_request` produces as
   * written: the call to `page.goto` reads `self.max_timeout`, which no
   * `WebScraper` assigns, so each attempt raises an AttributeError that the
   * broad handler records as an error.
   */
  function UnsetTimeoutOutcomes(retries: nat): (o: seq<Attempt>)
    ensures |o| == retries && forall i :: 0 <= i < retries ==> o[i] == Errored
  {
    seq(retries, _ => Errored)
  }

  /** When every attempt fails that way, the call gives no content after all `retries` attempts. */
  lemma UnsetTimeoutNoContent(retries: nat, delay: nat)
    ensures var f := Schedule(UnsetTimeoutOutcomes(retries), retries, delay);
      f.result == None && f.attempts == retries
  {
    FirstSuccess(UnsetTimeoutOutcomes(retries), retries, delay, 1);
  }

  /** A successful first attempt is the result, after one attempt and no wait. */
  lemma FirstAttemptFetched(outcomes: seq<Attempt>, retries: nat, delay: nat)
    requires retries >= 1 && |outcomes| >= retries && outcomes[0].Fetched?
    ensures Schedule(outcomes, retries, delay) == Fetch(Some(outcomes[0].content), 1, [])
  {
  }

  /** A failed attempt before the last is one attempt and one wait ahead of the rest of the call. */
  lemma FailedAttempt(outcomes: seq<Attempt>, retries: nat, delay: nat, attempt: nat)
    requires 1 <= attempt < retries && |outcomes| >= retries && !outcomes[attempt - 1].Fetched?
    ensures var rest := ScheduleFrom(outcomes, retries, delay, attempt + 1);
      ScheduleFrom(outcomes, retries, delay, attempt) == Fetch(rest.result, 1 + rest.attempts, [delay * Pow2(attempt)] + rest.waits)
  {
  }

  /** No more than `retries` attempts are made, and every attempt but the last is followed by one wait. */
  lemma {:induction false} AttemptsBounded(outcomes: seq<Attempt>, retries: nat, delay: nat, attempt: nat)
    requires 1 <= attempt && |outcomes| >= retries
    ensures var f := ScheduleFrom(outcomes, retries, delay, attempt);
      && (attempt <= retries ==> 1 <= f.attempts <= retries + 1 - attempt)
      && (attempt > retries ==> f.attempts == 0)
      && |f.waits| == (if f.attempts == 0 then 0 else f.attempts - 1)
    decreases retries + 1 - attempt
  {
    if attempt <= retries && !outcomes[attempt - 1].Fetched? && attempt != retries {
      AttemptsBounded(outcomes, retries, delay, attempt + 1);
    }
  }

  /**
   * The result is the content of the first successful attempt among the
   * first `retries`, and the attempts stop there; with no success it is None
   * after all `retries` attempts.
   */
  lemma {:induction false} FirstSuccess(outcomes: seq<Attempt>, retries: nat, delay: nat, attempt: nat)
    requires 1 <= attempt && |outcomes| >= retries
    ensures var f := ScheduleFrom(outcomes, retries, delay, attempt);
      && (f.result.Some? ==>
            var k := attempt - 1 + f.attempts - 1;
            && attempt - 1 <= k < retries
            && outcomes[k] == Fetched(f.result.value)
            && forall j :: attempt - 1 <= j < k ==> !outcomes[j].Fetched?)
      && (f.result.None? ==>
            && f.attempts == (if attempt > retries then 0 else retries + 1 - attempt)
            && forall j :: attempt - 1 <= j < retries ==> !outcomes[j].Fetched?)
    decreases retries + 1 - attempt
  {
    if attempt <= retries && !outcomes[attempt - 1].Fetched? && attempt != retries {
      FirstSuccess(outcomes, retries, delay, attempt + 1);
    }
  }

  /** The wait after failed attempt number `attempt + i` is `delay * 2**(attempt + i)`. */
  lemma {:induction false} WaitsDouble(outcomes: seq<Attempt>, retries: nat, delay: nat, attempt: nat)
    requires 1 <= attempt && |outcomes| >= retries
    ensures forall i :: 0 <= i < |ScheduleFrom(outcomes, retries, delay, attempt).waits| ==>
      ScheduleFrom(outcomes, retries, delay, attempt).waits[i] == delay * Pow2(attempt + i)
    decreases retries + 1 - attempt
  {
    if attempt <= retries && !outcomes[attempt - 1].Fetched? && attempt != retries {
      WaitsDouble(outcomes, retries, delay, attempt + 1);
      var w := ScheduleFrom(outcomes, retries, delay, attempt).waits;
      var rest := ScheduleFrom(outcomes, retries, delay, attempt + 1).waits;
      assert w == [delay * Pow2(attempt)] + rest;
      forall i | 0 <= i < |w|
        ensures w[i] == delay * Pow2(attempt + i)
      {
        if i > 0 {
          assert w[i] == rest[i - 1];
          assert rest[i - 1] == delay * Pow2(attempt + 1 + (i - 1));
        }
      }
    }
  }

  function Sum(xs: seq<nat>): nat
  {
    if xs == [] then 0 else xs[0] + Sum(xs[1..])
  }

  /** Doubling the exponent doubles a scaled power of two. */
  lemma DoubleScaled(delay: nat, k: nat)
    ensures delay * Pow2(k + 1) == delay * Pow2(k) + delay * Pow2(k)
  {
    assert Pow2(k + 1) == 2 * Pow2(k);
  }

  /** The waits from attempt `attempt` on add up to `delay * (2**(attempt + n) - 2**attempt)` for n waits. */
  lemma {:induction false} TotalBackoff(outcomes: seq<Attempt>, retries: nat, delay: nat, attempt: nat)
    requires 1 <= attempt && |outcomes| >= retries
    ensures var w := ScheduleFrom(outcomes, retries, delay, attempt).waits;
      Sum(w) + delay * Pow2(attempt) == delay * Pow2(attempt + |w|)
    decreases retries + 1 - attempt
  {
    if attempt <= retries && !outcomes[attempt - 1].Fetched? && attempt != retries {
      TotalBackoff(outcomes, retries, delay, attempt + 1);
      var w := ScheduleFrom(outcomes, retries, delay, attempt).waits;
      var rest := ScheduleFrom(outcomes, retries, delay, attempt + 1).waits;
      var d := delay * Pow2(attempt);
      assert w == [d] + rest;
      assert Sum(w) == d + Sum(rest) by {
        assert w[1..] == rest;
      }
      DoubleScaled(delay, attempt);
      assert attempt + |w| == attempt + 1 + |rest|;
    }
  }
}

=== FILE: shopify.dfy ===
/**
 * shopify_scraper.py: a JSON-API scraper for Shopify stores. Each request
 * updates `request_payload` for the page (or cursor), builds the URL from
 * the request method and payload, and turns the JSON items into product
 * dicts through the `response_mapping` JMESPaths, where a field that finds
 * nothing may fall back to a default written after `||` in its path. A 429
 * response waits `Retry-After` seconds and asks for the same page again.
 *
 * `scrape()` reads `self.page_limit` and `self.dev_mode`, which neither this
 * class nor `BaseScraper` ever assigns. Both are modelled as optional
 * attributes: None is the code as written (reading it raises, and the
 * exception ends the loop); Some is the scraper with the attribute set from
 * the site configuration.
 */
module Shopify {
  import opened Text
  import opened Records
  import opened Persistence
  import opened Requests
  import Network

  /** `pagination['type']`, with the configured parameter name (None where the key is absent). */
  datatype Pagination =
    | PagePagination(pageParam: Option<string>)
    | CursorPagination(cursorParam: Option<string>)
    | OtherPagination   // any other type, or no `type` key

  /**
   * `_update_payload(page)`: page pagination sets `page_param` (default
   * `page`) to the page number; cursor pagination sets `cursor_param`
   * (default `cursor`) to `next_cursor` when the scraper has one.
   */
  function PayloadUpdate(pagination: Pagination, nextCursor: Option<Param>, payload: Payload, page: int): Payload
  {
    match pagination
    case PagePagination(param) =>
      SetKey(payload, if param.Some? then param.value else "page", PInt(page))
    case CursorPagination(param) =>
      if nextCursor.Some? then SetKey(payload, if param.Some? then param.value else "cursor", nextCursor.value)
      else payload
    case OtherPagination => payload
  }

  /**
   * Page pagination sets its parameter to the page and changes no other
   * key; a cursor without a token and any other type change nothing.
   */
  lemma PayloadUpdateEffect(pagination: Pagination, nextCursor: Option<Param>, payload: Payload, page: int, k: string)
    ensures var after := PayloadUpdate(pagination, nextCursor, payload, page);
      && (pagination.PagePagination? ==>
            var param := if pagination.pageParam.Some? then pagination.pageParam.value else "page";
            Lookup(after, k) == (if k == param then Some(PInt(page)) else Lookup(payload, k)))
      && (pagination.CursorPagination? && nextCursor.None? ==> after == payload)
      && (pagination.OtherPagination? ==> after == payload)
  {
    if pagination.PagePagination? {
      var param := if pagination.pageParam.Some? then pagination.pageParam.value else "page";
      SetKeyLookup(payload, param, PInt(page), k);
    }
  }

  /** Updating the payload twice for the same page gives what updating it once gives, so a retry asks for the same URL. */
  lemma PayloadUpdateTwice(pagination: Pagination, nextCursor: Option<Param>, payload: Payload, page: int)
    ensures var once := PayloadUpdate(pagination, nextCursor, payload, page);
      PayloadUpdate(pagination, nextCursor, once, page) == once
  {
    match pagination
    case PagePagination(param) =>
      SetKeyTwice(payload, if param.Some? then param.value else "page", PInt(page), PInt(page));
    case CursorPagination(param) =>
      if nextCursor.Some? {
        SetKeyTwice(payload, if param.Some? then param.value else "cursor", nextCursor.value, nextCursor.value);
      }
    case OtherPagination =>
  }

  /**
   * `_construct_url()`: for a GET request (in any case) with a non-empty
   * query, the URL and the query after `?`; otherwise the URL alone.
   */
  function BuildUrl(requestMethod: string, requestUrl: string, payload: Payload): (url: string)
    ensures Upper(requestMethod) == "GET" && payload != [] ==> url == requestUrl + "?" + Query(payload)
    ensures !(Upper(requestMethod) == "GET" && payload != []) ==> url == requestUrl
  {
    QueryParts(payload);
    if Upper(requestMethod) == "GET" then
      var query := Query(payload);
      if query != [] then requestUrl + "?" + query else requestUrl
    else requestUrl
  }

  /**
   * When neither keys nor values hold `&`, the part of a GET URL after
   * `request_url?` splits on `&` into one `k=v` pair per payload entry, in
   * payload order.
   */
  lemma BuildUrlPairs(requestMethod: string, requestUrl: string, payload: Payload)
    requires Upper(requestMethod) == "GET" && payload != [] && Separable(payload)
    ensures var url := BuildUrl(requestMethod, requestUrl, payload);
      && StartsWith(url, requestUrl + "?")
      && Split(url[|requestUrl| + 1..], "&") == Pairs(payload)
  {
    var url := BuildUrl(requestMethod, requestUrl, payload);
    assert url == (requestUrl + "?") + Query(payload);
    assert url[|requestUrl| + 1..] == Query(payload);
    QueryParts(payload);
  }

  /** `.strip().strip('`').strip("'").strip('"')`. */
  function Unquote(s: string): string
  {
    StripChar(StripChar(StripChar(Strip(s), '`'), '\''), '"')
  }

  /**
   * `_handle_default(mapping)`: the text after the first `||`, up to the
   * next one, unquoted; None without `||` or when that text is `null` in
   * any case.
   */
  function HandleDefault(mapping: string): (r: Option<string>)
    ensures r.Some? ==> Contains(mapping, "||")
    ensures r.Some? ==> Lower(r.value) != "null"
    ensures var i := IndexOf(mapping, "||");
      var rest := if i >= 0 then mapping[i + 2..] else [];
      var j := IndexOf(rest, "||");
      var d := Unquote(if j >= 0 then rest[..j] else rest);
      r == (if i >= 0 && Lower(d) != "null" then Some(d) else None)
  {
    var parts := Split(mapping, "||");
    var i := IndexOf(mapping, "||");
    if |parts| > 1 then
      SplitUnfold(mapping, "||", i);
      var rest := mapping[i + 2..];
      var j := IndexOf(rest, "||");
      assert parts[1] == (if j >= 0 then rest[..j] else rest) by {
        if j >= 0 { SplitUnfold(rest, "||", j); }
      }
      var default := Unquote(parts[1]);
      if Lower(default) != "null" then Some(default) else None
    else None
  }

  /** A path without `|`, then `||`, then a default without `|`: the default is that text, unquoted. */
  lemma HandleDefaultOf(path: string, text: string)
    requires Lacks(path, '|') && Lacks(text, '|')
    ensures var d := Unquote(text);
      HandleDefault(path + "||" + text) == (if Lower(d) != "null" then Some(d) else None)
  {
    var m := path + "||" + text;
    assert OccursAt(m, "||", |path|) by {
      assert m[|path|..|path| + 2] == "||";
    }
    forall j | 0 <= j < |path| ensures !OccursAt(m, "||", j) {
      assert m[j] == path[j];
      assert m[j..j + 2][0] == m[j];
    }
    IndexOfFirst(m, "||", |path|);
    assert m[|path| + 2..] == text;
    forall j | 0 <= j ensures !OccursAt(text, "||", j) {
      if j + 2 <= |text| {
        assert text[j..j + 2][0] == text[j];
      }
    }
    IndexOfNone(text, "||");
    SplitUnfold(m, "||", |path|);
    assert m[..|path|] == path;
    assert Split(text, "||") == [text];
  }

  /**
   * What a mapped field holds: a search error gives None, a value found is
   * kept, and a None result falls back to the default only when the path
   * holds `||`.
   */
  function FieldValue(path: string, found: Found): (v: Value)
    ensures found.SearchError? ==> v == Null
    ensures found.Found? && found.value != Null ==> v == found.value
    ensures found == Found(Null) && !Contains(path, "||") ==> v == Null
    ensures found == Found(Null) && Contains(path, "||") ==>
      v == (if HandleDefault(path).Some? then Str(HandleDefault(path).value) else Null)
  {
    match found
    case SearchError => Null
    case Found(v) =>
      if v == Null && Contains(path, "||") then
        (match HandleDefault(path) case None => Null case Some(d) => Str(d))
      else v
  }

  /** The product for one item, over the first `i` mapped fields in dict order. */
  function ProductUpTo(fields: seq<(string, string)>, item: Value, search: Search, i: nat): Record
    requires i <= |fields|
  {
    if i == 0 then map[]
    else ProductUpTo(fields, item, search, i - 1)[fields[i - 1].0 := FieldValue(fields[i - 1].1, search(fields[i - 1].1, item))]
  }

  function ItemProduct(fields: seq<(string, string)>, item: Value, search: Search): Record
  {
    ProductUpTo(fields, item, search, |fields|)
  }

  /** The products of the first `j` items, in item order. */
  function ProductsUpTo(fields: seq<(string, string)>, items: seq<Value>, search: Search, j: nat): seq<Record>
    requires j <= |items|
  {
    if j == 0 then [] else ProductsUpTo(fields, items, search, j - 1) + [ItemProduct(fields, items[j - 1], search)]
  }

  /** The `fields` of the mapping, `{}` by default. */
  function FieldsOf(mapping: Mapping): seq<(string, string)>
  {
    if mapping.fields.Some? then mapping.fields.value else []
  }

  /**
   * `parse_response(json_response)`: the root path (`products` by default)
   * finds the items, `or []`; anything but a list gives no products. None
   * where the root search raises, which `parse_response` does not catch.
   */
  function ResponseProducts(mapping: Mapping, json: Value, search: Search): Option<seq<Record>>
  {
    var root := if mapping.root.Some? then mapping.root.value else "products";
    match search(root, json)
    case SearchError => None
    case Found(v) =>
      var items := if Truthy(v) then v else List([]);
      if !items.List? then Some([])
      else Some(ProductsUpTo(FieldsOf(mapping), items.items, search, |items.items|))
  }

  /** `parse_response`, with its loop over the items and, inside it, over the mapped fields. */
  method ParseResponse(mapping: Mapping, json: Value, search: Search) returns (products: Option<seq<Record>>)
    ensures products == ResponseProducts(mapping, json, search)
  {
    var root := if mapping.root.Some? then mapping.root.value else "products";
    var found := search(root, json);
    if found.SearchError? {
      return None;
    }
    var items := if Truthy(found.value) then found.value else List([]);
    if !items.List? {
      return Some([]);
    }
    var fields := FieldsOf(mapping);
    var done: seq<Record> := [];
    var j := 0;
    while j < |items.items|
      invariant 0 <= j <= |items.items|
      invariant done == ProductsUpTo(fields, items.items, search, j)
    {
      var item := items.items[j];
      var product: Record := map[];
      var i := 0;
      while i < |fields|
        invariant 0 <= i <= |fields|
        invariant product == ProductUpTo(fields, item, search, i)
      {
        product := product[fields[i].0 := FieldValue(fields[i].1, search(fields[i].1, item))];
        i := i + 1;
      }
      done := done + [product];
      j := j + 1;
    }
    return Some(done);
  }

  /** One product per item, in item order: no item is dropped, whatever its fields find. */
  lemma {:induction false} ProductsInOrder(fields: seq<(string, string)>, items: seq<Value>, search: Search, j: nat)
    requires j <= |items|
    ensures var ps := ProductsUpTo(fields, items, search, j);
      && |ps| == j
      && forall k :: 0 <= k < j ==> ps[k] == ItemProduct(fields, items[k], search)
    decreases j
  {
    if j > 0 {
      ProductsInOrder(fields, items, search, j - 1);
    }
  }

  /** A product holds exactly the mapped field names. */
  lemma {:induction false} ProductKeys(fields: seq<(string, string)>, item: Value, search: Search, i: nat)
    requires i <= |fields|
    ensures ProductUpTo(fields, item, search, i).Keys == (set k | 0 <= k < i :: fields[k].0)
    decreases i
  {
    if i > 0 {
      ProductKeys(fields, item, search, i - 1);
      assert (set k | 0 <= k < i :: fields[k].0) == (set k | 0 <= k < i - 1 :: fields[k].0) + {fields[i - 1].0};
    }
  }

  /** Every field holds what its own path gives for the item, whatever the other fields find. */
  lemma {:induction false} ProductValues(fields: seq<(string, string)>, item: Value, search: Search, i: nat)
    requires i <= |fields| && DistinctNames(fields)
    ensures var p := ProductUpTo(fields, item, search, i);
      forall k :: 0 <= k < i ==> fields[k].0 in p && p[fields[k].0] == FieldValue(fields[k].1, search(fields[k].1, item))
    decreases i
  {
    if i > 0 {
      ProductValues(fields, item, search, i - 1);
      var before := ProductUpTo(fields, item, search, i - 1);
      var p := before[fields[i - 1].0 := FieldValue(fields[i - 1].1, search(fields[i - 1].1, item))];
      assert ProductUpTo(fields, item, search, i) == p;
      forall k | 0 <= k < i
        ensures fields[k].0 in p && p[fields[k].0] == FieldValue(fields[k].1, search(fields[k].1, item))
      {
        if k < i - 1 {
          assert fields[k].0 != fields[i - 1].0;
        }
      }
    }
  }

  /** A falsy root result, or one that is not a list, gives no products rather than an error. */
  lemma RootNotAList(mapping: Mapping, json: Value, search: Search)
    requires var root := if mapping.root.Some? then mapping.root.value else "products";
      && search(root, json).Found?
      && (!Truthy(search(root, json).value) || !search(root, json).value.List?)
    ensures ResponseProducts(mapping, json, search) == Some([])
  {
  }

  /** `int(s)`: surrounding whitespace, an optional sign, then at least one digit. */
  function ParseInt(s: string): (r: Option<int>)
  {
    var t := Strip(s);
    if t != [] && (t[0] == '-' || t[0] == '+') then
      var digits := t[1..];
      if digits != [] && AllDigits(digits) then
        var v: int := DigitsValue(digits);
        Some(if t[0] == '-' then -v else v)
      else None
    else if t != [] && AllDigits(t) then Some(DigitsValue(t))
    else None
  }

  /** `int()` reads back what `str()` writes. */
  lemma ParseIntRoundTrip(n: int)
    ensures ParseInt(IntText(n)) == Some(n)
  {
    StripUnchanged(IntText(n));
  }

  /** `int(response.headers.get('Retry-After', 60))`; None where `int()` raises. */
  function RetryAfter(header: Option<string>): (r: Option<int>)
    ensures header.None? ==> r == Some(60)
  {
    if header.None? then Some(60) else ParseInt(header.value)
  }

  /** What a response tells the loop: stop, wait and ask again, or go on with a non-empty batch. */
  datatype Answer = Halt(stop: Network.Stop) | Wait(seconds: int) | Batch(products: seq<Record>)

  /**
   * The response to a request: no response or a failure other than 429
   * stops the loop; 429 waits; an OK response whose body is not JSON or
   * whose root search raises ends it with an exception; no products stop it.
   */
  function AnswerOf(mapping: Mapping, response: Option<Response>, search: Search): (a: Answer)
    ensures a.Batch? ==> a.products != []
    ensures !a.Halt? ==> response.Some?
    ensures a.Wait? ==> !response.value.ok && response.value.status == 429
  {
    match response
    case None => Halt(Network.NotOkStop)
    case Some(r) =>
      if r.ok then
        if r.json.None? then Halt(Network.RaisedStop)
        else
          match ResponseProducts(mapping, r.json.value, search)
          case None => Halt(Network.RaisedStop)
          case Some(products) => if products == [] then Halt(Network.NoProductsStop) else Batch(products)
      else if r.status == 429 then
        match RetryAfter(r.retryAfter)
        case None => Halt(Network.RaisedStop)
        case Some(seconds) => Wait(seconds)
      else Halt(Network.NotOkStop)
  }

  /** The response handling of `scrape()`, up to a wait or a batch to save. */
  method ReadResponse(mapping: Mapping, response: Option<Response>, search: Search) returns (a: Answer)
    ensures a == AnswerOf(mapping, response, search)
  {
    if response.None? {
      return Halt(Network.NotOkStop);
    }
    var r := response.value;
    if r.ok {
      if r.json.None? {
        return Halt(Network.RaisedStop);
      }
      var products := ParseResponse(mapping, r.json.value, search);
      if products.None? {
        return Halt(Network.RaisedStop);
      }
      if products.value == [] {
        return Halt(Network.NoProductsStop);
      }
      return Batch(products.value);
    }
    if r.status == 429 {
      var seconds := RetryAfter(r.retryAfter);
      if seconds.None? {
        return Halt(Network.RaisedStop);
      }
      return Wait(seconds.value);
    }
    return Halt(Network.NotOkStop);
  }

  /**
   * The settings `scrape()` reads. `pageLimit` and `devMode` are None where
   * the attribute does not exist, as in shopify_scraper.py itself;
   * `timeoutSet` says whether `max_timeout` exists, which nothing in the
   * class assigns either.
   */
  datatype Settings = Settings(
    requestMethod: string,
    requestUrl: string,
    mapping: Mapping,
    pagination: Pagination,
    pageLimit: Option<Network.Limit>,
    devMode: Option<bool>,
    timeoutSet: bool,
    stamping: Stamping)

  /**
   * Where a run stands: the rows in the data file, the running total, the
   * page, the URLs requested so far (one per request), the waits after
   * 429s, and the payload.
   */
  datatype State = State(rows: seq<seq<Value>>, total: nat, page: nat, urls: seq<string>, waits: seq<int>, payload: Payload)

  /** How a run ended: its last state and why it stopped. */
  datatype Ended = Ended(state: State, stop: Network.Stop)

  /** What one pass of the loop does: end the run, or go on from the next state. */
  datatype Step = Done(ended: Ended) | Next(state: State)

  /** The state once the request of the current page is sent: `_update_payload(page)`, then `_construct_url()`. */
  function Sent(cfg: Settings, s: State): State
  {
    var payload := PayloadUpdate(cfg.pagination, None, s.payload, s.page);
    s.(urls := s.urls + [BuildUrl(cfg.requestMethod, cfg.requestUrl, payload)], payload := payload)
  }

  /**
   * One pass of the loop from the check `page <= self.page_limit`: stop on
   * the limit, or update the payload and stop when reading `max_timeout`
   * raises, or request the page and stop, sleep after a 429 and ask
   * again, or save the batch. Nothing ever sets `next_cursor`.
   */
  function StepOf(cfg: Settings, responses: seq<Option<Response>>, search: Search, columns: seq<string>, s: State): (r: Step)
    requires s.page >= 1 && |s.urls| <= |responses|
    ensures r.Next? ==> |r.state.urls| == |s.urls| + 1 <= |responses| && r.state.page >= 1
  {
    if cfg.pageLimit.None? then Done(Ended(s, Network.RaisedStop))
    else if !Network.Within(s.page, cfg.pageLimit.value) then Done(Ended(s, Network.LimitStop))
    else if !cfg.timeoutSet then Done(Ended(s.(payload := Sent(cfg, s).payload), Network.RaisedStop))
    else
      var sent := Sent(cfg, s);
      match AnswerOf(cfg.mapping, ResponseAt(responses, |s.urls|), search)
      case Halt(stop) => Done(Ended(sent, stop))
      case Wait(seconds) => Next(sent.(waits := s.waits + [seconds]))
      case Batch(products) => SaveBatch(cfg, columns, sent, products)
  }

  /** The batch of the last request: save it, count it, then the dev-mode check, then the next page. */
  function SaveBatch(cfg: Settings, columns: seq<string>, s: State, products: seq<Record>): (r: Step)
    requires cfg.pageLimit.Some?
    ensures r.Next? ==> r.state.urls == s.urls && r.state.page == s.page + 1
  {
    var saved := Save(cfg.stamping, columns, products);
    if saved.raised then Done(Ended(s.(rows := s.rows + saved.rows), Network.RaisedStop))
    else
      var counted := s.(rows := s.rows + saved.rows, total := s.total + |products|);
      if cfg.devMode.None? then Done(Ended(counted, Network.RaisedStop))
      else if cfg.devMode.value && Network.Reached(s.page, cfg.pageLimit.value) then Done(Ended(counted, Network.DevCapStop))
      else Next(counted.(page := s.page + 1))
  }

  /** The loop run to its end from state `s`. */
  function RunFrom(cfg: Settings, responses: seq<Option<Response>>, search: Search, columns: seq<string>, s: State): Ended
    requires s.page >= 1 && |s.urls| <= |responses|
    decreases |responses| + 1 - |s.urls|
  {
    match StepOf(cfg, responses, search, columns, s)
    case Done(e) => e
    case Next(n) => RunFrom(cfg, responses, search, columns, n)
  }

  /** A pass that goes on leaves the rest of the run to the next state. */
  lemma RunFromNext(cfg: Settings, responses: seq<Option<Response>>, search: Search, columns: seq<string>, s: State, n: State)
    requires s.page >= 1 && |s.urls| <= |responses|
    requires StepOf(cfg, responses, search, columns, s) == Next(n)
    ensures n.page >= 1 && |n.urls| <= |responses|
    ensures RunFrom(cfg, responses, search, columns, s) == RunFrom(cfg, responses, search, columns, n)
  {
  }

  /** A pass that ends the run gives its outcome. */
  lemma RunFromDone(cfg: Settings, responses: seq<Option<Response>>, search: Search, columns: seq<string>, s: State, e: Ended)
    requires s.page >= 1 && |s.urls| <= |responses|
    requires StepOf(cfg, responses, search, columns, s) == Done(e)
    ensures RunFrom(cfg, responses, search, columns, s) == e
  {
  }

  /** The first state of a run: page 1, nothing requested, the configured payload. */
  function Start(rows: seq<seq<Value>>, payload: Payload): State
  {
    State(rows, 0, 1, [], [], payload)
  }

  /** `ShopifyScraper`: its configuration, the payload it updates in place, and its data file. */
  class ShopifyScraper {
    const requestMethod: string
    const requestUrl: string
    const mapping: Mapping
    const pagination: Pagination
    const configuredPayload: Payload
    const pageLimit: Option<Network.Limit>
    const devMode: Option<bool>
    const timeoutSet: bool
    const stamping: Stamping
    const file: DataFile
    var payload: Payload

    /**
     * The settings `scrape()` reads from the site configuration:
     * `request_payload` defaults to `{}`, `pagination` to `{}` and
     * `request_method` to `GET`; rows are stamped by the base class.
     * `pageLimit`, `devMode` and `timeoutSet` say whether the attributes
     * `page_limit`, `dev_mode` and `max_timeout` exist at all.
     */
    constructor (requestMethod: Option<string>, requestUrl: string, mapping: Mapping, pagination: Pagination,
                 payload: Option<Payload>, pageLimit: Option<Network.Limit>, devMode: Option<bool>,
                 timeoutSet: bool, retailer: string, country: string, file: DataFile)
      ensures this.requestMethod == (if requestMethod.Some? then requestMethod.value else "GET")
      ensures this.requestUrl == requestUrl && this.mapping == mapping && this.pagination == pagination
      ensures this.configuredPayload == (if payload.Some? then payload.value else [])
      ensures this.payload == this.configuredPayload
      ensures this.pageLimit == pageLimit && this.devMode == devMode && this.timeoutSet == timeoutSet
      ensures this.stamping == BaseStamp(retailer, country) && this.file == file
    {
      this.requestMethod := if requestMethod.Some? then requestMethod.value else "GET";
      this.requestUrl := requestUrl;
      this.mapping := mapping;
      this.pagination := pagination;
      this.configuredPayload := if payload.Some? then payload.value else [];
      this.payload := if payload.Some? then payload.value else [];
      this.pageLimit := pageLimit;
      this.devMode := devMode;
      this.timeoutSet := timeoutSet;
      this.stamping := BaseStamp(retailer, country);
      this.file := file;
    }

    function Config(): Settings
    {
      Settings(requestMethod, requestUrl, mapping, pagination, pageLimit, devMode, timeoutSet, stamping)
    }

    /** `_update_payload(page)`: the scraper never has a `next_cursor`. */
    method UpdatePayload(page: int)
      modifies this
      ensures payload == PayloadUpdate(pagination, None, old(payload), page)
    {
      match pagination
      case PagePagination(param) =>
        payload := SetKey(payload, if param.Some? then param.value else "page", PInt(page));
      case CursorPagination(_) =>
      case OtherPagination =>
    }

    /** `_construct_url()`. */
    function ConstructUrl(): string
      reads this
    {
      BuildUrl(requestMethod, requestUrl, payload)
    }

    /** The start of a pass: `_update_payload(page)`, then `_construct_url()`. */
    method SendRequest(page: int) returns (url: string)
      modifies this
      ensures payload == PayloadUpdate(pagination, None, old(payload), page)
      ensures url == BuildUrl(requestMethod, requestUrl, payload)
    {
      UpdatePayload(page);
      url := ConstructUrl();
    }

    /**
     * The rest of a pass for a batch: save it, count it, then the dev-mode
     * check. `stop` is None when the loop goes on to the next page.
     */
    method SaveStep(columns: seq<string>, ghost s: State, page: nat, products: seq<Record>)
      returns (added: nat, stop: Option<Network.Stop>)
      requires s.page == page >= 1 && pageLimit.Some? && s.rows == file.rows
      modifies file
      ensures file.header == old(file.header) && file.present == old(file.present)
      ensures stop.Some? ==>
        SaveBatch(Config(), columns, s, products) == Done(Ended(s.(rows := file.rows, total := s.total + added), stop.value))
      ensures stop.None? ==>
        SaveBatch(Config(), columns, s, products) == Next(s.(rows := file.rows, total := s.total + added, page := page + 1))
    {
      var raised := file.SaveProducts(stamping, columns, products);
      if raised {
        return 0, Some(Network.RaisedStop);
      }
      added := |products|;
      if devMode.None? {
        return added, Some(Network.RaisedStop);
      }
      if devMode.value && Network.Reached(page, pageLimit.value) {
        return added, Some(Network.DevCapStop);
      }
      return added, None;
    }

    /**
     * The rest of a pass once the URL of state `s`'s page is requested (the
     * `requested`-th request, counting from 0): read the response, then stop,
     * or sleep `wait` seconds to ask again, or save the batch.
     */
    method HandleResponse(responses: seq<Option<Response>>, search: Search, columns: seq<string>,
                          ghost s: State, page: nat, requested: nat)
      returns (wait: Option<int>, added: nat, stop: Option<Network.Stop>)
      requires s.page == page >= 1 && pageLimit.Some? && Network.Within(page, pageLimit.value) && timeoutSet
      requires |s.urls| == requested <= |responses| && s.rows == file.rows
      modifies file
      ensures file.header == old(file.header) && file.present == old(file.present)
      ensures wait.Some? ==> stop.None? && added == 0 && file.rows == old(file.rows)
      ensures wait.Some? ==>
        StepOf(Config(), responses, search, columns, s) == Next(Sent(Config(), s).(waits := s.waits + [wait.value]))
      ensures stop.Some? ==>
        StepOf(Config(), responses, search, columns, s)
          == Done(Ended(Sent(Config(), s).(rows := file.rows, total := s.total + added), stop.value))
      ensures wait.None? && stop.None? ==>
        StepOf(Config(), responses, search, columns, s)
          == Next(Sent(Config(), s).(rows := file.rows, total := s.total + added, page := page + 1))
    {
      var answer := ReadResponse(mapping, ResponseAt(responses, requested), search);
      match answer
      case Halt(halt) =>
        return None, 0, Some(halt);
      case Wait(seconds) =>
        return Some(seconds), 0, None;
      case Batch(products) =>
        added, stop := SaveStep(columns, Sent(Config(), s), page, products);
        wait := None;
    }

    /**
     * `scrape()`: requests pages from 1 on as `RunFrom` says, asking again
     * for the same page after a 429. `urls` are the URLs requested, in
     * order, and `waits` the seconds slept after each 429.
     */
    method Scrape(responses: seq<Option<Response>>, search: Search, columns: seq<string>)
      returns (urls: seq<string>, waits: seq<int>, total: nat, stop: Network.Stop)
      modifies this, file
      ensures file.header == old(file.header) && file.present == old(file.present)
      ensures var e := RunFrom(Config(), responses, search, columns, Start(old(file.rows), configuredPayload));
        && file.rows == e.state.rows && payload == e.state.payload
        && total == e.state.total && urls == e.state.urls && waits == e.state.waits
        && stop == e.stop
    {
      payload := configuredPayload;
      var page := 1;
      total := 0;
      urls := [];
      waits := [];
      var halted: Option<Network.Stop> := None;
      ghost var st := Start(file.rows, payload);
      ghost var goal := RunFrom(Config(), responses, search, columns, st);
      while halted.None?
        invariant st.rows == file.rows && st.total == total && st.page == page
        invariant st.urls == urls && st.waits == waits && st.payload == payload
        invariant page >= 1 && |urls| <= |responses| + 1
        invariant file.header == old(file.header) && file.present == old(file.present)
        invariant halted.None? ==> |urls| <= |responses|
        invariant halted.None? ==> goal == RunFrom(Config(), responses, search, columns, st)
        invariant halted.Some? ==> goal == Ended(st, halted.value)
        decreases |responses| + 1 - |urls|, if halted.None? then 1 else 0
      {
        if pageLimit.None? {
          halted := Some(Network.RaisedStop);
          RunFromDone(Config(), responses, search, columns, st, Ended(st, halted.value));
        } else if !Network.Within(page, pageLimit.value) {
          halted := Some(Network.LimitStop);
          RunFromDone(Config(), responses, search, columns, st, Ended(st, halted.value));
        } else {
          ghost var before := st;
          var url := SendRequest(page);
          if !timeoutSet {
            halted := Some(Network.RaisedStop);
            st := st.(payload := payload);
            RunFromDone(Config(), responses, search, columns, before, Ended(st, halted.value));
            break;
          }
          urls := urls + [url];
          st := st.(urls := urls, payload := payload);
          assert st == Sent(Config(), before);
          var wait, added;
          wait, added, halted := HandleResponse(responses, search, columns, before, page, |urls| - 1);
          if wait.Some? {
            waits := waits + [wait.value];
            st := st.(waits := waits);
            RunFromNext(Config(), responses, search, columns, before, st);
          } else {
            total := total + added;
            st := st.(rows := file.rows, total := total);
            if halted.None? {
              page := page + 1;
              st := st.(page := page);
              RunFromNext(Config(), responses, search, columns, before, st);
            } else {
              RunFromDone(Config(), responses, search, columns, before, Ended(st, halted.value));
            }
          }
        }
      }
      stop := halted.value;
    }
  }

  /** The state a pass leaves: the last state of the run if it ended there, the next state otherwise. */
  function StateAfter(r: Step): State
  {
    if r.Done? then r.ended.state else r.state
  }

  /**
   * A pass goes on only within the limit and moves on by at most one page,
   * and only after a request; it stops on the limit exactly when the page is
   * beyond it, and on the dev cap only in dev mode at the last page.
   */
  lemma StepPages(cfg: Settings, responses: seq<Option<Response>>, search: Search, columns: seq<string>, s: State)
    requires s.page >= 1 && |s.urls| <= |responses| && cfg.pageLimit.Some?
    ensures var r := StepOf(cfg, responses, search, columns, s);
      var t := StateAfter(r);
      && (r.Next? ==> Network.Within(s.page, cfg.pageLimit.value))
      && s.page <= t.page <= s.page + 1
      && (t.page == s.page + 1 ==> |t.urls| == |s.urls| + 1)
      && (r.Done? ==> t.page == s.page)
      && (r.Done? ==> (r.ended.stop == Network.LimitStop <==> !Network.Within(s.page, cfg.pageLimit.value)))
      && (r.Done? && r.ended.stop == Network.DevCapStop ==>
            cfg.devMode == Some(true) && Network.Reached(s.page, cfg.pageLimit.value))
  {
  }

  /** A pass sends at most one request and sleeps at most once, after a request; what was sent before stays. */
  lemma StepRequests(cfg: Settings, responses: seq<Option<Response>>, search: Search, columns: seq<string>, s: State)
    requires s.page >= 1 && |s.urls| <= |responses|
    ensures var t := StateAfter(StepOf(cfg, responses, search, columns, s));
      && |s.urls| <= |t.urls| <= |s.urls| + 1 && t.urls[..|s.urls|] == s.urls
      && |s.waits| <= |t.waits| && t.waits[..|s.waits|] == s.waits
      && |t.waits| - |s.waits| <= |t.urls| - |s.urls|
  {
  }

  /** A pass only appends rows, and adds to the total the products it saved: the rows it appended, unless a save raised. */
  lemma StepCounts(cfg: Settings, responses: seq<Option<Response>>, search: Search, columns: seq<string>, s: State)
    requires s.page >= 1 && |s.urls| <= |responses|
    ensures var r := StepOf(cfg, responses, search, columns, s);
      var t := StateAfter(r);
      && |s.rows| <= |t.rows| && t.rows[..|s.rows|] == s.rows
      && s.total <= t.total
      && t.total - s.total <= |t.rows| - |s.rows|
      && (!(r.Done? && r.ended.stop == Network.RaisedStop) ==> t.total - s.total == |t.rows| - |s.rows|)
  {
    if cfg.pageLimit.Some? && Network.Within(s.page, cfg.pageLimit.value) {
      var a := AnswerOf(cfg.mapping, ResponseAt(responses, |s.urls|), search);
      if a.Batch? {
        var sent := Sent(cfg, s);
        SaveBatchCounts(cfg, columns, sent, a.products);
        assert sent.rows == s.rows && sent.total == s.total;
      }
    }
  }

  /** Saving a batch appends its rows and counts them, unless the save raised. */
  lemma SaveBatchCounts(cfg: Settings, columns: seq<string>, s: State, products: seq<Record>)
    requires cfg.pageLimit.Some?
    ensures var r := SaveBatch(cfg, columns, s, products);
      var t := StateAfter(r);
      var saved := Save(cfg.stamping, columns, products);
      && t.rows == s.rows + saved.rows
      && (saved.raised ==> t.total == s.total && r.Done? && r.ended.stop == Network.RaisedStop)
      && (!saved.raised ==> t.total == s.total + |saved.rows|)
  {
    SaveLength(cfg.stamping, columns, products, |products|);
  }

  /**
   * Every request asks for a page within the limit, the run stops on the
   * limit exactly when its last page is beyond it, and the page number
   * grows by at most one per request (not at all after a 429).
   */
  lemma {:induction false} RunPages(cfg: Settings, responses: seq<Option<Response>>, search: Search, columns: seq<string>, s: State)
    requires s.page >= 1 && |s.urls| <= |responses| && cfg.pageLimit.Some?
    ensures var e := RunFrom(cfg, responses, search, columns, s);
      && s.page <= e.state.page
      && e.state.page - s.page <= |e.state.urls| - |s.urls|
      && (Network.Within(e.state.page, cfg.pageLimit.value) <==> e.stop != Network.LimitStop)
      && (e.stop == Network.DevCapStop ==> cfg.devMode == Some(true) && Network.Reached(e.state.page, cfg.pageLimit.value))
    decreases |responses| + 1 - |s.urls|
  {
    StepPages(cfg, responses, search, columns, s);
    match StepOf(cfg, responses, search, columns, s)
    case Done(e) =>
      RunFromDone(cfg, responses, search, columns, s, e);
    case Next(n) =>
      RunFromNext(cfg, responses, search, columns, s, n);
      RunPages(cfg, responses, search, columns, n);
      RunRequests(cfg, responses, search, columns, n);
  }

  /** The URLs requested and the waits so far stay as they are; the run sleeps at most once per request. */
  lemma {:induction false} RunRequests(cfg: Settings, responses: seq<Option<Response>>, search: Search, columns: seq<string>, s: State)
    requires s.page >= 1 && |s.urls| <= |responses|
    ensures var e := RunFrom(cfg, responses, search, columns, s);
      && |s.urls| <= |e.state.urls| && e.state.urls[..|s.urls|] == s.urls
      && |s.waits| <= |e.state.waits| && e.state.waits[..|s.waits|] == s.waits
      && |e.state.waits| - |s.waits| <= |e.state.urls| - |s.urls|
    decreases |responses| + 1 - |s.urls|
  {
    StepRequests(cfg, responses, search, columns, s);
    match StepOf(cfg, responses, search, columns, s)
    case Done(e) =>
      RunFromDone(cfg, responses, search, columns, s, e);
    case Next(n) =>
      RunFromNext(cfg, responses, search, columns, s, n);
      RunRequests(cfg, responses, search, columns, n);
      var e := RunFrom(cfg, responses, search, columns, n);
      assert e.state.urls[..|s.urls|] == e.state.urls[..|n.urls|][..|s.urls|];
      assert e.state.waits[..|s.waits|] == e.state.waits[..|n.waits|][..|s.waits|];
  }

  /**
   * Rows are only ever appended, and the total grows by the number of
   * products saved: exactly the rows added, unless a save raised.
   */
  lemma {:induction false} RunCounts(cfg: Settings, responses: seq<Option<Response>>, search: Search, columns: seq<string>, s: State)
    requires s.page >= 1 && |s.urls| <= |responses|
    ensures var e := RunFrom(cfg, responses, search, columns, s);
      && |s.rows| <= |e.state.rows| && e.state.rows[..|s.rows|] == s.rows
      && s.total <= e.state.total
      && e.state.total - s.total <= |e.state.rows| - |s.rows|
      && (e.stop != Network.RaisedStop ==> e.state.total - s.total == |e.state.rows| - |s.rows|)
    decreases |responses| + 1 - |s.urls|
  {
    StepCounts(cfg, responses, search, columns, s);
    match StepOf(cfg, responses, search, columns, s)
    case Done(e) =>
      RunFromDone(cfg, responses, search, columns, s, e);
    case Next(n) =>
      RunFromNext(cfg, responses, search, columns, s, n);
      RunCounts(cfg, responses, search, columns, n);
      var e := RunFrom(cfg, responses, search, columns, n);
      assert e.state.rows[..|s.rows|] == e.state.rows[..|n.rows|][..|s.rows|];
  }

  /**
   * As written, `scrape()` reads `self.page_limit` in the loop condition, an
   * attribute neither this class nor `BaseScraper` assigns: the
   * AttributeError is caught by the outer handler, so the run ends before
   * the first request, having saved nothing.
   */
  lemma NoPageLimitNoRequest(cfg: Settings, responses: seq<Option<Response>>, search: Search, columns: seq<string>,
                             rows: seq<seq<Value>>, payload: Payload)
    requires cfg.pageLimit.None?
    ensures var e := RunFrom(cfg, responses, search, columns, Start(rows, payload));
      && e.stop == Network.RaisedStop
      && e.state.urls == [] && e.state.rows == rows && e.state.total == 0
  {
  }

  /**
   * As written, even with a page limit the request reads `self.max_timeout`,
   * which nothing assigns: the payload is updated for page 1, and the
   * AttributeError ends the run before anything is requested or saved.
   */
  lemma NoTimeoutNoRequest(cfg: Settings, responses: seq<Option<Response>>, search: Search, columns: seq<string>,
                           rows: seq<seq<Value>>, payload: Payload)
    requires cfg.pageLimit.Some? && Network.Within(1, cfg.pageLimit.value) && !cfg.timeoutSet
    ensures var e := RunFrom(cfg, responses, search, columns, Start(rows, payload));
      && e.stop == Network.RaisedStop
      && e.state.urls == [] && e.state.rows == rows && e.state.total == 0
      && e.state.payload == PayloadUpdate(cfg.pagination, None, payload, 1)
  {
  }

  /**
   * With a page limit (`NetworkScraper` defaults it to unbounded) and a
   * `max_timeout` (the beverage class defaults it to 60000), page 1 is
   * requested whenever it is within the limit, at the URL built from the
   * payload updated for page 1.
   */
  lemma WithLimitRequestsFirstPage(cfg: Settings, responses: seq<Option<Response>>, search: Search, columns: seq<string>,
                                   rows: seq<seq<Value>>, payload: Payload)
    requires cfg.pageLimit.Some? && Network.Within(1, cfg.pageLimit.value) && cfg.timeoutSet
    ensures var e := RunFrom(cfg, responses, search, columns, Start(rows, payload));
      && |e.state.urls| >= 1
      && e.state.urls[0] == BuildUrl(cfg.requestMethod, cfg.requestUrl, PayloadUpdate(cfg.pagination, None, payload, 1))
  {
    var s := Start(rows, payload);
    var t := StateAfter(StepOf(cfg, responses, search, columns, s));
    assert t.urls == Sent(cfg, s).urls;
    match StepOf(cfg, responses, search, columns, s)
    case Done(e) =>
      RunFromDone(cfg, responses, search, columns, s, e);
    case Next(n) =>
      RunFromNext(cfg, responses, search, columns, s, n);
      RunRequests(cfg, responses, search, columns, n);
      var e := RunFrom(cfg, responses, search, columns, n);
      assert e.state.urls[0] == e.state.urls[..|n.urls|][0];
  }

  /**
   * After a 429 with a readable `Retry-After`, the run sleeps that many
   * seconds and goes on from the same page; the payload is already updated
   * for that page, so the repeated request goes to the same URL.
   */
  lemma RateLimitedRetry(cfg: Settings, responses: seq<Option<Response>>, search: Search, columns: seq<string>, s: State)
    requires s.page >= 1 && |s.urls| < |responses| && cfg.pageLimit.Some? && Network.Within(s.page, cfg.pageLimit.value)
    requires cfg.timeoutSet
    requires responses[|s.urls|].Some? && !responses[|s.urls|].value.ok && responses[|s.urls|].value.status == 429
    requires RetryAfter(responses[|s.urls|].value.retryAfter).Some?
    ensures var sent := Sent(cfg, s);
      var w := sent.(waits := s.waits + [RetryAfter(responses[|s.urls|].value.retryAfter).value]);
      && w.page == s.page
      && RunFrom(cfg, responses, search, columns, s) == RunFrom(cfg, responses, search, columns, w)
      && Sent(cfg, w).urls[|sent.urls| - 1] == sent.urls[|sent.urls| - 1]
      && Sent(cfg, w).payload == sent.payload
  {
    var sent := Sent(cfg, s);
    var w := sent.(waits := s.waits + [RetryAfter(responses[|s.urls|].value.retryAfter).value]);
    RunFromNext(cfg, responses, search, columns, s, w);
    PayloadUpdateTwice(cfg.pagination, None, s.payload, s.page);
  }
}

=== FILE: sites.dfy ===
/**
 * Text rules several site scrapers share: what Python's `float()` accepts
 * of a cleaned price, the `/<id>.html` product id of clubwhisky_nl_scraper.py
 * and whisky_nl_scraper.py, the first run of characters of a class
 * that `re.search(r'\d+', ...)` and its kind find, and `re.search` over a
 * pattern given by what it matches at each start position.
 */
module Sites {
  import opened Text
  import opened Records

  /**
   * `float(s)` for the strings the scrapers hand it: the literal it reads,
   * or None where it raises ValueError. Surrounding whitespace is ignored,
   * as Python does.
   */
  function PythonFloat(s: string): (r: Option<string>)
    ensures r.Some? ==> IsDecimalLiteral(r.value) && Count(r.value, '.') <= 1
  {
    var t := Strip(s);
    if IsDecimalLiteral(t) then
      DecimalHasOneDot(t);
      Some(t)
    else None
  }

  /** `try: return float(s) except ValueError: return 0.0`. */
  function FloatOrZero(s: string): (v: Value)
    ensures v.Float?
    ensures PythonFloat(s).Some? ==> v == Float(PythonFloat(s).value)
    ensures PythonFloat(s).None? ==> v == Float("0.0")
  {
    match PythonFloat(s)
    case Some(lit) => Float(lit)
    case None => Float("0.0")
  }

  /** A decimal literal without surrounding whitespace is read as itself. */
  lemma FloatOfLiteral(s: string)
    requires IsDecimalLiteral(s) && s != [] && !IsSpace(s[0]) && !IsSpace(s[|s| - 1])
    ensures FloatOrZero(s) == Float(s)
  {
    StripUnchanged(s);
  }

  /** `a.b.c` with digit runs `a`, `b` and `c` holds two dots, so it is no decimal literal. */
  lemma TwoDotsNoFloat(a: string, b: string, c: string)
    requires AllDigits(a) && AllDigits(b) && AllDigits(c) && a != [] && c != []
    ensures PythonFloat(a + "." + b + "." + c).None?
  {
    var t := a + "." + b + "." + c;
    StripUnchanged(t);
    CountSplit(a + "." + b + ".", c, '.');
    CountSplit(a + "." + b, ".", '.');
    CountSplit(a + ".", b, '.');
    CountSplit(a, ".", '.');
    AllDigitsNoChar(a, '.');
    AllDigitsNoChar(b, '.');
    AllDigitsNoChar(c, '.');
    if IsDecimalLiteral(t) { DecimalHasOneDot(t); }
  }

  /**
   * `re.search(r'/([^/]+)\.html$', link)`: the last path segment before a
   * trailing `.html`, when it is not empty. `$` also matches just before a
   * final newline.
   */
  function HtmlPageId(link: string): (r: Option<string>)
    ensures r.Some? ==> r.value != [] && Lacks(r.value, '/')
    ensures !EndsWith(link, ".html") && !EndsWith(link, ".html\n") ==> r.None?
  {
    var s := if link != [] && link[|link| - 1] == '\n' then link[..|link| - 1] else link;
    if !EndsWith(s, ".html") then None
    else
      var body := s[..|s| - 5];
      var slash := RFind(body, '/');
      if slash < 0 || slash + 1 == |body| then None
      else Some(body[slash + 1..])
  }

  /** A link `<prefix>/<id>.html` yields `<id>` for any non-empty `id` without `/`. */
  lemma HtmlPageIdOf(prefix: string, id: string)
    requires id != [] && Lacks(id, '/')
    ensures HtmlPageId(prefix + "/" + id + ".html") == Some(id)
  {
    var link := prefix + "/" + id + ".html";
    var body := prefix + "/" + id;
    assert link[|link| - 1] == 'l';
    assert link[..|link| - 5] == body;
    assert link[|link| - 5..] == ".html";
    assert body[|prefix|] == '/';
    assert forall j :: |prefix| < j < |body| ==> body[j] == id[j - |prefix| - 1];
    assert body[|prefix| + 1..] == id;
  }

  /** Length of the longest prefix of `s` whose characters all satisfy `p`. */
  function RunLength(s: string, p: char -> bool): (n: nat)
    ensures n <= |s|
    ensures forall j :: 0 <= j < n ==> p(s[j])
    ensures n < |s| ==> !p(s[n])
  {
    if s == [] || !p(s[0]) then 0 else 1 + RunLength(s[1..], p)
  }

  /** A run of `n` characters satisfying `p` that ends at the end or before one that does not has length `n`. */
  lemma {:induction false} RunLengthIs(s: string, p: char -> bool, n: nat)
    requires n <= |s|
    requires forall j :: 0 <= j < n ==> p(s[j])
    requires n < |s| ==> !p(s[n])
    ensures RunLength(s, p) == n
    decreases n
  {
    if n > 0 { RunLengthIs(s[1..], p, n - 1); }
  }

  /** The index of the first character of `s` satisfying `p`, or `|s|` when there is none. */
  function FirstIndex(s: string, p: char -> bool): (i: nat)
    ensures i <= |s|
    ensures forall j :: 0 <= j < i ==> !p(s[j])
    ensures i < |s| ==> p(s[i])
  {
    if s == [] || p(s[0]) then 0 else 1 + FirstIndex(s[1..], p)
  }

  /**
   * `re.search(r'[class]+', s).group()`: the first maximal run of characters
   * satisfying `p`, or None when no character does.
   */
  function FirstRun(s: string, p: char -> bool): Option<string>
  {
    var i := FirstIndex(s, p);
    if i == |s| then None else Some(s[i..i + RunLength(s[i..], p)])
  }

  /** There is a run exactly when some character satisfies `p`. */
  lemma FirstRunFound(s: string, p: char -> bool)
    ensures FirstRun(s, p).None? <==> forall j :: 0 <= j < |s| ==> !p(s[j])
  {
  }

  /**
   * The run is not empty and all its characters satisfy `p`; no earlier
   * character does, and the run stops at the end or before a character that
   * does not.
   */
  lemma FirstRunMaximal(s: string, p: char -> bool)
    requires FirstRun(s, p).Some?
    ensures var r := FirstRun(s, p).value;
      var i := FirstIndex(s, p);
      && r != [] && (forall j :: 0 <= j < |r| ==> p(r[j]))
      && (forall j :: 0 <= j < i ==> !p(s[j]))
      && i + |r| <= |s| && (i + |r| == |s| || !p(s[i + |r|]))
  {
    var i := FirstIndex(s, p);
    var n := RunLength(s[i..], p);
    assert n < |s[i..]| ==> s[i..][n] == s[i + n];
  }

  /** The end of the run of digits that starts at `i`. */
  function DigitRunEnd(s: string, i: nat): (e: nat)
    requires i <= |s|
    ensures i <= e <= |s|
    ensures forall j :: i <= j < e ==> IsDigit(s[j])
    ensures e < |s| ==> !IsDigit(s[e])
    decreases |s| - i
  {
    if i < |s| && IsDigit(s[i]) then DigitRunEnd(s, i + 1) else i
  }

  /** A run of digits that ends where a non-digit (or the end) follows ends there. */
  lemma {:induction false} DigitRunEndAt(s: string, i: nat, e: nat)
    requires i <= e <= |s|
    requires forall j :: i <= j < e ==> IsDigit(s[j])
    requires e < |s| ==> !IsDigit(s[e])
    ensures DigitRunEnd(s, i) == e
    decreases e - i
  {
    if i < e { DigitRunEndAt(s, i + 1, e); }
  }

  /** A regular-expression attempt at one start position. */
  type Attempt = (string, nat) -> Option<string>

  /** The first start position at or after `i` where `at` matches, or -1. */
  function FirstMatch(s: string, at: Attempt, i: nat): (k: int)
    ensures k == -1 || (i <= k < |s| && at(s, k).Some?)
    ensures forall j :: i <= j < (if k == -1 then |s| else k) ==> at(s, j).None?
    decreases |s| - i
  {
    if i >= |s| then -1
    else if at(s, i).Some? then i
    else FirstMatch(s, at, i + 1)
  }

  /** `re.search`: the match at the leftmost position where there is one. */
  function Search(s: string, at: Attempt): Option<string>
  {
    var k := FirstMatch(s, at, 0);
    if k == -1 then None else at(s, k)
  }

  /** The search finds the position `k` when nothing matches before it. */
  lemma {:induction false} SearchAt(s: string, at: Attempt, i: nat, k: nat)
    requires i <= k < |s| && at(s, k).Some?
    requires forall j :: i <= j < k ==> at(s, j).None?
    ensures FirstMatch(s, at, i) == k
    decreases k - i
  {
    if i < k { SearchAt(s, at, i + 1, k); }
  }
}

=== FILE: text.dfy ===
/**
 * String primitives with the meaning that Python's `str` methods and the
 * regular-expression classes `\d`, `\s` give them, restricted to ASCII.
 * A Python string is a `seq<char>`; slicing and concatenation are Dafny's.
 */
module Text {

  predicate IsDigit(c: char) { '0' <= c <= '9' }

  /** `str.isspace()` / regex `\s` on the ASCII range: space, \t \n \v \f \r and \x1c-\x1f. */
  predicate IsSpace(c: char) { c == ' ' || 9 <= c as int <= 13 || 28 <= c as int <= 31 }

  predicate IsUpper(c: char) { 'A' <= c <= 'Z' }

  /** Regex `\w` on ASCII: letters, digits and the underscore. */
  predicate IsWordChar(c: char) { IsDigit(c) || IsUpper(c) || 'a' <= c <= 'z' || c == '_' }

  predicate AllDigits(s: string) { forall i :: 0 <= i < |s| ==> IsDigit(s[i]) }

  predicate NoSpace(s: string) { forall i :: 0 <= i < |s| ==> !IsSpace(s[i]) }

  function LowerChar(c: char): (d: char)
    ensures !IsUpper(d)
    ensures IsUpper(c) || d == c
  {
    if IsUpper(c) then (c as int + 32) as char else c
  }

  function UpperChar(c: char): (d: char)
    ensures !('a' <= d <= 'z')
    ensures ('a' <= c <= 'z') || d == c
  {
    if 'a' <= c <= 'z' then (c as int - 32) as char else c
  }

  /** `str.upper()` on ASCII letters. */
  function Upper(s: string): (r: string)
    ensures |r| == |s|
    ensures forall i :: 0 <= i < |s| ==> r[i] == UpperChar(s[i])
  {
    if s == [] then [] else [UpperChar(s[0])] + Upper(s[1..])
  }

  /** `str.lower()` on ASCII letters. */
  function Lower(s: string): (r: string)
    ensures |r| == |s|
    ensures forall i :: 0 <= i < |s| ==> r[i] == LowerChar(s[i])
  {
    if s == [] then [] else [LowerChar(s[0])] + Lower(s[1..])
  }

  /** Drops the longest prefix whose characters all satisfy `drop`. */
  function TrimStart(s: string, drop: char -> bool): (r: string)
    ensures |r| <= |s| && r == s[|s| - |r|..]
    ensures forall i :: 0 <= i < |s| - |r| ==> drop(s[i])
    ensures r == [] || !drop(r[0])
  {
    if s != [] && drop(s[0]) then TrimStart(s[1..], drop) else s
  }

  /** Drops the longest suffix whose characters all satisfy `drop`. */
  function TrimEnd(s: string, drop: char -> bool): (r: string)
    ensures |r| <= |s| && r == s[..|r|]
    ensures forall i :: |r| <= i < |s| ==> drop(s[i])
    ensures r == [] || !drop(r[|r| - 1])
  {
    if s != [] && drop(s[|s| - 1]) then TrimEnd(s[..|s| - 1], drop) else s
  }

  /** `str.strip()`: leading and trailing whitespace removed. */
  function Strip(s: string): (r: string)
    ensures r == [] || (!IsSpace(r[0]) && !IsSpace(r[|r| - 1]))
  {
    var t := TrimStart(s, IsSpace);
    var r := TrimEnd(t, IsSpace);
    assert r != [] ==> r[0] == t[0];
    r
  }

  /** `strip()` only removes characters: a character absent before is absent after. */
  lemma StripLacks(s: string, c: char)
    requires Lacks(s, c)
    ensures Lacks(Strip(s), c)
  {
    var t := TrimStart(s, IsSpace);
    SliceLacks(s, |s| - |t|, c);
    var r := TrimEnd(t, IsSpace);
    SliceLacks(t, |r|, c);
  }

  /** Both parts of a string cut at `i` lack what the string lacks. */
  lemma SliceLacks(s: string, i: nat, c: char)
    requires Lacks(s, c) && i <= |s|
    ensures Lacks(s[..i], c) && Lacks(s[i..], c)
  {
    forall j | 0 <= j < |s[i..]| ensures s[i..][j] != c {
      assert s[i..][j] == s[i + j];
    }
  }

  /** Text that neither starts nor ends with whitespace is its own `strip()`. */
  lemma StripUnchanged(t: string)
    requires t != [] && !IsSpace(t[0]) && !IsSpace(t[|t| - 1])
    ensures Strip(t) == t
  {
    assert TrimStart(t, IsSpace) == t;
    assert TrimEnd(t, IsSpace) == t;
  }

  /** Every character of `s` is whitespace. */
  predicate AllSpace(s: string) { forall i :: 0 <= i < |s| ==> IsSpace(s[i]) }

  /**
   * `r` is `s` without its surrounding whitespace: `s` is `r` between two
   * runs of whitespace, and `r` neither starts nor ends with whitespace.
   */
  ghost predicate StrippedFrom(s: string, r: string)
  {
    && (r == [] || (!IsSpace(r[0]) && !IsSpace(r[|r| - 1])))
    && exists i :: 0 <= i <= |s| - |r| && s[i..i + |r|] == r && AllSpace(s[..i]) && AllSpace(s[i + |r|..])
  }

  /** Whitespace up to index `j` and none at `j`: the leading whitespace is exactly `s[..j]`. */
  lemma TrimStartAt(s: string, j: nat)
    requires j <= |s| && AllSpace(s[..j]) && (j < |s| ==> !IsSpace(s[j]))
    ensures TrimStart(s, IsSpace) == s[j..]
  {
    var t := TrimStart(s, IsSpace);
    var m := |s| - |t|;
    assert forall k :: 0 <= k < j ==> IsSpace(s[k]) by {
      forall k | 0 <= k < j ensures IsSpace(s[k]) { assert s[..j][k] == s[k]; }
    }
    assert t != [] ==> t[0] == s[m];
    assert m >= j;
    assert m <= j;
  }

  /** Whitespace from index `n` on and none just before it: the trailing whitespace is exactly `t[n..]`. */
  lemma TrimEndAt(t: string, n: nat)
    requires n <= |t| && AllSpace(t[n..]) && (n > 0 ==> !IsSpace(t[n - 1]))
    ensures TrimEnd(t, IsSpace) == t[..n]
  {
    var u := TrimEnd(t, IsSpace);
    assert |u| <= n;
    assert |u| >= n;
  }

  /** Leading whitespace stops at a non-whitespace character, so what follows it is kept whole. */
  lemma TrimStartConcat(a: string, x: string)
    requires x == [] || !IsSpace(x[0])
    ensures TrimStart(a + x, IsSpace) == TrimStart(a, IsSpace) + x
  {
    var t := TrimStart(a, IsSpace);
    var m := |a| - |t|;
    var s := a + x;
    CutConcat(a, x, m);
    assert AllSpace(a[..m]) by {
      forall k | 0 <= k < m ensures IsSpace(a[..m][k]) { assert a[..m][k] == a[k]; }
    }
    assert m < |s| ==> s[m] == (if t != [] then t[0] else x[0]);
    TrimStartAt(s, m);
  }

  /** Cutting `a + x` inside `a`. */
  lemma CutConcat<T>(a: seq<T>, x: seq<T>, m: nat)
    requires m <= |a|
    ensures (a + x)[..m] == a[..m] && (a + x)[m..] == a[m..] + x
  {
  }

  /** `strip()` leaves `s` without its surrounding whitespace. */
  lemma StripStripped(s: string)
    ensures StrippedFrom(s, Strip(s))
  {
    var t := TrimStart(s, IsSpace);
    var u := TrimEnd(t, IsSpace);
    var i := |s| - |t|;
    CutTwice(s, i, |u|);
    LeadingSpace(s);
    TrailingSpace(t);
    assert s[i..i + |u|] == u && AllSpace(s[..i]) && AllSpace(s[i + |u|..]);
  }

  /** What `TrimStart` drops is whitespace. */
  lemma LeadingSpace(s: string)
    ensures AllSpace(s[..|s| - |TrimStart(s, IsSpace)|])
  {
    var lead := s[..|s| - |TrimStart(s, IsSpace)|];
    forall k | 0 <= k < |lead| ensures IsSpace(lead[k]) { assert lead[k] == s[k]; }
  }

  /** What `TrimEnd` drops is whitespace. */
  lemma TrailingSpace(t: string)
    ensures AllSpace(t[|TrimEnd(t, IsSpace)|..])
  {
    var n := |TrimEnd(t, IsSpace)|;
    var trail := t[n..];
    forall k | 0 <= k < |trail| ensures IsSpace(trail[k]) { assert trail[k] == t[n + k]; }
  }

  /** Cutting a slice `s[i..]` again. */
  lemma CutTwice<T>(s: seq<T>, i: nat, n: nat)
    requires i + n <= |s|
    ensures s[i..][..n] == s[i..i + n] && s[i..][n..] == s[i + n..]
  {
  }

  /** Only one string is `s` without its surrounding whitespace. */
  lemma StrippedUnique(s: string, r: string, j: nat)
    requires j + |r| <= |s| && s[j..j + |r|] == r && AllSpace(s[..j]) && AllSpace(s[j + |r|..])
    requires r == [] || (!IsSpace(r[0]) && !IsSpace(r[|r| - 1]))
    ensures r == Strip(s)
  {
    var t := TrimStart(s, IsSpace);
    if r == [] {
      assert AllSpace(s[..|s|]) by {
        forall k | 0 <= k < |s| ensures IsSpace(s[k]) {
          if k < j { assert s[..j][k] == s[k]; } else { assert s[j + |r|..][k - j] == s[k]; }
        }
      }
      TrimStartAt(s, |s|);
    } else {
      assert s[j] == r[0];
      TrimStartAt(s, j);
      assert t[..|r|] == r && t[|r|..] == s[j + |r|..];
      TrimEndAt(t, |r|);
    }
  }

  /** `strip()` removes exactly the surrounding whitespace: its result is the one string `StrippedFrom(s, _)` allows. */
  lemma StripIsStripped(s: string, r: string)
    ensures StrippedFrom(s, r) <==> r == Strip(s)
  {
    StripStripped(s);
    if StrippedFrom(s, r) {
      var j :| 0 <= j <= |s| - |r| && s[j..j + |r|] == r && AllSpace(s[..j]) && AllSpace(s[j + |r|..]);
      StrippedUnique(s, r, j);
    }
  }

  /** `str.strip(c)` for a one-character argument. */
  function StripChar(s: string, c: char): string
  {
    TrimEnd(TrimStart(s, x => x == c), x => x == c)
  }

  /** The characters of `s` that satisfy `keep`, in order (`re.sub('[^...]', '', s)`). */
  function Filter(s: string, keep: char -> bool): (r: string)
    ensures |r| <= |s|
    ensures forall i :: 0 <= i < |r| ==> keep(r[i])
  {
    if s == [] then [] else (if keep(s[0]) then [s[0]] else []) + Filter(s[1..], keep)
  }

  /** `s.replace(c, '')` drops exactly the characters equal to `c`. */
  lemma {:induction false} RemoveAll(s: string, c: char, keep: char -> bool)
    requires forall x :: keep(x) <==> x != c
    ensures ReplaceAll(s, [c], []) == Filter(s, keep)
    decreases |s|
  {
    if s != [] {
      RemoveAll(s[1..], c, keep);
      assert s[..1] == [s[0]];
    }
  }

  /** `s.replace(a, b)` for one-character `a` and `b`. */
  function ReplaceChar(s: string, a: char, b: char): (r: string)
    ensures |r| == |s|
    ensures forall i :: 0 <= i < |s| ==> r[i] == (if s[i] == a then b else s[i])
  {
    if s == [] then [] else [if s[0] == a then b else s[0]] + ReplaceChar(s[1..], a, b)
  }

  /** `s.replace(pat, rep)`: left-to-right, non-overlapping, one pass. */
  function ReplaceAll(s: string, pat: string, rep: string): string
    requires pat != []
    decreases |s|
  {
    if |s| < |pat| then s
    else if s[..|pat|] == pat then rep + ReplaceAll(s[|pat|..], pat, rep)
    else [s[0]] + ReplaceAll(s[1..], pat, rep)
  }

  function Count(s: string, c: char): (n: nat)
    ensures n <= |s|
  {
    if s == [] then 0 else (if s[0] == c then 1 else 0) + Count(s[1..], c)
  }

  predicate StartsWith(s: string, p: string) { |p| <= |s| && s[..|p|] == p }

  predicate EndsWith(s: string, p: string) { |p| <= |s| && s[|s| - |p|..] == p }

  /** `sub` occurs in `s` starting at index `j`. */
  predicate OccursAt(s: string, sub: string, j: int)
  {
    0 <= j && j + |sub| <= |s| && s[j..j + |sub|] == sub
  }

  /** The first index at or after `k` at which `sub` occurs, or -1. */
  function IndexFrom(s: string, sub: string, k: nat): (r: int)
    ensures r == -1 || (k <= r && r + |sub| <= |s|)
    decreases |s| - k
  {
    if k + |sub| > |s| then -1
    else if OccursAt(s, sub, k) then k
    else IndexFrom(s, sub, k + 1)
  }

  lemma {:induction false} IndexFromSpec(s: string, sub: string, k: nat)
    ensures var r := IndexFrom(s, sub, k);
      && (r == -1 || (k <= r && OccursAt(s, sub, r)))
      && (r >= 0 ==> forall j :: k <= j < r ==> !OccursAt(s, sub, j))
      && (r < 0 ==> forall j :: k <= j ==> !OccursAt(s, sub, j))
    decreases |s| - k
  {
    if k + |sub| <= |s| && !OccursAt(s, sub, k) {
      IndexFromSpec(s, sub, k + 1);
    }
  }

  /** `s.find(sub)`: the first index at which `sub` occurs, or -1. */
  function IndexOf(s: string, sub: string): (r: int)
    ensures r == -1 || (0 <= r && r + |sub| <= |s|)
  {
    IndexFrom(s, sub, 0)
  }

  /** `s.find(sub)` is the first occurrence of `sub`, and -1 exactly when there is none. */
  lemma IndexOfSpec(s: string, sub: string)
    ensures var r := IndexOf(s, sub);
      && (r == -1 || OccursAt(s, sub, r))
      && (r >= 0 ==> forall j :: 0 <= j < r ==> !OccursAt(s, sub, j))
      && (r < 0 ==> forall j :: !OccursAt(s, sub, j))
  {
    IndexFromSpec(s, sub, 0);
  }

  /** `sub in s`. */
  predicate Contains(s: string, sub: string) { IndexOf(s, sub) >= 0 }

  /** `s.rfind(c)`: the last index holding `c`, or -1. */
  function RFind(s: string, c: char): (r: int)
    ensures -1 <= r < |s|
    ensures r >= 0 ==> s[r] == c
    ensures forall j :: r < j < |s| ==> s[j] != c
  {
    if s == [] then -1
    else if s[|s| - 1] == c then |s| - 1
    else RFind(s[..|s| - 1], c)
  }

  /** `s.split(sep)` for a non-empty separator. */
  function Split(s: string, sep: string): (parts: seq<string>)
    requires sep != []
    ensures |parts| >= 1
    ensures |parts| == 1 <==> !Contains(s, sep)
    decreases |s|
  {
    var i := IndexOf(s, sep);
    if i < 0 then [s] else [s[..i]] + Split(s[i + |sep|..], sep)
  }

  /** `sep.join(parts)`. */
  function Join(parts: seq<string>, sep: string): string
  {
    if parts == [] then []
    else if |parts| == 1 then parts[0]
    else parts[0] + (sep + Join(parts[1..], sep))
  }

  /** Splitting and joining again with the same separator gives back the string. */
  lemma {:induction false} JoinSplit(s: string, sep: string)
    requires sep != []
    ensures Join(Split(s, sep), sep) == s
    decreases |s|
  {
    var i := IndexOf(s, sep);
    if i >= 0 {
      var rest := s[i + |sep|..];
      JoinSplit(rest, sep);
      JoinSplitStep(s, sep, i);
    }
  }

  lemma JoinSplitStep(s: string, sep: string, i: nat)
    requires sep != [] && i == IndexOf(s, sep)
    requires Join(Split(s[i + |sep|..], sep), sep) == s[i + |sep|..]
    ensures Join(Split(s, sep), sep) == s
  {
    var rest := s[i + |sep|..];
    var tail := Split(rest, sep);
    SplitUnfold(s, sep, i);
    JoinCons(s[..i], tail, sep);
    IndexOfSpec(s, sep);
    SliceAround(s, sep, i);
  }

  lemma SplitUnfold(s: string, sep: string, i: nat)
    requires sep != [] && i == IndexOf(s, sep)
    ensures Split(s, sep) == [s[..i]] + Split(s[i + |sep|..], sep)
  {
  }

  /** A string is the part before an occurrence, the occurrence, and the part after. */
  lemma SliceAround(s: string, sub: string, i: nat)
    requires OccursAt(s, sub, i)
    ensures s == s[..i] + (sub + s[i + |sub|..])
  {
    assert s == s[..i] + (s[i..i + |sub|] + s[i + |sub|..]);
  }

  /** An occurrence with none before it is the one `find` reports. */
  lemma IndexOfFirst(s: string, sub: string, r: nat)
    requires OccursAt(s, sub, r)
    requires forall j :: 0 <= j < r ==> !OccursAt(s, sub, j)
    ensures IndexOf(s, sub) == r
  {
    IndexOfSpec(s, sub);
  }

  /** With no occurrence at all, `find` reports -1. */
  lemma IndexOfNone(s: string, sub: string)
    requires forall j :: 0 <= j ==> !OccursAt(s, sub, j)
    ensures IndexOf(s, sub) == -1
  {
    IndexOfSpec(s, sub);
  }

  /** For a one-character pattern an occurrence is just that character. */
  lemma OccursAtChar(s: string, c: char, j: int)
    ensures OccursAt(s, [c], j) <==> 0 <= j < |s| && s[j] == c
  {
    if 0 <= j < |s| { assert s[j..j + 1] == [s[j]]; }
  }

  /** `c` occurs in `s` exactly when some character of `s` is `c`. */
  lemma ContainsChar(s: string, c: char)
    ensures Contains(s, [c]) <==> exists j :: 0 <= j < |s| && s[j] == c
  {
    IndexOfSpec(s, [c]);
    var r := IndexOf(s, [c]);
    if r >= 0 {
      OccursAtChar(s, c, r);
    } else {
      forall j | 0 <= j < |s| ensures s[j] != c { OccursAtChar(s, c, j); }
    }
  }

  /** The first `c` in `a + c + b` is the first one in `a`, or the added one when `a` has none. */
  lemma IndexOfSnoc(a: string, c: char, b: string)
    ensures var i := IndexOf(a, [c]);
      IndexOf(a + [c] + b, [c]) == if i >= 0 then i else |a|
  {
    var s := a + [c] + b;
    IndexOfSpec(a, [c]);
    var i := IndexOf(a, [c]);
    var r := if i >= 0 then i else |a|;
    if i >= 0 {
      OccursAtChar(a, c, i);
    } else {
      forall j | 0 <= j < |a| ensures a[j] != c {
        OccursAtChar(a, c, j);
      }
    }
    OccursAtChar(s, c, r);
    forall j | 0 <= j < r ensures !OccursAt(s, [c], j) {
      OccursAtChar(a, c, j);
      OccursAtChar(s, c, j);
    }
    IndexOfFirst(s, [c], r);
  }

  /** A string without `c` has no occurrence of it. */
  lemma LacksIndex(b: string, c: char)
    requires forall j :: 0 <= j < |b| ==> b[j] != c
    ensures IndexOf(b, [c]) == -1
  {
    forall j | 0 <= j ensures !OccursAt(b, [c], j) {
      OccursAtChar(b, c, j);
    }
    IndexOfNone(b, [c]);
  }

  /** Splitting `a + c + b` on the character `c`, where `b` holds no `c`, adds `b` as the last part. */
  lemma {:induction false} SplitSnoc(a: string, c: char, b: string)
    requires forall j :: 0 <= j < |b| ==> b[j] != c
    ensures Split(a + [c] + b, [c]) == Split(a, [c]) + [b]
    decreases |a|
  {
    var s := a + [c] + b;
    IndexOfSnoc(a, c, b);
    var i := IndexOf(a, [c]);
    if i >= 0 {
      assert s[..i] == a[..i];
      assert s[i + 1..] == a[i + 1..] + [c] + b;
      SplitSnoc(a[i + 1..], c, b);
      SplitUnfold(s, [c], i);
      SplitUnfold(a, [c], i);
    } else {
      assert s[..|a|] == a;
      assert s[|a| + 1..] == b;
      SplitUnfold(s, [c], |a|);
      LacksIndex(b, c);
    }
  }

  /** No character of `s` is `c`. */
  predicate Lacks(s: string, c: char)
  {
    forall j :: 0 <= j < |s| ==> s[j] != c
  }

  lemma {:induction false} JoinSnoc(parts: seq<string>, b: string, sep: string)
    requires parts != []
    ensures Join(parts + [b], sep) == Join(parts, sep) + sep + b
    decreases |parts|
  {
    var all := parts + [b];
    if |parts| == 1 {
      assert all == [parts[0], b];
      assert all[1..] == [b];
    } else {
      assert all[1..] == parts[1..] + [b];
      JoinSnoc(parts[1..], b, sep);
    }
  }

  /** Joining parts that do not hold the one-character separator and splitting again gives the parts back. */
  lemma {:induction false} SplitJoin(parts: seq<string>, c: char)
    requires parts != []
    requires forall i :: 0 <= i < |parts| ==> Lacks(parts[i], c)
    ensures Split(Join(parts, [c]), [c]) == parts
    decreases |parts|
  {
    var b := parts[|parts| - 1];
    if |parts| == 1 {
      forall j | 0 <= j ensures !OccursAt(b, [c], j) {
        OccursAtChar(b, c, j);
      }
      IndexOfNone(b, [c]);
    } else {
      var init := parts[..|parts| - 1];
      assert parts == init + [b];
      JoinSnoc(init, b, [c]);
      SplitJoin(init, c);
      SplitSnoc(Join(init, [c]), c, b);
    }
  }

  /** Length of the longest prefix of `s` that holds no whitespace. */
  function WordLength(s: string): (n: nat)
    ensures n <= |s|
    ensures NoSpace(s[..n])
    ensures n < |s| ==> IsSpace(s[n])
  {
    if s == [] || IsSpace(s[0]) then 0 else 1 + WordLength(s[1..])
  }

  /** `s.split()` with no argument: the maximal runs of non-whitespace characters. */
  function Words(s: string): (ws: seq<string>)
    ensures forall i :: 0 <= i < |ws| ==> ws[i] != [] && NoSpace(ws[i])
    decreases |s|
  {
    var t := TrimStart(s, IsSpace);
    if t == [] then []
    else
      var n := WordLength(t);
      [t[..n]] + Words(t[n..])
  }

  /** `' '.join(s.split())`: whitespace runs collapsed to one space, ends trimmed. */
  function CollapseSpaces(s: string): string
  {
    Join(Words(s), " ")
  }

  lemma WordsAfterSpace(sp: string, s: string)
    requires |sp| == 1 && IsSpace(sp[0])
    ensures Words(sp + s) == Words(s)
  {
    assert (sp + s)[1..] == s;
  }

  lemma {:induction false} WordsOfWord(w: string, s: string)
    requires w != [] && NoSpace(w)
    requires s == [] || IsSpace(s[0])
    ensures Words(w + s) == [w] + Words(s)
  {
    var t := w + s;
    assert t[0] == w[0];
    assert !IsSpace(t[0]);
    assert TrimStart(t, IsSpace) == t;
    WordLengthOfWord(w, s);
    assert t[..|w|] == w;
    assert t[|w|..] == s;
  }

  lemma {:induction false} WordLengthOfWord(w: string, s: string)
    requires NoSpace(w)
    requires s == [] || IsSpace(s[0])
    ensures WordLength(w + s) == |w|
    decreases |w|
  {
    if w != [] {
      assert (w + s)[1..] == w[1..] + s;
      WordLengthOfWord(w[1..], s);
    } else {
      assert w + s == s;
    }
  }

  lemma JoinCons(w: string, tail: seq<string>, sep: string)
    requires tail != []
    ensures Join([w] + tail, sep) == w + (sep + Join(tail, sep))
  {
    assert ([w] + tail)[1..] == tail;
  }

  /** Joining non-empty space-free words with single spaces and splitting again returns the words. */
  lemma {:induction false} WordsOfJoin(ws: seq<string>)
    requires forall i :: 0 <= i < |ws| ==> ws[i] != [] && NoSpace(ws[i])
    ensures Words(Join(ws, " ")) == ws
  {
    if ws == [] {
    } else if |ws| == 1 {
      WordsOfSingle(ws[0]);
      assert ws == [ws[0]];
    } else {
      var w, tail := ws[0], ws[1..];
      assert ws == [w] + tail;
      WordsOfJoin(tail);
      WordsOfJoinCons(w, tail);
    }
  }

  lemma WordsOfSingle(w: string)
    requires w != [] && NoSpace(w)
    ensures Words(Join([w], " ")) == [w]
  {
    WordsOfWord(w, []);
    assert w + [] == w;
  }

  lemma WordsOfJoinCons(w: string, tail: seq<string>)
    requires w != [] && NoSpace(w) && tail != []
    requires Words(Join(tail, " ")) == tail
    ensures Words(Join([w] + tail, " ")) == [w] + tail
  {
    var rest := Join(tail, " ");
    JoinCons(w, tail, " ");
    WordsAfterSpace(" ", rest);
    WordsOfWord(w, " " + rest);
  }

  /** A whitespace character splits the words: `(a + c + b).split()` is `a.split() + b.split()`. */
  lemma {:induction false} WordsAtSpace(a: string, c: char, b: string)
    requires IsSpace(c)
    ensures Words(a + [c] + b) == Words(a) + Words(b)
    decreases |a|
  {
    if a == [] {
      LeadingSeparatorStep(a, c, b);
    } else if IsSpace(a[0]) {
      WordsAtSpace(a[1..], c, b);
      LeadingSpaceStep(a, c, b);
    } else {
      var n := WordLength(a);
      WordsAtSpace(a[n..], c, b);
      LeadingWordStep(a, n, c, b);
    }
  }

  /** The base case of `WordsAtSpace`: the separator starts the string. */
  lemma LeadingSeparatorStep(a: string, c: char, b: string)
    requires a == [] && IsSpace(c)
    ensures Words(a + [c] + b) == Words(a) + Words(b)
  {
    assert a + [c] + b == [c] + b;
    WordsAfterSpace([c], b);
  }

  /** The step of `WordsAtSpace` past a leading whitespace character. */
  lemma LeadingSpaceStep(a: string, c: char, b: string)
    requires a != [] && IsSpace(a[0])
    requires Words(a[1..] + [c] + b) == Words(a[1..]) + Words(b)
    ensures Words(a + [c] + b) == Words(a) + Words(b)
  {
    Regroup(a, 1, c, b);
    WordsAfterSpace(a[..1], a[1..] + [c] + b);
    WordsAfterSpace(a[..1], a[1..]);
  }

  /** `a + [c] + b` cut after the first `n` characters of `a`. */
  lemma Regroup(a: string, n: nat, c: char, b: string)
    requires n <= |a|
    ensures a == a[..n] + a[n..]
    ensures a + [c] + b == a[..n] + (a[n..] + [c] + b)
    ensures (a[n..] + [c] + b)[0] == if n < |a| then a[n] else c
  {
  }

  /** The step of `WordsAtSpace` past a leading word `a[..n]`. */
  lemma LeadingWordStep(a: string, n: nat, c: char, b: string)
    requires a != [] && !IsSpace(a[0]) && IsSpace(c) && n == WordLength(a)
    requires Words(a[n..] + [c] + b) == Words(a[n..]) + Words(b)
    ensures Words(a + [c] + b) == Words(a) + Words(b)
  {
    var w, rest := a[..n], a[n..];
    var x := rest + [c] + b;
    Regroup(a, n, c, b);
    WordsOfWord(w, rest);
    WordsOfWord(w, x);
    calc {
      Words(a + [c] + b);
      Words(w + x);
      [w] + Words(x);
      [w] + (Words(rest) + Words(b));
      { ConcatAssoc([w], Words(rest), Words(b)); }
      ([w] + Words(rest)) + Words(b);
      Words(a) + Words(b);
    }
  }

  lemma ConcatAssoc<T>(x: seq<T>, y: seq<T>, z: seq<T>)
    ensures x + (y + z) == (x + y) + z
  {
  }

  /** Text without whitespace is one word; whitespace alone, or nothing, has none. */
  lemma WordsOfRun(s: string)
    ensures s != [] && NoSpace(s) ==> Words(s) == [s]
    ensures AllSpace(s) ==> Words(s) == []
  {
    if s != [] && NoSpace(s) {
      WordsOfWord(s, []);
      assert s + [] == s;
    }
    if AllSpace(s) {
      assert s[..|s|] == s;
      TrimStartAt(s, |s|);
    }
  }

  /** Collapsing whitespace twice is collapsing it once. */
  lemma CollapseSpacesIdempotent(s: string)
    ensures CollapseSpaces(CollapseSpaces(s)) == CollapseSpaces(s)
  {
    WordsOfJoin(Words(s));
  }

  /** An unsigned decimal numeral: digits with at most one '.', and at least one digit. */
  predicate IsUnsignedDecimal(s: string)
  {
    var d := IndexOf(s, ".");
    if d < 0 then s != [] && AllDigits(s)
    else |s| >= 2 && AllDigits(s[..d]) && AllDigits(s[d + 1..])
  }

  /**
   * What Python's `float()` accepts among strings made of digits, '.', '+' and '-':
   * an optional sign followed by an unsigned decimal numeral.
   */
  predicate IsDecimalLiteral(s: string)
  {
    if s != [] && (s[0] == '-' || s[0] == '+') then IsUnsignedDecimal(s[1..]) else IsUnsignedDecimal(s)
  }

  /** A non-empty string is its first character followed by the rest. */
  lemma HeadTail(s: string)
    requires s != []
    ensures s == [s[0]] + s[1..]
  {
  }

  lemma CountSplit(a: string, b: string, c: char)
    ensures Count(a + b, c) == Count(a, c) + Count(b, c)
  {
    if a != [] {
      assert (a + b)[1..] == a[1..] + b;
      CountSplit(a[1..], b, c);
    } else {
      assert a + b == b;
    }
  }

  lemma {:induction false} AllDigitsNoChar(s: string, c: char)
    requires AllDigits(s) && !IsDigit(c)
    ensures Count(s, c) == 0
  {
    if s != [] { AllDigitsNoChar(s[1..], c); }
  }

  /** An unsigned decimal holds at most one '.': the one `IndexOf` finds. */
  lemma UnsignedDecimalOneDot(u: string)
    requires IsUnsignedDecimal(u)
    ensures Count(u, '.') <= 1
  {
    var d := IndexOf(u, ".");
    if d < 0 {
      AllDigitsNoChar(u, '.');
    } else {
      var before, after := u[..d], u[d + 1..];
      assert Count(before, '.') == 0 && Count(after, '.') == 0 by {
        AllDigitsNoChar(before, '.');
        AllDigitsNoChar(after, '.');
      }
      assert Count(u, '.') == Count(before, '.') + Count([u[d]], '.') + Count(after, '.') by {
        assert u == before + [u[d]] + after;
        CountSplit(before + [u[d]], after, '.');
        CountSplit(before, [u[d]], '.');
      }
    }
  }

  /** A decimal literal holds at most one '.'. */
  lemma DecimalHasOneDot(s: string)
    requires IsDecimalLiteral(s)
    ensures Count(s, '.') <= 1
  {
    var u := if s != [] && (s[0] == '-' || s[0] == '+') then s[1..] else s;
    UnsignedDecimalOneDot(u);
    if u != s {
      HeadTail(s);
      CountSplit([s[0]], u, '.');
    }
  }

  function DigitValue(c: char): (v: nat)
    requires IsDigit(c)
    ensures v < 10
  {
    c as int - '0' as int
  }

  function DigitChar(v: nat): (c: char)
    requires v < 10
    ensures IsDigit(c) && DigitValue(c) == v
  {
    ('0' as int + v) as char
  }

  /** `str(n)` for a natural number. */
  function NatToString(n: nat): (s: string)
    ensures s != [] && AllDigits(s)
  {
    if n < 10 then [DigitChar(n)] else NatToString(n / 10) + [DigitChar(n % 10)]
  }

  /** `int(s)` for a string of ASCII digits. */
  function DigitsValue(s: string): nat
    requires AllDigits(s)
  {
    if s == [] then 0 else 10 * DigitsValue(s[..|s| - 1]) + DigitValue(s[|s| - 1])
  }

  /** Reading back the decimal text of `n` gives `n`. */
  lemma {:induction false} NatToStringRoundTrip(n: nat)
    ensures DigitsValue(NatToString(n)) == n
  {
    if n >= 10 {
      NatToStringRoundTrip(n / 10);
      var s := NatToString(n);
      assert s[..|s| - 1] == NatToString(n / 10);
    }
  }

  /**
   * `str(i)` for any integer: a minus sign exactly for a negative number,
   * then the digits of its magnitude; Python's `float()` and `int()` read
   * it back.
   */
  function IntText(i: int): (s: string)
    ensures s != [] && IsDecimalLiteral(s)
    ensures s[0] == '-' <==> i < 0
    ensures i < 0 ==> AllDigits(s[1..]) && DigitsValue(s[1..]) == -i
    ensures i >= 0 ==> AllDigits(s) && DigitsValue(s) == i
  {
    if i < 0 then
      var d := NatToString(-i);
      NatToStringRoundTrip(-i);
      WholeDecimal(d);
      assert ("-" + d)[1..] == d;
      "-" + d
    else
      NatToStringRoundTrip(i);
      WholeDecimal(NatToString(i));
      NatToString(i)
  }

  /** Different integers print differently. */
  lemma IntTextInjective(i: int, j: int)
    requires IntText(i) == IntText(j)
    ensures i == j
  {
  }

  /** `f"{n:02d}"`: at least two digits, zero-padded. */
  function Pad2(n: nat): (s: string)
    ensures |s| >= 2 && AllDigits(s)
    ensures DigitsValue(s) == n
  {
    NatToStringRoundTrip(n);
    if n < 10 then
      var s := "0" + NatToString(n);
      assert s[..|s| - 1] == "0";
      s
    else NatToString(n)
  }

  /** `ReplaceChar` distributes over concatenation. */
  lemma ReplaceCharSplit(a: string, b: string, x: char, y: char)
    ensures ReplaceChar(a + b, x, y) == ReplaceChar(a, x, y) + ReplaceChar(b, x, y)
  {
    var l, r := ReplaceChar(a + b, x, y), ReplaceChar(a, x, y) + ReplaceChar(b, x, y);
    assert forall i :: 0 <= i < |l| ==> l[i] == r[i] by {
      forall i | 0 <= i < |l| ensures l[i] == r[i] {
        if i < |a| { assert (a + b)[i] == a[i]; } else { assert (a + b)[i] == b[i - |a|]; }
      }
    }
  }

  /** `Filter` distributes over concatenation. */
  lemma {:induction false} FilterSplit(a: string, b: string, p: char -> bool)
    ensures Filter(a + b, p) == Filter(a, p) + Filter(b, p)
    decreases |a|
  {
    if a != [] {
      assert (a + b)[1..] == a[1..] + b;
      FilterSplit(a[1..], b, p);
    } else {
      assert a + b == b;
    }
  }

  /** Filtering a string whose characters all pass leaves it unchanged. */
  lemma {:induction false} FilterKeepsAll(s: string, p: char -> bool)
    requires forall i :: 0 <= i < |s| ==> p(s[i])
    ensures Filter(s, p) == s
    decreases |s|
  {
    if s != [] { FilterKeepsAll(s[1..], p); }
  }

  /** What `Filter` keeps satisfies both its own test and any property of every input character. */
  lemma {:induction false} FilterFrom(s: string, keep: char -> bool, p: char -> bool)
    requires forall j :: 0 <= j < |s| ==> p(s[j])
    ensures forall j :: 0 <= j < |Filter(s, keep)| ==> p(Filter(s, keep)[j]) && keep(Filter(s, keep)[j])
    decreases |s|
  {
    if s != [] { FilterFrom(s[1..], keep, p); }
  }

  /** Filtering `a x b` where `a` and `b` pass keeps them and decides only on `x`. */
  lemma FilterAroundOne(a: string, x: char, b: string, p: char -> bool)
    requires forall i :: 0 <= i < |a| ==> p(a[i])
    requires forall i :: 0 <= i < |b| ==> p(b[i])
    ensures Filter(a + [x] + b, p) == a + (if p(x) then [x] else []) + b
  {
    FilterKeepsAll(a, p);
    FilterKeepsAll(b, p);
    FilterSplit(a, [x], p);
    FilterSplit(a + [x], b, p);
    assert Filter([x], p) == (if p(x) then [x] else []);
  }

  /** The position of the last `c` in `s` is `k` when `s[k] == c` and no later character is `c`. */
  lemma RFindAt(s: string, c: char, k: nat)
    requires k < |s| && s[k] == c
    requires forall j :: k < j < |s| ==> s[j] != c
    ensures RFind(s, c) == k
  {
  }

  /** Filtering `a x b y c` where `a`, `b` and `c` pass keeps them and decides only on the separators `x` and `y`. */
  lemma FilterAroundSeparators(a: string, x: char, b: string, y: char, c: string, p: char -> bool)
    requires forall i :: 0 <= i < |a| ==> p(a[i])
    requires forall i :: 0 <= i < |b| ==> p(b[i])
    requires forall i :: 0 <= i < |c| ==> p(c[i])
    ensures Filter(a + [x] + b + [y] + c, p)
      == a + (if p(x) then [x] else []) + b + (if p(y) then [y] else []) + c
  {
    var s1 := a + [x];
    var s2 := s1 + b;
    var s3 := s2 + [y];
    FilterKeepsAll(a, p);
    FilterKeepsAll(b, p);
    FilterKeepsAll(c, p);
    FilterSplit(a, [x], p);
    FilterSplit(s1, b, p);
    FilterSplit(s2, [y], p);
    FilterSplit(s3, c, p);
    assert Filter([x], p) == (if p(x) then [x] else []);
    assert Filter([y], p) == (if p(y) then [y] else []);
  }

  /** Replacing the one comma of `a,b` gives `a.b`. */
  lemma CommaToDot(a: string, b: string)
    requires Lacks(a, ',') && Lacks(b, ',')
    ensures ReplaceChar(a + [','] + b, ',', '.') == a + ['.'] + b
  {
    var s, t := a + [','] + b, a + ['.'] + b;
    assert forall i :: 0 <= i < |s| ==> ReplaceChar(s, ',', '.')[i] == t[i];
  }

  /** A non-empty string with no whitespace at its ends loses one space added at either end. */
  lemma StripOneSpace(t: string)
    requires t != [] && !IsSpace(t[0]) && !IsSpace(t[|t| - 1])
    ensures Strip(" " + t) == t && Strip(t + " ") == t
  {
    assert (" " + t)[1..] == t;
    assert TrimStart(" " + t, IsSpace) == TrimStart(t, IsSpace);
    StripUnchanged(t);
    assert (t + " ")[..|t|] == t;
    assert TrimStart(t + " ", IsSpace) == t + " ";
    assert TrimEnd(t + " ", IsSpace) == TrimEnd(t, IsSpace);
  }

  /** Replacing a pattern whose first character does not occur changes nothing. */
  lemma {:induction false} ReplaceAllAbsent(s: string, pat: string, rep: string)
    requires pat != [] && Lacks(s, pat[0])
    ensures ReplaceAll(s, pat, rep) == s
    decreases |s|
  {
    if |s| >= |pat| {
      assert s[..|pat|][0] == s[0];
      ReplaceAllAbsent(s[1..], pat, rep);
    }
  }

  /** Digits alone are a decimal literal. */
  lemma WholeDecimal(a: string)
    requires a != [] && AllDigits(a)
    ensures IsDecimalLiteral(a)
  {
    IndexOfNoChar(a, '.');
  }

  /** Digits, a dot and digits are a decimal literal. */
  lemma DecimalOf(a: string, b: string)
    requires a != [] && AllDigits(a) && AllDigits(b)
    ensures IsDecimalLiteral(a + "." + b)
  {
    var m := a + "." + b;
    IndexOfNoChar(a, '.');
    IndexOfAfter(a, '.', b);
    assert m[..|a|] == a;
    assert m[|a| + 1..] == b;
  }

  /** No occurrence of a character a string lacks. */
  lemma IndexOfNoChar(a: string, c: char)
    requires Lacks(a, c) || (AllDigits(a) && !IsDigit(c))
    ensures IndexOf(a, [c]) == -1
  {
    forall j | 0 <= j ensures !OccursAt(a, [c], j) {
      OccursAtChar(a, c, j);
    }
    IndexOfNone(a, [c]);
  }

  /** The first `c` of `a + [c] + b` is the one after `a` when `a` has none. */
  lemma IndexOfAfter(a: string, c: char, b: string)
    requires AllDigits(a) && !IsDigit(c)
    ensures IndexOf(a + [c] + b, [c]) == |a|
  {
    var s := a + [c] + b;
    assert s[|a|..|a| + 1] == [c];
    forall j | 0 <= j < |a| ensures !OccursAt(s, [c], j) {
      OccursAtChar(s, c, j);
    }
    IndexOfFirst(s, [c], |a|);
  }

}

=== FILE: whisky_exchange.dfy ===
/**
 * whisky_exchange_scraper.py: The Whisky Exchange. The listing loop is the
 * class's own; `parse_products` reads every item of the product list,
 * converts its pound price to euros and splits the `70cl / 40%` meta line
 * into volume and strength. An item that raises is skipped.
 */
module WhiskyExchange {
  import opened Text
  import opened Records
  import opened Sites
  import opened DetailTable
  import opened Extraction

  // ---------------------------------------------------------------------------
  // `parse_meta`
  // ---------------------------------------------------------------------------

  /**
   * `parse_meta`: an empty meta line gives no volume and no strength.
   * Otherwise the line is split on `/`: the volume is the first part
   * stripped, with every `cl` removed and stripped again, and the strength
   * the second part with `%` removed and stripped; an empty part gives
   * None, and later parts are ignored.
   */
  function ParseMeta(meta: string): (r: (Option<string>, Option<string>))
    ensures meta == [] ==> r == (None, None)
    ensures meta != [] ==> var parts := Split(meta, "/");
      && (r.0.Some? <==> Strip(parts[0]) != [])
      && (r.0.Some? ==> StrippedFrom(ReplaceAll(Strip(parts[0]), "cl", ""), r.0.value))
      && (r.1.Some? <==> |parts| > 1 && Strip(parts[1]) != [])
      && (r.1.Some? ==> StrippedFrom(ReplaceAll(Strip(parts[1]), "%", ""), r.1.value))
    ensures r.1.Some? ==> Lacks(r.1.value, '%')
  {
    if meta == [] then (None, None)
    else
      var parts := Split(meta, "/");
      var volume := Strip(parts[0]);
      var abv := if |parts| > 1 then Strip(parts[1]) else [];
      StripStripped(ReplaceAll(volume, "cl", ""));
      (if volume != [] then Some(Strip(ReplaceAll(volume, "cl", ""))) else None,
       if abv != [] then Some(AbvText(abv)) else None)
  }

  /** No meta line, no volume and no strength; no `/`, no strength. */
  lemma MetaMissing(meta: string)
    ensures meta == [] ==> ParseMeta(meta) == (None, None)
    ensures !Contains(meta, "/") ==> ParseMeta(meta).1.None?
  {
  }

  /** Removing `cl` from digits followed by `cl` leaves the digits. */
  lemma {:induction false} DigitsThenCl(v: string)
    requires AllDigits(v)
    ensures ReplaceAll(v + "cl", "cl", "") == v
    decreases |v|
  {
    var s := v + "cl";
    if v == [] {
      assert s == "cl";
      assert s[2..] == [];
    } else {
      assert s[..2] != "cl" by { assert s[..2][0] == v[0]; }
      assert s[1..] == v[1..] + "cl";
      DigitsThenCl(v[1..]);
      assert v == [v[0]] + v[1..];
    }
  }

  /** The usual meta line `<v>cl / <a>%` gives back `v` and `a`. */
  lemma MetaOf(v: string, a: string)
    requires v != [] && AllDigits(v) && a != [] && AllDigits(a)
    ensures ParseMeta(v + "cl / " + a + "%") == (Some(v), Some(a))
  {
    var meta := v + "cl / " + a + "%";
    assert Split(meta, "/") == [v + "cl ", " " + a + "%"] by {
      assert meta == v + "cl " + "/" + " " + a + "%";
      MetaParts(v, a);
    }
    assert Strip(ReplaceAll(Strip(v + "cl "), "cl", "")) == v by {
      VolumePart(v);
    }
    assert AbvText(Strip(" " + a + "%")) == a by {
      AbvPart(a);
    }
  }

  lemma MetaParts(v: string, a: string)
    requires AllDigits(v) && AllDigits(a)
    ensures Split(v + "cl " + "/" + " " + a + "%", "/") == [v + "cl ", " " + a + "%"]
  {
    var first, second := v + "cl ", " " + a + "%";
    assert Lacks(second, '/') by {
      assert forall j :: 0 <= j < |second| ==> second[j] == ' ' || second[j] == '%' || second[j] == a[j - 1];
    }
    assert Lacks(first, '/') by {
      assert forall j :: 0 <= j < |first| ==> IsDigit(first[j]) || first[j] == 'c' || first[j] == 'l' || first[j] == ' ';
    }
    SplitSnoc(first, '/', second);
    ContainsChar(first, '/');
    assert Split(first, "/") == [first];
    assert v + "cl " + "/" + " " + a + "%" == first + ['/'] + second;
  }

  lemma VolumePart(v: string)
    requires v != [] && AllDigits(v)
    ensures Strip(ReplaceAll(Strip(v + "cl "), "cl", "")) == v
  {
    var v1 := v + "cl";
    assert v + "cl " == v1 + " ";
    StripOneSpace(v1);
    DigitsThenCl(v);
    StripUnchanged(v);
  }

  lemma AbvPart(a: string)
    requires a != [] && AllDigits(a)
    ensures AbvText(Strip(" " + a + "%")) == a
  {
    var a1 := a + "%";
    assert " " + a + "%" == " " + a1;
    StripOneSpace(a1);
    PercentDropped(a);
    StripUnchanged(a);
  }

  lemma PercentDropped(a: string)
    requires AllDigits(a)
    ensures Filter(a + "%", NotPercent) == a
  {
    FilterSplit(a, "%", NotPercent);
    FilterKeepsAll(a, NotPercent);
    assert Filter("%", NotPercent) == [];
  }

  // ---------------------------------------------------------------------------
  // `parse_price`
  // ---------------------------------------------------------------------------

  predicate NotComma(c: char) { c != ',' }

  /** `float(s.replace('Â£', '').replace(',', ''))`; None where `float` raises. */
  function ParsePrice(s: string): (r: Option<string>)
    ensures var cleaned := ReplaceAll(ReplaceAll(s, "Â£", ""), ",", "");
      && (r.Some? <==> IsDecimalLiteral(Strip(cleaned)))
      && (r.Some? ==> r.value == Strip(cleaned))
    ensures r.Some? ==> IsDecimalLiteral(r.value) && Lacks(r.value, ',')
  {
    RemoveAll(ReplaceAll(s, "Â£", ""), ',', NotComma);
    var cleaned := Filter(ReplaceAll(s, "Â£", ""), NotComma);
    var r := PythonFloat(cleaned);
    if r.Some? then
      StripLacks(cleaned, ',');
      r
    else r
  }

  /** A pound price `Â£a,b.c` reads as `ab.c`: the symbol and the thousands comma are dropped. */
  lemma PoundPrice(a: string, b: string, c: string)
    requires a != [] && AllDigits(a) && AllDigits(b) && AllDigits(c)
    ensures ParsePrice("Â£" + a + "," + b + "." + c) == Some(a + b + "." + c)
  {
    var body := a + "," + b + "." + c;
    var s := "Â£" + body;
    assert "Â£" + a + "," + b + "." + c == s;
    assert s[2..] == body;
    assert Lacks(body, 'Â') by {
      assert forall j :: 0 <= j < |body| ==> IsDigit(body[j]) || body[j] == ',' || body[j] == '.';
    }
    assert ReplaceAll(s, "Â£", "") == body by {
      ReplaceAllAbsent(body, "Â£", "");
    }
    var t := a + b + "." + c;
    assert Filter(body, NotComma) == t by {
      FilterAroundSeparators(a, ',', b, '.', c, NotComma);
    }
    assert PythonFloat(t) == Some(t) by {
      DecimalOf(a + b, c);
      StripUnchanged(t);
    }
  }

  /** A price written with a bare `£` makes `float` raise, so its item is skipped. */
  lemma BarePoundRaises(d: string)
    requires AllDigits(d)
    ensures ParsePrice("£" + d) == None
  {
    var s := "£" + d;
    assert ReplaceAll(s, "Â£", "") == s by {
      assert Lacks(s, 'Â') by {
        assert forall j :: 0 <= j < |s| ==> s[j] == '£' || IsDigit(s[j]);
      }
      ReplaceAllAbsent(s, "Â£", "");
    }
    assert Filter(s, NotComma) == s by { FilterKeepsAll(s, NotComma); }
    assert PythonFloat(s).None? by {
      StripUnchanged(s);
      NotDecimal(s);
    }
  }

  /** A string that starts with neither a sign nor a digit is no decimal literal. */
  lemma NotDecimal(s: string)
    requires s != [] && !IsDigit(s[0]) && s[0] != '.' && s[0] != '+' && s[0] != '-'
    ensures !IsDecimalLiteral(s)
  {
    var d := IndexOf(s, ".");
    IndexOfSpec(s, ".");
    if d == 0 {
      OccursAtChar(s, '.', 0);
    } else if d > 0 {
      assert s[..d][0] == s[0];
    }
  }

  // ---------------------------------------------------------------------------
  // `parse_products`
  // ---------------------------------------------------------------------------

  /** The `site_config` selectors `parse_products` reads. */
  datatype ProductSelectors = ProductSelectors(item: string, name: string, price: string, link: string, meta: string)

  /** `None` stored as Python `None`, text as a string. */
  function OptionalText(o: Option<string>): (v: Value)
    ensures o.None? <==> v == Null
    ensures o.Some? ==> v == Str(o.value)
  {
    match o
    case None => Null
    case Some(s) => Str(s)
  }

  /** The product dict of one item, from its parts. */
  function ItemRecord(name: string, price: Value, link: string, volume: Option<string>, abv: Option<string>, now: string): (p: Record)
    ensures "name" in p && "price" in p && "link" in p && "volume" in p && "abv" in p && "scraped_at" in p
    ensures p["price"] == price && p["link"] == Str(link)
    ensures p["volume"] == OptionalText(volume) && p["abv"] == OptionalText(abv)
    ensures p["name"] == Str(name) && p["scraped_at"] == Str(now)
    ensures p.Keys == {"name", "price", "link", "volume", "abv", "scraped_at"}
  {
    map[
      "name" := Str(name),
      "price" := price,
      "link" := Str(link),
      "volume" := OptionalText(volume),
      "abv" := OptionalText(abv),
      "scraped_at" := Str(now)]
  }

  /** The meta element's text, or the empty string without one. */
  function MetaText(sel: ProductSelectors, item: Element): string
  {
    match SelectOne(item, sel.meta)
    case None => ""
    case Some(e) => e.text
  }

  /**
   * The body of the `try` for one item: no product when an element is
   * missing; an exception when `float` raises or the link has no `href`.
   * `toEur` is `convert_to_eur` and `now` the clock's text.
   */
  function ParseItem(sel: ProductSelectors, item: Element, baseUrl: string, toEur: string -> Value, now: string): (r: Parse)
    ensures r.Parsed? ==> "name" in r.record
  {
    var name := SelectOne(item, sel.name);
    var price := SelectOne(item, sel.price);
    var link := SelectOne(item, sel.link);
    if name.None? || price.None? || link.None? then NoProduct
    else
      match ParsePrice(price.value.text)
      case None => Raised
      case Some(gbp) =>
        match Attr(link.value, "href")
        case None => Raised
        case Some(href) =>
          var meta := ParseMeta(MetaText(sel, item));
          Parsed(ItemRecord(name.value.text, toEur(gbp), baseUrl + href, meta.0, meta.1, now))
  }

  /**
   * No product exactly when an element is missing; an exception only when
   * `float` raises or the link has no `href`; otherwise the dict of the
   * item's name, its price in euros, the base URL followed by the `href`,
   * and the meta line's volume and strength.
   */
  lemma ItemOutcome(sel: ProductSelectors, item: Element, baseUrl: string, toEur: string -> Value, now: string)
    ensures var r := ParseItem(sel, item, baseUrl, toEur, now);
      && (r.NoProduct? <==>
            SelectOne(item, sel.name).None? || SelectOne(item, sel.price).None? || SelectOne(item, sel.link).None?)
      && (r.Raised? ==>
            ParsePrice(SelectOne(item, sel.price).value.text).None? || "href" !in SelectOne(item, sel.link).value.attrs)
      && (r.Parsed? ==>
            var gbp := ParsePrice(SelectOne(item, sel.price).value.text);
            && gbp.Some? && "href" in SelectOne(item, sel.link).value.attrs
            && r.record == ItemRecord(SelectOne(item, sel.name).value.text, toEur(gbp.value),
                                      baseUrl + SelectOne(item, sel.link).value.attrs["href"],
                                      ParseMeta(MetaText(sel, item)).0, ParseMeta(MetaText(sel, item)).1, now))
  {
  }

  /** The outcome of `parse` on each item, in item order. */
  function EachItem(parse: Element -> Parse, items: seq<Element>): (rs: seq<Parse>)
    ensures |rs| == |items|
    ensures forall i :: 0 <= i < |items| ==> rs[i] == parse(items[i])
  {
    seq(|items|, i requires 0 <= i < |items| => parse(items[i]))
  }

  /** The outcomes of two runs of items, one after the other. */
  lemma EachItemConcat(parse: Element -> Parse, a: seq<Element>, b: seq<Element>)
    ensures EachItem(parse, a + b) == EachItem(parse, a) + EachItem(parse, b)
  {
    var ab := a + b;
    var lhs, rhs := EachItem(parse, ab), EachItem(parse, a) + EachItem(parse, b);
    forall i | 0 <= i < |lhs| ensures lhs[i] == rhs[i] {
      if i < |a| { assert ab[i] == a[i]; } else { assert ab[i] == b[i - |a|]; }
    }
  }

  /** What each item's `try` yields, in item order. */
  function Results(sel: ProductSelectors, items: seq<Element>, baseUrl: string, toEur: string -> Value, now: string): (rs: seq<Parse>)
    ensures |rs| == |items|
    ensures forall i :: 0 <= i < |items| ==> rs[i] == ParseItem(sel, items[i], baseUrl, toEur, now)
  {
    EachItem(item => ParseItem(sel, item, baseUrl, toEur, now), items)
  }

  /** Keeping one more result appends its dict when it has one. */
  lemma KeptNext(rs: seq<Parse>, i: nat)
    requires i < |rs|
    requires rs[i].Parsed? ==> "name" in rs[i].record
    ensures Kept(rs[..i + 1]) == Kept(rs[..i]) + (if rs[i].Parsed? then [rs[i].record] else [])
  {
    assert rs[..i + 1] == rs[..i] + [rs[i]];
    KeptAppend(rs[..i], [rs[i]]);
    KeptOne(rs[i]);
  }

  /**
   * `parse_products(product_list)`: the loop over the list's items, each in
   * its own `try`, appending the product of every item that yields one; an
   * item that raises is logged and skipped.
   */
  method ParseProducts(sel: ProductSelectors, productList: Element, baseUrl: string, toEur: string -> Value, now: string)
    returns (products: seq<Record>)
    ensures products == Kept(Results(sel, Select(productList, sel.item), baseUrl, toEur, now))
  {
    var items := Select(productList, sel.item);
    ghost var results := Results(sel, items, baseUrl, toEur, now);
    products := [];
    var i := 0;
    while i < |items|
      invariant 0 <= i <= |items|
      invariant products == Kept(results[..i])
    {
      var product := ParseItem(sel, items[i], baseUrl, toEur, now);
      assert product == results[i];
      KeptNext(results, i);
      if product.Parsed? {
        products := products + [product.record];
      }
      i := i + 1;
    }
    assert results[..i] == results;
  }

  /**
   * Every product is the dict of an item that has the three elements, a
   * price `float` accepts and an `href`, and it holds the six fields.
   */
  lemma ProductShape(sel: ProductSelectors, items: seq<Element>, baseUrl: string, toEur: string -> Value, now: string, p: Record)
    requires p in Kept(Results(sel, items, baseUrl, toEur, now))
    ensures exists i :: 0 <= i < |items| && ParseItem(sel, items[i], baseUrl, toEur, now) == Parsed(p)
    ensures "name" in p && "price" in p && "link" in p && "volume" in p && "abv" in p && "scraped_at" in p
  {
    var rs := Results(sel, items, baseUrl, toEur, now);
    KeptFrom(rs, p);
    var i :| 0 <= i < |rs| && rs[i] == Parsed(p);
    assert ParseItem(sel, items[i], baseUrl, toEur, now) == Parsed(p);
  }

  /** The results of a run of items split where the run does. */
  lemma ResultsSplit(sel: ProductSelectors, a: seq<Element>, x: Element, b: seq<Element>, baseUrl: string, toEur: string -> Value, now: string)
    ensures Results(sel, a + [x] + b, baseUrl, toEur, now)
      == Results(sel, a, baseUrl, toEur, now) + [ParseItem(sel, x, baseUrl, toEur, now)] + Results(sel, b, baseUrl, toEur, now)
    ensures Results(sel, a + b, baseUrl, toEur, now) == Results(sel, a, baseUrl, toEur, now) + Results(sel, b, baseUrl, toEur, now)
  {
    ResultsConcat(sel, a, [x], baseUrl, toEur, now);
    ResultsConcat(sel, a + [x], b, baseUrl, toEur, now);
    ResultsConcat(sel, a, b, baseUrl, toEur, now);
  }

  /** The results of two runs of items, one after the other. */
  lemma ResultsConcat(sel: ProductSelectors, a: seq<Element>, b: seq<Element>, baseUrl: string, toEur: string -> Value, now: string)
    ensures Results(sel, a + b, baseUrl, toEur, now) == Results(sel, a, baseUrl, toEur, now) + Results(sel, b, baseUrl, toEur, now)
  {
    EachItemConcat(item => ParseItem(sel, item, baseUrl, toEur, now), a, b);
  }

  /** An item that raises or lacks an element is skipped, and only that item: the others' products are unchanged. */
  lemma SkippedItem(sel: ProductSelectors, a: seq<Element>, x: Element, b: seq<Element>, baseUrl: string, toEur: string -> Value, now: string)
    requires !ParseItem(sel, x, baseUrl, toEur, now).Parsed?
    ensures Kept(Results(sel, a + [x] + b, baseUrl, toEur, now)) == Kept(Results(sel, a + b, baseUrl, toEur, now))
  {
    ResultsSplit(sel, a, x, b, baseUrl, toEur, now);
    KeptSkips(Results(sel, a, baseUrl, toEur, now), ParseItem(sel, x, baseUrl, toEur, now), Results(sel, b, baseUrl, toEur, now));
  }

  /** An item with all its parts yields its dict in its place, whatever the other items do. */
  lemma KeptItem(sel: ProductSelectors, a: seq<Element>, x: Element, b: seq<Element>, baseUrl: string, toEur: string -> Value, now: string)
    requires ParseItem(sel, x, baseUrl, toEur, now).Parsed?
    ensures Kept(Results(sel, a + [x] + b, baseUrl, toEur, now))
      == Kept(Results(sel, a, baseUrl, toEur, now)) + [ParseItem(sel, x, baseUrl, toEur, now).record] + Kept(Results(sel, b, baseUrl, toEur, now))
  {
    var rx := ParseItem(sel, x, baseUrl, toEur, now);
    assert rx.record != map[] by { assert "name" in rx.record; }
    ResultsSplit(sel, a, x, b, baseUrl, toEur, now);
    KeptKeeps(Results(sel, a, baseUrl, toEur, now), rx, Results(sel, b, baseUrl, toEur, now));
  }
}

=== FILE: whisky_exchange_scrape.dfy ===
/**
 * The `scrape` loop of whisky_exchange_scraper.py as written, against the
 * loop it evidently means: the Whisky Exchange variant of the shared page
 * loop (no next-page check, no page cap, no detail step).
 */
module WhiskyExchangeScrape {
  import opened Records
  import opened Persistence
  import opened Enrichment
  import opened Pagination

  /**
   * `scrape` as written: the first pass of the loop calls
   * `self.make_request`, which the scraper does not have (the base class
   * has `_make_request`); the AttributeError is not caught, so the call
   * ends on page 1 with nothing requested, saved or counted.
   */
  function ScrapeAsWritten(pages: seq<Page>): (c: Crawl)
    ensures c.rows == [] && c.total == 0 && c.pages == 1 && c.stop == RaisedStop
  {
    Crawl([], 0, 1, RaisedStop)
  }

  /**
   * With the base class's `_make_request` and `_save_products` in their
   * place, a first page of products that all fit the field names is saved
   * in full; as written nothing is.
   */
  lemma FirstPageLost(cfg: LoopConfig, pages: seq<Page>, fetch: Value -> DetailOutcome, clock: nat -> nat -> string, columns: seq<string>)
    requires cfg.variant == ExchangeLoop && HasProducts(pages, 1)
    requires var ps := PageAt(pages, 1).products;
      forall j :: 0 <= j < |ps| ==> Writable(columns, Stamp(BaseStamp(cfg.retailer, cfg.country), ps[j], j)) && "name" in ps[j]
    ensures ScrapeAsWritten(pages).rows == []
    ensures |Run(cfg, pages, fetch, clock, columns).rows| >= |PageAt(pages, 1).products| > 0
  {
    var ps := PageAt(pages, 1).products;
    var mode := BaseStamp(cfg.retailer, cfg.country);
    assert StampingOf(cfg, 1, clock) == mode;
    assert Detailed(cfg, ps, fetch, 1, clock) == Some(ps);
    SaveRaises(mode, columns, ps, |ps|);
    SaveLength(mode, columns, ps, |ps|);
    var s := BatchStep(cfg, pages, fetch, clock, columns, 1);
    assert |s.rows| == |ps|;
    CrawlFromPage(cfg, pages, fetch, clock, columns, 1, [], 0);
    var r := Run(cfg, pages, fetch, clock, columns);
    assert [] + s.rows == s.rows;
    assert s.stop.None?;
    assert r == CrawlFrom(cfg, pages, fetch, clock, columns, 2, s.rows, 0 + s.added);
    CrawlShape(cfg, pages, fetch, clock, columns, 2, s.rows, 0 + s.added);
  }
}

=== FILE: whisky_nl.dfy ===
/**
 * whisky_nl_scraper.py: the Whisky.nl shop. Prices are read from the
 * `data-price-amount` attribute, the link is the raw `href`, product ids
 * are `<id>.html` page names, and the detail page has a label/data table,
 * a rating `title` and a review count read by splitting on whitespace.
 */
module WhiskyNl {
  import opened Text
  import opened Records
  import opened Sites
  import opened DetailTable

  /** `_parse_price`: `float(s)`, or 0.0 when it raises. */
  function ParsePrice(s: string): (v: Value)
    ensures v.Float?
    ensures PythonFloat(s).Some? ==> v == Float(PythonFloat(s).value)
    ensures PythonFloat(s).None? ==> v == Float("0.0")
  {
    FloatOrZero(s)
  }

  /** The `site_config` selectors `parse_product` reads. */
  datatype ProductSelectors = ProductSelectors(
    name: string,
    price: string,
    originalPrice: string,
    link: string,
    image: string)

  /**
   * `parse_product`: a product dict, or None when a required element is
   * missing or an attribute lookup raises KeyError (`data-price-amount`,
   * `href`, an image's `src`). `now` is `datetime.now().isoformat()`.
   */
  function ParseProduct(sel: ProductSelectors, item: Element, now: string): (r: Option<Record>)
    ensures r.Some? ==> "price" in r.value && r.value["price"].Float?
    ensures r.Some? ==> "link" in r.value && r.value["link"].Str?
  {
    var name := SelectOne(item, sel.name);
    var price := SelectOne(item, sel.price);
    var original := SelectOne(item, sel.originalPrice);
    var link := SelectOne(item, sel.link);
    var image := SelectOne(item, sel.image);
    if name.None? || price.None? || link.None? then None
    else if Attr(price.value, "data-price-amount").None? || Attr(link.value, "href").None? then None
    else if image.Some? && Attr(image.value, "src").None? then None
    else if original.Some? && Attr(original.value, "data-price-amount").None? then None
    else
      var href := Attr(link.value, "href").value;
      var imageUrl := if image.Some? then Str(Attr(image.value, "src").value) else Null;
      var originalPrice :=
        if original.Some? then Some(ParsePrice(Attr(original.value, "data-price-amount").value)) else None;
      Some(ProductDict(name.value.text, ParsePrice(Attr(price.value, "data-price-amount").value),
                       href, imageUrl, now, originalPrice))
  }

  /** The dict `parse_product` returns: `original_price` only with its element, `product_id` only for a `/<id>.html` link. */
  function ProductDict(name: string, price: Value, link: string, imageUrl: Value, now: string, originalPrice: Option<Value>): (r: Record)
    ensures "name" in r && r["name"] == Str(name)
    ensures "price" in r && r["price"] == price
    ensures "link" in r && r["link"] == Str(link)
    ensures "image_url" in r && r["image_url"] == imageUrl
    ensures "scraped_at" in r && r["scraped_at"] == Str(now)
    ensures "original_price" in r <==> originalPrice.Some?
    ensures "original_price" in r ==> r["original_price"] == originalPrice.value
    ensures "product_id" in r <==> HtmlPageId(link).Some?
    ensures "product_id" in r ==> r["product_id"] == Str(HtmlPageId(link).value)
  {
    var product := map[
      "name" := Str(name),
      "price" := price,
      "link" := Str(link),
      "image_url" := imageUrl,
      "scraped_at" := Str(now)];
    var priced := if originalPrice.Some? then product["original_price" := originalPrice.value] else product;
    match HtmlPageId(link)
    case Some(id) => priced["product_id" := Str(id)]
    case None => priced
  }

  /**
   * A product is returned exactly when the name, price and link elements
   * exist, the price has `data-price-amount`, the link has `href`, and an
   * image or original-price element, if any, has its attribute.
   */
  lemma ProductPresent(sel: ProductSelectors, item: Element, now: string)
    ensures ParseProduct(sel, item, now).Some? <==>
      && SelectOne(item, sel.name).Some?
      && SelectOne(item, sel.price).Some?
      && SelectOne(item, sel.link).Some?
      && "data-price-amount" in SelectOne(item, sel.price).value.attrs
      && "href" in SelectOne(item, sel.link).value.attrs
      && (SelectOne(item, sel.image).Some? ==> "src" in SelectOne(item, sel.image).value.attrs)
      && (SelectOne(item, sel.originalPrice).Some? ==>
            "data-price-amount" in SelectOne(item, sel.originalPrice).value.attrs)
  {
  }

  /**
   * The name is the name element's text; the link is the `href` as
   * written, not joined to the base URL; the price is `_parse_price` of the
   * `data-price-amount` attribute, so an attribute holding a decimal literal
   * is that price; the image URL is the image's `src`, or Null without an
   * image; `original_price` is present exactly when its element is, and is
   * `_parse_price` of that element's `data-price-amount`.
   */
  lemma ProductFields(sel: ProductSelectors, item: Element, now: string)
    requires ParseProduct(sel, item, now).Some?
    ensures var p := ParseProduct(sel, item, now).value;
      var amount := SelectOne(item, sel.price).value.attrs["data-price-amount"];
      var original := SelectOne(item, sel.originalPrice);
      var image := SelectOne(item, sel.image);
      && p["name"] == Str(SelectOne(item, sel.name).value.text)
      && p["link"] == Str(SelectOne(item, sel.link).value.attrs["href"])
      && p["price"] == ParsePrice(amount)
      && (IsDecimalLiteral(amount) && !IsSpace(amount[0]) && !IsSpace(amount[|amount| - 1]) ==>
            p["price"] == Float(amount))
      && p["image_url"] == (if image.Some? then Str(image.value.attrs["src"]) else Null)
      && ("original_price" in p <==> original.Some?)
      && (original.Some? ==> p["original_price"] == ParsePrice(original.value.attrs["data-price-amount"]))
  {
    var amount := SelectOne(item, sel.price).value.attrs["data-price-amount"];
    if IsDecimalLiteral(amount) && amount != [] && !IsSpace(amount[0]) && !IsSpace(amount[|amount| - 1]) {
      FloatOfLiteral(amount);
    }
  }

  /** `product_id` is present exactly for a link ending in `/<id>.html`, and a link `<prefix>/<id>.html` yields `<id>`. */
  lemma ProductIdFromLink(sel: ProductSelectors, item: Element, now: string, prefix: string, id: string)
    requires ParseProduct(sel, item, now).Some?
    ensures var p := ParseProduct(sel, item, now).value;
      ("product_id" in p <==> HtmlPageId(p["link"].s).Some?)
    ensures var p := ParseProduct(sel, item, now).value;
      id != [] && Lacks(id, '/') && p["link"].s == prefix + "/" + id + ".html" ==>
      "product_id" in p && p["product_id"] == Str(id)
  {
    var p := ParseProduct(sel, item, now).value;
    if id != [] && Lacks(id, '/') && p["link"].s == prefix + "/" + id + ".html" {
      HtmlPageIdOf(prefix, id);
    }
  }

  /** The `site_config` selectors `parse_product_details` reads. */
  datatype DetailSelectors = DetailSelectors(
    info: string,
    description: string,
    rating: string,
    reviewCount: string,
    inStock: string)

  /** The `.col.label` texts and the fields they set. */
  const InfoTable: seq<(string, string)> :=
    [("Inhoud", "volume"), ("Alcoholpercentage", "abv"), ("Categorie", "category"),
     ("Merk / Distilleerderij", "brand"), ("Land", "country")]

  /** The rule for one `tr`: `.col.label` and `.col.data` cells. */
  function InfoRule(): RowRule
  {
    LabelRule(".col.label", ".col.data", false, InfoTable)
  }

  /** The `tr` rows of the specs table (`find_all('tr')`); none when there is no table. */
  function InfoRows(sel: DetailSelectors, soup: Element): seq<Element>
  {
    match SelectOne(soup, sel.info)
    case None => []
    case Some(table) => Select(table, "tr")
  }

  /** The spec fields, from an empty dict. */
  function SpecDetails(sel: DetailSelectors, soup: Element): Record
  {
    TableUpTo(InfoRows(sel, soup), InfoRule(), map[])
  }

  /** `rating` is the second word of the rating element's `title`; None where there is no second word (IndexError). */
  function WithRating(rating: Option<Element>, d: Record): Option<Record>
  {
    match rating
    case None => Some(d)
    case Some(e) =>
      var words := Words(AttrOr(e, "title"));
      if |words| < 2 then None else Some(d["rating" := Str(words[1])])
  }

  /** `num_reviews` is the first word of the review text; None where the text has no word (IndexError). */
  function WithReviews(reviews: Option<Element>, d: Record): Option<Record>
  {
    match reviews
    case None => Some(d)
    case Some(e) =>
      var words := Words(e.text);
      if words == [] then None else Some(d["num_reviews" := Str(words[0])])
  }

  /** `in_stock` is set only with a stock element: `Yes` when `available` is one of its classes. */
  function WithStock(inStock: Option<Element>, d: Record): Record
  {
    match inStock
    case None => d
    case Some(e) => d["in_stock" := Str(if "available" in e.classes then "Yes" else "No")]
  }

  /** The details dict `parse_product_details` builds, or None where it raises IndexError. */
  function Details(sel: DetailSelectors, soup: Element): Option<Record>
  {
    var described := WithDescription(SelectOne(soup, sel.description), SpecDetails(sel, soup));
    match WithRating(SelectOne(soup, sel.rating), described)
    case None => None
    case Some(rated) =>
      match WithReviews(SelectOne(soup, sel.reviewCount), rated)
      case None => None
      case Some(reviewed) => Some(WithStock(SelectOne(soup, sel.inStock), reviewed))
  }

  /** `parse_product_details`: the row loop, then the page fields; None where it raises IndexError. */
  method ParseProductDetails(sel: DetailSelectors, soup: Element) returns (details: Option<Record>)
    ensures details == Details(sel, soup)
  {
    var d: Record := map[];
    var specsTable := SelectOne(soup, sel.info);
    if specsTable.Some? {
      d := FillTable(Select(specsTable.value, "tr"), InfoRule(), d);
    }
    d := AddDescription(SelectOne(soup, sel.description), d);
    var rated := AddRating(SelectOne(soup, sel.rating), d);
    if rated.None? {
      return None;
    }
    var reviewed := AddReviews(SelectOne(soup, sel.reviewCount), rated.value);
    if reviewed.None? {
      return None;
    }
    d := AddStock(SelectOne(soup, sel.inStock), reviewed.value);
    details := Some(d);
  }

  /** Sets `rating` to the second word of the `title`; None where there is none. */
  method AddRating(ratingScore: Option<Element>, d: Record) returns (details: Option<Record>)
    ensures details == WithRating(ratingScore, d)
  {
    details := Some(d);
    if ratingScore.Some? {
      var words := Words(AttrOr(ratingScore.value, "title"));
      if |words| < 2 {
        return None;
      }
      details := Some(d["rating" := Str(words[1])]);
    }
  }

  /** Sets `num_reviews` to the first word of the review text; None where there is none. */
  method AddReviews(reviewCount: Option<Element>, d: Record) returns (details: Option<Record>)
    ensures details == WithReviews(reviewCount, d)
  {
    details := Some(d);
    if reviewCount.Some? {
      var words := Words(reviewCount.value.text);
      if words == [] {
        return None;
      }
      details := Some(d["num_reviews" := Str(words[0])]);
    }
  }

  /** Sets `in_stock` when there is a stock element. */
  method AddStock(inStock: Option<Element>, d: Record) returns (details: Record)
    ensures details == WithStock(inStock, d)
  {
    details := d;
    if inStock.Some? {
      if "available" in inStock.value.classes {
        details := details["in_stock" := Str("Yes")];
      } else {
        details := details["in_stock" := Str("No")];
      }
    }
  }

  /**
   * The details raise IndexError exactly when a rating element's `title`
   * has fewer than two words or a review element's text has none.
   */
  lemma DetailsRaise(sel: DetailSelectors, soup: Element)
    ensures Details(sel, soup).None? <==>
      (SelectOne(soup, sel.rating).Some? && |Words(AttrOr(SelectOne(soup, sel.rating).value, "title"))| < 2) ||
      (SelectOne(soup, sel.reviewCount).Some? && Words(SelectOne(soup, sel.reviewCount).value.text) == [])
  {
  }

  /** The dict after the rating step, on a page whose details do not raise. */
  function Rated(sel: DetailSelectors, soup: Element): Record
    requires Details(sel, soup).Some?
  {
    var described := WithDescription(SelectOne(soup, sel.description), SpecDetails(sel, soup));
    WithRating(SelectOne(soup, sel.rating), described).value
  }

  /** The review and stock steps leave every other key of the rated dict as it was. */
  lemma LaterFieldsKeep(sel: DetailSelectors, soup: Element, k: string)
    requires Details(sel, soup).Some?
    requires k != "num_reviews" && k != "in_stock"
    ensures var d, rated := Details(sel, soup).value, Rated(sel, soup);
      (k in d <==> k in rated) && (k in d ==> d[k] == rated[k])
  {
    var rated := Rated(sel, soup);
    ReviewsKeep(SelectOne(soup, sel.reviewCount), rated, k);
    RatedThenStock(sel, soup);
  }

  /** The details are the stock step over the reviewed dict. */
  lemma RatedThenStock(sel: DetailSelectors, soup: Element)
    requires Details(sel, soup).Some?
    ensures WithReviews(SelectOne(soup, sel.reviewCount), Rated(sel, soup)).Some?
    ensures Details(sel, soup).value
      == WithStock(SelectOne(soup, sel.inStock), WithReviews(SelectOne(soup, sel.reviewCount), Rated(sel, soup)).value)
  {
  }

  /** The review step leaves every key but `num_reviews` as it was. */
  lemma ReviewsKeep(e: Option<Element>, d: Record, k: string)
    requires WithReviews(e, d).Some? && k != "num_reviews"
    ensures var r := WithReviews(e, d).value; (k in r <==> k in d) && (k in r ==> r[k] == d[k])
  {
  }

  /** The page fields leave every other key of the spec dict as it was. */
  lemma PageFieldsKeep(sel: DetailSelectors, soup: Element, k: string)
    requires Details(sel, soup).Some?
    requires k !in {"description", "rating", "num_reviews", "in_stock"}
    ensures var d, specs := Details(sel, soup).value, SpecDetails(sel, soup);
      (k in d <==> k in specs) && (k in d ==> d[k] == specs[k])
  {
    var specs := SpecDetails(sel, soup);
    var described := WithDescription(SelectOne(soup, sel.description), specs);
    assert (k in described <==> k in specs) && (k in described ==> described[k] == specs[k]);
    var rated := Rated(sel, soup);
    assert (k in rated <==> k in described) && (k in rated ==> rated[k] == described[k]);
    LaterFieldsKeep(sel, soup, k);
  }

  /**
   * A table field holds the value of the last row whose label sets it (the
   * `abv` one without `%`), and is absent when no row does.
   */
  lemma SpecField(sel: DetailSelectors, soup: Element, k: string)
    requires Details(sel, soup).Some?
    requires k in {"volume", "abv", "category", "brand", "country"}
    ensures var d := Details(sel, soup).value;
      var rows := InfoRows(sel, soup);
      var j := LastSetting(rows, InfoRule(), k);
      && (j >= 0 ==> k in d && d[k] == InfoRule()(rows[j]).value.1)
      && (j < 0 ==> k !in d)
  {
    TableField(InfoRows(sel, soup), InfoRule(), map[], k);
    PageFieldsKeep(sel, soup, k);
  }

  /** The fields the table labels name. */
  lemma InfoTableFields(key: string, k: string)
    requires (key, k) in InfoTable
    ensures k in {"volume", "abv", "category", "brand", "country"}
  {
  }

  /** The table only sets the five fields its labels name. */
  lemma SpecKeys(sel: DetailSelectors, soup: Element, k: string)
    requires k in SpecDetails(sel, soup)
    ensures k in {"volume", "abv", "category", "brand", "country"}
  {
    var rows := InfoRows(sel, soup);
    TableKeys(rows, InfoRule(), map[], k);
    var j :| 0 <= j < |rows| && Sets(InfoRule(), rows[j], k);
    var row := rows[j];
    assert InfoRule()(row) == LabelSetting(".col.label", ".col.data", false, InfoTable, row);
    InfoTableFields(row.select[".col.label"][0].text, k);
  }

  /**
   * `in_stock` is present exactly when the stock element is, and it is
   * `Yes` exactly when `available` is one of the element's classes.
   */
  lemma InStock(sel: DetailSelectors, soup: Element)
    requires Details(sel, soup).Some?
    ensures var d, e := Details(sel, soup).value, SelectOne(soup, sel.inStock);
      && ("in_stock" in d <==> e.Some?)
      && (e.Some? ==> (d["in_stock"] == Str("Yes") <==> "available" in e.value.classes))
      && (e.Some? ==> d["in_stock"] == Str("Yes") || d["in_stock"] == Str("No"))
  {
    var specs := SpecDetails(sel, soup);
    if "in_stock" in specs {
      SpecKeys(sel, soup, "in_stock");
    }
    var rated := Rated(sel, soup);
    ReviewsKeep(SelectOne(soup, sel.reviewCount), rated, "in_stock");
    RatedThenStock(sel, soup);
  }

  /**
   * A `title` of the form `<w0> <w1> <rest...>` (single spaces between
   * non-empty words without whitespace) makes the rating step store `w1`;
   * a `title` with fewer than two words makes it raise.
   */
  lemma RatingIsSecondWord(e: Element, d: Record, ws: seq<string>)
    requires AttrOr(e, "title") == Join(ws, " ")
    requires forall i :: 0 <= i < |ws| ==> ws[i] != [] && NoSpace(ws[i])
    ensures |ws| >= 2 ==> WithRating(Some(e), d) == Some(d["rating" := Str(ws[1])])
    ensures |ws| < 2 ==> WithRating(Some(e), d).None?
  {
    WordsOfJoin(ws);
  }

  /** On a page whose details do not raise, `rating` is present exactly with a rating element, and is the second word of its `title`. */
  lemma RatingKept(sel: DetailSelectors, soup: Element)
    requires Details(sel, soup).Some?
    ensures var d, e := Details(sel, soup).value, SelectOne(soup, sel.rating);
      && ("rating" in d <==> e.Some?)
      && (e.Some? ==> d["rating"] == Str(Words(AttrOr(e.value, "title"))[1]))
  {
    var specs := SpecDetails(sel, soup);
    var described := WithDescription(SelectOne(soup, sel.description), specs);
    assert "rating" !in described by {
      if "rating" in specs {
        SpecKeys(sel, soup, "rating");
      }
    }
    LaterFieldsKeep(sel, soup, "rating");
    RatingOver(SelectOne(soup, sel.rating), described);
  }

  /** The rating step over a dict without `rating`: the field is there exactly with the element, and is the title's second word. */
  lemma RatingOver(e: Option<Element>, t: Record)
    requires "rating" !in t && WithRating(e, t).Some?
    ensures var d := WithRating(e, t).value;
      && ("rating" in d <==> e.Some?)
      && (e.Some? ==> |Words(AttrOr(e.value, "title"))| >= 2 && d["rating"] == Str(Words(AttrOr(e.value, "title"))[1]))
  {
  }

  /** `num_reviews`, when present, is one word: non-empty and without whitespace. */
  lemma ReviewsIsWord(sel: DetailSelectors, soup: Element)
    requires Details(sel, soup).Some?
    ensures var d := Details(sel, soup).value;
      && ("num_reviews" in d <==> SelectOne(soup, sel.reviewCount).Some?)
      && ("num_reviews" in d ==> d["num_reviews"].Str? && d["num_reviews"].s != [] && NoSpace(d["num_reviews"].s))
  {
    if "num_reviews" in SpecDetails(sel, soup) {
      SpecKeys(sel, soup, "num_reviews");
    }
  }
}
